=== FILE: README.md ===
# pentapy — a Dafny model of its state logic

pentapy is a social-network single-page application. A React client talks to
a Django REST backend that serves accounts with one-time-password (OTP) email
verification, a follow graph, a photo/video feed with stories, and direct and
group chat. Underneath the rendering and the HTTP plumbing, both sides hold
statable logic: updaters of the client's caches, request guards, validators,
ORM queries and small state machines. This project models that logic as pure
Dafny functions over immutable datatypes and proves what the code promises.

Modules, one per area of the program:

- `Wrappers`, `Seqs`, `Strings`, `Digits`, `Sorting`: the shared vocabulary.
  Option/Result, JavaScript `filter`/`findIndex`/`reverse`, JavaScript's
  and Python's whitespace trimming, UTF-16 lengths, ASCII case folding, decimal rendering and Python's `int()`,
  and one stable sort keyed by integer sequences. That sort stands for every
  ordering in the code.
- `ChatCache`: the chat page's client cache (`Messages.tsx`).
- `ChatServer`: the chat endpoints and serializers. The database is a record
  of tables held as sequences.
- `AuthModels`, `AuthSerializers`, `AuthViews`, `VerificationMiddleware`:
  accounts, the OTP lifecycle on the user profile, request validation, the
  account endpoints, and the middleware that holds back unverified users.
- `Directory`: the user directory, follows, notifications and profile
  settings endpoints.
- `FeedServer`: posts with their likes, shares and bookmarks, and expiring
  stories, on the server.
- `ClientTypes`, `ClientApi`, `Tags`: the client's records, the request
  builders of its API modules, and hashtag and mention parsing.
- `HomeFeed`, `Videos`, `Activity`, `Composer`, `PostCard`, `ProfileForm`,
  `Avatar`, `Sidebar`: the client's feed, videos, activity and profile pages,
  the post composer and card, avatar and name resolution, and the sidebar.
- `ErrorMessages`, `AuthForms`, `AuthSession`, `RouteGuards`,
  `NotificationsHook`: the sign-in pages, their error toasts, the session
  provider with its route guards, and the notification badge.

Clock values, random draws, password checks and token checks are parameters.
Timestamps are integers: seconds on the server and milliseconds in the client.

## Model

| member | source | states |
|---|---|---|
| `ChatCache.PeerIds` | ps_frontend/src/pages/Messages.tsx:89-93 | the ids indexed for one conversation are exactly its participants other than the current user |
| `ChatCache.DirectIndex` | ps_frontend/src/pages/Messages.tsx:83-96 | every key is a non-self participant of some one-to-one conversation; each key maps to the last such conversation in list order |
| `ChatCache.SelfNeverIndexed` | ps_frontend/src/pages/Messages.tsx:90 | the current user's id is never a key of the direct index |
| `ChatCache.GroupAddsNothing` | ps_frontend/src/pages/Messages.tsx:86-88 | appending a group conversation leaves the direct index unchanged |
| `ChatCache.EligibleContacts` | ps_frontend/src/pages/Messages.tsx:111-114 | the contacts kept are exactly those whose id is not a key of the direct index, each as often as in the list, in their original order |
| `ChatCache.SelectionFallback` | ps_frontend/src/pages/Messages.tsx:116-125 | an empty list gives no selection; a truthy selection present in the list is kept; otherwise the first conversation is selected; the result is always a listed id |
| `ChatCache.SelectionFallbackStable` | ps_frontend/src/pages/Messages.tsx:116-125 | applying the fallback to its own result changes nothing, so the effect settles after one step |
| `ChatCache.ActiveConversation` | ps_frontend/src/pages/Messages.tsx:127-130 | the active conversation exists iff the selection is a listed id, and it carries that id |
| `ChatCache.MarkSelectedRead` | ps_frontend/src/pages/Messages.tsx:141-159 | after a page loads the selected conversation becomes exactly its read-through (unread 0, preview the page's last message or kept for an empty page, every other field kept) and every other conversation is unchanged; ids and length are kept |
| `ChatCache.ReadThrough` | ps_frontend/src/pages/Messages.tsx:148-154 | the conversation's unread count is 0 and its preview is the page's last message, kept for an empty page; nothing else changes |
| `ChatCache.ReadThroughIdempotent` | ps_frontend/src/pages/Messages.tsx:148-154 | reading the same page through twice is reading it once |
| `ChatCache.MarkSelectedReadIdempotent` | ps_frontend/src/pages/Messages.tsx:141-159 | running the effect again with the same page changes nothing |
| `ChatCache.SendRequest` | ps_frontend/src/pages/Messages.tsx:302-308 | a send happens iff a conversation is selected, the draft trimmed with JavaScript's whitespace set (Unicode spaces and U+FEFF) is non-empty and no send is pending; that trimmed draft is what is sent |
| `ChatCache.SentContentIsTrimmed` | ps_frontend/src/pages/Messages.tsx:303-307 | the sent content is non-blank and equals its own trim |
| `ChatCache.AppendMessage` | ps_frontend/src/pages/Messages.tsx:164-167 | the message is appended at the end of its conversation's list, without de-duplication; other lists are unchanged |
| `ChatCache.MoveToHead` | ps_frontend/src/pages/Messages.tsx:169-184 | an unknown conversation leaves the list unchanged; otherwise the list is the first entry with that id, given the new preview and unread 0 and otherwise unchanged, followed by the list without that entry; the length and the multiset of ids are kept |
| `ChatCache.MoveToHeadKeepsDistinct` | ps_frontend/src/pages/Messages.tsx:169-184 | moving to the head never introduces a duplicate id |
| `ChatCache.MoveToHeadIdempotent` | ps_frontend/src/pages/Messages.tsx:169-184 | moving the same message's conversation to the head twice gives the same list as once |
| `ChatCache.OnSendSuccess` | ps_frontend/src/pages/Messages.tsx:163-187 | a successful send appends the message to its conversation's cache, the conversation list becomes exactly the move-to-head result, the draft is cleared; selection and contacts are untouched |
| `ChatCache.SentMessageShown` | ps_frontend/src/pages/Messages.tsx:163-187 | after a send the message is the last of its conversation's cache, and a listed conversation heads the list with the message as its preview |
| `ChatCache.StartRequest` | ps_frontend/src/pages/Messages.tsx:310-328 | an empty username does nothing; a participant that already has a direct conversation selects it; otherwise a start is requested unless one is pending |
| `ChatCache.UpsertAtHead` | ps_frontend/src/pages/Messages.tsx:200-208 | the started conversation is at the head; the rest is a subsequence of the old list without it; the set of ids gains exactly its id |
| `ChatCache.UpsertAtHeadKeepsDistinct` | ps_frontend/src/pages/Messages.tsx:200-208 | starting a conversation never creates a duplicate id |
| `ChatCache.OtherParticipant` | ps_frontend/src/pages/Messages.tsx:212 | the participant found is the first one who is not the current user; none is found only if every participant is the current user |
| `ChatCache.DropContact` | ps_frontend/src/pages/Messages.tsx:214-216 | exactly the contacts with the other participant's id are removed; every other contact is kept as often as it occurs, in order |
| `ChatCache.OnStartSuccess` | ps_frontend/src/pages/Messages.tsx:199-218 | the conversation is upserted at the head and selected, and the other participant leaves the contact cache |
| `ChatCache.DeleteRequest` | ps_frontend/src/pages/Messages.tsx:330-335 | a delete is requested iff none is pending |
| `ChatCache.OnDeleteSuccess` | ps_frontend/src/pages/Messages.tsx:234-242 | the conversation leaves the list and every other one stays in order, each entry as often as before; its message cache is evicted; the selection is cleared only if it was the deleted one |
| `ChatCache.DeepLink` | ps_frontend/src/pages/Messages.tsx:339-373 | a blank target is discarded; the first conversation in the list with a case-insensitive match among its other participants is selected; with no match a start is issued only when contacts are not fetching and no start is pending |
| `ChatCache.DeepLinkPrefersExisting` | ps_frontend/src/pages/Messages.tsx:352-365 | whenever a matching conversation exists it is selected, whatever the pending flags |
| `ChatServer.AddParticipants` | ps_backend/chatapp/views.py:116-124 | afterwards the conversation's member set is the old one plus the given users; other conversations are untouched; existing rows are kept; no duplicate (user, conversation) row appears |
| `ChatServer.ResolveParticipants` | ps_backend/chatapp/views.py:62-83 | non-integer ids, no other user, and unknown or inactive ids are each an error; otherwise the result is the requester followed by active users whose ids are exactly the requested ones minus the requester |
| `ChatServer.GetOrCreateDirect` | ps_backend/chatapp/views.py:85-105 | the lookup as evidently intended (see Findings): the result is a one-to-one conversation whose member set equals the participants' ids; it is new exactly when no existing one-to-one conversation has that member set |
| `ChatServer.GetOrCreateDirectIdempotent` | ps_backend/chatapp/views.py:85-105 | for the intended lookup (see Findings): asking again for the same participants returns the same conversation, reports it as not created, and changes nothing |
| `ChatServer.DirectLookupAsWritten` | ps_backend/chatapp/views.py:89-97 | the lookup as written: -1, or the index of a one-to-one conversation holding every participant whose count of rows joined to the last participant equals the number of participants |
| `ChatServer.AtMostOneRow` | ps_backend/chatapp/models.py:24-25 | with one membership row per (user, conversation), a conversation has at most one row for a given user |
| `ChatServer.AsWrittenNeverFinds` | ps_backend/chatapp/views.py:89-97 | with unique membership rows and two distinct participants, the lookup as written never finds a conversation |
| `ChatServer.GetOrCreateDirectAsWritten` | ps_backend/chatapp/views.py:85-105 | the code as written: the result is a one-to-one conversation holding the participants; it is created exactly when the written lookup finds nothing, and then it is appended with a fresh id and exactly the participants; users, messages and follows are kept |
| `ChatServer.AsWrittenTwiceMakesTwo` | ps_backend/chatapp/views.py:85-105 | as written, asking twice for the same two users creates two different conversations with the same members |
| `ChatServer.CreateGroup` | ps_backend/chatapp/views.py:107-114 | a new group conversation with the given title whose members are exactly the participants |
| `ChatServer.CreateConversation` | ps_backend/chatapp/views.py:43-60 | resolution errors pass through; two participants without force_new give the direct conversation (201 if new, else 200); anything else is a new group with the stripped title and 201 |
| `ChatServer.StartConversation` | ps_backend/chatapp/views.py:170-186 | a blank username, no active case-insensitive match, and the requester themself are each an error; otherwise the direct conversation of the two, 201 iff newly created |
| `ChatServer.StartTwiceFindsSame` | ps_backend/chatapp/views.py:182-186 | a second start with the same username returns the same conversation with 200 |
| `ChatServer.EffectiveLimit` | ps_backend/chatapp/views.py:140-145 | the page size is in [1, 200]; an absent or non-integer limit gives 50; an integer limit is clamped to the range |
| `ChatServer.EffectiveLimitOfInRange` | ps_backend/chatapp/views.py:141 | a limit written as a decimal integer between 1 and 200 is used as is |
| `ChatServer.Candidates` | ps_backend/chatapp/views.py:132-138 | the candidates are exactly the conversation's messages strictly older than a parsed cursor |
| `ChatServer.NewestPage` | ps_backend/chatapp/views.py:132-147 | the page holds min(limit, candidates) messages taken from the candidates, in ascending time, and no omitted candidate is newer than any message on the page |
| `ChatServer.TouchLastRead` | ps_backend/chatapp/views.py:149 | only the requester's read pointer in that conversation moves to now; every other field and row is unchanged |
| `ChatServer.ListMessages` | ps_backend/chatapp/views.py:126-152 | a non-member gets 404; a member gets the newest page and their read pointer moves to now |
| `ChatServer.MarkRead` | ps_backend/chatapp/views.py:188-194 | a non-member gets 404; otherwise only the read pointer moves |
| `ChatServer.ValidateContent` | ps_backend/chatapp/serializers.py:56-63 | a missing or null content is an error; content that Python's `str.strip` empties is rejected as blank; stripped content over 4000 characters is rejected; stripped content holding the null character U+0000 is rejected; otherwise the stripped content is accepted |
| `ChatServer.ClientSendAccepted` | ps_backend/chatapp/serializers.py:56-63 | whatever the chat page sends is accepted unchanged by the server when it fits in 4000 characters and holds neither the null character nor any of the separators U+001C to U+001F and U+0085, which Python strips and JavaScript does not |
| `ChatServer.SeparatorDraftRefused` | ps_backend/chatapp/serializers.py:56-63 | the draft U+001C is sent by the chat page and refused by the server as blank |
| `ChatServer.NullDraftRefused` | ps_backend/chatapp/serializers.py:56-57 | a draft holding U+0000 is sent by the chat page and refused by the server for its null character |
| `ChatServer.SendMessage` | ps_backend/chatapp/views.py:154-168 | a non-member gets 404 and invalid content an error; otherwise the stripped message is appended with a fresh id at the current time and the sender's read pointer moves to now |
| `ChatServer.SenderHasNothingUnread` | ps_backend/chatapp/views.py:160-163 | after sending, the sender has nothing unread in that conversation when no stored message is newer than the send |
| `ChatServer.LastMessage` | ps_backend/chatapp/serializers.py:81-85 | None iff the conversation has no messages; otherwise one of its messages with the greatest creation time |
| `ChatServer.MembershipOf` | ps_backend/chatapp/serializers.py:93-95 | a membership row is found iff the user is a member of the conversation |
| `ChatServer.UnreadCount` | ps_backend/chatapp/serializers.py:87-99 | 0 for an anonymous viewer or a non-member; all the conversation's messages when never read; otherwise exactly the number of its messages newer than the read pointer |
| `ChatServer.NewMessageAddsOneUnread` | ps_backend/chatapp/serializers.py:97-99 | a message newer than a member's read pointer raises that member's unread count by exactly one |
| `ChatServer.ReadingClearsUnread` | ps_backend/chatapp/serializers.py:97-98 | once the read pointer is at a time no message exceeds, the unread count is 0 |
| `ChatServer.ChatFullName` | ps_backend/chatapp/serializers.py:19-21 | a non-blank full name is shown; otherwise the username (stripped when that is non-empty); the result is empty only when both are |
| `ChatServer.ContactRows` | ps_backend/chatapp/serializers.py:102-114 | you_follow is true iff the id is followed by the requester, follows_you iff the id follows the requester |
| `ChatServer.Contacts` | ps_backend/chatapp/views.py:230-260 | no follow relations give []; the contacts are exactly the active users followed by or following the requester, ordered by username, with both flags |
| `AuthModels.MarkEmailVerified` | ps_backend/authapp/models.py:34-37 | the email becomes verified and nothing else changes |
| `AuthModels.MarkEmailVerifiedIdempotent` | ps_backend/authapp/models.py:34-37 | marking twice is the same as marking once |
| `AuthModels.IssueOtp` | ps_backend/authapp/models.py:40-68 | code, purpose and expiry are stored, used and consumed-at are reset, the send time is stamped; without an explicit choice the email is unverified only for a registration code; display fields are untouched |
| `AuthModels.IssuedCodeMatches` | ps_backend/authapp/models.py:40-74 | a freshly issued code matches an attempt iff the code is non-empty and the attempt equals it |
| `AuthModels.ExpiryBoundary` | ps_backend/authapp/models.py:70-71 | a code is expired iff now is strictly after its expiry |
| `AuthModels.MarkOtpUsed` | ps_backend/authapp/models.py:76-80 | the code becomes used; the consumption time is set only on the first call |
| `AuthModels.MarkOtpUsedFinal` | ps_backend/authapp/models.py:73-80 | consuming twice equals consuming once, and afterwards no code matches |
| `AuthModels.ClearOtp` | ps_backend/authapp/models.py:82-97 | code and purpose are emptied and expiry, consumption and used are reset; verification and send time are kept |
| `AuthModels.ClearedOtpInert` | ps_backend/authapp/models.py:70-97 | after clearing, no code matches and the code never reads as expired |
| `AuthModels.EnsureProfile` | ps_backend/userdirectory/utils.py:12-15 | an existing profile is returned unchanged; a missing one is created blank and unverified |
| `AuthSerializers.UserByEmail` | ps_backend/authapp/serializers.py:136-138 | the first user whose email matches ignoring case, or none iff no email matches |
| `AuthSerializers.UserByEmailAppend` | ps_backend/authapp/serializers.py:136-138 | a user appended to a table where no email matches is the one the lookup finds when its email matches |
| `AuthSerializers.UserByUsername` | ps_backend/authapp/serializers.py:28-31 | the first user whose username matches ignoring case, or none iff no username matches |
| `AuthSerializers.RegisterFieldErrors` | ps_backend/authapp/serializers.py:14-36 | each field error is present iff its condition holds on the stripped fields: username blank, username taken, email taken, password or confirmation shorter than 8 |
| `AuthSerializers.Cleaned` | ps_backend/authapp/serializers.py:13-22 | each text field of a registration is the field stripped with Python's whitespace set |
| `AuthSerializers.CleanedIdempotent` | ps_backend/authapp/serializers.py:13-22 | cleaning a cleaned registration changes nothing |
| `AuthSerializers.ValidateRegistration` | ps_backend/authapp/serializers.py:13-44 | every field is stripped with Python's whitespace set first; a blank username, a taken username or email and a short password are always reported; success requires all of them to pass plus equal passwords that pass the strength check, and yields the stripped registration; a mismatch is reported alone |
| `AuthSerializers.RegisteredUser` | ps_backend/authapp/serializers.py:46-65 | the account is inactive and holds the given username, email and names; its display name is the stripped "first last" or, when that is blank, the username |
| `AuthSerializers.RegisteredUserIsCleaned` | ps_backend/authapp/serializers.py:13-65 | the account a successful registration creates holds the stripped username, email and names, and its display name is non-blank and already stripped |
| `AuthSerializers.LoginIdentifier` | ps_backend/authapp/serializers.py:68-79 | an error iff the email or password is blank or neither username nor email is left after stripping; otherwise the stripped username when given, else the stripped email; never blank |
| `AuthSerializers.CleanLogin` | ps_backend/authapp/serializers.py:68-72 | a blank email or a blank password is refused; otherwise each field is stripped, a missing username or email staying missing |
| `AuthSerializers.VerificationUser` | ps_backend/authapp/serializers.py:82-103 | a blank email is refused; the user with the stripped email if there is one, else the session's pending user |
| `AuthSerializers.ResendUser` | ps_backend/authapp/serializers.py:106-128 | a blank email is refused; a given email that matches nobody is an error with no fallback to the session; without an email the session's pending user, or an error |
| `AuthSerializers.ValidateResetConfirm` | ps_backend/authapp/serializers.py:143-163 | success only for a known stripped email and equal stripped passwords of at least 8 characters that pass the strength check; a blank or unknown email or a mismatch is an error, and a mismatch is reported alone |
| `AuthSerializers.ResetFieldErrors` | ps_backend/authapp/serializers.py:143-148 | each field error is present iff its condition holds: blank email, new password or confirmation shorter than 8; no other error is raised here |
| `AuthViews.GenerateOtp` | ps_backend/authapp/views.py:35-36 | for a draw n below 10^6 the code is exactly 6 decimal digits whose value is n |
| `AuthViews.IssueRegistrationOtp` | ps_backend/authapp/views.py:39-43 | the user's profile gets a registration code expiring 15 minutes later and becomes unverified; other profiles are untouched |
| `AuthViews.IssuePasswordResetOtp` | ps_backend/authapp/views.py:66-75 | the user's profile gets a reset code expiring 15 minutes later; its verification status is kept |
| `AuthViews.CooldownWait` | ps_backend/authapp/views.py:132-134 | a wait is reported iff the last code was sent less than 5 minutes ago; it is at least 1, at most 5 for a past send, and the whole minutes remaining otherwise |
| `AuthViews.CreateAccount` | ps_backend/authapp/views.py:102-110 | a registration appends exactly the registered (inactive) user, stores the password, marks the user pending and issues a registration code |
| `AuthViews.RegisteredAccountFoundByEmail` | ps_backend/authapp/views.py:102-110 | after a registration, a verification naming the registered email finds the account just created |
| `AuthViews.Register` | ps_backend/authapp/views.py:102-110 | validation errors pass through unchanged; otherwise the account is created with the trimmed password |
| `AuthViews.Resend` | ps_backend/authapp/views.py:125-141 | within the cooldown nothing is issued; otherwise the user becomes pending and gets a fresh registration code |
| `AuthViews.ResendBlockedWithinCooldown` | ps_backend/authapp/views.py:131-138 | a code sent less than five minutes ago blocks a resend with a wait between 1 and 5 minutes and no change |
| `AuthViews.ForgotPassword` | ps_backend/authapp/views.py:206-226 | the cooldown applies only while the current code is a reset code; otherwise a reset code is issued, verification is kept, and the reset user is remembered |
| `AuthViews.CheckCode` | ps_backend/authapp/views.py:163-168 | purpose is checked first, then expiry, then the code; a code is accepted iff all three pass |
| `AuthViews.VerifyOtp` | ps_backend/authapp/views.py:155-174 | the stripped code is checked; a failed check changes nothing but the profile's creation; success activates the user, marks them verified, consumes the code, clears the pending marker and logs them in |
| `AuthViews.VerifyIgnoresPadding` | ps_backend/authapp/serializers.py:84 | a code padded with spaces verifies exactly as the bare code does |
| `AuthViews.VerifyReplayFails` | ps_backend/authapp/views.py:163-174 | an accepted code is rejected when replayed |
| `AuthViews.PasswordResetVerify` | ps_backend/authapp/views.py:234-253 | same check order on the stripped code; success sets the stripped new password, consumes the code, keeps verification and clears the reset marker |
| `AuthViews.PasswordResetReplayFails` | ps_backend/authapp/views.py:243-252 | an accepted reset code is rejected when replayed |
| `AuthViews.Activate` | ps_backend/authapp/views.py:185-198 | the user is activated, verified, left with no matching code, and logged in |
| `AuthViews.LoginTarget` | ps_backend/authapp/views.py:268-274 | a given email looks the account up by the stripped email; otherwise by the stripped username |
| `AuthViews.Login` | ps_backend/authapp/views.py:261-297 | a refused or missing identifier is a validation error; an unknown account or a wrong stripped password give the same invalid-credentials answer and no change; an inactive or unverified account gets a new code and must verify; only a verified active account is logged in |
| `AuthViews.LoginFailuresIndistinguishable` | ps_backend/authapp/views.py:271-281 | an unknown account and a wrong password produce identical results |
| `VerificationMiddleware.EffectiveMatch` | ps_backend/authapp/middleware.py:72-77 | the request's resolver match when there is one, else the resolution of its path |
| `VerificationMiddleware.PathIsExempt` | ps_backend/authapp/middleware.py:71-94 | exempt iff the view is on either allowlist or in the admin namespace, or the path starts with a non-empty static or media prefix |
| `VerificationMiddleware.Handle` | ps_backend/authapp/middleware.py:40-63 | anonymous and verified users pass untouched; an unverified user on a guarded path is marked pending and gets 403 for JSON clients or a redirect to the verification page, warned unless already there; on an exempt path they pass, and are marked pending only on the verification view |
| `VerificationMiddleware.MissingProfileIsUnverified` | ps_backend/authapp/middleware.py:96-101 | a user without a profile gets a blank unverified one and is held back on a guarded path |
| `VerificationMiddleware.AccountEndpointsExempt` | ps_backend/authapp/middleware.py:13-24 | every REST account endpoint stays reachable while unverified |
| `VerificationMiddleware.AuthPathsExpectJson` | ps_backend/authapp/middleware.py:65-69 | a request under `/auth/` gets the JSON answer whatever its headers |
| `AuthSerializers.TrimmedField` | ps_backend/userdirectory/serializers.py:58-61 | a sent field is stripped with Python's whitespace set, an absent one stays absent |
| `AuthSerializers.TrimmedFieldIdempotent` | ps_backend/userdirectory/serializers.py:58-61 | stripping a stripped field changes nothing |
| `Directory.LengthErrors` | ps_backend/userdirectory/serializers.py:58-61 | a field error is reported iff that trimmed field is longer than its limit: 150 for names, 32 for the phone number |
| `Directory.Trimmed` | ps_backend/userdirectory/serializers.py:58-63 | every sent text field is trimmed; the avatar and removal flag are kept |
| `Directory.ValidateSettings` | ps_backend/userdirectory/serializers.py:57-70 | accepted iff no field is too long, something was sent, and a new avatar does not come with removal; an empty request is "no changes" and the conflict is reported alone |
| `Directory.Written` | ps_backend/userdirectory/views.py:59-82 | a sent value replaces the stored one; an absent one keeps it |
| `Directory.UpdatedUser` | ps_backend/userdirectory/views.py:55-68 | first and last name take the sent values; nothing else about the user changes |
| `Directory.UpdatedProfile` | ps_backend/userdirectory/views.py:71-90 | display name and phone take the sent values; a new avatar always wins; removal clears a stored avatar; nothing else changes |
| `Directory.SavedColumns` | ps_backend/userdirectory/views.py:55-93 | a column is saved iff its field was sent and differs, or for the avatar iff a file was sent or a stored avatar is removed |
| `Directory.NothingSavedNothingChanged` | ps_backend/userdirectory/views.py:67-93 | when no column is saved the user and profile are unchanged |
| `Directory.UpdateSettles` | ps_backend/userdirectory/views.py:59-90 | repeating an update without a new file saves nothing |
| `Directory.UpdateSettings` | ps_backend/userdirectory/views.py:48-93 | invalid input is refused with the serializer's errors; otherwise the profile is created if missing and both updates are applied, other profiles untouched |
| `Directory.PublicFullName` | ps_backend/userdirectory/serializers.py:127-129 | the trimmed full name, or the username when it is blank |
| `Directory.PublicDisplayName` | ps_backend/userdirectory/serializers.py:131-135 | the profile's display name, or empty without a profile |
| `Directory.IsFollowing` | ps_backend/userdirectory/serializers.py:117-119 | true iff the viewer has a follow row for the user |
| `Directory.IsSelf` | ps_backend/userdirectory/serializers.py:121-125 | true iff a viewer is signed in and is the user |
| `Directory.NotificationMessage` | ps_backend/userdirectory/serializers.py:183-187 | the fixed follow text for follows, else the payload's message or empty |
| `Directory.FollowBackTarget` | ps_backend/userdirectory/serializers.py:206-209 | a follow-back link exists iff the notification is a follow, and it names the actor |
| `Directory.CanFollowBack` | ps_backend/userdirectory/serializers.py:189-204 | false for anonymous viewers and for the actor; otherwise true iff the viewer does not follow the actor |
| `Directory.Ranked` | ps_backend/userdirectory/views.py:108-129 | exactly the active users matching the stripped query (a permutation of them), sorted by follower count descending then username |
| `Directory.RankedOrder` | ps_backend/userdirectory/views.py:129 | earlier users have at least as many followers, and ties are in username order |
| `Directory.IncludeSelf` | ps_backend/userdirectory/views.py:158 | on iff the lower-cased parameter is "1", "true" or "yes"; off when absent |
| `Directory.ListLimit` | ps_backend/userdirectory/views.py:162-168 | no cap without a parameter or when it does not parse as an integer; otherwise the integer clamped to 1..200 |
| `Directory.Visible` | ps_backend/userdirectory/views.py:155-160 | the ranked listing, without the caller unless `include_self` is on, order kept |
| `Directory.Capped` | ps_backend/userdirectory/views.py:162-166 | a prefix of the input, as long as the cap allows |
| `Directory.ListUsers` | ps_backend/userdirectory/views.py:155-171 | a prefix of the visible listing, at most the clamped limit long and exactly that long when enough users are visible |
| `Directory.ListUsersMembers` | ps_backend/userdirectory/views.py:108-160 | each listed user is active and matches the query; the caller appears only with `include_self` |
| `Directory.LookupUser` | ps_backend/userdirectory/views.py:140-153 | the first user in ranked listing order whose username matches ignoring case, and none iff no listed user matches |
| `Directory.FollowingAppend` | ps_backend/authapp/models.py:98-118 | a new row adds its target to its follower's following set only |
| `Directory.FollowingRemove` | ps_backend/authapp/models.py:98-118 | deleting the pair's rows removes exactly that target from exactly that follower's set |
| `Directory.AddFollow` | ps_backend/userdirectory/views.py:178-184 | the target joins the follower's set and no one else's; an existing pair changes nothing; a new pair adds one row and one unread follow notification to the target |
| `Directory.RemoveFollow` | ps_backend/userdirectory/views.py:196 | the target leaves the follower's set, no row of the pair remains, and notifications are untouched |
| `Directory.AddFollowIdempotent` | ps_backend/userdirectory/views.py:178-184 | following twice equals following once |
| `Directory.AddFollowNotifiesOnce` | ps_backend/userdirectory/views.py:179-184 | a notification is created iff the pair is new |
| `Directory.FollowThenUnfollow` | ps_backend/userdirectory/views.py:174-199 | after follow then unfollow the target is not followed and the rest of the set is as before |
| `Directory.FollowShowsInListing` | ps_backend/userdirectory/serializers.py:117-119 | the listing shows the target as followed after a follow and not after an unfollow |
| `Directory.FollowUser` | ps_backend/userdirectory/views.py:174-188 | unknown users are not found, following oneself is refused, otherwise the pair is recorded |
| `Directory.UnfollowUser` | ps_backend/userdirectory/views.py:191-199 | unknown users are not found, unfollowing oneself is refused, otherwise the pair is removed |
| `Directory.Inbox` | ps_backend/userdirectory/views.py:206-208 | exactly the caller's notifications, newest first |
| `Directory.InboxIndex` | ps_backend/userdirectory/views.py:206-208 | the position of the caller's notification with that id, or none iff there is no such notification |
| `Directory.MarkRead` | ps_backend/userdirectory/views.py:218-224 | another user's or a missing notification is not found; otherwise that notification is read and the rest are unchanged |
| `Directory.MarkReadIdempotent` | ps_backend/userdirectory/views.py:220-222 | marking read twice changes nothing the second time |
| `Directory.ReadIfMine` | ps_backend/userdirectory/views.py:228-229 | the caller's notifications become read; others are untouched |
| `Directory.MarkAllRead` | ps_backend/userdirectory/views.py:227-230 | the reported count is the number of the caller's unread notifications; afterwards none are unread and everyone else's are untouched |
| `Directory.NoneUnread` | ps_backend/userdirectory/views.py:228-229 | after marking, the caller has no unread notification |
| `Directory.MarkAllReadTwice` | ps_backend/userdirectory/views.py:227-230 | a second call reports zero |
| `FeedServer.ValidateMedia` | ps_backend/feed/serializers.py:95-102 | a new post without an image or a video is refused; any post with both is refused; nothing else is |
| `FeedServer.CreatedPostHasOneMedium` | ps_backend/feed/serializers.py:98-101 | a post accepted for creation has exactly one of image and video |
| `FeedServer.MediaUrl` | ps_backend/feed/serializers.py:112-124 | a medium is serialized as null iff no file is stored |
| `FeedServer.Counts` | ps_backend/feed/serializers.py:71-93 | each counter is the number of rows on that post; the liked and bookmarked flags hold iff a signed-in viewer has such a row |
| `FeedServer.PostsFor` | ps_backend/feed/views.py:16-41 | exactly the posts matching the author's username ignoring case and the numeric `user_id`, newest first |
| `FeedServer.BadUserIdSelectsNothing` | ps_backend/feed/views.py:35-39 | a non-integer `user_id` gives an empty listing |
| `FeedServer.AddReaction` | ps_backend/feed/views.py:49 | the rows afterwards are the old rows plus the pair, added only when absent |
| `FeedServer.RemoveReaction` | ps_backend/feed/views.py:55 | the rows afterwards are the old rows without the pair, order kept |
| `FeedServer.AddReactionIdempotent` | ps_backend/feed/views.py:79 | adding a pair twice equals adding it once |
| `FeedServer.AddThenRemove` | ps_backend/feed/views.py:46-56 | adding then removing a pair leaves every other row and not the pair |
| `FeedServer.FindPost` | ps_backend/feed/views.py:48 | the post with that id in the filtered listing, or none iff the listing has no such post |
| `FeedServer.React` | ps_backend/feed/views.py:46-86 | anonymous callers are refused, a missing post is not found, otherwise like or bookmark adds the pair and unlike or unbookmark removes it, touching no other table |
| `FeedServer.ReactTwice` | ps_backend/feed/views.py:46-50 | liking or bookmarking twice equals doing it once |
| `FeedServer.ReactThenUndo` | ps_backend/feed/views.py:46-86 | like then unlike, or bookmark then unbookmark, leaves no row of the pair and the others as before |
| `FeedServer.SharePost` | ps_backend/feed/views.py:67-74 | anonymous callers are refused, a missing post is not found, otherwise one share row is appended |
| `FeedServer.ShareCounts` | ps_backend/feed/views.py:67-74 | every share raises the post's share count by one, so sharing is not idempotent |
| `FeedServer.ValidateExpiry` | ps_backend/feed/serializers.py:136-139 | a given expiry at or before now is refused |
| `FeedServer.NewStory` | ps_backend/feed/serializers.py:141-146 | without an expiry the story expires 24 hours after creation |
| `FeedServer.CreateStory` | ps_backend/feed/serializers.py:136-146 | anonymous callers are refused; a story is stored iff its expiry is valid, and a stored story expires strictly after now |
| `FeedServer.StoriesFor` | ps_backend/feed/views.py:93-103 | expired stories are removed from the store, no other table changes, and exactly the live stories matching `user_id` are listed newest first |
| `FeedServer.StoriesForSettles` | ps_backend/feed/views.py:94-96 | listing again at the same instant deletes nothing more and lists the same stories |
| `FeedServer.DestroyStory` | ps_backend/feed/views.py:108-111 | an expired or unknown story is not found, another user's story is refused, and the owner's story is removed from the purged store |
| `FeedServer.OnlyOwnerDeletes` | ps_backend/feed/views.py:108-111 | a successful delete removes a live story owned by the caller |
| `HomeFeed.ReplacePost` | ps_frontend/src/pages/Home.tsx:105-106 | the post with the updated id is replaced in place; every other post and the order stay as they were |
| `HomeFeed.ReplacePostIdempotent` | ps_frontend/src/pages/Home.tsx:105-106 | applying the same update twice leaves the list as one update does |
| `HomeFeed.ModalAfterUpdate` | ps_frontend/src/pages/Home.tsx:107 | the modal shows the updated post exactly when it showed a post with that id, and is otherwise untouched |
| `HomeFeed.RemovePost` | ps_frontend/src/pages/Home.tsx:110-111 | the list keeps, in order, exactly the posts whose id differs from the deleted one, each as often as before |
| `HomeFeed.ModalAfterDelete` | ps_frontend/src/pages/Home.tsx:112-114 | the modal closes exactly when it showed the deleted post |
| `HomeFeed.PreviousStory` | ps_frontend/src/pages/Home.tsx:127-129 | the index steps back only from a positive index; 0 and no index stay |
| `HomeFeed.NextStory` | ps_frontend/src/pages/Home.tsx:131-139 | the index steps forward only below the last position; no index stays none |
| `HomeFeed.NavigationStaysInRange` | ps_frontend/src/pages/Home.tsx:127-139 | from an index inside the strip both arrows leave an index inside the strip |
| `HomeFeed.OpenViewer` | ps_frontend/src/pages/Home.tsx:117-120 | opening a story sets exactly that index and opens the viewer, keeping the strip |
| `HomeFeed.CloseViewer` | ps_frontend/src/pages/Home.tsx:122-125 | closing clears the index and the open flag, keeping the strip |
| `HomeFeed.IndexAfterDelete` | ps_frontend/src/pages/Home.tsx:153-170 | the index updater after a delete, case by case: none stays none, an emptied strip clears it, a later index shifts down, and an index past the end is pulled back to the last story |
| `HomeFeed.OnStoryDeleted` | ps_frontend/src/pages/Home.tsx:143-174 | the strip keeps exactly the stories with another id, the index follows the updater, and the viewer closes when the strip is empty |
| `HomeFeed.DeletedStoryRemovesOne` | ps_frontend/src/pages/Home.tsx:146-151 | with distinct ids, deleting the story at a position finds that position and removes exactly that entry |
| `HomeFeed.SameStoryStaysActive` | ps_frontend/src/pages/Home.tsx:146-170 | deleting a story other than the open one keeps the same story open |
| `HomeFeed.DeletingOpenStoryShowsNeighbour` | ps_frontend/src/pages/Home.tsx:146-170 | deleting the open story opens the one after it, or the new last story when the deleted one was last |
| `HomeFeed.DeleteKeepsIndexInRange` | ps_frontend/src/pages/Home.tsx:146-170 | an index inside the strip stays inside it after any delete that leaves a story |
| `HomeFeed.ViewerIndex` | ps_frontend/src/pages/Home.tsx:271-274 | the viewer is mounted exactly when an index is set and there are stories, with the index clamped to the last story |
| `HomeFeed.ViewerStory` | ps_frontend/src/components/StoryViewer.tsx:33-37 | a story is shown exactly when the index is inside the list, and it is the story at that index |
| `HomeFeed.CanDelete` | ps_frontend/src/components/StoryViewer.tsx:48 | delete is offered exactly to a signed-in user who owns the story |
| `HomeFeed.ArrowsMatchHandlers` | ps_frontend/src/components/StoryViewer.tsx:49-50 | the previous and next arrows are shown exactly when the page's handlers would move the index |
| `HomeFeed.ViewerShowsAStory` | ps_frontend/src/pages/Home.tsx:271-274 | with a non-negative index and a non-empty strip, the clamped index always names a story |
| `Videos.VideoPosts` | ps_frontend/src/pages/Videos.tsx:306-311 | the page lists, in feed order, exactly the posts with a non-empty video, each as often as in the feed, and nothing before the feed has loaded |
| `Videos.TotalsAreSums` | ps_frontend/src/pages/Videos.tsx:313-344 | the like, comment, save and share totals are the sums of those counters over the videos, and the private count is the number of private videos |
| `Videos.TopIsFirstMaximum` | ps_frontend/src/pages/Videos.tsx:316-324 | the leading video is the first with the highest engagement (likes, comments, shares and bookmarks); there is none exactly when no video has positive engagement, and then the top engagement is 0 |
| `Videos.LatestIsNewest` | ps_frontend/src/pages/Videos.tsx:325-328 | for upload times after the epoch the latest upload is the greatest upload time, or 0 with no videos |
| `Videos.TrendingIsLeader` | ps_frontend/src/pages/Videos.tsx:613 | a video carries the trending badge exactly when it has the leading video's id |
| `Videos.SortedVideos` | ps_frontend/src/pages/Videos.tsx:359-369 | the sorted list is a permutation of the videos, newest first or highest engagement first |
| `Videos.SortKeepsTies` | ps_frontend/src/pages/Videos.tsx:359-369 | videos with equal upload time, or equal engagement, keep their feed order |
| `Videos.FilteredVideos` | ps_frontend/src/pages/Videos.tsx:371-383 | a blank trimmed term shows the sorted list unchanged; otherwise the list keeps, in order, exactly the videos whose author, caption or space-joined hashtags contain the lower-cased term, each as often as in the sorted list |
| `Videos.SearchIdempotent` | ps_frontend/src/pages/Videos.tsx:371-383 | searching the results again with the same term changes nothing |
| `Videos.SearchIgnoresSurroundingSpace` | ps_frontend/src/pages/Videos.tsx:372 | the term is trimmed, so surrounding spaces in the box do not change the results |
| `Videos.SearchSpansHashtags` | ps_frontend/src/pages/Videos.tsx:380-381 | a term containing a space can match across two neighbouring hashtags |
| `Videos.SyncActive` | ps_frontend/src/pages/Videos.tsx:385-397 | with no videos nothing is active; a still-listed active id is kept; otherwise the first video becomes active |
| `Videos.IndexOf` | ps_frontend/src/pages/Videos.tsx:408 | the position of the first video with the current id, or -1 when there is no id or it is not listed |
| `Videos.NextVideo` | ps_frontend/src/pages/Videos.tsx:403-412 | the next control always lands on a listed video: the one after the current video, the first after the last, and the first for an unknown current video |
| `Videos.PreviousVideo` | ps_frontend/src/pages/Videos.tsx:414-426 | the previous control always lands on a listed video: the one before the current video, the last before the first, and the first for an unknown current video |
| `Videos.NextPreviousInverse` | ps_frontend/src/pages/Videos.tsx:403-426 | with distinct ids, previous undoes next and next undoes previous; with two or more videos both controls move to another video; next goes from the last video to the first and previous from the first to the last |
| `Videos.ActiveVideo` | ps_frontend/src/pages/Videos.tsx:428-434 | the player shows the first video with the active id, or the first video when that id is not listed, and nothing with no videos |
| `Videos.PlayerShowsActive` | ps_frontend/src/pages/Videos.tsx:385-434 | after the synchronising effect the player shows the video whose id is active |
| `Videos.Recommended` | ps_frontend/src/pages/Videos.tsx:436-441 | the recommendations are exactly the listed videos with an id other than the playing one |
| `Videos.RecommendedDropsOnlyActive` | ps_frontend/src/pages/Videos.tsx:436-441 | with distinct ids the recommendations are the visible list with the playing video removed at its position |
| `Videos.ShownHashtags` | ps_frontend/src/pages/Videos.tsx:209 | at most the first four hashtags get a badge, in their order |
| `Tags.ParseTags` | ps_frontend/src/components/PostCard.tsx:115-120 | the tags are, in order, the pieces between runs of commas and JavaScript `\s` whitespace (Unicode spaces and U+FEFF included), trimmed and stripped of one leading marker, keeping exactly the non-empty ones, each as often as it occurs, duplicates included |
| `Tags.ParseJoined` | ps_frontend/src/components/Composer.tsx:84-92 | words without separators or a leading marker, typed with spaces between them, are parsed back to exactly those words |
| `Tags.Dedupe` | ps_frontend/src/components/PostCard.tsx:128-134 | keeping first occurrences gives a duplicate-free list with the same members, never longer than the input |
| `Tags.DedupeFirstOccurrenceOrder` | ps_frontend/src/components/PostCard.tsx:128-134 | the kept words appear in the order of their first occurrences in the input |
| `Tags.DedupeDistinct` | ps_frontend/src/components/PostCard.tsx:128-134 | a list without duplicates is kept as it is |
| `Tags.DedupeWithSet` | ps_frontend/src/components/PostCard.tsx:123-135 | the loop over a set of seen tags keeps each tag at its first occurrence |
| `Tags.NormaliseHashtags` | ps_frontend/src/components/PostCard.tsx:122-136 | the hashtags are duplicate-free and are exactly the lower-cased non-empty pieces without a leading `#` |
| `Tags.NormaliseJoined` | ps_frontend/src/components/PostCard.tsx:122-136 | distinct lower-case hashtag words typed with spaces come back unchanged |
| `ClientApi.TextEntries` | ps_frontend/src/api/feed.ts:61-67 | a list field becomes one entry per element under the same key, in order |
| `ClientApi.PostFormReads` | ps_frontend/src/api/feed.ts:42-70 | reading any key of the built post form gives exactly the values that key was given: caption, privacy flag, the list elements, and the image or video file |
| `ClientApi.CaptionReadBack` | ps_frontend/src/api/feed.ts:45-47 | the caption is read back exactly when one was given |
| `ClientApi.PrivacyReadBack` | ps_frontend/src/api/feed.ts:57-59 | the privacy flag is read back as `"true"` or `"false"` exactly when one was given |
| `ClientApi.FilesReadBack` | ps_frontend/src/api/feed.ts:49-55 | the image and the video are read back exactly as given |
| `ClientApi.ListsReadBack` | ps_frontend/src/api/feed.ts:61-67 | the hashtag and tagged-user lists are read back in order, with an empty list read back as no list |
| `ClientApi.PostFormRoundTrip` | ps_frontend/src/api/feed.ts:42-70 | decoding the built post form gives back the parameters, except that an empty list comes back as no list |
| `ClientApi.PostsQuery` | ps_frontend/src/api/feed.ts:9-16 | the query holds nothing else than a username, exactly when a non-empty one is given, and a user id, exactly when one is given, as its decimal text; the username comes first, and with neither option the query is empty |
| `ClientApi.PostsEndpoint` | ps_frontend/src/api/feed.ts:18-19 | an empty query asks for the bare listing path, any other appends the encoded query |
| `ClientApi.UserIdQuerySelectsAuthor` | ps_frontend/src/api/feed.ts:14-16 | the server's `user_id` filter, given the decimal text the client sends, selects exactly that user's posts |
| `ClientApi.ProfileFormReads` | ps_frontend/src/api/auth.ts:99-125 | each profile field is read back exactly when given, the avatar file exactly as given, and `remove_avatar` only when set |
| `ClientApi.ProfileFormRoundTrip` | ps_frontend/src/api/auth.ts:99-125 | the settings input the server decodes from the profile form is the payload, with the avatar as its file name and a false remove flag sent as no flag |
| `ClientApi.Dashboard` | ps_frontend/src/api/auth.ts:127-137 | a 200 gives the user, a 401 gives no user, and every other failure is passed on unchanged |
| `Composer.FileKind` | ps_frontend/src/components/Composer.tsx:64-65 | an `image/` type is an image, otherwise a `video/` type is a video, and anything else is refused |
| `Composer.ResetPreview` | ps_frontend/src/components/Composer.tsx:38-45 | the attachment, its preview and its kind are all cleared, and the typed fields stay |
| `Composer.HandleFile` | ps_frontend/src/components/Composer.tsx:57-76 | choosing nothing changes nothing; any choice first drops the old attachment; an image or video is attached with its preview, anything else is refused and leaves no attachment; preview, file and kind stay in step; the typed text, tag inputs and privacy flag are kept |
| `Composer.Submit` | ps_frontend/src/components/Composer.tsx:78-103 | an empty untrimmed text with no file is refused and nothing else is; the request carries the text, the privacy flag, the parsed tags and hashtags, and the file as image exactly when it is an image and as video exactly when it is a video |
| `Composer.AfterSubmit` | ps_frontend/src/components/Composer.tsx:47-55 | a created post clears every field and the attachment; a failure keeps the composer as it was |
| `Composer.AtMostOneMedium` | ps_frontend/src/components/Composer.tsx:96-99 | the request never carries both an image and a video, and each carries a file of its own kind |
| `Composer.AttachmentPassesServer` | ps_frontend/src/components/Composer.tsx:96-99 | a request built with a named attachment passes the server's media check for new posts |
| `Composer.TextOnlyPostRefusedByServer` | ps_frontend/src/components/Composer.tsx:78-82 | a text-only post passes the composer's own check and is refused by the server's media check for new posts |
| `Composer.BlankTextCountsAsContent` | ps_frontend/src/components/Composer.tsx:79 | whitespace alone passes the emptiness check |
| `PostCard.Media` | ps_frontend/src/components/PostCard.tsx:98-106 | a non-empty video is shown, else a non-empty image, else no medium |
| `PostCard.UpdatedSincePublish` | ps_frontend/src/components/PostCard.tsx:111-113 | the post is marked updated exactly when its update time and creation time differ by more than a minute, in either direction |
| `PostCard.HandleLike` | ps_frontend/src/components/PostCard.tsx:138-161 | on success the like flag flips and the count moves one the same way; only the flag and the count change |
| `PostCard.LikeFailureRestores` | ps_frontend/src/components/PostCard.tsx:150-154 | a failed like request leaves the card as it was |
| `PostCard.LikeTwiceIsNoChange` | ps_frontend/src/components/PostCard.tsx:138-142 | two successful likes in a row cancel out |
| `PostCard.AdjustCount` | ps_frontend/src/components/PostCard.tsx:192 | the count moves by the change unless that would go below zero, where it stops at zero |
| `PostCard.HandleBookmark` | ps_frontend/src/components/PostCard.tsx:189-224 | the count is never negative, the flag flips exactly when the request succeeds, and only the flag and the count change |
| `PostCard.BookmarkFailureRestores` | ps_frontend/src/components/PostCard.tsx:209-217 | a failed bookmark request restores the card exactly when its count was not negative and at least one while bookmarked |
| `PostCard.BookmarkKeepsConsistent` | ps_frontend/src/components/PostCard.tsx:189-199 | a successful bookmark on a consistent card moves the count by one the same way as the flag, and keeps it consistent |
| `PostCard.CommentAdded` | ps_frontend/src/components/PostCard.tsx:163-171 | the new comment goes after the existing ones and the count rises by one; nothing else changes |
| `PostCard.CommentCountTracksList` | ps_frontend/src/components/PostCard.tsx:163-171 | a count that matched the comment list still matches it after a comment is added |
| `PostCard.HandleShare` | ps_frontend/src/components/PostCard.tsx:173-187 | the share count rises by one only when the request succeeds, and nothing else changes |
| `PostCard.PrivacyRequest` | ps_frontend/src/components/PostCard.tsx:228-235 | the toggle asks for the opposite privacy exactly when the viewer owns the post and no toggle is in flight |
| `PostCard.DeleteRequest` | ps_frontend/src/components/PostCard.tsx:256-260 | deletion of the post's id is requested exactly when the viewer owns the post |
| `PostCard.OthersSendNothing` | ps_frontend/src/components/PostCard.tsx:108 | a viewer who is not the author, or nobody signed in, never sends a privacy or delete request |
| `Avatar.Seed` | ps_frontend/src/lib/avatar.ts:22 | the seed is never empty: the username when present, else the caller's seed when present, else the fixed seed |
| `Avatar.DicebearUrl` | ps_frontend/src/lib/avatar.ts:13-14 | the address is the generator's prefix followed by the encoded seed, with the fixed seed standing in for an empty one |
| `Avatar.ResolveUserAvatar` | ps_frontend/src/lib/avatar.ts:16-24 | the result is never empty; a non-empty stored avatar is returned as it is, otherwise the generated image for the seed |
| `Avatar.GeneratedAvatarFollowsUsername` | ps_frontend/src/lib/avatar.ts:16-24 | without stored avatars, two records with the same username get the same image whatever their other fields and seeds |
| `Avatar.ResolveDisplayName` | ps_frontend/src/lib/avatar.ts:26-44 | no record gives ""; a display name non-blank under JavaScript's trim wins, trimmed; else the trimmed "first last" when non-empty; else the username or "" |
| `Avatar.DisplayNameShape` | ps_frontend/src/lib/avatar.ts:26-44 | the name is either already trimmed or the username; a record with a username never gets an empty name |
| `Avatar.DisplayNameFallsBackToFullName` | ps_frontend/src/lib/avatar.ts:36-41 | for a serialized user with a blank display name, and names holding neither U+FEFF nor the separators only Python strips, the client shows the same name as the server's `full_name` |
| `Avatar.SeparatorNameDisagrees` | ps_frontend/src/lib/avatar.ts:36-41 | for a first name U+001C, no last name and a blank display name, the client shows U+001C while the server's `full_name` falls back to the username |
| `Activity.Summarise` | ps_frontend/src/pages/Lists.tsx:74-85 | the post total is the list length; without a loaded profile the followers and following are 0 and the published count is the list length, with one they are the profile's counters |
| `Activity.TotalsAreSums` | ps_frontend/src/pages/Lists.tsx:50-64 | each of the four totals is the sum of that counter over the posts |
| `Activity.TopIsFirstMaximum` | ps_frontend/src/pages/Lists.tsx:66-72 | there is a top post iff there are posts; it is the first post of greatest engagement and the reported engagement is its own |
| `Activity.StepKeepsTop` | ps_frontend/src/pages/Lists.tsx:67-71 | one reducer step keeps the best post the first maximum of the prefix seen so far |
| `Activity.Leading` | ps_frontend/src/pages/Lists.tsx:88-102 | the first `limit` posts of the stable sort, as many as there are when fewer, and a sub-multiset of the posts |
| `Activity.RecentPosts` | ps_frontend/src/pages/Lists.tsx:88-92 | at most eight posts, a sub-multiset of the list, newest first |
| `Activity.RecentAreNewest` | ps_frontend/src/pages/Lists.tsx:88-92 | a post left out of the recent list is no newer than any post in it |
| `Activity.TopPosts` | ps_frontend/src/pages/Lists.tsx:94-102 | at most three posts, a sub-multiset of the list, highest engagement first |
| `Activity.TopAreMostEngaged` | ps_frontend/src/pages/Lists.tsx:94-102 | a post left out of the top list has no more engagement than any post in it |
| `Activity.PostTitle` | ps_frontend/src/pages/Lists.tsx:110-121 | lengths in UTF-16 units: a non-blank caption of at most 90 units as it is; a longer one is its longest prefix of at most 87 units and an ellipsis; a blank caption gives the label of the video, else the image, else "Untitled post"; never empty and at most 90 units |
| `Activity.CutTitle` | ps_frontend/src/pages/Lists.tsx:112 | a caption longer than 90 units is cut to its longest prefix of at most 87 units followed by an ellipsis, at most 88 units in all |
| `Activity.MediumLabel` | ps_frontend/src/pages/Lists.tsx:114-120 | the label of the video, else the image, else "Untitled post", one UTF-16 unit per character and within the title limit |
| `Activity.LongTitleIsPrefix` | ps_frontend/src/pages/Lists.tsx:112 | a long caption of characters from the Basic Multilingual Plane gets its first 87 characters and an ellipsis, shorter than the caption |
| `ProfileForm.FromAccount` | ps_frontend/src/pages/Profile.tsx:62-69 | the four text fields take the account's values with null as ""; the avatar state and editing flag are kept |
| `ProfileForm.BeginEdit` | ps_frontend/src/pages/Profile.tsx:71-84 | entering edit mode refills the fields from the account and clears the pending file, preview and remove flag |
| `ProfileForm.AvatarChange` | ps_frontend/src/pages/Profile.tsx:125-142 | a chosen file becomes the pending file with its preview and cancels removal; choosing nothing clears file and preview; text fields are untouched; a file and the remove flag are never both set afterwards |
| `ProfileForm.RemoveAvatar` | ps_frontend/src/pages/Profile.tsx:144-161 | a pending file is dropped; otherwise with a stored avatar the remove flag flips and the preview clears; with neither nothing changes; a form without a conflict stays without one |
| `ProfileForm.RemoveTwiceRestoresFlag` | ps_frontend/src/pages/Profile.tsx:153-155 | pressing remove twice with a stored avatar and no pending file gives back the original flag |
| `ProfileForm.Submit` | ps_frontend/src/pages/Profile.tsx:163-173 | all four text fields are sent as typed, with the pending file and the remove flag; a conflict-free form never sends both |
| `ProfileForm.SubmitAccepted` | ps_frontend/src/pages/Profile.tsx:163-173 | a conflict-free form within the length limits is accepted by the settings endpoint after the multipart round trip |
| `ProfileForm.ConflictRefused` | ps_frontend/src/pages/Profile.tsx:163-173 | a form sending a file and the remove flag together is refused by the endpoint with exactly the conflict error |
| `ProfileForm.CancelEdit` | ps_frontend/src/pages/Profile.tsx:175-192 | editing ends with no pending avatar change; with a signed-in user the fields are refilled from the account, otherwise kept |
| `ProfileForm.CancelDiscardsEdits` | ps_frontend/src/pages/Profile.tsx:175-192 | whatever was changed while editing, cancelling gives the state editing began with, except that editing is off |
| `ProfileForm.AfterSave` | ps_frontend/src/pages/Profile.tsx:109-118 | after a successful save the avatar change is dropped and editing ends; the text fields stay |
| `ProfileForm.PostsTotal` | ps_frontend/src/pages/Profile.tsx:220 | a non-zero fetched count wins; else the profile's count; else 0 |
| `ProfileForm.HeaderOverride` | ps_frontend/src/pages/Profile.tsx:237 | while removal is pending the header shows the fallback image, otherwise the pending preview if any |
| `ProfileForm.PendingFileShown` | ps_frontend/src/pages/Profile.tsx:237 | right after a file is chosen the header shows its preview |
| `ErrorMessages.Lookup` | ps_frontend/src/pages/ForgotPassword.tsx:21 | a found value sits under the key in some field; a key no field has gives nothing |
| `ErrorMessages.FirstEntry` | ps_frontend/src/pages/ForgotPassword.tsx:25-27 | the first field of a non-empty object, index "0" of a non-empty list, nothing for anything else |
| `ErrorMessages.PageMessage` | ps_frontend/src/pages/ForgotPassword.tsx:15-38 | a failure that is not an HTTP error, or has no body, shows the fallback text; a string body is shown as it is |
| `ErrorMessages.FormMessage` | ps_frontend/src/pages/Signup.tsx:27-51 | a failure that is not an HTTP error shows the page's other default; a missing or falsy body shows the page's HTTP default |
| `ErrorMessages.HandlersAgree` | ps_frontend/src/pages/Login.tsx:44-69 | with the same defaults the pages' two handlers show the same message for every failure except an empty-string body |
| `ErrorMessages.DetailShown` | ps_frontend/src/pages/VerifyEmail.tsx:16-39 | a body whose `detail` is a non-empty string shows that string in both handlers |
| `ErrorMessages.FieldErrorShown` | ps_frontend/src/pages/VerifyEmail.tsx:16-39 | a field-error body without `detail` shows the first field's first message in both handlers |
| `AuthForms.DigitsOnly` | ps_frontend/src/pages/ForgotPassword.tsx:121 | the result is all digits, keeps the input's order, and holds each digit exactly as many times as the input |
| `AuthForms.DigitsOnlyKeepsDigits` | ps_frontend/src/pages/ForgotPassword.tsx:121 | a code typed as digits only is unchanged |
| `AuthForms.WithoutSpaces` | ps_frontend/src/pages/VerifyEmail.tsx:109 | the result has no JavaScript whitespace, keeps the input's order, and holds every other character exactly as many times as the input |
| `AuthForms.WithoutSpacesKeepsDigits` | ps_frontend/src/pages/VerifyEmail.tsx:109 | a code of digits only is unchanged by the whitespace removal |
| `AuthForms.SignupError` | ps_frontend/src/pages/Signup.tsx:27-51 | a non-HTTP failure shows the generic text; an HTTP failure without body shows the sign-up default |
| `AuthForms.LoginError` | ps_frontend/src/pages/Login.tsx:44-69 | a non-HTTP failure shows the sign-in unavailable text; an HTTP failure without body shows the invalid-credentials text |
| `AuthForms.SignupSubmit` | ps_frontend/src/pages/Signup.tsx:55-78 | the form is refused iff a required field is empty, the password is shorter than eight UTF-16 units or the confirmation differs (missing fields reported first); otherwise the registration is sent as typed, with empty names left out |
| `AuthForms.AfterSignupVerifiesNewAccount` | ps_frontend/src/pages/Signup.tsx:23-26 | after a registration the verification page starts with the typed email, and the server resolves that email to the account just created |
| `AuthForms.SignupPasswordAgreesWithServer` | ps_frontend/src/pages/Signup.tsx:61-68 | a password the page accepts, without surrounding JavaScript whitespace, without the separators only Python strips and within the Basic Multilingual Plane, fails none of the server's length or match checks |
| `AuthForms.PaddedPasswordRefusedByServer` | ps_frontend/src/pages/Signup.tsx:61 | an eight-character password of seven spaces and a letter passes the page and is refused by the server as too short |
| `AuthForms.SeparatorPaddedPasswordRefusedByServer` | ps_frontend/src/pages/Signup.tsx:61 | a password of a letter and seven U+001C passes the page, whose trim keeps them, and is refused by the server as too short |
| `AuthForms.AstralPasswordRefusedByServer` | ps_frontend/src/pages/Signup.tsx:61 | four emoji are eight UTF-16 units and pass the page, and are four characters at the server, which refuses them as too short |
| `AuthForms.LoginSubmit` | ps_frontend/src/pages/Login.tsx:72-79 | refused iff the email or password is empty; otherwise a sign-in by email with the typed password |
| `AuthForms.LoginNamesEmail` | ps_frontend/src/pages/Login.tsx:78 | the server's identifier for a sent sign-in is the stripped typed email, or none when the email or password strips to nothing |
| `AuthForms.LoginInitialEmail` | ps_frontend/src/pages/Login.tsx:17-20 | the sign-in page starts with the router state's email, or "" without one |
| `AuthForms.AfterLogin` | ps_frontend/src/pages/Login.tsx:33-43 | a sign-in needing verification goes to the verification page without refreshing; any other refreshes and goes home |
| `AuthForms.LoginOutcomeRoutes` | ps_frontend/src/pages/Login.tsx:33-43 | the server's pending-verification outcome leads to the verification page and a completed login leads home |
| `AuthForms.InitialEmail` | ps_frontend/src/pages/VerifyEmail.tsx:51-62 | the router state's email when non-empty, else the signed-in user's, else the remembered one, else "" |
| `AuthForms.RememberEmail` | ps_frontend/src/pages/VerifyEmail.tsx:65-69 | a non-empty email is remembered; an empty one leaves the stored value |
| `AuthForms.PendingEmailSurvivesReload` | ps_frontend/src/pages/VerifyEmail.tsx:51-69 | after a reload without router state or user the page comes back to the email it held |
| `AuthForms.VerifySubmit` | ps_frontend/src/pages/VerifyEmail.tsx:100-111 | refused iff the code has fewer than six digits; the code sent is the typed one without whitespace; the email is sent iff non-empty |
| `AuthForms.IssuedCodeVerifies` | ps_frontend/src/pages/VerifyEmail.tsx:100-111 | the server's six-digit code, typed as it is, is accepted and sent unchanged |
| `AuthForms.EmptyEmailUsesSession` | ps_frontend/src/pages/VerifyEmail.tsx:108 | a verification without an email is checked by the server against the session's pending account |
| `AuthForms.ResendSubmit` | ps_frontend/src/pages/VerifyEmail.tsx:113-119 | a resend is sent iff the email is non-empty, and carries that email |
| `AuthForms.AfterVerify` | ps_frontend/src/pages/VerifyEmail.tsx:73-84 | the pending email is forgotten; the page goes home iff the refreshed user is verified, else to sign-in |
| `AuthForms.FreshReset` | ps_frontend/src/pages/ForgotPassword.tsx:45-54 | the reset page starts at the request step with the router state's email and empty code and passwords |
| `AuthForms.Persist` | ps_frontend/src/pages/ForgotPassword.tsx:80-86 | at the code step the step and email are stored; at the request step nothing is |
| `AuthForms.Restore` | ps_frontend/src/pages/ForgotPassword.tsx:62-78 | a stored code step is resumed with its email when non-empty; unparsable storage is removed; anything else changes nothing; code and passwords are never touched |
| `AuthForms.ResetSurvivesReload` | ps_frontend/src/pages/ForgotPassword.tsx:62-86 | a reload at the code step with an email returns to the code step with that email; at the request step it returns to a fresh page |
| `AuthForms.RequestSubmit` | ps_frontend/src/pages/ForgotPassword.tsx:110-117 | a reset code is requested iff the email is non-empty, under the same rule as a resend |
| `AuthForms.AfterRequest` | ps_frontend/src/pages/ForgotPassword.tsx:90-93 | a successful request moves to the code step and changes nothing else |
| `AuthForms.ResetSubmit` | ps_frontend/src/pages/ForgotPassword.tsx:119-142 | a code with fewer than six digits is refused first, then missing passwords, then a mismatch; otherwise the email, the code's digits and the password twice are sent |
| `AuthForms.ResetAgreesWithServer` | ps_frontend/src/pages/ForgotPassword.tsx:119-142 | what the page sends has an all-digit code and never fails the server's password-match check |
| `AuthForms.ResetThenLoginFindsAccount` | ps_frontend/src/pages/ForgotPassword.tsx:101-104 | after a reset the sign-in page starts with the reset email, and signing in there with the new password names the reset account and the stored password |
| `AuthForms.StartOver` | ps_frontend/src/pages/ForgotPassword.tsx:152-157 | back to the request step with the email kept, the code and passwords cleared, and nothing left to store |
| `AuthSession.ShouldRetry` | ps_frontend/src/context/AuthContext.tsx:57-62 | retry iff the error is not a 401 and fewer than two failures have happened |
| `AuthSession.Run` | ps_frontend/src/context/AuthContext.tsx:48-64 | the result is the last attempt's answer through `fetchDashboard`, every earlier attempt failed, and from the start at most three attempts are made, exactly three when the result is a failure |
| `AuthSession.FetchUser` | ps_frontend/src/context/AuthContext.tsx:48-64 | one to three attempts; the result is the last attempt's and all earlier attempts failed |
| `AuthSession.PersistentFailureTriesThrice` | ps_frontend/src/context/AuthContext.tsx:57-62 | a server failing every time is asked three times and its third failure is the query's error |
| `AuthSession.SignedOutAtOnce` | ps_frontend/src/api/auth.ts:127-137 | a 401 on the first attempt ends the fetch after one attempt with no user |
| `AuthSession.RetryNeverSees401` | ps_frontend/src/context/AuthContext.tsx:57-62 | every error the fetch raises is not a 401, so the retry rule reduces to the failure count |
| `AuthSession.Value` | ps_frontend/src/context/AuthContext.tsx:82-91 | the user is the cached one; loading holds iff the query is pending or the CSRF prefetch has not finished; refreshing is the fetching flag |
| `RouteGuards.Protected` | ps_frontend/src/components/ProtectedRoute.tsx:10-32 | a spinner iff loading or refreshing; the page iff settled with a verified user; sign-in iff settled without a user; otherwise verification |
| `RouteGuards.Public` | ps_frontend/src/components/PublicRoute.tsx:10-27 | a spinner iff loading or refreshing; home iff settled with a verified user; otherwise the page |
| `RouteGuards.ExactlyOneAdmits` | ps_frontend/src/components/ProtectedRoute.tsx:14-31 | once settled, the protected pages open iff the public pages redirect home |
| `RouteGuards.UnverifiedUserBetweenGuards` | ps_frontend/src/components/PublicRoute.tsx:22-26 | a settled unverified user is sent to verification by protected pages and may open the public ones |
| `RouteGuards.SignedOutGoesToLogin` | ps_frontend/src/context/AuthContext.tsx:71-80 | whether or not the logout request succeeds, right after the cache is cleared and before the refetch, a settled provider sends protected pages to sign-in and opens the public pages |
| `AuthSession.LogoutRefetched` | ps_frontend/src/context/AuthContext.tsx:71-80 | the refetch after clearing the cache yields a user only if the server answered with that user, none after a 401, and the user of a first successful answer |
| `RouteGuards.EndedSessionGoesToLogin` | ps_frontend/src/context/AuthContext.tsx:71-80 | when the server has ended the session, after the refetch protected pages still go to sign-in and the public pages open |
| `RouteGuards.LiveSessionReturns` | ps_frontend/src/context/AuthContext.tsx:71-80 | when the logout request failed and the session is alive, the refetch restores the verified user: protected pages open and the sign-in page redirects home |
| `NotificationsHook.Listed` | ps_frontend/src/hooks/useNotifications.ts:30 | the fetched list, or none before it arrives |
| `NotificationsHook.UnreadCount` | ps_frontend/src/hooks/useNotifications.ts:23-26 | exactly the number of listed notifications that are unread; 0 iff every listed one is read |
| `NotificationsHook.BadgeCountsUnread` | ps_frontend/src/hooks/useNotifications.ts:23-26 | over the fetched inbox the badge equals the store's count of the user's unread notifications, the count `mark_all_read` reports |
| `Sidebar.CommunityUsers` | ps_frontend/src/components/LeftSidebar.tsx:30-47 | a reordering of the directory in which the viewer's entry precedes all others and entries of the same kind are ordered by username |
| `Sidebar.CommunityOrder` | ps_frontend/src/components/LeftSidebar.tsx:36-44 | in a list sorted by the comparator's key a later viewer entry forces an earlier one, and same-kind entries are in username order |
| `Sidebar.CommunityUsersStable` | ps_frontend/src/components/LeftSidebar.tsx:36-44 | entries the comparator ties keep their directory order |
| `Sidebar.ViewerFirst` | ps_frontend/src/components/LeftSidebar.tsx:37-42 | when the viewer is in the directory the list starts with the viewer |

## Left out

- Rendering, styling, React hook scheduling and react-query refetching: only the updaters and decisions are modelled.
- The network, e-mail delivery, the WebSocket broadcast and database transactions: each endpoint is one atomic step over the in-memory tables.
- Password hashing and Django's `validate_password`: a password-strength verdict is a parameter. `authenticate()` is an opaque predicate over user id and password, so how the authentication backend treats inactive users is outside the model.
- `default_token_generator`, urlsafe base64 uid decoding and `ActivateAccountSerializer`: `AuthViews.Activate` starts from the user that a valid token names.
- `parse_datetime` and time-zone handling of the `before` cursor: the cursor is given already parsed, as an optional integer instant.
- Python's `int()` on query strings is modelled for base-10 digits with surrounding whitespace and one sign. Underscore digit separators and non-ASCII digits are not modelled.
- E-mail format validation of `EmailField` (its stripping is modelled, as for `CharField`) and Django's own username validators.
- Case folding is ASCII only; `iexact` and `toLowerCase` on non-ASCII letters are not modelled. Database collation and `localeCompare` are approximated by ordinal comparison of character codes.
- `ChatServer.ChatFullName`: the contract does not pin down whether a blank full name falls back to the stripped or the raw username; the code returns the stripped username when that is non-empty.
- The conversation list endpoint (`ConversationViewSet.get_queryset` ordering) and the message list endpoint (`MessageViewSet`).
- The URL pattern `[\w.@+-]+` that the router imposes on usernames in follow and unfollow URLs; a username that does not match never reaches the view.
- Avatar storage: an uploaded avatar is its file name, deleting the old file and building absolute URLs are not modelled.
- The serialized user and notification records as a whole: only the derived fields (`full_name`, `display_name`, `is_following`, `is_self`, `message`, `can_follow_back`, `follow_back_url`) and the follower counts are modelled. The notification actor's `full_name` uses Django's already-trimmed `get_full_name()`, so it agrees with `Directory.PublicFullName`.
- The comment action of the feed (`PostViewSet.comment`) and the bookmark listing (`BookmarkViewSet`): comments are counted but not created.
- File URLs: a stored file is serialized as its name; `build_absolute_uri` is not modelled.
- The videos page's player controls (play, pause, mute, fit mode, full screen, the `ended` event), its relative-time labels and `handleSelectVideo`, which only sets the active id. The video count is the list length.
- Videos.LatestIsNewest: says nothing about upload times at or before the epoch. For those the reducer's test of the falsy 0 lets a later post overwrite an earlier non-positive maximum; the reducer itself (`Videos.Step`) is modelled as written.
- The home page's `deleteStoryMutation.isPending` guard: a second delete while one is in flight is dropped, which concerns request scheduling only. The viewer's relative times (`formatDistanceToNowStrict`) and avatar fallback image are presentation.
- The post API's other wrappers (`updatePost`, likes, bookmarks, shares, comments, stories) and the simple JSON wrappers of the auth API: each is one request to a fixed path. `getGoogleAuthUrl` and `ensureCsrfCookie` concern URL building and cookies. URL encoding of the listing query is a parameter of `ClientApi.PostsEndpoint`.
- The composer's object URLs and their revocation, the toast messages and the `onCreate` callback: the object URL is a parameter of `Composer.HandleFile`.
- The post card's edit dialog, its comments modal and the re-sync from the `post` prop: the card's copy of the post is the whole state, and the privacy toggle's success replaces it with the server's post.

- The avatar generator's `encodeURIComponent` is a parameter of `Avatar.DicebearUrl`.
- The activity page's header (display name, avatar, username fallbacks) and number formatting: these reuse `Avatar` and are presentation.
- The profile page's object-URL revocation, its sign-out button, the refresh-on-mount effect and the header fields other than the post count and avatar override.
- The sign-in pages' Google buttons, success toasts, pending flags and the effects that copy a later router-state email into the field: the router-state email is the page's starting email.
- CreateConversation: its direct branch and `StartConversation`'s use the corrected lookup `ChatServer.GetOrCreateDirect`, so they return an existing conversation with 200, which the code as written never does (see Findings; the as-written lookup is `ChatServer.GetOrCreateDirectAsWritten`).
- StartConversation: uses the corrected direct lookup, as `CreateConversation` does (see Findings).
- StartTwiceFindsSame: holds of the corrected direct lookup; of the code as written, `ChatServer.AsWrittenTwiceMakesTwo` holds instead (see Findings).
- CreateConversation: `force_new` is a boolean; the code's `bool(...)` of a form value makes a non-empty string such as "false" truthy, which is not modelled.
- VerifyOtp and PasswordResetVerify: the serializer refuses a blank code and one longer than 10 characters before the view runs; here such a code reaches the check, where it never matches a stored six-digit code.
- ValidateRegistration: a blank password is reported as too short, where the framework reports it as blank; the 150-character limits of the username and names are not modelled.
- ValidateResetConfirm: a blank or whitespace-only new password or confirmation is reported as too short, where the framework reports it as blank, as for registration.
- ResetFieldErrors: the same blank-as-too-short reporting as ValidateResetConfirm, which takes its field errors from it.
- The framework's refusal of the null character U+0000 is modelled only for message content (`ChatServer.ValidateContent`); the account, settings and directory fields do not model it.
- ChatServer.ValidateContent: content both longer than 4000 characters and holding U+0000 gets both errors from the framework; the model reports only the length error.
- PostTitle: a cut that falls between the two halves of a surrogate pair drops the whole character, where JavaScript keeps a lone high surrogate; lone surrogates are not representable as Dafny characters, so `Strings.Utf16Prefix` stops before the pair.
- Activity.CutTitle: the same surrogate-pair gap as PostTitle, since it cuts through `Strings.Utf16Prefix`; its prefix can be one UTF-16 unit shorter than the 87 units JavaScript keeps.
- ErrorMessages.Lookup: takes the first field with the key; a body with a repeated key is not modelled (`JSON.parse` keeps the last).
- ErrorMessages.FirstEntry: takes the first field in the body's order; JavaScript lists integer-like keys first, and the error bodies the server sends have none.
- The query library's scheduling: retry delays, cancellation, stale times, refetch on focus and the notifications polling interval. `refresh` returns the query's data, which `AuthSession.FetchUser` models.
- The sidebar's navigation items are fixed links; the community list is computed but its rendering is commented out in the page.

## Findings

| source | as written | input that shows it | evidently intended | confidence | as-written member | corrected member |
|---|---|---|---|---|---|---|
| ps_backend/chatapp/views.py:89-97 | one `filter(participants__user_id=…)` per user adds one join each, and the `Count("participants")` annotation counts over the last join only, so a conversation's count is at most 1 and never equals the two participants | two users asking twice for their direct conversation: the second request creates a second conversation and answers 201 | find the one-to-one conversation whose members are exactly the participants and return it with 200 | not executed | `ChatServer.GetOrCreateDirectAsWritten`, `ChatServer.AsWrittenTwiceMakesTwo` | `ChatServer.GetOrCreateDirect`, `ChatServer.GetOrCreateDirectIdempotent` |

## Notes on the code

- In `ConversationViewSet.create` the check for fewer than two participants (ps_backend/chatapp/views.py:46-47) can never fire: `_resolve_participants` either raises or returns the requester followed by at least one other user. `ChatServer.ResolveParticipants` proves the length is at least 2.
- Every text field of the serializers (usernames, names, emails, passwords, codes, message content) is a Django REST framework `CharField` or `EmailField`, which strips surrounding whitespace with Python's `str.strip` before its other checks. So a password's length is counted after stripping, the stripped password is stored, and the login password is stripped before `authenticate`.
- JavaScript's `trim` and `\s` and Python's `str.strip` use different whitespace sets: JavaScript also strips U+FEFF, Python also strips the separators U+001C to U+001F and U+0085. `Strings.JsTrim` and `Strings.PyStrip` model each. Where a value crosses from client to server the two disagree: a chat draft of U+001C is sent and refused as blank (`ChatServer.SeparatorDraftRefused`), a first name of U+001C is shown by the client where the server falls back to the username (`Avatar.SeparatorNameDisagrees`), and a password padded with U+001C passes the sign-up page and is refused as too short (`AuthForms.SeparatorPaddedPasswordRefusedByServer`).
- Every framework `CharField` refuses the null character U+0000, which the chat page treats as ordinary text, so a draft holding one is sent and refused (`ChatServer.NullDraftRefused`).
- JavaScript's `length` counts UTF-16 units and Python's `len` counts code points, so four emoji pass the sign-up page's eight-character check and are refused by the server as too short (`AuthForms.AstralPasswordRefusedByServer`).
- The chat client moves a conversation to the head and appends messages. It does not de-duplicate messages by id, re-sort conversations by time, or merge message pages.
- The directory's `posts_count` field reads an annotation the directory query never adds, so it is always 0 in listings.
- `get_object` in the directory applies the listing's `q` filter too, so a follow request carrying a `q` that excludes the target answers 404. `Directory.LookupUser` takes the query for this reason.
- The home page runs the story list updater before the index updater, so the index updater sees the removed position and the new length. The index updater can leave an index that was already past the end of the strip past the end again; the page clamps it with `Math.min` before the viewer sees it (`HomeFeed.ViewerIndex`).
- A text-only post passes the composer's check (`!text && !file`), but the server requires an image or a video on creation, so it is refused there (`Composer.TextOnlyPostRefusedByServer`). The composer's check also looks at the untrimmed text.
- The post card's bookmark rollback restores the count only from a consistent state: a card showing a bookmarked post with count 0 shows count 1 after a failed unbookmark (`PostCard.BookmarkFailureRestores`).
- The post card's `normaliseUsernames` and `normaliseHashtags` are defined but not called by the card; the composer parses its tags the same way without lower-casing or de-duplicating.
- The activity page's published-post count reads the profile's `posts_count`, which the directory always reports as 0, so the count drops to 0 once the profile has loaded (`Activity.Summarise`). The profile header's `postsTotal` falls back to the same field.
- The activity page's top post can have no engagement at all: the first post leads even at 0 (`Activity.TopIsFirstMaximum`), unlike the videos page.
- The sign-up page counts the password's length before trimming, the server after, so a padded short password passes the page and is refused by the server (`AuthForms.PaddedPasswordRefusedByServer`).
- The verification page checks that the code has six digits but sends the code with only whitespace removed, so a code typed with other separators passes the page and then fails the server's comparison. The reset page sends the digits only.
- Signing out clears the cached user and then invalidates the query, which refetches it at once. If the logout request failed and the session is still alive, the refetch restores the user, protected pages open again and the sign-in page redirects home (`RouteGuards.LiveSessionReturns`). The redirect to sign-in is lasting only when the server has ended the session (`RouteGuards.EndedSessionGoesToLogin`).
- The verification middleware reads `request.resolver_match` before calling the next handler, and Django sets that attribute only while resolving the URL inside the handler. So in practice the middleware always resolves the path itself, and the first case of `VerificationMiddleware.EffectiveMatch` (an already present match) is kept only to mirror the code.
- The session query's retry rule refuses to retry a 401, but `fetchDashboard` already turns a 401 into "signed out", so that branch is never reached (`AuthSession.RetryNeverSees401`).
- The password-reset and verification pages show an empty-string error body as an empty toast; the sign-up and sign-in pages show their default text instead (`ErrorMessages.HandlersAgree`).

=== FILE: activity.dfy ===
/** The activity page: totals over the signed-in user's own posts, the top
    post, the recent and top lists, and the title shown for a post. */
module Activity {
  import opened Wrappers
  import Seqs
  import opened ClientTypes
  import Videos
  import Strings

  /** The counters of the user's public profile, once it has loaded. */
  datatype ProfileCounts = ProfileCounts(followersCount: int, followingCount: int, postsCount: int)

  datatype Summary = Summary(
    totalPosts: nat,
    totalLikes: int,
    totalComments: int,
    totalShares: int,
    totalBookmarks: int,
    followers: int,
    following: int,
    publishedPosts: int,
    topPost: Option<Post>,
    topEngagement: int)

  /** The reducer state: the four totals and the best post so far. */
  datatype Acc = Acc(likes: int, comments: int, shares: int, bookmarks: int, best: Option<Post>, bestEngagement: int)

  const Start := Acc(0, 0, 0, 0, None, 0)

  /** One step: add the counters; the first post always leads, a later one
      only with strictly more engagement. */
  function Step(acc: Acc, p: Post): Acc {
    var e := Engagement(p);
    var leads := acc.best.None? || e > acc.bestEngagement;
    Acc(
      acc.likes + p.likesCount,
      acc.comments + p.commentsCount,
      acc.shares + p.sharesCount,
      acc.bookmarks + p.bookmarksCount,
      if leads then Some(p) else acc.best,
      if leads then e else acc.bestEngagement)
  }

  /** The reduce, from the first post to the last. */
  function Fold(posts: seq<Post>): Acc
    decreases |posts|
  {
    if |posts| == 0 then Start
    else Step(Fold(posts[..|posts| - 1]), posts[|posts| - 1])
  }

  /** `activitySummary`: the totals, the profile counters with their
      fallbacks, and the top post. */
  function Summarise(posts: seq<Post>, profile: Option<ProfileCounts>): (r: Summary)
    ensures r.totalPosts == |posts|
    ensures profile.None? ==> r.followers == 0 && r.following == 0 && r.publishedPosts == |posts|
    ensures profile.Some? ==>
      r.followers == profile.value.followersCount && r.following == profile.value.followingCount && r.publishedPosts == profile.value.postsCount
  {
    var acc := Fold(posts);
    Summary(
      |posts|, acc.likes, acc.comments, acc.shares, acc.bookmarks,
      if profile.Some? then profile.value.followersCount else 0,
      if profile.Some? then profile.value.followingCount else 0,
      if profile.Some? then profile.value.postsCount else |posts|,
      acc.best, acc.bestEngagement)
  }

  /** The four totals are the sums of their counters over the posts. */
  lemma {:induction false} TotalsAreSums(posts: seq<Post>, profile: Option<ProfileCounts>)
    ensures var s := Summarise(posts, profile);
      && s.totalLikes == Seqs.Sum(posts, Videos.LikesOf)
      && s.totalComments == Seqs.Sum(posts, Videos.CommentsOf)
      && s.totalShares == Seqs.Sum(posts, Videos.SharesOf)
      && s.totalBookmarks == Seqs.Sum(posts, Videos.SavesOf)
  {
    FoldSums(posts);
  }

  lemma {:induction false} FoldSums(posts: seq<Post>)
    ensures var a := Fold(posts);
      && a.likes == Seqs.Sum(posts, Videos.LikesOf)
      && a.comments == Seqs.Sum(posts, Videos.CommentsOf)
      && a.shares == Seqs.Sum(posts, Videos.SharesOf)
      && a.bookmarks == Seqs.Sum(posts, Videos.SavesOf)
    decreases |posts|
  {
    if |posts| > 0 {
      var w := posts[..|posts| - 1];
      var p := posts[|posts| - 1];
      assert posts == w + [p];
      FoldSums(w);
      Seqs.SumAppend(w, [p], Videos.LikesOf);
      Seqs.SumAppend(w, [p], Videos.CommentsOf);
      Seqs.SumAppend(w, [p], Videos.SharesOf);
      Seqs.SumAppend(w, [p], Videos.SavesOf);
    }
  }

  /** The top post is the first post of highest engagement, with that
      engagement; there is none only when there are no posts. Unlike the
      videos page, a post with no engagement can be the top post. */
  lemma {:induction false} TopIsFirstMaximum(posts: seq<Post>, profile: Option<ProfileCounts>)
    ensures var s := Summarise(posts, profile);
      && (s.topPost.None? <==> |posts| == 0)
      && (s.topPost.None? ==> s.topEngagement == 0)
      && (s.topPost.Some? ==>
            && s.topEngagement == Engagement(s.topPost.value)
            && exists k :: Videos.FirstMaximum(posts, k) && posts[k] == s.topPost.value)
  {
    FoldTop(posts);
  }

  /** What the reducer knows about the best post of `posts`. */
  ghost predicate TopInvariant(posts: seq<Post>, a: Acc) {
    && (a.best.None? <==> |posts| == 0)
    && (a.best.None? ==> a.bestEngagement == 0)
    && (a.best.Some? ==>
          && a.bestEngagement == Engagement(a.best.value)
          && exists k :: Videos.FirstMaximum(posts, k) && posts[k] == a.best.value)
  }

  lemma {:induction false} FoldTop(posts: seq<Post>)
    ensures TopInvariant(posts, Fold(posts))
    decreases |posts|
  {
    if |posts| > 0 {
      var w := posts[..|posts| - 1];
      var p := posts[|posts| - 1];
      assert posts == w + [p];
      FoldTop(w);
      StepKeepsTop(w, p, Fold(w));
    }
  }

  lemma StepKeepsTop(w: seq<Post>, p: Post, a: Acc)
    requires TopInvariant(w, a)
    ensures TopInvariant(w + [p], Step(a, p))
  {
    var posts := w + [p];
    assert forall j :: 0 <= j < |w| ==> posts[j] == w[j];
    if a.best.None? {
      assert Videos.FirstMaximum(posts, 0);
    } else if Engagement(p) > a.bestEngagement {
      var k0 :| Videos.FirstMaximum(w, k0) && w[k0] == a.best.value;
      assert Videos.FirstMaximum(posts, |w|);
    } else {
      var k :| Videos.FirstMaximum(w, k) && w[k] == a.best.value;
      assert Videos.FirstMaximum(posts, k);
    }
  }

  // ---------------------------------------------------------------------
  // Recent and top lists
  // ---------------------------------------------------------------------

  const RecentLimit := 8
  const TopLimit := 3

  function Min(a: int, b: int): int {
    if a < b then a else b
  }

  /** The first `limit` posts of the stable sort for `option`. */
  function Leading(posts: seq<Post>, option: Videos.SortOption, limit: nat): (r: seq<Post>)
    ensures |r| == Min(limit, |posts|)
    ensures r == Videos.SortedVideos(posts, option)[..|r|]
    ensures multiset(r) <= multiset(posts)
  {
    var sorted := Videos.SortedVideos(posts, option);
    assert |sorted| == |posts| by {
      assert |multiset(sorted)| == |multiset(posts)|;
    }
    Seqs.PrefixMultiset(sorted, Min(limit, |posts|));
    sorted[..Min(limit, |posts|)]
  }

  /** `recentPosts`: at most eight posts, newest first. */
  function RecentPosts(posts: seq<Post>): (r: seq<Post>)
    ensures |r| == Min(RecentLimit, |posts|)
    ensures forall i, j :: 0 <= i < j < |r| ==> r[i].createdAt >= r[j].createdAt
    ensures forall q :: q in r ==> q in posts
    ensures multiset(r) <= multiset(posts)
  {
    var r := Leading(posts, Videos.Recent, RecentLimit);
    LeadingFromPosts(posts, Videos.Recent, RecentLimit);
    r
  }

  /** `topPosts`: at most three posts, highest engagement first. */
  function TopPosts(posts: seq<Post>): (r: seq<Post>)
    ensures |r| == Min(TopLimit, |posts|)
    ensures forall i, j :: 0 <= i < j < |r| ==> Engagement(r[i]) >= Engagement(r[j])
    ensures forall q :: q in r ==> q in posts
    ensures multiset(r) <= multiset(posts)
  {
    var r := Leading(posts, Videos.ByEngagement, TopLimit);
    LeadingFromPosts(posts, Videos.ByEngagement, TopLimit);
    r
  }

  lemma LeadingFromPosts(posts: seq<Post>, option: Videos.SortOption, limit: nat)
    ensures forall q :: q in Leading(posts, option, limit) ==> q in posts
  {
    var sorted := Videos.SortedVideos(posts, option);
    forall q | q in Leading(posts, option, limit) ensures q in posts {
      assert q in multiset(sorted);
    }
  }

  /** A post left out of the recent list is no newer than any post in it. */
  lemma RecentAreNewest(posts: seq<Post>, q: Post)
    requires q in posts && q !in RecentPosts(posts)
    ensures forall i :: 0 <= i < |RecentPosts(posts)| ==> q.createdAt <= RecentPosts(posts)[i].createdAt
  {
    var sorted := Videos.SortedVideos(posts, Videos.Recent);
    var r := RecentPosts(posts);
    assert q in multiset(sorted);
    var k :| 0 <= k < |sorted| && sorted[k] == q;
  }

  /** A post left out of the top list has no more engagement than any post in it. */
  lemma TopAreMostEngaged(posts: seq<Post>, q: Post)
    requires q in posts && q !in TopPosts(posts)
    ensures forall i :: 0 <= i < |TopPosts(posts)| ==> Engagement(q) <= Engagement(TopPosts(posts)[i])
  {
    var sorted := Videos.SortedVideos(posts, Videos.ByEngagement);
    var r := TopPosts(posts);
    assert q in multiset(sorted);
    var k :| 0 <= k < |sorted| && sorted[k] == q;
  }

  // ---------------------------------------------------------------------
  // Post titles
  // ---------------------------------------------------------------------

  const TitleMax := 90
  const TitleCut := 87
  const Ellipsis: char := '…'

  /** `r` is the longest prefix of `caption` within 87 UTF-16 units,
      followed by the ellipsis, and that prefix is shorter than the caption. */
  predicate IsCutTitle(r: string, caption: string) {
    && |r| > 0 && r[|r| - 1] == Ellipsis
    && var t := r[..|r| - 1];
       |t| < |caption| && t == caption[..|t|]
       && Strings.Utf16Length(t) <= TitleCut < Strings.Utf16Length(caption[..|t| + 1])
  }

  /** `caption.slice(0, 87) + "…"` for a caption longer than 90 units. */
  function CutTitle(caption: string): (r: string)
    requires Strings.Utf16Length(caption) > TitleMax
    ensures 0 < |r| <= Strings.Utf16Length(r) <= TitleCut + 1
    ensures IsCutTitle(r, caption)
  {
    var t := Strings.Utf16Prefix(caption, TitleCut);
    Strings.Utf16LengthAppend(t, [Ellipsis]);
    assert Strings.Utf16Length([Ellipsis]) == 1;
    assert |t| == |caption| ==> t == caption;
    assert (t + [Ellipsis])[..|t|] == t;
    t + [Ellipsis]
  }

  /** `getPostTitle`: a non-blank caption, cut to 87 UTF-16 units and an
      ellipsis when longer than 90 units; otherwise a label for the medium. */
  function PostTitle(p: Post): (r: string)
    ensures 0 < |r| <= Strings.Utf16Length(r) <= TitleMax
    ensures Strings.JsTrim(p.caption) != "" && Strings.Utf16Length(p.caption) <= TitleMax ==> r == p.caption
    ensures Strings.JsTrim(p.caption) != "" && Strings.Utf16Length(p.caption) > TitleMax ==> IsCutTitle(r, p.caption)
    ensures Strings.JsTrim(p.caption) == "" ==>
      r == (if Present(p.video) then "Video upload" else if Present(p.image) then "Photo update" else "Untitled post")
  {
    if Strings.JsTrim(p.caption) != "" then
      if Strings.Utf16Length(p.caption) > TitleMax then CutTitle(p.caption)
      else
        assert |p.caption| > 0;
        p.caption
    else MediumLabel(p)
  }

  /** The label of a post without a caption, which is all ASCII. */
  function MediumLabel(p: Post): (r: string)
    ensures r == (if Present(p.video) then "Video upload" else if Present(p.image) then "Photo update" else "Untitled post")
    ensures 0 < |r| == Strings.Utf16Length(r) <= TitleMax
  {
    if Present(p.video) then VideoLabelUnits(); "Video upload"
    else if Present(p.image) then PhotoLabelUnits(); "Photo update"
    else UntitledLabelUnits(); "Untitled post"
  }

  // Each label is ASCII, so it takes one UTF-16 unit per character.

  lemma VideoLabelUnits()
    ensures Strings.Utf16Length("Video upload") == 12
  {
    var t := "Video upload";
    assert forall k :: 0 <= k < |t| ==> (t[k] as int) < 0x10000;
  }

  lemma PhotoLabelUnits()
    ensures Strings.Utf16Length("Photo update") == 12
  {
    var t := "Photo update";
    assert forall k :: 0 <= k < |t| ==> (t[k] as int) < 0x10000;
  }

  lemma UntitledLabelUnits()
    ensures Strings.Utf16Length("Untitled post") == 13
  {
    var t := "Untitled post";
    assert forall k :: 0 <= k < |t| ==> (t[k] as int) < 0x10000;
  }

  /** A long caption inside the Basic Multilingual Plane is cut to its
      first 87 characters and the ellipsis. */
  lemma LongTitleIsPrefix(p: Post)
    requires Strings.Utf16Length(p.caption) > TitleMax && Strings.JsTrim(p.caption) != ""
    requires forall k :: 0 <= k < |p.caption| ==> (p.caption[k] as int) < 0x10000
    ensures PostTitle(p) == p.caption[..TitleCut] + [Ellipsis]
    ensures |PostTitle(p)| < |p.caption|
  {
    Strings.Utf16PrefixBmp(p.caption, TitleCut);
  }
}

=== FILE: api_builders.dfy ===
/** The request builders of the web client's API layer: the multipart form
    of a post, the query of the post listing, the multipart form of a
    profile update, and how a dashboard failure is told apart from
    "signed out". Each builder is paired with the reading the server side of
    this model applies to what it sends. */
module ClientApi {
  import opened Wrappers
  import Digits
  import Directory
  import FeedServer

  /** A browser `File`: its name and MIME type. */
  datatype File = File(name: string, mimeType: string)

  datatype FormValue = Text(text: string) | Upload(file: File)

  /** One `FormData.append`. */
  datatype FormEntry = FormEntry(key: string, value: FormValue)

  type Form = seq<FormEntry>

  // ---------------------------------------------------------------------
  // Post form
  // ---------------------------------------------------------------------

  /** The parameters of `createPost` and `updatePost`; `None` is a field
      left undefined (or a `null` file, which is not a `File`). */
  datatype PostParams = PostParams(
    caption: Option<string>,
    image: Option<File>,
    video: Option<File>,
    isPrivate: Option<bool>,
    hashtags: Option<seq<string>>,
    taggedUsernames: Option<seq<string>>)

  function TextEntries(key: string, values: seq<string>): (r: Form)
    ensures |r| == |values|
    ensures forall i :: 0 <= i < |values| ==> r[i] == FormEntry(key, Text(values[i]))
  {
    seq(|values|, i requires 0 <= i < |values| => FormEntry(key, Text(values[i])))
  }

  function OptionalText(key: string, value: Option<string>): Form {
    if value.Some? then [FormEntry(key, Text(value.value))] else []
  }

  function OptionalFile(key: string, file: Option<File>): Form {
    if file.Some? then [FormEntry(key, Upload(file.value))] else []
  }

  function BoolText(b: bool): string {
    if b then "true" else "false"
  }

  /** `buildPostFormData`: the fields in their fixed order, each list field
      as one entry per element. */
  function BuildPostForm(p: PostParams): (r: Form)
    ensures |r| == |OptionalText("caption", p.caption)| + (if p.image.Some? then 1 else 0)
      + (if p.video.Some? then 1 else 0) + (if p.isPrivate.Some? then 1 else 0)
      + |p.hashtags.GetOr([])| + |p.taggedUsernames.GetOr([])|
  {
    OptionalText("caption", p.caption)
    + (OptionalFile("image", p.image)
    + (OptionalFile("video", p.video)
    + (OptionalText("is_private", if p.isPrivate.Some? then Some(BoolText(p.isPrivate.value)) else None)
    + (TextEntries("hashtags", p.hashtags.GetOr([]))
    + TextEntries("tagged_usernames", p.taggedUsernames.GetOr([]))))))
  }

  /** The text values sent under `key`, in order (`getlist`). */
  function TextsOf(form: Form, key: string): (r: seq<string>)
    ensures |r| <= |form|
  {
    if |form| == 0 then []
    else (if form[0].key == key && form[0].value.Text? then [form[0].value.text] else []) + TextsOf(form[1..], key)
  }

  /** The first file sent under `key`. */
  function FileOf(form: Form, key: string): (r: Option<File>)
    ensures r.Some? ==> FormEntry(key, Upload(r.value)) in form
  {
    if |form| == 0 then None
    else if form[0].key == key && form[0].value.Upload? then Some(form[0].value.file)
    else FileOf(form[1..], key)
  }

  function FirstText(form: Form, key: string): Option<string> {
    var ts := TextsOf(form, key);
    if |ts| == 0 then None else Some(ts[0])
  }

  /** A list field that arrived with no entries reads as absent. */
  function ListOf(form: Form, key: string): Option<seq<string>> {
    var ts := TextsOf(form, key);
    if |ts| == 0 then None else Some(ts)
  }

  /** The multipart form read back into parameters. */
  function ReadPostForm(form: Form): (p: PostParams) {
    var priv := FirstText(form, "is_private");
    PostParams(
      FirstText(form, "caption"),
      FileOf(form, "image"),
      FileOf(form, "video"),
      if priv.Some? then Some(priv.value == "true") else None,
      ListOf(form, "hashtags"),
      ListOf(form, "tagged_usernames"))
  }

  /** An empty list sends nothing, so it is the same request as no list. */
  function Normalised(p: PostParams): PostParams {
    p.(hashtags := if p.hashtags == Some([]) then None else p.hashtags,
       taggedUsernames := if p.taggedUsernames == Some([]) then None else p.taggedUsernames)
  }

  lemma {:induction false} TextsOfAppend(a: Form, b: Form, key: string)
    ensures TextsOf(a + b, key) == TextsOf(a, key) + TextsOf(b, key)
    decreases |a|
  {
    if |a| > 0 {
      var head := if a[0].key == key && a[0].value.Text? then [a[0].value.text] else [];
      assert (a + b)[0] == a[0];
      assert (a + b)[1..] == a[1..] + b;
      assert TextsOf(a + b, key) == head + TextsOf(a[1..] + b, key);
      TextsOfAppend(a[1..], b, key);
      assert TextsOf(a, key) == head + TextsOf(a[1..], key);
      assert head + (TextsOf(a[1..], key) + TextsOf(b, key)) == (head + TextsOf(a[1..], key)) + TextsOf(b, key);
    } else {
      assert a + b == b;
    }
  }

  lemma {:induction false} FileOfAppend(a: Form, b: Form, key: string)
    ensures FileOf(a + b, key) == if FileOf(a, key).Some? then FileOf(a, key) else FileOf(b, key)
    decreases |a|
  {
    if |a| > 0 {
      assert (a + b)[1..] == a[1..] + b;
      FileOfAppend(a[1..], b, key);
    } else {
      assert a + b == b;
    }
  }

  lemma {:induction false} TextsOfEntries(key: string, values: seq<string>, other: string)
    ensures TextsOf(TextEntries(key, values), key) == values
    ensures other != key ==> TextsOf(TextEntries(key, values), other) == []
    ensures FileOf(TextEntries(key, values), other) == None
    decreases |values|
  {
    if |values| > 0 {
      assert TextEntries(key, values)[1..] == TextEntries(key, values[1..]);
      TextsOfEntries(key, values[1..], other);
    }
  }

  /** The first of two optional files. */
  function OrElse(x: Option<File>, y: Option<File>): Option<File> {
    if x.Some? then x else y
  }

  /** Reading two forms sent one after the other. */
  lemma ReadTwo(a: Form, b: Form, key: string)
    ensures TextsOf(a + b, key) == TextsOf(a, key) + TextsOf(b, key)
    ensures FileOf(a + b, key) == OrElse(FileOf(a, key), FileOf(b, key))
  {
    TextsOfAppend(a, b, key);
    FileOfAppend(a, b, key);
  }

  /** Reading a form built from six pieces reads each piece in turn. */
  lemma ReadSix(a: Form, b: Form, c: Form, d: Form, e: Form, f: Form, key: string)
    ensures TextsOf(a + (b + (c + (d + (e + f)))), key)
      == TextsOf(a, key) + (TextsOf(b, key) + (TextsOf(c, key) + (TextsOf(d, key) + (TextsOf(e, key) + TextsOf(f, key)))))
    ensures FileOf(a + (b + (c + (d + (e + f)))), key)
      == OrElse(FileOf(a, key), OrElse(FileOf(b, key), OrElse(FileOf(c, key),
           OrElse(FileOf(d, key), OrElse(FileOf(e, key), FileOf(f, key))))))
  {
    ReadTwo(e, f, key);
    ReadTwo(d, e + f, key);
    ReadTwo(c, d + (e + f), key);
    ReadTwo(b, c + (d + (e + f)), key);
    ReadTwo(a, b + (c + (d + (e + f))), key);
  }

  lemma OptionalTextReads(k: string, v: Option<string>, key: string)
    ensures TextsOf(OptionalText(k, v), key) == if k == key && v.Some? then [v.value] else []
    ensures FileOf(OptionalText(k, v), key) == None
  {
  }

  lemma OptionalFileReads(k: string, f: Option<File>, key: string)
    ensures TextsOf(OptionalFile(k, f), key) == []
    ensures FileOf(OptionalFile(k, f), key) == if k == key then f else None
  {
  }

  /** What the server reads under each key of a built post form. */
  lemma PostFormReads(p: PostParams, key: string)
    ensures TextsOf(BuildPostForm(p), key)
      == (if key == "caption" && p.caption.Some? then [p.caption.value] else [])
       + (if key == "is_private" && p.isPrivate.Some? then [BoolText(p.isPrivate.value)] else [])
       + (if key == "hashtags" then p.hashtags.GetOr([]) else [])
       + (if key == "tagged_usernames" then p.taggedUsernames.GetOr([]) else [])
    ensures FileOf(BuildPostForm(p), key)
      == if key == "image" && p.image.Some? then p.image
         else if key == "video" then p.video
         else None
  {
    var a := OptionalText("caption", p.caption);
    var b := OptionalFile("image", p.image);
    var c := OptionalFile("video", p.video);
    var d := OptionalText("is_private", if p.isPrivate.Some? then Some(BoolText(p.isPrivate.value)) else None);
    var e := TextEntries("hashtags", p.hashtags.GetOr([]));
    var f := TextEntries("tagged_usernames", p.taggedUsernames.GetOr([]));
    ReadSix(a, b, c, d, e, f, key);
    OptionalTextReads("caption", p.caption, key);
    OptionalFileReads("image", p.image, key);
    OptionalFileReads("video", p.video, key);
    OptionalTextReads("is_private", if p.isPrivate.Some? then Some(BoolText(p.isPrivate.value)) else None, key);
    TextsOfEntries("hashtags", p.hashtags.GetOr([]), key);
    TextsOfEntries("tagged_usernames", p.taggedUsernames.GetOr([]), key);
  }

  lemma CaptionReadBack(p: PostParams)
    ensures FirstText(BuildPostForm(p), "caption") == p.caption
  {
    PostFormReads(p, "caption");
  }

  lemma PrivacyReadBack(p: PostParams)
    ensures FirstText(BuildPostForm(p), "is_private") == if p.isPrivate.Some? then Some(BoolText(p.isPrivate.value)) else None
  {
    PostFormReads(p, "is_private");
  }

  lemma FilesReadBack(p: PostParams)
    ensures FileOf(BuildPostForm(p), "image") == p.image
    ensures FileOf(BuildPostForm(p), "video") == p.video
  {
    PostFormReads(p, "image");
    PostFormReads(p, "video");
  }

  lemma ListsReadBack(p: PostParams)
    ensures ListOf(BuildPostForm(p), "hashtags") == Normalised(p).hashtags
    ensures ListOf(BuildPostForm(p), "tagged_usernames") == Normalised(p).taggedUsernames
  {
    PostFormReads(p, "hashtags");
    assert TextsOf(BuildPostForm(p), "hashtags") == p.hashtags.GetOr([]);
    PostFormReads(p, "tagged_usernames");
    assert TextsOf(BuildPostForm(p), "tagged_usernames") == p.taggedUsernames.GetOr([]);
  }

  /** Reading the built form gives the parameters back, up to empty lists. */
  lemma PostFormRoundTrip(p: PostParams)
    ensures ReadPostForm(BuildPostForm(p)) == Normalised(p)
  {
    CaptionReadBack(p);
    PrivacyReadBack(p);
    FilesReadBack(p);
    ListsReadBack(p);
  }

  // ---------------------------------------------------------------------
  // Post listing query
  // ---------------------------------------------------------------------

  /** `getPosts`' search parameters: a non-empty username and a numeric user id. */
  function PostsQuery(username: Option<string>, userId: Option<int>): (r: seq<(string, string)>)
    ensures ("username", username.GetOr("")) in r <==> username.Some? && username.value != ""
    ensures userId.Some? <==> ("user_id", Digits.IntToString(userId.GetOr(0))) in r
    ensures forall e :: e in r ==> e == ("username", username.GetOr("")) || e == ("user_id", Digits.IntToString(userId.GetOr(0)))
    ensures |r| == (if username.Some? && username.value != "" then 1 else 0) + (if userId.Some? then 1 else 0)
    ensures |r| == 2 ==> r[0].0 == "username" && r[1].0 == "user_id"
  {
    (if username.Some? && username.value != "" then [("username", username.value)] else [])
    + (if userId.Some? then [("user_id", Digits.IntToString(userId.value))] else [])
  }

  /** The endpoint: the bare path when there are no parameters. `encode` is
      the browser's form-urlencoding, which never yields an empty string for
      a parameter. */
  function PostsEndpoint(query: seq<(string, string)>, encode: seq<(string, string)> -> string): (r: string)
    ensures |query| == 0 ==> r == "/api/posts/"
    ensures |query| > 0 ==> r == "/api/posts/?" + encode(query)
  {
    if |query| == 0 then "/api/posts/" else "/api/posts/?" + encode(query)
  }

  /** The `user_id` the client sends makes the server keep exactly that
      author's posts. */
  lemma UserIdQuerySelectsAuthor(userId: int, authorId: int)
    ensures FeedServer.ByUserId(Some(Digits.IntToString(userId)), authorId) <==> authorId == userId
  {
    Digits.PyIntOfIntToString(userId);
  }

  // ---------------------------------------------------------------------
  // Profile form
  // ---------------------------------------------------------------------

  datatype ProfilePayload = ProfilePayload(
    firstName: Option<string>,
    lastName: Option<string>,
    displayName: Option<string>,
    phoneNumber: Option<string>,
    avatar: Option<File>,
    removeAvatar: bool)

  /** `updateProfile`'s multipart form. */
  function BuildProfileForm(p: ProfilePayload): Form {
    OptionalText("first_name", p.firstName)
    + (OptionalText("last_name", p.lastName)
    + (OptionalText("display_name", p.displayName)
    + (OptionalText("phone_number", p.phoneNumber)
    + (OptionalFile("avatar", p.avatar)
    + OptionalText("remove_avatar", if p.removeAvatar then Some("true") else None)))))
  }

  /** The settings endpoint's reading of a form: a sent text field, an
      uploaded avatar's name, and `remove_avatar` as a boolean. */
  function ReadSettingsForm(form: Form): (r: Directory.SettingsInput)
  {
    var avatar := FileOf(form, "avatar");
    var remove := FirstText(form, "remove_avatar");
    Directory.SettingsInput(
      FirstText(form, "first_name"),
      FirstText(form, "last_name"),
      FirstText(form, "display_name"),
      FirstText(form, "phone_number"),
      if avatar.Some? then Directory.AvatarFile(avatar.value.name) else Directory.NoAvatarField,
      if remove.Some? then Some(remove.value == "true") else None)
  }

  /** What the client means by a payload, as a settings input. */
  function Intended(p: ProfilePayload): Directory.SettingsInput {
    Directory.SettingsInput(
      p.firstName, p.lastName, p.displayName, p.phoneNumber,
      if p.avatar.Some? then Directory.AvatarFile(p.avatar.value.name) else Directory.NoAvatarField,
      if p.removeAvatar then Some(true) else None)
  }

  /** What the server reads under each key of a built profile form. */
  lemma ProfileFormReads(p: ProfilePayload, key: string)
    ensures TextsOf(BuildProfileForm(p), key)
      == (if key == "first_name" && p.firstName.Some? then [p.firstName.value] else [])
       + (if key == "last_name" && p.lastName.Some? then [p.lastName.value] else [])
       + (if key == "display_name" && p.displayName.Some? then [p.displayName.value] else [])
       + (if key == "phone_number" && p.phoneNumber.Some? then [p.phoneNumber.value] else [])
       + (if key == "remove_avatar" && p.removeAvatar then ["true"] else [])
    ensures FileOf(BuildProfileForm(p), key) == if key == "avatar" then p.avatar else None
  {
    ProfileFormTexts(p, key);
    ProfileFormFile(p, key);
  }

  lemma ProfileFormTexts(p: ProfilePayload, key: string)
    ensures TextsOf(BuildProfileForm(p), key)
      == (if key == "first_name" && p.firstName.Some? then [p.firstName.value] else [])
       + (if key == "last_name" && p.lastName.Some? then [p.lastName.value] else [])
       + (if key == "display_name" && p.displayName.Some? then [p.displayName.value] else [])
       + (if key == "phone_number" && p.phoneNumber.Some? then [p.phoneNumber.value] else [])
       + (if key == "remove_avatar" && p.removeAvatar then ["true"] else [])
  {
    var a := OptionalText("first_name", p.firstName);
    var b := OptionalText("last_name", p.lastName);
    var c := OptionalText("display_name", p.displayName);
    var d := OptionalText("phone_number", p.phoneNumber);
    var e := OptionalFile("avatar", p.avatar);
    var f := OptionalText("remove_avatar", if p.removeAvatar then Some("true") else None);
    ReadSix(a, b, c, d, e, f, key);
    OptionalTextReads("first_name", p.firstName, key);
    OptionalTextReads("last_name", p.lastName, key);
    OptionalTextReads("display_name", p.displayName, key);
    OptionalTextReads("phone_number", p.phoneNumber, key);
    OptionalFileReads("avatar", p.avatar, key);
    OptionalTextReads("remove_avatar", if p.removeAvatar then Some("true") else None, key);
  }

  lemma ProfileFormFile(p: ProfilePayload, key: string)
    ensures FileOf(BuildProfileForm(p), key) == if key == "avatar" then p.avatar else None
  {
    var a := OptionalText("first_name", p.firstName);
    var b := OptionalText("last_name", p.lastName);
    var c := OptionalText("display_name", p.displayName);
    var d := OptionalText("phone_number", p.phoneNumber);
    var e := OptionalFile("avatar", p.avatar);
    var f := OptionalText("remove_avatar", if p.removeAvatar then Some("true") else None);
    ReadSix(a, b, c, d, e, f, key);
    OptionalTextReads("first_name", p.firstName, key);
    OptionalTextReads("last_name", p.lastName, key);
    OptionalTextReads("display_name", p.displayName, key);
    OptionalTextReads("phone_number", p.phoneNumber, key);
    OptionalFileReads("avatar", p.avatar, key);
    OptionalTextReads("remove_avatar", if p.removeAvatar then Some("true") else None, key);
  }

  /** The settings endpoint reads back exactly what the client meant. */
  lemma ProfileFormRoundTrip(p: ProfilePayload)
    ensures ReadSettingsForm(BuildProfileForm(p)) == Intended(p)
  {
    ProfileFormReads(p, "first_name");
    ProfileFormReads(p, "last_name");
    ProfileFormReads(p, "display_name");
    ProfileFormReads(p, "phone_number");
    ProfileFormReads(p, "avatar");
    ProfileFormReads(p, "remove_avatar");
  }

  // ---------------------------------------------------------------------
  // Dashboard
  // ---------------------------------------------------------------------

  datatype Response<T> = Ok(body: T) | HttpError(status: int) | NetworkError

  /** `fetchDashboard`: 401 means signed out; every other failure propagates. */
  function Dashboard<T>(resp: Response<T>): (r: Result<Option<T>, Response<T>>)
    ensures resp.Ok? ==> r == Success(Some(resp.body))
    ensures r.Success? && r.value.Some? ==> resp.Ok?
    ensures r == Success(None) <==> resp == HttpError(401)
    ensures r.Failure? <==> !resp.Ok? && resp != HttpError(401)
    ensures r.Failure? ==> r.error == resp
  {
    match resp
    case Ok(body) => Success(Some(body))
    case HttpError(status) => if status == 401 then Success(None) else Failure(resp)
    case NetworkError => Failure(resp)
  }
}

=== FILE: auth_forms.dfy ===
/** The client's sign-up, sign-in, email-verification and password-reset
    pages: what each form checks before it sends, the request it sends,
    where it goes afterwards, and what it keeps in browser storage. */
module AuthForms {
  import opened Wrappers
  import Seqs
  import Strings
  import Digits
  import AuthModels
  import AuthSerializers
  import AuthViews
  import ErrorMessages

  const CodeLength := 6

  /** Where a page navigates; `ToLogin` and `ToVerifyEmail` carry the email
      handed to the next page in the router state. */
  datatype Navigation = ToHome | ToLogin(loginEmail: Option<string>) | ToVerifyEmail(verifyEmail: string)

  /** Why a form refuses to send (each is a toast on the page). */
  datatype Refusal = MissingFields | ShortPassword | PasswordMismatch | ShortCode | MissingEmail

  /** `otp.replace(/\D/g, "")`: the digits only. */
  function DigitsOnly(s: string): (r: string)
    ensures Digits.AllDigits(r)
    ensures Seqs.IsSubseq(r, s)
    ensures forall k :: 0 <= k < |s| && Digits.IsDigit(s[k]) ==> s[k] in r
    ensures forall c :: multiset(r)[c] == if Digits.IsDigit(c) then multiset(s)[c] else 0
  {
    Seqs.FilterIsSubseq(s, Digits.IsDigit);
    Seqs.FilterMultiset(s, Digits.IsDigit);
    Seqs.Filter(s, Digits.IsDigit)
  }

  /** A code typed as digits only is kept as it is. */
  lemma DigitsOnlyKeepsDigits(s: string)
    requires Digits.AllDigits(s)
    ensures DigitsOnly(s) == s
  {
    Seqs.FilterAllKept(s, Digits.IsDigit);
  }

  predicate NotSpace(c: char) {
    !Strings.JsSpace(c)
  }

  /** `otp.replace(/\s/g, "")`: whitespace removed. */
  function WithoutSpaces(s: string): (r: string)
    ensures forall k :: 0 <= k < |r| ==> !Strings.JsSpace(r[k])
    ensures Seqs.IsSubseq(r, s)
    ensures forall k :: 0 <= k < |s| && !Strings.JsSpace(s[k]) ==> s[k] in r
    ensures forall c :: multiset(r)[c] == if Strings.JsSpace(c) then 0 else multiset(s)[c]
  {
    Seqs.FilterIsSubseq(s, NotSpace);
    Seqs.FilterMultiset(s, NotSpace);
    Seqs.Filter(s, NotSpace)
  }

  /** A code typed as digits only has no whitespace to remove. */
  lemma WithoutSpacesKeepsDigits(s: string)
    requires Digits.AllDigits(s)
    ensures WithoutSpaces(s) == s
  {
    forall k | 0 <= k < |s|
      ensures NotSpace(s[k])
    {
      Digits.DigitNotSpace(s[k]);
    }
    Seqs.FilterAllKept(s, NotSpace);
  }

  // ---------------------------------------------------------------------
  // Error toasts
  // ---------------------------------------------------------------------

  const SignupHttpDefault := "Unable to create your account. Please try again."
  const LoginHttpDefault := "Invalid credentials. Please try again."
  const LoginOtherDefault := "Unable to sign in. Please try again later."

  /** The toast of a failed registration. */
  function SignupError(err: ErrorMessages.RequestError): (r: Option<ErrorMessages.Json>)
    ensures err.OtherFailure? ==> r == Some(ErrorMessages.JString(ErrorMessages.Fallback))
    ensures err == ErrorMessages.HttpFailure(None) ==> r == Some(ErrorMessages.JString(SignupHttpDefault))
  {
    ErrorMessages.FormMessage(err, SignupHttpDefault, ErrorMessages.Fallback)
  }

  /** The toast of a failed sign-in. */
  function LoginError(err: ErrorMessages.RequestError): (r: Option<ErrorMessages.Json>)
    ensures err.OtherFailure? ==> r == Some(ErrorMessages.JString(LoginOtherDefault))
    ensures err == ErrorMessages.HttpFailure(None) ==> r == Some(ErrorMessages.JString(LoginHttpDefault))
  {
    ErrorMessages.FormMessage(err, LoginHttpDefault, LoginOtherDefault)
  }

  // ---------------------------------------------------------------------
  // Sign-up
  // ---------------------------------------------------------------------

  datatype SignupFields = SignupFields(
    username: string,
    firstName: string,
    lastName: string,
    email: string,
    password: string,
    confirmPassword: string)

  /** `handleSignup`: every required field filled, a password of at least
      eight characters as the browser counts them (UTF-16 code units),
      matching confirmation; empty names are left out. */
  function SignupSubmit(f: SignupFields): (r: Result<AuthSerializers.RegisterInput, Refusal>)
    ensures r.Failure? <==>
      f.username == "" || f.email == "" || f.password == "" || f.confirmPassword == ""
      || Strings.Utf16Length(f.password) < AuthSerializers.MinPasswordLength || f.password != f.confirmPassword
    ensures r.Failure? && (f.username == "" || f.email == "" || f.password == "" || f.confirmPassword == "") ==>
      r.error == MissingFields
    ensures r.Success? ==>
      && r.value.username == f.username && r.value.email == f.email
      && r.value.password == f.password && r.value.confirmPassword == f.password
      && r.value.firstName == (if f.firstName == "" then None else Some(f.firstName))
      && r.value.lastName == (if f.lastName == "" then None else Some(f.lastName))
  {
    if f.username == "" || f.email == "" || f.password == "" || f.confirmPassword == "" then Failure(MissingFields)
    else if Strings.Utf16Length(f.password) < AuthSerializers.MinPasswordLength then Failure(ShortPassword)
    else if f.password != f.confirmPassword then Failure(PasswordMismatch)
    else Success(AuthSerializers.RegisterInput(
      f.username, f.email,
      if f.firstName == "" then None else Some(f.firstName),
      if f.lastName == "" then None else Some(f.lastName),
      f.password, f.confirmPassword))
  }

  /** After a registration: the verification page, with the email. */
  function AfterSignup(f: SignupFields): (r: Navigation)
    ensures r == ToVerifyEmail(f.email)
  {
    ToVerifyEmail(f.email)
  }

  /** The verification page opened after a successful sign-up starts with
      the typed email, and with that email the server finds the account
      the registration created. */
  lemma AfterSignupVerifiesNewAccount(f: SignupFields, s: AuthViews.AuthStore, accepted: string -> bool,
                                      newId: int, draw: nat, now: int,
                                      userEmail: Option<string>, pending: Option<string>)
    requires draw < Digits.Pow10(AuthViews.OtpLength)
    requires SignupSubmit(f).Success?
    requires AuthViews.Register(s, SignupSubmit(f).value, accepted, newId, draw, now).Success?
    requires Strings.PyStrip(f.email) != ""
    ensures InitialEmail(Some(AfterSignup(f).verifyEmail), userEmail, pending) == f.email
    ensures var s2 := AuthViews.Register(s, SignupSubmit(f).value, accepted, newId, draw, now).value;
      AuthSerializers.VerificationUser(s2.users, Some(AfterSignup(f).verifyEmail), None)
        == Some(s2.users[|s.users|])
  {
    AuthViews.RegisteredAccountFoundByEmail(s, SignupSubmit(f).value, accepted, newId, draw, now);
  }

  /** A password without surrounding whitespace, without the separator
      characters only Python counts as whitespace, and without characters
      outside the Basic Multilingual Plane, that passes the page passes the
      server's length and match checks as well. */
  lemma SignupPasswordAgreesWithServer(f: SignupFields, users: seq<AuthModels.User>, accepted: string -> bool)
    requires SignupSubmit(f).Success? && Strings.JsTrim(f.password) == f.password
    requires Strings.NoPyOnlySpace(f.password)
    requires forall k :: 0 <= k < |f.password| ==> (f.password[k] as int) < 0x10000
    ensures var r := AuthSerializers.ValidateRegistration(users, SignupSubmit(f).value, accepted);
      r.Failure? ==>
        AuthSerializers.PasswordTooShort !in r.error && AuthSerializers.ConfirmTooShort !in r.error && AuthSerializers.PasswordsDiffer !in r.error
  {
    Strings.PyStripAfterJsTrim(f.password);
    assert Strings.PyStrip(f.password) == f.password;
    assert |f.password| >= AuthSerializers.MinPasswordLength;
  }

  /** The page counts whitespace the server trims: eight characters of which
      seven are spaces pass the page and are refused as too short. */
  lemma PaddedPasswordRefusedByServer(users: seq<AuthModels.User>, accepted: string -> bool)
    ensures var f := SignupFields("ann", "", "", "ann@example.com", "       x", "       x");
      && SignupSubmit(f).Success?
      && var r := AuthSerializers.ValidateRegistration(users, SignupSubmit(f).value, accepted);
         r.Failure? && AuthSerializers.PasswordTooShort in r.error
  {
    var pw := "       x";
    assert Strings.Utf16Length(pw) == 8 by {
      assert forall k :: 0 <= k < |pw| ==> (pw[k] as int) < 0x10000;
    }
    assert |Strings.PyStrip(pw)| < AuthSerializers.MinPasswordLength by {
      assert Strings.PySpace(pw[0]);
      assert |Strings.TrimStart(pw, Strings.PySpace)| < |pw|;
    }
    ServerRefusesShort(SignupFields("ann", "", "", "ann@example.com", pw, pw), users, accepted);
  }

  /** A form the page sends whose password the server strips below eight
      characters is refused by the server as too short. */
  lemma ServerRefusesShort(f: SignupFields, users: seq<AuthModels.User>, accepted: string -> bool)
    requires f.username != "" && f.email != "" && f.password != "" && f.confirmPassword == f.password
    requires Strings.Utf16Length(f.password) >= AuthSerializers.MinPasswordLength
    requires |Strings.PyStrip(f.password)| < AuthSerializers.MinPasswordLength
    ensures SignupSubmit(f).Success?
    ensures var r := AuthSerializers.ValidateRegistration(users, SignupSubmit(f).value, accepted);
      r.Failure? && AuthSerializers.PasswordTooShort in r.error
  {
    assert SignupSubmit(f).value.password == f.password;
  }

  /** The page counts UTF-16 units and the server counts characters: four
      emoji are eight units on the page and four characters on the server. */
  lemma AstralPasswordRefusedByServer(users: seq<AuthModels.User>, accepted: string -> bool)
    ensures var pw := "\U{1F600}\U{1F600}\U{1F600}\U{1F600}";
      var f := SignupFields("ann", "", "", "ann@example.com", pw, pw);
      && SignupSubmit(f).Success?
      && var r := AuthSerializers.ValidateRegistration(users, SignupSubmit(f).value, accepted);
         r.Failure? && AuthSerializers.PasswordTooShort in r.error
  {
    var pw := "\U{1F600}\U{1F600}\U{1F600}\U{1F600}";
    assert Strings.Utf16Length(pw) == 8;
    assert |Strings.PyStrip(pw)| <= |pw| == 4;
    ServerRefusesShort(SignupFields("ann", "", "", "ann@example.com", pw, pw), users, accepted);
  }

  /** The browser's `/\s/` and Python's whitespace differ: a password
      padded with U+001C (a separator Python strips and the browser keeps)
      passes the page and is refused as too short. */
  lemma SeparatorPaddedPasswordRefusedByServer(users: seq<AuthModels.User>, accepted: string -> bool)
    ensures var pw := "x\U{1C}\U{1C}\U{1C}\U{1C}\U{1C}\U{1C}\U{1C}";
      var f := SignupFields("ann", "", "", "ann@example.com", pw, pw);
      && SignupSubmit(f).Success?
      && var r := AuthSerializers.ValidateRegistration(users, SignupSubmit(f).value, accepted);
         r.Failure? && AuthSerializers.PasswordTooShort in r.error
  {
    var pw := "x\U{1C}\U{1C}\U{1C}\U{1C}\U{1C}\U{1C}\U{1C}";
    assert Strings.Utf16Length(pw) == 8 by {
      assert forall k :: 0 <= k < |pw| ==> (pw[k] as int) < 0x10000;
    }
    assert |Strings.PyStrip(pw)| < AuthSerializers.MinPasswordLength by {
      assert Strings.PySpace(pw[7]);
      assert |Strings.TrimEnd(pw, Strings.PySpace)| < |pw|;
    }
    ServerRefusesShort(SignupFields("ann", "", "", "ann@example.com", pw, pw), users, accepted);
  }

  // ---------------------------------------------------------------------
  // Sign-in
  // ---------------------------------------------------------------------

  /** `handleLogin`: both fields filled; the page signs in by email. */
  function LoginSubmit(email: string, password: string): (r: Result<AuthSerializers.LoginInput, Refusal>)
    ensures r.Failure? <==> email == "" || password == ""
    ensures r.Failure? ==> r.error == MissingFields
    ensures r.Success? ==> r.value == AuthSerializers.LoginInput(None, Some(email), password)
  {
    if email == "" || password == "" then Failure(MissingFields)
    else Success(AuthSerializers.LoginInput(None, Some(email), password))
  }

  /** What a sent sign-in names on the server is the typed email, stripped;
      the server refuses it when the email or the password is blank. */
  lemma LoginNamesEmail(email: string, password: string)
    requires LoginSubmit(email, password).Success?
    ensures AuthSerializers.LoginIdentifier(LoginSubmit(email, password).value) ==
      (if Strings.PyStrip(email) == "" || Strings.PyStrip(password) == "" then None else Some(Strings.PyStrip(email)))
  {
  }

  /** The email the sign-in page starts with: the router state's, or "". */
  function LoginInitialEmail(loginEmail: Option<string>): (r: string)
    ensures loginEmail.Some? ==> r == loginEmail.value
    ensures loginEmail.None? ==> r == ""
  {
    loginEmail.GetOr("")
  }

  /** After a successful sign-in request: an unverified account goes to the
      verification page without refreshing the session; otherwise the
      session is refreshed (the first component) and the page goes home. */
  function AfterLogin(email: string, requiresVerification: bool): (r: (bool, Navigation))
    ensures requiresVerification <==> !r.0
    ensures requiresVerification ==> r.1 == ToVerifyEmail(email)
    ensures !requiresVerification ==> r.1 == ToHome
  {
    if requiresVerification then (false, ToVerifyEmail(email)) else (true, ToHome)
  }

  /** The server's login outcomes the page can receive as a success lead
      where the server intends: a pending verification to the code page. */
  lemma LoginOutcomeRoutes(email: string, outcome: AuthViews.LoginOutcome)
    requires outcome == AuthViews.RequiresVerification || outcome.LoggedIn?
    ensures AfterLogin(email, outcome == AuthViews.RequiresVerification).1 ==
      (if outcome.LoggedIn? then ToHome else ToVerifyEmail(email))
  {
  }

  // ---------------------------------------------------------------------
  // Email verification
  // ---------------------------------------------------------------------

  /** The email the page starts with: the router state's, then the signed-in
      user's, then the remembered pending one, then "". */
  function InitialEmail(locationEmail: Option<string>, userEmail: Option<string>, pending: Option<string>): (r: string)
    ensures AuthSerializers.Given(locationEmail) ==> r == locationEmail.value
    ensures !AuthSerializers.Given(locationEmail) && AuthSerializers.Given(userEmail) ==> r == userEmail.value
    ensures !AuthSerializers.Given(locationEmail) && !AuthSerializers.Given(userEmail) ==> r == pending.GetOr("")
  {
    if AuthSerializers.Given(locationEmail) then locationEmail.value
    else if AuthSerializers.Given(userEmail) then userEmail.value
    else pending.GetOr("")
  }

  /** The remembered pending email after the page holds `email`: a non-empty
      email is remembered, an empty one leaves what was there. */
  function RememberEmail(email: string, pending: Option<string>): (r: Option<string>)
    ensures email != "" ==> r == Some(email)
    ensures email == "" ==> r == pending
  {
    if email != "" then Some(email) else pending
  }

  /** A reload with no router state and nobody signed in comes back to the
      email the page held. */
  lemma PendingEmailSurvivesReload(email: string, pending: Option<string>)
    requires email != ""
    ensures InitialEmail(None, None, RememberEmail(email, pending)) == email
  {
  }

  /** The verification request: an email (absent when empty) and the code. */
  datatype VerifyPayload = VerifyPayload(email: Option<string>, otpCode: string)

  /** `handleSubmit`: a code with at least six digits; what is sent is the
      typed code with whitespace removed, not its digits. */
  function VerifySubmit(otp: string, email: string): (r: Result<VerifyPayload, Refusal>)
    ensures r.Failure? <==> |DigitsOnly(otp)| < CodeLength
    ensures r.Failure? ==> r.error == ShortCode
    ensures r.Success? ==> r.value.otpCode == WithoutSpaces(otp)
    ensures r.Success? ==> (r.value.email.None? <==> email == "")
    ensures r.Success? && email != "" ==> r.value.email == Some(email)
  {
    if otp == "" || |DigitsOnly(otp)| < CodeLength then Failure(ShortCode)
    else Success(VerifyPayload(if email == "" then None else Some(email), WithoutSpaces(otp)))
  }

  /** The issued six-digit code, typed as it is, is sent as it is. */
  lemma IssuedCodeVerifies(draw: nat, email: string)
    requires draw < Digits.Pow10(AuthViews.OtpLength)
    ensures var code := AuthViews.GenerateOtp(draw);
      VerifySubmit(code, email).Success? && VerifySubmit(code, email).value.otpCode == code
  {
    var code := AuthViews.GenerateOtp(draw);
    DigitsOnlyKeepsDigits(code);
    assert |DigitsOnly(code)| == CodeLength;
    WithoutSpacesKeepsDigits(code);
  }

  /** Without an email the server checks the code against the account the
      session is waiting on. */
  lemma EmptyEmailUsesSession(otp: string, users: seq<AuthModels.User>, pendingUserId: Option<int>)
    requires VerifySubmit(otp, "").Success?
    ensures AuthSerializers.VerificationUser(users, VerifySubmit(otp, "").value.email, pendingUserId)
      == (if AuthSerializers.GivenId(pendingUserId) then AuthSerializers.UserById(users, pendingUserId.value) else None)
  {
  }

  /** `handleResend` (and the reset page's resend): only with an email. */
  function ResendSubmit(email: string): (r: Result<string, Refusal>)
    ensures r.Success? <==> email != ""
    ensures r.Success? ==> r.value == email
    ensures r.Failure? ==> r.error == MissingEmail
  {
    if email == "" then Failure(MissingEmail) else Success(email)
  }

  /** After a successful verification the pending email is forgotten (the
      first component) and the page goes home exactly when the refreshed
      user is verified, else to sign-in. */
  function AfterVerify(refreshedVerified: Option<bool>): (r: (Option<string>, Navigation))
    ensures r.0.None?
    ensures r.1 == ToHome <==> refreshedVerified == Some(true)
    ensures r.1 != ToHome ==> r.1 == ToLogin(None)
  {
    (None, if refreshedVerified == Some(true) then ToHome else ToLogin(None))
  }

  // ---------------------------------------------------------------------
  // Password reset
  // ---------------------------------------------------------------------

  datatype Step = RequestStep | VerifyStep

  datatype ResetForm = ResetForm(step: Step, email: string, otp: string, password: string, confirmPassword: string)

  /** What session storage holds under the page's key: nothing, text that
      does not parse, or the saved step and email (either may be missing). */
  datatype Stored = Nothing | Unparsable | Saved(step: Option<Step>, email: Option<string>)

  /** The page on arrival, with the email from the router state. */
  function FreshReset(locationEmail: Option<string>): (r: ResetForm)
    ensures r.step == RequestStep && r.email == locationEmail.GetOr("")
    ensures r.otp == "" && r.password == "" && r.confirmPassword == ""
  {
    ResetForm(RequestStep, locationEmail.GetOr(""), "", "", "")
  }

  /** What the page stores: the step and email while at the code step,
      nothing otherwise. */
  function Persist(form: ResetForm): (r: Stored)
    ensures form.step == VerifyStep ==> r == Saved(Some(VerifyStep), Some(form.email))
    ensures form.step == RequestStep ==> r == Nothing
  {
    if form.step == VerifyStep then Saved(Some(VerifyStep), Some(form.email)) else Nothing
  }

  /** The mount effect: a saved code step is resumed with its email (when
      non-empty); unparsable text is removed; anything else changes nothing. */
  function Restore(form: ResetForm, stored: Stored): (r: (ResetForm, Stored))
    ensures stored.Unparsable? ==> r == (form, Nothing)
    ensures stored.Saved? && stored.step == Some(VerifyStep) ==>
      r.0.step == VerifyStep && r.0.email == (if AuthSerializers.Given(stored.email) then stored.email.value else form.email)
    ensures !(stored.Saved? && stored.step == Some(VerifyStep)) ==> r.0 == form
    ensures r.0.otp == form.otp && r.0.password == form.password && r.0.confirmPassword == form.confirmPassword
    ensures !stored.Unparsable? ==> r.1 == stored
  {
    match stored
    case Nothing => (form, stored)
    case Unparsable => (form, Nothing)
    case Saved(step, email) =>
      if step == Some(VerifyStep) then
        (form.(step := VerifyStep, email := if AuthSerializers.Given(email) then email.value else form.email), stored)
      else (form, stored)
  }

  /** A reload at the code step comes back to the code step with the same
      email; at the first step it comes back fresh. */
  lemma ResetSurvivesReload(form: ResetForm, locationEmail: Option<string>)
    requires form.email != "" || form.step == RequestStep
    ensures var back := Restore(FreshReset(locationEmail), Persist(form)).0;
      && back.step == form.step
      && (form.step == VerifyStep ==> back.email == form.email)
      && (form.step == RequestStep ==> back == FreshReset(locationEmail))
  {
  }

  /** `handleRequestSubmit`: the code is requested only with an email; a
      successful request moves to the code step. */
  function RequestSubmit(form: ResetForm): (r: Result<string, Refusal>)
    ensures r == ResendSubmit(form.email)
    ensures r.Success? <==> form.email != ""
  {
    if form.email == "" then Failure(MissingEmail) else Success(form.email)
  }

  function AfterRequest(form: ResetForm): (r: ResetForm)
    ensures r.step == VerifyStep && r.(step := form.step) == form
  {
    form.(step := VerifyStep)
  }

  /** `handleResetSubmit`: at least six digits in the code, both passwords
      filled, and equal; the code is sent as its digits only. */
  function ResetSubmit(form: ResetForm): (r: Result<AuthSerializers.ResetConfirmInput, Refusal>)
    ensures |DigitsOnly(form.otp)| < CodeLength ==> r == Failure(ShortCode)
    ensures |DigitsOnly(form.otp)| >= CodeLength && (form.password == "" || form.confirmPassword == "") ==>
      r == Failure(MissingFields)
    ensures r.Failure? <==>
      |DigitsOnly(form.otp)| < CodeLength || form.password == "" || form.confirmPassword == ""
      || form.password != form.confirmPassword
    ensures r.Success? ==>
      r.value == AuthSerializers.ResetConfirmInput(form.email, DigitsOnly(form.otp), form.password, form.password)
  {
    var code := DigitsOnly(form.otp);
    if |code| < CodeLength then Failure(ShortCode)
    else if form.password == "" || form.confirmPassword == "" then Failure(MissingFields)
    else if form.password != form.confirmPassword then Failure(PasswordMismatch)
    else Success(AuthSerializers.ResetConfirmInput(form.email, code, form.password, form.confirmPassword))
  }

  /** What the page sends never fails the server's match check, and its
      code is all digits. */
  lemma ResetAgreesWithServer(form: ResetForm, users: seq<AuthModels.User>, accepted: string -> bool)
    requires ResetSubmit(form).Success?
    ensures Digits.AllDigits(ResetSubmit(form).value.otpCode)
    ensures var r := AuthSerializers.ValidateResetConfirm(users, ResetSubmit(form).value, accepted);
      r.Failure? ==> AuthSerializers.NewPasswordsDiffer !in r.error
  {
  }

  /** After a successful reset: sign-in, with the email. */
  function AfterReset(form: ResetForm): (r: Navigation)
    ensures r == ToLogin(Some(form.email))
  {
    ToLogin(Some(form.email))
  }

  /** After a reset the server accepted, the sign-in page starts with the
      reset email, and signing in there with the new password names the
      reset account and sends the password the server stored. */
  lemma ResetThenLoginFindsAccount(form: ResetForm, users: seq<AuthModels.User>, accepted: string -> bool)
    requires ResetSubmit(form).Success?
    requires AuthSerializers.ValidateResetConfirm(users, ResetSubmit(form).value, accepted).Success?
    ensures var email := LoginInitialEmail(AfterReset(form).loginEmail);
      var reset := AuthSerializers.ValidateResetConfirm(users, ResetSubmit(form).value, accepted).value;
      && email == form.email
      && LoginSubmit(email, form.password).Success?
      && AuthSerializers.LoginIdentifier(LoginSubmit(email, form.password).value).Some?
      && AuthViews.LoginTarget(users, LoginSubmit(email, form.password).value) == Some(reset.0)
      && Strings.PyStrip(LoginSubmit(email, form.password).value.password) == reset.1
  {
    var sent := ResetSubmit(form).value;
    var reset := AuthSerializers.ValidateResetConfirm(users, sent, accepted).value;
    assert sent.email == form.email && sent.newPassword == form.password;
    assert Strings.PyStrip(form.email) != "";
    assert |Strings.PyStrip(form.password)| >= AuthSerializers.MinPasswordLength;
    assert AuthSerializers.UserByEmail(users, Strings.PyStrip(form.email)) == Some(reset.0);
    assert reset.1 == Strings.PyStrip(form.password);
    LoginByEmailFinds(form.email, form.password, users, reset.0);
  }

  /** A sign-in by an email the server's lookup resolves, with a password
      that is not blank, names that account. */
  lemma LoginByEmailFinds(email: string, password: string, users: seq<AuthModels.User>, u: AuthModels.User)
    requires Strings.PyStrip(email) != "" && Strings.PyStrip(password) != ""
    requires AuthSerializers.UserByEmail(users, Strings.PyStrip(email)) == Some(u)
    ensures LoginSubmit(email, password).Success?
    ensures var input := LoginSubmit(email, password).value;
      && AuthSerializers.LoginIdentifier(input).Some?
      && AuthViews.LoginTarget(users, input) == Some(u)
      && input.password == password
  {
    assert email != "" && password != "";
    var input := LoginSubmit(email, password).value;
    assert input == AuthSerializers.LoginInput(None, Some(email), password);
    assert AuthSerializers.TrimmedField(input.email) == Some(Strings.PyStrip(email));
  }

  /** `handleStartOver`: back to the first step with the email kept and
      the code and passwords cleared, which also clears the storage. */
  function StartOver(form: ResetForm): (r: ResetForm)
    ensures r.step == RequestStep && r.email == form.email
    ensures r.otp == "" && r.password == "" && r.confirmPassword == ""
    ensures Persist(r) == Nothing
  {
    ResetForm(RequestStep, form.email, "", "", "")
  }
}

=== FILE: auth_models.dfy ===
/** Accounts: users, their profiles with the one-time-password (OTP)
    lifecycle, and follow relations. Times are integer seconds. */
module AuthModels {
  import opened Wrappers

  datatype User = User(
    id: int,
    username: string,
    email: string,
    firstName: string,
    lastName: string,
    isActive: bool)

  /** What an OTP was issued for; the empty choice is `NoPurpose`. */
  datatype OtpPurpose = NoPurpose | Registration | PasswordReset

  datatype UserProfile = UserProfile(
    displayName: string,
    phoneNumber: string,
    avatar: Option<string>,
    emailVerified: bool,
    lastOtpSentAt: Option<int>,
    otpCode: string,
    otpPurpose: OtpPurpose,
    otpExpiresAt: Option<int>,
    otpConsumedAt: Option<int>,
    otpUsed: bool)

  /** `follower` follows `following`; the table holds each pair at most once. */
  datatype Follow = Follow(followerId: int, followingId: int)

  /** The ids `me` follows. */
  function Following(follows: seq<Follow>, me: int): set<int> {
    set i | 0 <= i < |follows| && follows[i].followerId == me :: follows[i].followingId
  }

  /** The ids following `me`. */
  function Followers(follows: seq<Follow>, me: int): set<int> {
    set i | 0 <= i < |follows| && follows[i].followingId == me :: follows[i].followerId
  }

  /** A freshly created profile: nothing issued, email not verified. */
  const BlankProfile := UserProfile("", "", None, false, None, "", NoPurpose, None, None, false)

  /** The profile fields that the OTP helpers never touch. */
  predicate SamePresentation(a: UserProfile, b: UserProfile) {
    a.displayName == b.displayName && a.phoneNumber == b.phoneNumber && a.avatar == b.avatar
  }

  function MarkEmailVerified(p: UserProfile): (r: UserProfile)
    ensures r.emailVerified
    ensures r.(emailVerified := p.emailVerified) == p
  {
    if !p.emailVerified then p.(emailVerified := true) else p
  }

  lemma MarkEmailVerifiedIdempotent(p: UserProfile)
    ensures MarkEmailVerified(MarkEmailVerified(p)) == MarkEmailVerified(p)
  {
  }

  /** Stores a new code. Without an explicit `markUnverified` the email is
      marked unverified exactly for a registration code. */
  function IssueOtp(p: UserProfile, code: string, purpose: OtpPurpose, expiresAt: Option<int>,
                    markUnverified: Option<bool>, now: int): (r: UserProfile)
    ensures r.otpCode == code && r.otpPurpose == purpose && r.otpExpiresAt == expiresAt
    ensures r.otpConsumedAt == None && !r.otpUsed && r.lastOtpSentAt == Some(now)
    ensures r.emailVerified == (p.emailVerified && !markUnverified.GetOr(purpose == Registration))
    ensures SamePresentation(r, p)
  {
    var unverify := markUnverified.GetOr(purpose == Registration);
    var issued := p.(otpCode := code, otpPurpose := purpose, otpExpiresAt := expiresAt,
                     otpConsumedAt := None, otpUsed := false, lastOtpSentAt := Some(now));
    if unverify then issued.(emailVerified := false) else issued
  }

  /** Expired strictly after the expiry instant; without an expiry, never. */
  predicate OtpIsExpired(p: UserProfile, now: int) {
    p.otpExpiresAt.Some? && now > p.otpExpiresAt.value
  }

  /** A stored, non-empty, unused code equal to `code`. */
  predicate OtpMatches(p: UserProfile, code: string) {
    p.otpCode != "" && p.otpCode == code && !p.otpUsed
  }

  /** Consumes the code; the consumption time is recorded only once. */
  function MarkOtpUsed(p: UserProfile, now: int): (r: UserProfile)
    ensures r.otpUsed
    ensures p.otpUsed ==> r == p
    ensures !p.otpUsed ==> r.otpConsumedAt == Some(now) && r.(otpUsed := false, otpConsumedAt := p.otpConsumedAt) == p
  {
    if !p.otpUsed then p.(otpUsed := true, otpConsumedAt := Some(now)) else p
  }

  function ClearOtp(p: UserProfile): (r: UserProfile)
    ensures r.otpCode == "" && r.otpPurpose == NoPurpose && r.otpExpiresAt == None
    ensures r.otpConsumedAt == None && !r.otpUsed
    ensures r.emailVerified == p.emailVerified && r.lastOtpSentAt == p.lastOtpSentAt
    ensures SamePresentation(r, p)
  {
    p.(otpCode := "", otpPurpose := NoPurpose, otpExpiresAt := None, otpConsumedAt := None, otpUsed := false)
  }

  /** A freshly issued code matches exactly itself, provided it is non-empty. */
  lemma IssuedCodeMatches(p: UserProfile, code: string, purpose: OtpPurpose, expiresAt: Option<int>,
                          markUnverified: Option<bool>, now: int, attempt: string)
    ensures OtpMatches(IssueOtp(p, code, purpose, expiresAt, markUnverified, now), attempt)
      <==> code != "" && attempt == code
  {
  }

  /** Consuming is idempotent, keeps the first consumption time, and no code matches afterwards. */
  lemma MarkOtpUsedFinal(p: UserProfile, now: int, later: int, attempt: string)
    ensures MarkOtpUsed(MarkOtpUsed(p, now), later) == MarkOtpUsed(p, now)
    ensures !OtpMatches(MarkOtpUsed(p, now), attempt)
  {
  }

  /** After clearing, no code matches and nothing expires. */
  lemma ClearedOtpInert(p: UserProfile, attempt: string, now: int)
    ensures !OtpMatches(ClearOtp(p), attempt) && !OtpIsExpired(ClearOtp(p), now)
  {
  }

  /** A code expiring at `expiresAt` is live up to and including that instant. */
  lemma ExpiryBoundary(p: UserProfile, code: string, purpose: OtpPurpose, expiresAt: int,
                       markUnverified: Option<bool>, issuedAt: int, now: int)
    ensures OtpIsExpired(IssueOtp(p, code, purpose, Some(expiresAt), markUnverified, issuedAt), now)
      <==> now > expiresAt
  {
  }

  /** `ensure_profile`: the user's profile, created blank when missing. */
  function EnsureProfile(profiles: map<int, UserProfile>, userId: int): (r: (map<int, UserProfile>, UserProfile))
    ensures r.0.Keys == profiles.Keys + {userId} && r.0[userId] == r.1
    ensures userId in profiles ==> r.0 == profiles
    ensures userId !in profiles ==> r.1 == BlankProfile && !r.1.emailVerified
    ensures forall k :: k in profiles ==> r.0[k] == profiles[k]
  {
    if userId in profiles then (profiles, profiles[userId])
    else (profiles[userId := BlankProfile], BlankProfile)
  }
}

=== FILE: auth_serializers.dfy ===
/** Request validation for the account endpoints: which user a request
    means, and which registration and reset inputs are accepted. Password
    strength checking (Django's `validate_password`) is an opaque verdict
    passed in by the caller. */
module AuthSerializers {
  import opened Wrappers
  import Strings
  import Seqs
  import opened AuthModels

  const MinPasswordLength := 8

  /** First user whose email equals `email` ignoring case (`email__iexact ... .first()`). */
  function UserByEmail(users: seq<User>, email: string): (r: Option<User>)
    ensures r.Some? ==> r.value in users && Strings.EqualsIgnoreCase(r.value.email, email)
    ensures r.Some? ==>
      exists k :: 0 <= k < |users| && users[k] == r.value &&
        forall j :: 0 <= j < k ==> !Strings.EqualsIgnoreCase(users[j].email, email)
    ensures r.None? <==> forall i :: 0 <= i < |users| ==> !Strings.EqualsIgnoreCase(users[i].email, email)
  {
    var i := Seqs.FindIndex(users, (u: User) => Strings.EqualsIgnoreCase(u.email, email));
    if i < 0 then None else Some(users[i])
  }

  /** An account appended after accounts none of which has the email is the
      one the email finds. */
  lemma UserByEmailAppend(users: seq<User>, u: User, email: string)
    requires UserByEmail(users, email).None? && Strings.EqualsIgnoreCase(u.email, email)
    ensures UserByEmail(users + [u], email) == Some(u)
  {
    var all := users + [u];
    assert !(forall i :: 0 <= i < |all| ==> !Strings.EqualsIgnoreCase(all[i].email, email)) by {
      assert all[|users|] == u;
    }
  }

  /** First user whose username equals `name` ignoring case. */
  function UserByUsername(users: seq<User>, name: string): (r: Option<User>)
    ensures r.Some? ==> r.value in users && Strings.EqualsIgnoreCase(r.value.username, name)
    ensures r.Some? ==>
      exists k :: 0 <= k < |users| && users[k] == r.value &&
        forall j :: 0 <= j < k ==> !Strings.EqualsIgnoreCase(users[j].username, name)
    ensures r.None? <==> forall i :: 0 <= i < |users| ==> !Strings.EqualsIgnoreCase(users[i].username, name)
  {
    var i := Seqs.FindIndex(users, (u: User) => Strings.EqualsIgnoreCase(u.username, name));
    if i < 0 then None else Some(users[i])
  }

  function UserById(users: seq<User>, id: int): (r: Option<User>)
    ensures r.Some? ==> r.value in users && r.value.id == id
    ensures r.None? <==> forall i :: 0 <= i < |users| ==> users[i].id != id
  {
    var i := Seqs.FindIndex(users, (u: User) => u.id == id);
    if i < 0 then None else Some(users[i])
  }

  /** Python truthiness of an optional string / session id. */
  predicate Given(s: Option<string>) {
    s.Some? && s.value != ""
  }

  predicate GivenId(id: Option<int>) {
    id.Some? && id.value != 0
  }

  // ---------------------------------------------------------------------
  // Text fields
  // ---------------------------------------------------------------------

  /** A sent text field as the framework's `CharField` cleans it: stripped
      of surrounding white space when present. */
  function TrimmedField(f: Option<string>): (r: Option<string>)
    ensures r.None? <==> f.None?
    ensures f.Some? ==> r.value == Strings.PyStrip(f.value)
  {
    if f.None? then None else Some(Strings.PyStrip(f.value))
  }

  /** Cleaning a cleaned field changes nothing. */
  lemma TrimmedFieldIdempotent(f: Option<string>)
    ensures TrimmedField(TrimmedField(f)) == TrimmedField(f)
  {
    if f.Some? {
      Strings.TrimIdempotent(f.value, Strings.PySpace);
    }
  }

  /** A text field the framework refuses as blank: present but nothing
      left after stripping. */
  predicate BlankField(f: Option<string>) {
    f.Some? && Strings.PyStrip(f.value) == ""
  }

  // ---------------------------------------------------------------------
  // Registration
  // ---------------------------------------------------------------------

  datatype RegisterInput = RegisterInput(
    username: string,
    email: string,
    firstName: Option<string>,
    lastName: Option<string>,
    password: string,
    confirmPassword: string)

  datatype RegisterError =
    | UsernameBlank
    | UsernameTaken
    | EmailTaken
    | PasswordTooShort
    | ConfirmTooShort
    | PasswordsDiffer
    | PasswordRejected

  /** Every text field of a registration stripped, as the serializer's
      fields hand them to the validators. */
  function Cleaned(input: RegisterInput): (r: RegisterInput)
    ensures r.username == Strings.PyStrip(input.username) && r.email == Strings.PyStrip(input.email)
    ensures r.firstName == TrimmedField(input.firstName) && r.lastName == TrimmedField(input.lastName)
    ensures r.password == Strings.PyStrip(input.password) && r.confirmPassword == Strings.PyStrip(input.confirmPassword)
  {
    RegisterInput(
      Strings.PyStrip(input.username), Strings.PyStrip(input.email),
      TrimmedField(input.firstName), TrimmedField(input.lastName),
      Strings.PyStrip(input.password), Strings.PyStrip(input.confirmPassword))
  }

  /** Cleaning is done once: a cleaned registration is its own cleaning. */
  lemma CleanedIdempotent(input: RegisterInput)
    ensures Cleaned(Cleaned(input)) == Cleaned(input)
  {
    Strings.TrimIdempotent(input.username, Strings.PySpace);
    Strings.TrimIdempotent(input.email, Strings.PySpace);
    Strings.TrimIdempotent(input.password, Strings.PySpace);
    Strings.TrimIdempotent(input.confirmPassword, Strings.PySpace);
    TrimmedFieldIdempotent(input.firstName);
    TrimmedFieldIdempotent(input.lastName);
  }

  /** The per-field registration errors of a cleaned input, all reported
      together. A blank username is refused before the uniqueness check runs. */
  function RegisterFieldErrors(users: seq<User>, c: RegisterInput): (r: set<RegisterError>)
    ensures UsernameBlank in r <==> c.username == ""
    ensures UsernameTaken in r <==> c.username != "" && UserByUsername(users, c.username).Some?
    ensures EmailTaken in r <==> UserByEmail(users, c.email).Some?
    ensures PasswordTooShort in r <==> |c.password| < MinPasswordLength
    ensures ConfirmTooShort in r <==> |c.confirmPassword| < MinPasswordLength
    ensures PasswordsDiffer !in r && PasswordRejected !in r
  {
    Flag(c.username == "", UsernameBlank)
    + Flag(c.username != "" && UserByUsername(users, c.username).Some?, UsernameTaken)
    + Flag(UserByEmail(users, c.email).Some?, EmailTaken)
    + Flag(|c.password| < MinPasswordLength, PasswordTooShort)
    + Flag(|c.confirmPassword| < MinPasswordLength, ConfirmTooShort)
  }

  /** `{e}` when `raised`, else nothing. */
  function Flag<E(!new)>(raised: bool, e: E): (r: set<E>)
    ensures forall x :: x in r <==> raised && x == e
  {
    if raised then {e} else {}
  }

  /** Field checks on the stripped fields first; the cross-field checks
      (match, then strength) run only when every field passed. The accepted
      registration is the cleaned one. */
  function ValidateRegistration(users: seq<User>, input: RegisterInput, passwordAccepted: string -> bool)
    : (r: Result<RegisterInput, set<RegisterError>>)
    ensures r.Failure? ==> r.error != {}
    ensures Strings.PyStrip(input.username) == "" ==> r.Failure? && UsernameBlank in r.error
    ensures Strings.PyStrip(input.username) != "" && UserByUsername(users, Strings.PyStrip(input.username)).Some? ==>
      r.Failure? && UsernameTaken in r.error
    ensures UserByEmail(users, Strings.PyStrip(input.email)).Some? ==> r.Failure? && EmailTaken in r.error
    ensures |Strings.PyStrip(input.password)| < MinPasswordLength ==> r.Failure? && PasswordTooShort in r.error
    ensures r.Success? ==>
      Strings.PyStrip(input.username) != ""
      && UserByUsername(users, Strings.PyStrip(input.username)).None?
      && UserByEmail(users, Strings.PyStrip(input.email)).None?
      && |Strings.PyStrip(input.password)| >= MinPasswordLength
      && Strings.PyStrip(input.password) == Strings.PyStrip(input.confirmPassword)
      && passwordAccepted(Strings.PyStrip(input.password))
    ensures r.Success? ==> r.value == Cleaned(input)
    ensures r.Failure? && PasswordsDiffer in r.error ==> r.error == {PasswordsDiffer}
  {
    var c := Cleaned(input);
    var fieldErrors := RegisterFieldErrors(users, c);
    if fieldErrors != {} then Failure(fieldErrors)
    else if c.password != c.confirmPassword then Failure({PasswordsDiffer})
    else if !passwordAccepted(c.password) then Failure({PasswordRejected})
    else Success(c)
  }

  /** Django's `get_full_name`: first and last name joined by a space, stripped. */
  function FullName(first: string, last: string): string {
    Strings.PyStrip(first + " " + last)
  }

  /** The account a validated registration creates: inactive, with the full
      name as display name, or the username when the full name is blank. */
  function RegisteredUser(id: int, input: RegisterInput): (r: (User, string))
    ensures !r.0.isActive && r.0.id == id && r.0.username == input.username && r.0.email == input.email
    ensures r.0.firstName == input.firstName.GetOr("") && r.0.lastName == input.lastName.GetOr("")
    ensures r.1 == (if FullName(input.firstName.GetOr(""), input.lastName.GetOr("")) != ""
                    then FullName(input.firstName.GetOr(""), input.lastName.GetOr("")) else input.username)
    ensures input.username != "" ==> r.1 != ""
  {
    var user := User(id, input.username, input.email, input.firstName.GetOr(""), input.lastName.GetOr(""), false);
    var full := FullName(user.firstName, user.lastName);
    (user, if full != "" then full else user.username)
  }

  /** The account a successful registration creates holds the stripped
      username, email and names, and its display name is never blank. */
  lemma RegisteredUserIsCleaned(users: seq<User>, id: int, input: RegisterInput, passwordAccepted: string -> bool)
    requires ValidateRegistration(users, input, passwordAccepted).Success?
    ensures var (u, displayName) := RegisteredUser(id, ValidateRegistration(users, input, passwordAccepted).value);
      && u.username == Strings.PyStrip(input.username) != ""
      && u.email == Strings.PyStrip(input.email)
      && u.firstName == Strings.PyStrip(input.firstName.GetOr(""))
      && u.lastName == Strings.PyStrip(input.lastName.GetOr(""))
      && displayName != "" && Strings.PyStrip(displayName) == displayName
  {
    var c := ValidateRegistration(users, input, passwordAccepted).value;
    Strings.TrimIdempotent(c.firstName.GetOr("") + " " + c.lastName.GetOr(""), Strings.PySpace);
    Strings.TrimIdempotent(input.username, Strings.PySpace);
    assert Strings.PyStrip("") == "";
  }

  // ---------------------------------------------------------------------
  // Login
  // ---------------------------------------------------------------------

  datatype LoginInput = LoginInput(username: Option<string>, email: Option<string>, password: string)

  /** The login fields as the serializer cleans them, or `None` when a field
      is refused: a blank email or a blank password. The username may be blank. */
  function CleanLogin(input: LoginInput): (r: Option<LoginInput>)
    ensures r.None? <==> BlankField(input.email) || Strings.PyStrip(input.password) == ""
    ensures r.Some? ==> r.value == LoginInput(TrimmedField(input.username), TrimmedField(input.email), Strings.PyStrip(input.password))
  {
    if BlankField(input.email) || Strings.PyStrip(input.password) == "" then None
    else Some(LoginInput(TrimmedField(input.username), TrimmedField(input.email), Strings.PyStrip(input.password)))
  }

  /** The identifier a login names: the stripped username if given, else the
      stripped email; `None` (a validation error) when a field is refused or
      neither is given. */
  function LoginIdentifier(input: LoginInput): (r: Option<string>)
    ensures r.None? <==>
      CleanLogin(input).None? || (!Given(TrimmedField(input.username)) && !Given(TrimmedField(input.email)))
    ensures r.Some? && Given(TrimmedField(input.username)) ==> r.value == Strings.PyStrip(input.username.value)
    ensures r.Some? && !Given(TrimmedField(input.username)) ==> r.value == Strings.PyStrip(input.email.value)
    ensures r.Some? ==> r.value != "" && Strings.PyStrip(r.value) == r.value
  {
    var c := CleanLogin(input);
    if c.None? then None
    else
      var v := c.value;
      if !Given(v.username) && !Given(v.email) then None
      else if Given(v.username) then
        Strings.TrimIdempotent(input.username.value, Strings.PySpace);
        v.username
      else
        Strings.TrimIdempotent(input.email.value, Strings.PySpace);
        v.email
  }

  // ---------------------------------------------------------------------
  // Which account an OTP request is about
  // ---------------------------------------------------------------------

  /** Verification: the account with the given (stripped) email; failing
      that, or with no email, the account the session is waiting on. A
      blank email is refused by the field. */
  function VerificationUser(users: seq<User>, email: Option<string>, pendingUserId: Option<int>): (r: Option<User>)
    ensures BlankField(email) ==> r.None?
    ensures Given(TrimmedField(email)) && UserByEmail(users, TrimmedField(email).value).Some? ==>
      r == UserByEmail(users, TrimmedField(email).value)
    ensures !BlankField(email) && !(Given(TrimmedField(email)) && UserByEmail(users, TrimmedField(email).value).Some?) ==>
      r == (if GivenId(pendingUserId) then UserById(users, pendingUserId.value) else None)
    ensures r.Some? ==> r.value in users
  {
    var e := TrimmedField(email);
    if BlankField(email) then None
    else
      var byEmail := if Given(e) then UserByEmail(users, e.value) else None;
      if byEmail.Some? then byEmail
      else if GivenId(pendingUserId) then UserById(users, pendingUserId.value)
      else None
  }

  datatype ResendError = BlankEmail | UnknownEmail | NoAccount

  /** Resend: an email that matches nobody is an error, with no fallback to the session. */
  function ResendUser(users: seq<User>, email: Option<string>, pendingUserId: Option<int>): (r: Result<User, ResendError>)
    ensures BlankField(email) ==> r == Failure(BlankEmail)
    ensures Given(TrimmedField(email)) ==>
      r == (if UserByEmail(users, TrimmedField(email).value).Some? then Success(UserByEmail(users, TrimmedField(email).value).value)
            else Failure(UnknownEmail))
    ensures email.None? && GivenId(pendingUserId) && UserById(users, pendingUserId.value).Some? ==>
      r == Success(UserById(users, pendingUserId.value).value)
    ensures email.None? && !(GivenId(pendingUserId) && UserById(users, pendingUserId.value).Some?) ==>
      r == Failure(NoAccount)
  {
    var e := TrimmedField(email);
    if BlankField(email) then Failure(BlankEmail)
    else if Given(e) then
      var u := UserByEmail(users, e.value);
      if u.None? then Failure(UnknownEmail) else Success(u.value)
    else if GivenId(pendingUserId) && UserById(users, pendingUserId.value).Some? then
      Success(UserById(users, pendingUserId.value).value)
    else Failure(NoAccount)
  }

  datatype ResetConfirmError = EmailBlank | NewTooShort | ConfirmNewTooShort | NoSuchEmail | NewPasswordsDiffer | NewPasswordRejected

  datatype ResetConfirmInput = ResetConfirmInput(email: string, otpCode: string, newPassword: string, confirmPassword: string)

  /** The field errors of a reset confirmation, on the stripped fields. */
  function ResetFieldErrors(email: string, pw: string, confirm: string): (r: set<ResetConfirmError>)
    ensures EmailBlank in r <==> email == ""
    ensures NewTooShort in r <==> |pw| < MinPasswordLength
    ensures ConfirmNewTooShort in r <==> |confirm| < MinPasswordLength
    ensures NoSuchEmail !in r && NewPasswordsDiffer !in r && NewPasswordRejected !in r
  {
    Flag(email == "", EmailBlank) + Flag(|pw| < MinPasswordLength, NewTooShort)
      + Flag(|confirm| < MinPasswordLength, ConfirmNewTooShort)
  }

  /** Reset confirmation: field checks on the stripped fields first (reported
      together), then the account lookup, then the password match, then the
      strength check. */
  function ValidateResetConfirm(users: seq<User>, input: ResetConfirmInput, passwordAccepted: string -> bool)
    : (r: Result<(User, string), set<ResetConfirmError>>)
    ensures r.Failure? ==> r.error != {}
    ensures Strings.PyStrip(input.email) == "" ==> r.Failure? && EmailBlank in r.error
    ensures r.Success? ==>
      UserByEmail(users, Strings.PyStrip(input.email)) == Some(r.value.0)
      && r.value.1 == Strings.PyStrip(input.newPassword) == Strings.PyStrip(input.confirmPassword)
      && |r.value.1| >= MinPasswordLength && passwordAccepted(r.value.1)
    ensures UserByEmail(users, Strings.PyStrip(input.email)).None? ==> r.Failure?
    ensures Strings.PyStrip(input.newPassword) != Strings.PyStrip(input.confirmPassword) ==> r.Failure?
    ensures r.Failure? && NewPasswordsDiffer in r.error ==>
      r.error == {NewPasswordsDiffer} && Strings.PyStrip(input.newPassword) != Strings.PyStrip(input.confirmPassword)
  {
    var email := Strings.PyStrip(input.email);
    var pw := Strings.PyStrip(input.newPassword);
    var confirm := Strings.PyStrip(input.confirmPassword);
    var fieldErrors := ResetFieldErrors(email, pw, confirm);
    if fieldErrors != {} then Failure(fieldErrors)
    else
      var u := UserByEmail(users, email);
      if u.None? then Failure({NoSuchEmail})
      else if pw != confirm then Failure({NewPasswordsDiffer})
      else if !passwordAccepted(pw) then Failure({NewPasswordRejected})
      else Success((u.value, pw))
  }
}

=== FILE: auth_session.dfy ===
/** The client's session provider: fetching the signed-in user with the
    query library's retry rule, the value it hands to every page, and
    signing out. The fetch's `n`-th attempt (from 0) receives `respond(n)`. */
module AuthSession {
  import opened Wrappers
  import ClientApi

  /** The signed-in user as the dashboard endpoint returns it. */
  datatype SessionUser = SessionUser(id: int, username: string, email: string, emailVerified: bool)

  type Reply = ClientApi.Response<SessionUser>

  /** The number of failures after which the query stops retrying. */
  const RetryLimit := 2

  /** The query's `retry` option: never after a 401, otherwise while fewer
      than two failures have happened. */
  function ShouldRetry(failureCount: nat, error: Reply): (b: bool)
    ensures b <==> error != ClientApi.HttpError(401) && failureCount < RetryLimit
  {
    if error.HttpError? && error.status == 401 then false else failureCount < RetryLimit
  }

  /** The outcome of a fetch and how many attempts it made. */
  datatype Fetched = Fetched(result: Result<Option<SessionUser>, Reply>, attempts: nat)

  /** The query function run from failure `failureCount` on: each failed
      attempt is retried while `ShouldRetry` allows. */
  function Run(respond: nat -> Reply, failureCount: nat): (r: Fetched)
    ensures failureCount < r.attempts
    ensures failureCount <= RetryLimit ==> r.attempts <= RetryLimit + 1
    ensures r.result == ClientApi.Dashboard(respond(r.attempts - 1))
    ensures forall i :: failureCount <= i < r.attempts - 1 ==> ClientApi.Dashboard(respond(i)).Failure?
    ensures r.result.Failure? && failureCount <= RetryLimit ==> r.attempts == RetryLimit + 1
    decreases RetryLimit - failureCount
  {
    var outcome := ClientApi.Dashboard(respond(failureCount));
    if outcome.Success? then Fetched(outcome, failureCount + 1)
    else if ShouldRetry(failureCount, outcome.error) then Run(respond, failureCount + 1)
    else Fetched(outcome, failureCount + 1)
  }

  /** Fetching the signed-in user: one to three attempts; the result is the
      last attempt's, and every attempt before it failed. */
  function FetchUser(respond: nat -> Reply): (r: Fetched)
    ensures 1 <= r.attempts <= RetryLimit + 1
    ensures r.result == ClientApi.Dashboard(respond(r.attempts - 1))
    ensures forall i :: 0 <= i < r.attempts - 1 ==> ClientApi.Dashboard(respond(i)).Failure?
  {
    Run(respond, 0)
  }

  /** A server that keeps failing is asked three times and its last failure
      is the query's error. */
  lemma PersistentFailureTriesThrice(respond: nat -> Reply)
    requires forall i :: 0 <= i <= RetryLimit ==> ClientApi.Dashboard(respond(i)).Failure?
    ensures FetchUser(respond).attempts == RetryLimit + 1
    ensures FetchUser(respond).result == Failure(respond(RetryLimit))
  {
  }

  /** A signed-out answer on the first attempt ends the fetch with no user. */
  lemma SignedOutAtOnce(respond: nat -> Reply)
    requires respond(0) == ClientApi.HttpError(401)
    ensures FetchUser(respond) == Fetched(Success(None), 1)
  {
  }

  /** The retry rule only ever sees errors other than 401, which the fetch
      has already turned into "signed out"; for those it is the count test. */
  lemma RetryNeverSees401(resp: Reply, failureCount: nat)
    requires ClientApi.Dashboard(resp).Failure?
    ensures ShouldRetry(failureCount, ClientApi.Dashboard(resp).error) <==> failureCount < RetryLimit
  {
  }

  datatype QueryStatus = Pending | Succeeded | Errored

  /** What every page reads from the provider. */
  datatype ContextValue = ContextValue(user: Option<SessionUser>, loading: bool, refreshing: bool)

  /** The provider's value: the cached user (none for `null` or nothing
      cached), loading until the first answer and the CSRF prefetch. */
  function Value(cached: Option<SessionUser>, status: QueryStatus, initialised: bool, isFetching: bool): (v: ContextValue)
    ensures v.user == cached && v.refreshing == isFetching
    ensures v.loading <==> status == Pending || !initialised
  {
    ContextValue(cached, status == Pending || !initialised, isFetching)
  }

  /** `logout` up to `setQueryData`: whether the request succeeds or not, the
      cached user becomes `null` and the page goes to sign-in (the second
      component). The refetch that follows is `LogoutRefetched`. */
  function Logout(cached: Option<SessionUser>, requestOk: bool): (r: (Option<SessionUser>, string))
    ensures r == (None, "/login")
  {
    (None, "/login")
  }

  /** The end of `logout`: invalidating the cleared query refetches the user
      at once, and the server's answers to that refetch are `respond`. A
      successful refetch replaces the cached `null`; a failed one leaves it. */
  function LogoutRefetched(respond: nat -> Reply): (r: Option<SessionUser>)
    ensures r.Some? ==> exists n :: 0 <= n <= RetryLimit && respond(n) == ClientApi.Ok(r.value)
    ensures respond(0) == ClientApi.HttpError(401) ==> r.None?
    ensures respond(0).Ok? ==> r == Some(respond(0).body)
  {
    var f := FetchUser(respond);
    if f.result.Success? then f.result.value else None
  }
}

/** The two route guards: pages for signed-in, verified users, and the
    sign-in pages that such users skip. */
module RouteGuards {
  import opened Wrappers
  import opened AuthSession

  datatype ProtectedView = Spinner | RedirectLogin | RedirectVerify | ShowChildren

  datatype PublicView = PublicSpinner | RedirectHome | ShowPage

  /** `ProtectedRoute`: wait, then demand a user, then a verified one. */
  function Protected(v: ContextValue): (r: ProtectedView)
    ensures r == Spinner <==> v.loading || v.refreshing
    ensures r == ShowChildren <==> !v.loading && !v.refreshing && v.user.Some? && v.user.value.emailVerified
    ensures r == RedirectLogin <==> !v.loading && !v.refreshing && v.user.None?
  {
    if v.loading || v.refreshing then Spinner
    else if v.user.None? then RedirectLogin
    else if !v.user.value.emailVerified then RedirectVerify
    else ShowChildren
  }

  /** `PublicRoute`: wait, then send a verified user home. */
  function Public(v: ContextValue): (r: PublicView)
    ensures r == PublicSpinner <==> v.loading || v.refreshing
    ensures r == RedirectHome <==> !v.loading && !v.refreshing && v.user.Some? && v.user.value.emailVerified
  {
    if v.loading || v.refreshing then PublicSpinner
    else if v.user.Some? && v.user.value.emailVerified then RedirectHome
    else ShowPage
  }

  /** Once the provider is idle, exactly one of the two guards shows its
      page: the protected one for a verified user, the public one otherwise. */
  lemma ExactlyOneAdmits(v: ContextValue)
    requires !v.loading && !v.refreshing
    ensures Protected(v) == ShowChildren <==> Public(v) != ShowPage
    ensures Protected(v) != ShowChildren <==> Public(v) == ShowPage
  {
  }

  /** A signed-in user who has not verified is sent from protected pages to
      the verification page, and may still open the public pages. */
  lemma UnverifiedUserBetweenGuards(v: ContextValue)
    requires !v.loading && !v.refreshing && v.user.Some? && !v.user.value.emailVerified
    ensures Protected(v) == RedirectVerify && Public(v) == ShowPage
  {
  }

  /** Right after the cache is cleared, before the refetch, an idle provider
      sends protected pages to sign-in and opens the sign-in pages. */
  lemma SignedOutGoesToLogin(cached: Option<SessionUser>, requestOk: bool, status: QueryStatus)
    requires status != Pending
    ensures Protected(Value(Logout(cached, requestOk).0, status, true, false)) == RedirectLogin
    ensures Public(Value(Logout(cached, requestOk).0, status, true, false)) == ShowPage
  {
  }

  /** When the session has ended on the server, the refetch after signing
      out finds nobody: protected pages go to sign-in for good. */
  lemma EndedSessionGoesToLogin(respond: nat -> Reply, status: QueryStatus)
    requires respond(0) == ClientApi.HttpError(401) && status != Pending
    ensures Protected(Value(LogoutRefetched(respond), status, true, false)) == RedirectLogin
    ensures Public(Value(LogoutRefetched(respond), status, true, false)) == ShowPage
  {
  }

  /** When the logout request failed and the session is still alive, the
      refetch restores its verified user: protected pages open again and the
      sign-in page sends them home. */
  lemma LiveSessionReturns(respond: nat -> Reply, u: SessionUser, status: QueryStatus)
    requires respond(0) == ClientApi.Ok(u) && u.emailVerified && status != Pending
    ensures Protected(Value(LogoutRefetched(respond), status, true, false)) == ShowChildren
    ensures Public(Value(LogoutRefetched(respond), status, true, false)) == RedirectHome
  {
  }
}

=== FILE: auth_views.dfy ===
/** The account endpoints: registration, OTP resend with a cooldown, OTP
    verification, password-reset request and confirmation, token activation
    and login. Each endpoint is a function from the store (users, profiles,
    password table, session) to a response and the next store. The random
    draw and the clock are parameters; e-mail delivery, token generation and
    password hashing are left out. */
module AuthViews {
  import opened Wrappers
  import Strings
  import Digits
  import opened AuthModels
  import opened AuthSerializers

  const OtpLength: nat := 6
  const OtpExpirationSeconds := 15 * 60
  const ResendWaitSeconds := 5 * 60

  /** The six-digit code for a draw `n` of `randint(0, 10**6 - 1)`. */
  function GenerateOtp(n: nat): (code: string)
    requires n < Digits.Pow10(OtpLength)
    ensures |code| == OtpLength && Digits.AllDigits(code) && Digits.DigitsValue(code) == n
  {
    Digits.ZeroPadExact(n, OtpLength);
    Digits.ZeroPad(n, OtpLength)
  }

  datatype Session = Session(pendingUserId: Option<int>, resetUserId: Option<int>, loggedIn: Option<int>)

  datatype AuthStore = AuthStore(
    users: seq<User>,
    profiles: map<int, UserProfile>,
    passwords: map<int, string>,
    session: Session)

  /** The store with `userId`'s profile created if it was missing. */
  function WithProfile(s: AuthStore, userId: int): (r: AuthStore)
    ensures userId in r.profiles && r.users == s.users && r.passwords == s.passwords && r.session == s.session
    ensures userId in s.profiles ==> r == s
  {
    s.(profiles := EnsureProfile(s.profiles, userId).0)
  }

  function ProfileOf(s: AuthStore, userId: int): UserProfile {
    EnsureProfile(s.profiles, userId).1
  }

  /** `is_active = True` for the user with id `userId`. */
  function Activated(users: seq<User>, userId: int): (r: seq<User>)
    ensures |r| == |users|
    ensures forall i :: 0 <= i < |users| ==>
      r[i] == (if users[i].id == userId then users[i].(isActive := true) else users[i])
  {
    seq(|users|, i requires 0 <= i < |users| => if users[i].id == userId then users[i].(isActive := true) else users[i])
  }

  /** Issues a registration code valid for 15 minutes; it unverifies the email. */
  function IssueRegistrationOtp(s: AuthStore, userId: int, draw: nat, now: int): (r: AuthStore)
    requires draw < Digits.Pow10(OtpLength)
    ensures userId in r.profiles && r.profiles.Keys == s.profiles.Keys + {userId}
    ensures forall k :: k in s.profiles && k != userId ==> r.profiles[k] == s.profiles[k]
    ensures var p := r.profiles[userId];
      p.otpCode == GenerateOtp(draw) && p.otpPurpose == Registration
      && p.otpExpiresAt == Some(now + OtpExpirationSeconds) && !p.otpUsed && !p.emailVerified
      && p.lastOtpSentAt == Some(now)
    ensures r.users == s.users && r.passwords == s.passwords && r.session == s.session
  {
    var p := IssueOtp(ProfileOf(s, userId), GenerateOtp(draw), Registration, Some(now + OtpExpirationSeconds), None, now);
    s.(profiles := s.profiles[userId := p])
  }

  /** Issues a password-reset code valid for 15 minutes; verification status is kept. */
  function IssuePasswordResetOtp(s: AuthStore, userId: int, draw: nat, now: int): (r: AuthStore)
    requires draw < Digits.Pow10(OtpLength)
    ensures userId in r.profiles && r.profiles.Keys == s.profiles.Keys + {userId}
    ensures forall k :: k in s.profiles && k != userId ==> r.profiles[k] == s.profiles[k]
    ensures var p := r.profiles[userId];
      p.otpCode == GenerateOtp(draw) && p.otpPurpose == PasswordReset
      && p.otpExpiresAt == Some(now + OtpExpirationSeconds) && !p.otpUsed
      && p.emailVerified == ProfileOf(s, userId).emailVerified
    ensures r.users == s.users && r.passwords == s.passwords && r.session == s.session
  {
    var p := IssueOtp(ProfileOf(s, userId), GenerateOtp(draw), PasswordReset, Some(now + OtpExpirationSeconds), Some(false), now);
    s.(profiles := s.profiles[userId := p])
  }

  /** The cooldown: while fewer than five minutes have passed since the last
      code, the wait to report in whole minutes, floored and at least 1. */
  function CooldownWait(lastSent: Option<int>, now: int): (wait: Option<int>)
    ensures wait.Some? <==> lastSent.Some? && now - lastSent.value < ResendWaitSeconds
    ensures wait.Some? ==> wait.value >= 1
    ensures wait.Some? && now >= lastSent.value ==> wait.value <= 5
    ensures wait.Some? ==> var remaining := ResendWaitSeconds - (now - lastSent.value);
      (remaining >= 60 ==> wait.value * 60 <= remaining < wait.value * 60 + 60)
      && (remaining < 60 ==> wait.value == 1)
  {
    if lastSent.Some? && now - lastSent.value < ResendWaitSeconds then
      var remaining := ResendWaitSeconds - (now - lastSent.value);
      var minutes := remaining / 60;
      var orOne := if minutes != 0 then minutes else 1;
      Some(if orOne > 1 then orOne else 1)
    else None
  }

  // ---------------------------------------------------------------------
  // Registration
  // ---------------------------------------------------------------------

  /** The store after a registration that passed validation: an inactive
      user (with display name) is added, a verification is pending in the
      session and a registration code is issued. */
  function CreateAccount(s: AuthStore, input: RegisterInput, newId: int, draw: nat, now: int): (r: AuthStore)
    requires draw < Digits.Pow10(OtpLength)
    ensures |r.users| == |s.users| + 1 && r.users[..|s.users|] == s.users
    ensures r.users[|s.users|] == RegisteredUser(newId, input).0
    ensures r.session.pendingUserId == Some(newId)
    ensures r.passwords == s.passwords[newId := input.password]
    ensures newId in r.profiles && OtpMatches(r.profiles[newId], GenerateOtp(draw))
    ensures newId in r.profiles && r.profiles[newId].otpPurpose == Registration && !r.profiles[newId].emailVerified
  {
    var (user, displayName) := RegisteredUser(newId, input);
    var p := ProfileOf(s, newId).(displayName := displayName);
    var created := s.(users := s.users + [user],
                      profiles := s.profiles[newId := p],
                      passwords := s.passwords[newId := input.password],
                      session := s.session.(pendingUserId := Some(newId)));
    assert created.users[..|s.users|] == s.users;
    IssueRegistrationOtp(created, newId, draw, now)
  }

  /** The account a registration creates is the one its email finds when
      the verification page sends that email. */
  lemma RegisteredAccountFoundByEmail(s: AuthStore, input: RegisterInput, passwordAccepted: string -> bool,
                                      newId: int, draw: nat, now: int)
    requires draw < Digits.Pow10(OtpLength)
    requires Register(s, input, passwordAccepted, newId, draw, now).Success?
    requires Strings.PyStrip(input.email) != ""
    ensures var s2 := Register(s, input, passwordAccepted, newId, draw, now).value;
      VerificationUser(s2.users, Some(input.email), None) == Some(s2.users[|s.users|])
  {
    var c := ValidateRegistration(s.users, input, passwordAccepted).value;
    var s2 := CreateAccount(s, c, newId, draw, now);
    var email := Strings.PyStrip(input.email);
    var u := s2.users[|s.users|];
    assert u.email == c.email == email;
    assert s2.users == s.users + [u];
    assert UserByEmail(s.users, email).None?;
    UserByEmailAppend(s.users, u, email);
    assert TrimmedField(Some(input.email)) == Some(email);
  }

  /** Registration: the validation errors, or the account created from the
      validated input (whose password is the trimmed one). */
  function Register(s: AuthStore, input: RegisterInput, passwordAccepted: string -> bool,
                    newId: int, draw: nat, now: int): (r: Result<AuthStore, set<RegisterError>>)
    requires draw < Digits.Pow10(OtpLength)
    ensures r.Failure? <==> ValidateRegistration(s.users, input, passwordAccepted).Failure?
    ensures r.Failure? ==> r.error == ValidateRegistration(s.users, input, passwordAccepted).error
    ensures r.Success? ==> r.value == CreateAccount(s, ValidateRegistration(s.users, input, passwordAccepted).value, newId, draw, now)
    ensures r.Success? ==> r.value.passwords == s.passwords[newId := Strings.PyStrip(input.password)]
  {
    var v := ValidateRegistration(s.users, input, passwordAccepted);
    if v.Failure? then Failure(v.error)
    else Success(CreateAccount(s, v.value, newId, draw, now))
  }

  // ---------------------------------------------------------------------
  // Resend and forgot-password: a new code unless within the cooldown
  // ---------------------------------------------------------------------

  datatype SendOutcome = TooSoon(waitMinutes: int) | CodeSent

  function Resend(s: AuthStore, user: User, draw: nat, now: int): (r: (SendOutcome, AuthStore))
    requires draw < Digits.Pow10(OtpLength)
    ensures r.0.TooSoon? <==> CooldownWait(ProfileOf(s, user.id).lastOtpSentAt, now).Some?
    ensures r.0.TooSoon? ==> r.1 == WithProfile(s, user.id) && 1 <= r.0.waitMinutes
    ensures r.0.CodeSent? ==>
      r.1.session == s.session.(pendingUserId := Some(user.id))
      && user.id in r.1.profiles && OtpMatches(r.1.profiles[user.id], GenerateOtp(draw))
      && r.1.profiles[user.id].otpPurpose == Registration
      && !r.1.profiles[user.id].emailVerified
  {
    var s1 := WithProfile(s, user.id);
    var wait := CooldownWait(ProfileOf(s, user.id).lastOtpSentAt, now);
    if wait.Some? then (TooSoon(wait.value), s1)
    else
      var s2 := s1.(session := s1.session.(pendingUserId := Some(user.id)));
      (CodeSent, IssueRegistrationOtp(s2, user.id, draw, now))
  }

  /** The reset cooldown applies only while the current code is a reset code. */
  function ForgotPassword(s: AuthStore, user: User, draw: nat, now: int): (r: (SendOutcome, AuthStore))
    requires draw < Digits.Pow10(OtpLength)
    ensures r.0.TooSoon? <==> ProfileOf(s, user.id).otpPurpose == PasswordReset
                              && CooldownWait(ProfileOf(s, user.id).lastOtpSentAt, now).Some?
    ensures r.0.TooSoon? ==> r.1 == WithProfile(s, user.id)
    ensures r.0.CodeSent? ==>
      r.1.session == s.session.(resetUserId := Some(user.id))
      && user.id in r.1.profiles && OtpMatches(r.1.profiles[user.id], GenerateOtp(draw))
      && r.1.profiles[user.id].otpPurpose == PasswordReset
      && r.1.profiles[user.id].emailVerified == ProfileOf(s, user.id).emailVerified
  {
    var s1 := WithProfile(s, user.id);
    var p := ProfileOf(s, user.id);
    var wait := CooldownWait(p.lastOtpSentAt, now);
    if p.otpPurpose == PasswordReset && wait.Some? then (TooSoon(wait.value), s1)
    else
      var s2 := s1.(session := s1.session.(resetUserId := Some(user.id)));
      (CodeSent, IssuePasswordResetOtp(s2, user.id, draw, now))
  }

  /** A registration code issued less than five minutes ago blocks a resend,
      and the wait reported is between 1 and 5 minutes. */
  lemma ResendBlockedWithinCooldown(s: AuthStore, user: User, draw: nat, issued: int, now: int)
    requires draw < Digits.Pow10(OtpLength)
    requires user.id in s.profiles && s.profiles[user.id].lastOtpSentAt == Some(issued)
    requires issued <= now < issued + ResendWaitSeconds
    ensures Resend(s, user, draw, now).0.TooSoon?
    ensures 1 <= Resend(s, user, draw, now).0.waitMinutes <= 5
    ensures Resend(s, user, draw, now).1 == s
  {
  }

  // ---------------------------------------------------------------------
  // Verification
  // ---------------------------------------------------------------------

  datatype CheckOutcome = NotInProgress | CodeExpired | CodeInvalid | CodeAccepted

  /** The fixed check order shared by both verification endpoints: purpose,
      then expiry, then the code itself. */
  function CheckCode(p: UserProfile, purpose: OtpPurpose, code: string, now: int): (r: CheckOutcome)
    ensures r == CodeAccepted <==> p.otpPurpose == purpose && !OtpIsExpired(p, now) && OtpMatches(p, code)
    ensures r == NotInProgress <==> p.otpPurpose != purpose
    ensures r == CodeExpired <==> p.otpPurpose == purpose && OtpIsExpired(p, now)
  {
    if p.otpPurpose != purpose then NotInProgress
    else if OtpIsExpired(p, now) then CodeExpired
    else if !OtpMatches(p, code) then CodeInvalid
    else CodeAccepted
  }

  /** Email verification of the sent code, stripped by its field: on success
      the user is activated, verified, the code is consumed, the pending
      marker dropped and the user logged in. */
  function VerifyOtp(s: AuthStore, user: User, code: string, now: int): (r: (CheckOutcome, AuthStore))
    ensures r.0 == CheckCode(ProfileOf(s, user.id), Registration, Strings.PyStrip(code), now)
    ensures r.0 != CodeAccepted ==> r.1 == WithProfile(s, user.id)
    ensures r.0 == CodeAccepted ==>
      r.1.users == Activated(s.users, user.id)
      && user.id in r.1.profiles && r.1.profiles[user.id].emailVerified && r.1.profiles[user.id].otpUsed
      && r.1.session == s.session.(pendingUserId := None, loggedIn := Some(user.id))
      && r.1.passwords == s.passwords
  {
    var p := ProfileOf(s, user.id);
    var outcome := CheckCode(p, Registration, Strings.PyStrip(code), now);
    if outcome != CodeAccepted then (outcome, WithProfile(s, user.id))
    else
      var p' := MarkOtpUsed(MarkEmailVerified(p), now);
      (outcome, s.(users := Activated(s.users, user.id),
                   profiles := s.profiles[user.id := p'],
                   session := s.session.(pendingUserId := None, loggedIn := Some(user.id))))
  }

  /** A code cannot be used twice: replaying an accepted code later fails. */
  lemma VerifyReplayFails(s: AuthStore, user: User, code: string, now: int, later: int)
    requires VerifyOtp(s, user, code, now).0 == CodeAccepted
    ensures VerifyOtp(VerifyOtp(s, user, code, now).1, user, code, later).0 != CodeAccepted
  {
    var s1 := VerifyOtp(s, user, code, now).1;
    assert ProfileOf(s1, user.id).otpUsed;
  }

  /** The code's field strips it, so a code typed with surrounding spaces
      verifies exactly when the bare code does. */
  lemma VerifyIgnoresPadding(s: AuthStore, user: User, code: string, now: int)
    ensures VerifyOtp(s, user, " " + code + " ", now) == VerifyOtp(s, user, code, now)
  {
    Strings.TrimPadded(code, ' ', Strings.PySpace);
    assert [' '] + code + [' '] == " " + code + " ";
  }

  /** Password-reset confirmation: same checks; on success the password is
      replaced, the code consumed and the reset marker dropped. */
  function PasswordResetVerify(s: AuthStore, user: User, code: string, newPassword: string, now: int)
    : (r: (CheckOutcome, AuthStore))
    ensures r.0 == CheckCode(ProfileOf(s, user.id), PasswordReset, Strings.PyStrip(code), now)
    ensures r.0 != CodeAccepted ==> r.1 == WithProfile(s, user.id)
    ensures r.0 == CodeAccepted ==>
      r.1.passwords == s.passwords[user.id := newPassword]
      && user.id in r.1.profiles && r.1.profiles[user.id].otpUsed
      && r.1.profiles[user.id].emailVerified == ProfileOf(s, user.id).emailVerified
      && r.1.session == s.session.(resetUserId := None)
      && r.1.users == s.users
  {
    var p := ProfileOf(s, user.id);
    var outcome := CheckCode(p, PasswordReset, Strings.PyStrip(code), now);
    if outcome != CodeAccepted then (outcome, WithProfile(s, user.id))
    else
      (outcome, s.(passwords := s.passwords[user.id := newPassword],
                   profiles := s.profiles[user.id := MarkOtpUsed(p, now)],
                   session := s.session.(resetUserId := None)))
  }

  lemma PasswordResetReplayFails(s: AuthStore, user: User, code: string, pw: string, pw2: string, now: int, later: int)
    requires PasswordResetVerify(s, user, code, pw, now).0 == CodeAccepted
    ensures PasswordResetVerify(PasswordResetVerify(s, user, code, pw, now).1, user, code, pw2, later).0 != CodeAccepted
  {
    var s1 := PasswordResetVerify(s, user, code, pw, now).1;
    assert ProfileOf(s1, user.id).otpUsed;
  }

  /** Activation by token (the token check itself is left out): the user is
      activated and verified, any pending code is cleared, and they are logged in. */
  function Activate(s: AuthStore, user: User): (r: AuthStore)
    ensures r.users == Activated(s.users, user.id)
    ensures user.id in r.profiles && r.profiles[user.id].emailVerified
    ensures user.id in r.profiles && forall c :: !OtpMatches(r.profiles[user.id], c)
    ensures r.session.loggedIn == Some(user.id)
  {
    var p := ClearOtp(MarkEmailVerified(ProfileOf(s, user.id)));
    s.(users := Activated(s.users, user.id),
       profiles := s.profiles[user.id := p],
       session := s.session.(loggedIn := Some(user.id)))
  }

  // ---------------------------------------------------------------------
  // Login
  // ---------------------------------------------------------------------

  datatype LoginOutcome = LoginInvalid | InvalidCredentials | RequiresVerification | LoggedIn(userId: int)

  /** The account a login names: by the stripped email when an email is
      given (even if a username is given too), otherwise by the stripped
      username. */
  function LoginTarget(users: seq<User>, input: LoginInput): (r: Option<User>)
    requires LoginIdentifier(input).Some?
    ensures Given(TrimmedField(input.email)) ==> r == UserByEmail(users, Strings.PyStrip(input.email.value))
    ensures !Given(TrimmedField(input.email)) ==> r == UserByUsername(users, LoginIdentifier(input).value)
  {
    var c := CleanLogin(input).value;
    if Given(c.email) then UserByEmail(users, c.email.value)
    else UserByUsername(users, c.username.value)
  }

  /** `authenticates(id, password)` is the password check of the
      authentication backend. */
  function Login(s: AuthStore, input: LoginInput, authenticates: (int, string) -> bool, draw: nat, now: int)
    : (r: (LoginOutcome, AuthStore))
    requires draw < Digits.Pow10(OtpLength)
    ensures r.0 == LoginInvalid <==> LoginIdentifier(input).None?
    ensures r.0 == LoginInvalid || r.0 == InvalidCredentials ==> r.1 == s
    ensures r.0 == InvalidCredentials <==>
      LoginIdentifier(input).Some? && (LoginTarget(s.users, input).None? || !authenticates(LoginTarget(s.users, input).value.id, Strings.PyStrip(input.password)))
    ensures r.0 == RequiresVerification ==>
      var u := LoginTarget(s.users, input).value;
      (!u.isActive || !ProfileOf(s, u.id).emailVerified)
      && r.1.session == s.session.(pendingUserId := Some(u.id))
      && u.id in r.1.profiles && OtpMatches(r.1.profiles[u.id], GenerateOtp(draw))
    ensures r.0.LoggedIn? ==>
      var u := LoginTarget(s.users, input).value;
      r.0.userId == u.id && u.isActive && ProfileOf(s, u.id).emailVerified
      && authenticates(u.id, Strings.PyStrip(input.password))
      && r.1 == WithProfile(s, u.id).(session := s.session.(loggedIn := Some(u.id)))
  {
    if LoginIdentifier(input).None? then (LoginInvalid, s)
    else
      var target := LoginTarget(s.users, input);
      if target.None? then (InvalidCredentials, s)
      else if !authenticates(target.value.id, Strings.PyStrip(input.password)) then (InvalidCredentials, s)
      else
        var u := target.value;
        var s1 := WithProfile(s, u.id);
        if !u.isActive || !ProfileOf(s, u.id).emailVerified then
          var s2 := s1.(session := s1.session.(pendingUserId := Some(u.id)));
          (RequiresVerification, IssueRegistrationOtp(s2, u.id, draw, now))
        else
          (LoggedIn(u.id), s1.(session := s1.session.(loggedIn := Some(u.id))))
  }

  /** An unknown account and a wrong password are indistinguishable: the same
      response and no change to the store. */
  lemma LoginFailuresIndistinguishable(s: AuthStore, unknown: LoginInput, wrong: LoginInput,
                                       authenticates: (int, string) -> bool, draw: nat, now: int)
    requires draw < Digits.Pow10(OtpLength)
    requires LoginIdentifier(unknown).Some? && LoginTarget(s.users, unknown).None?
    requires LoginIdentifier(wrong).Some? && LoginTarget(s.users, wrong).Some?
    requires !authenticates(LoginTarget(s.users, wrong).value.id, Strings.PyStrip(wrong.password))
    ensures Login(s, unknown, authenticates, draw, now) == Login(s, wrong, authenticates, draw, now) == (InvalidCredentials, s)
  {
  }
}

=== FILE: avatar.dfy ===
/** The client's choice of a user's avatar image and display name, from
    whatever user record it holds (the signed-in user, a listed user, a
    post's author). */
module Avatar {
  import opened Wrappers
  import Strings
  import AuthModels
  import AuthSerializers
  import Directory
  import ClientTypes

  const FallbackSeed := "pentapy"
  const DicebearPrefix := "https://api.dicebear.com/7.x/avataaars/svg?seed="

  datatype ProfileInfo = ProfileInfo(avatar: Option<string>, displayName: Option<string>)

  /** Any record with some of these fields; `None` is a missing or null field. */
  datatype AvatarSource = AvatarSource(
    username: Option<string>,
    firstName: Option<string>,
    lastName: Option<string>,
    profile: Option<ProfileInfo>)

  /** `user?.profile?.avatar`. */
  function StoredAvatar(user: Option<AvatarSource>): (r: Option<string>)
    ensures r.Some? ==> user.Some? && user.value.profile.Some? && r == user.value.profile.value.avatar
  {
    if user.Some? && user.value.profile.Some? then user.value.profile.value.avatar else None
  }

  /** The generated avatar's seed: the username, then the caller's seed, then the fixed one. */
  function Seed(user: Option<AvatarSource>, fallbackSeed: Option<string>): (s: string)
    ensures s != ""
    ensures user.Some? && ClientTypes.Present(user.value.username) ==> s == user.value.username.value
    ensures !(user.Some? && ClientTypes.Present(user.value.username)) && ClientTypes.Present(fallbackSeed) ==> s == fallbackSeed.value
  {
    if user.Some? && ClientTypes.Present(user.value.username) then user.value.username.value
    else if ClientTypes.Present(fallbackSeed) then fallbackSeed.value
    else FallbackSeed
  }

  /** The generated avatar's address; `encode` is `encodeURIComponent`. */
  function DicebearUrl(seed: string, encode: string -> string): (r: string)
    ensures Strings.StartsWith(r, DicebearPrefix)
    ensures r[|DicebearPrefix|..] == encode(if seed == "" then FallbackSeed else seed)
  {
    DicebearPrefix + encode(if seed == "" then FallbackSeed else seed)
  }

  /** `resolveUserAvatar`: a stored avatar as it is, otherwise a generated one. */
  function ResolveUserAvatar(user: Option<AvatarSource>, fallbackSeed: Option<string>, encode: string -> string): (r: string)
    ensures r != ""
    ensures ClientTypes.Present(StoredAvatar(user)) ==> r == StoredAvatar(user).value
    ensures !ClientTypes.Present(StoredAvatar(user)) ==> r == DicebearUrl(Seed(user, fallbackSeed), encode)
  {
    var stored := StoredAvatar(user);
    if ClientTypes.Present(stored) then stored.value
    else DicebearUrl(Seed(user, fallbackSeed), encode)
  }

  /** Without a stored avatar the image depends on the username only: two
      records with the same username get the same image whatever else they hold. */
  lemma GeneratedAvatarFollowsUsername(a: AvatarSource, b: AvatarSource, seedA: Option<string>, seedB: Option<string>, encode: string -> string)
    requires ClientTypes.Present(a.username) && a.username == b.username
    requires !ClientTypes.Present(StoredAvatar(Some(a))) && !ClientTypes.Present(StoredAvatar(Some(b)))
    ensures ResolveUserAvatar(Some(a), seedA, encode) == ResolveUserAvatar(Some(b), seedB, encode)
  {
  }

  /** The trimmed profile display name, or "" without one. */
  function ProfileName(u: AvatarSource): (r: string)
    ensures r == Strings.JsTrim(r)
  {
    if u.profile.Some? && u.profile.value.displayName.Some? then
      Strings.TrimIdempotent(u.profile.value.displayName.value, Strings.JsSpace);
      Strings.JsTrim(u.profile.value.displayName.value)
    else ""
  }

  /** The page's `${first} ${last}`.trim(). */
  function ClientFullName(first: string, last: string): (r: string)
    ensures r == Strings.JsTrim(r)
    ensures |r| <= |first| + 1 + |last|
  {
    Strings.TrimIdempotent(first + " " + last, Strings.JsSpace);
    Strings.JsTrim(first + " " + last)
  }

  /** `resolveDisplayName`: the trimmed display name, then the trimmed
      "first last", then the username, then "". */
  function ResolveDisplayName(user: Option<AvatarSource>): (r: string)
    ensures user.None? ==> r == ""
    ensures user.Some? && ProfileName(user.value) != "" ==> r == ProfileName(user.value)
    ensures user.Some? && ProfileName(user.value) == "" ==>
      r == (var full := ClientFullName(user.value.firstName.GetOr(""), user.value.lastName.GetOr(""));
            if full != "" then full else user.value.username.GetOr(""))
  {
    if user.None? then ""
    else
      var u := user.value;
      var profileName := ProfileName(u);
      if profileName != "" then profileName
      else
        var full := ClientFullName(u.firstName.GetOr(""), u.lastName.GetOr(""));
        if full != "" then full else u.username.GetOr("")
  }

  /** A name that does not come from the username has no surrounding
      whitespace, and a record with a username always gets a name. */
  lemma DisplayNameShape(user: Option<AvatarSource>)
    ensures var r := ResolveDisplayName(user);
      r == Strings.JsTrim(r) || (user.Some? && r == user.value.username.GetOr(""))
    ensures user.Some? && ClientTypes.Present(user.value.username) ==> ResolveDisplayName(user) != ""
  {
  }

  /** The record the user serializers send for a user and profile. */
  function Serialized(u: AuthModels.User, p: AuthModels.UserProfile): AvatarSource {
    AvatarSource(Some(u.username), Some(u.firstName), Some(u.lastName), Some(ProfileInfo(p.avatar, Some(p.displayName))))
  }

  /** For a serialized user with a blank display name, the client's name is
      the server's `full_name`. */
  lemma DisplayNameFallsBackToFullName(u: AuthModels.User, p: AuthModels.UserProfile)
    requires Strings.JsTrim(p.displayName) == ""
    requires Strings.NoPyOnlySpace(u.firstName + " " + u.lastName)
    requires forall k :: 0 <= k < |u.firstName + " " + u.lastName| ==> (u.firstName + " " + u.lastName)[k] as int != 0xFEFF
    ensures ResolveDisplayName(Some(Serialized(u, p))) == Directory.PublicFullName(u)
  {
    var src := Serialized(u, p);
    assert ProfileName(src) == "";
    Strings.JsTrimIsPyStrip(u.firstName + " " + u.lastName);
    assert ClientFullName(u.firstName, u.lastName) == AuthSerializers.FullName(u.firstName, u.lastName);
  }

  /** The two sides trim differently: a first name of U+001C alone, with
      no last name, is a name on the page and blank on the server, which
      falls back to the username. */
  lemma SeparatorNameDisagrees(u: AuthModels.User, p: AuthModels.UserProfile)
    requires Strings.JsTrim(p.displayName) == ""
    requires u.firstName == "\U{1C}" && u.lastName == ""
    ensures ResolveDisplayName(Some(Serialized(u, p))) == "\U{1C}"
    ensures Directory.PublicFullName(u) == u.username
  {
    SeparatorNameOnPage(u, p);
    SeparatorNameOnServer(u);
  }

  lemma SeparatorNameOnPage(u: AuthModels.User, p: AuthModels.UserProfile)
    requires Strings.JsTrim(p.displayName) == ""
    requires u.firstName == "\U{1C}" && u.lastName == ""
    ensures ResolveDisplayName(Some(Serialized(u, p))) == "\U{1C}"
  {
    var src := Serialized(u, p);
    assert ProfileName(src) == "";
    SeparatorNameSides();
    assert ClientFullName(src.firstName.GetOr(""), src.lastName.GetOr("")) == "\U{1C}";
  }

  lemma SeparatorNameOnServer(u: AuthModels.User)
    requires u.firstName == "\U{1C}" && u.lastName == ""
    ensures Directory.PublicFullName(u) == u.username
  {
    SeparatorNameSides();
  }

  /** The page keeps U+001C in "first last"; the server strips it away. */
  lemma SeparatorNameSides()
    ensures ClientFullName("\U{1C}", "") == "\U{1C}"
    ensures AuthSerializers.FullName("\U{1C}", "") == ""
  {
    var text := "\U{1C}" + " " + "";
    assert !Strings.JsSpace(text[0]) && Strings.JsSpace(text[1]);
    assert Strings.TrimStart(text, Strings.JsSpace) == text;
    assert text[..1] == "\U{1C}";
    assert Strings.TrimEnd(text[..1], Strings.JsSpace) == text[..1];
    assert Strings.PySpace(text[0]) && Strings.PySpace(text[1]);
    Strings.TrimEmptyIffBlank(text, Strings.PySpace);
  }
}

=== FILE: chat_cache.dfy ===
/** The chat page's client-side cache: the conversation list, the per-
    conversation message lists, the contact list, the selected conversation
    and the message draft, with the updaters the page applies after each
    fetch or mutation and the guards in front of each request. */
module ChatCache {
  import opened Wrappers
  import Seqs
  import Strings

  datatype Participant = Participant(id: int, username: string)

  datatype Message = Message(id: int, conversationId: int, senderId: int, content: string, createdAt: int)

  datatype Conversation = Conversation(
    id: int,
    isGroup: bool,
    participants: seq<Participant>,
    lastMessage: Option<Message>,
    unreadCount: int)

  datatype Contact = Contact(id: int, username: string, youFollow: bool, followsYou: bool)

  /** The page state. A cache entry that was never fetched is `None`
      (react-query's `undefined`); the selection is `number | null`. */
  datatype ChatView = ChatView(
    conversations: Option<seq<Conversation>>,
    messages: map<int, seq<Message>>,
    contacts: Option<seq<Contact>>,
    selected: Option<int>,
    draft: string)

  /** JavaScript truthiness of a `number | null` id: null and 0 are falsy. */
  predicate Truthy(id: Option<int>) {
    id.Some? && id.value != 0
  }

  /** Ids of the participants other than the current user. */
  function PeerIds(ps: seq<Participant>, userId: Option<int>): (r: set<int>)
    ensures forall k :: k in r <==> userId != Some(k) && exists i :: 0 <= i < |ps| && ps[i].id == k
  {
    if |ps| == 0 then {}
    else
      var rest := PeerIds(ps[1..], userId);
      assert forall i :: 0 <= i < |ps| - 1 ==> ps[1..][i] == ps[i + 1];
      (if userId != Some(ps[0].id) then {ps[0].id} else {}) + rest
  }

  /** `k` is a participant of direct conversation `c` other than the current user. */
  predicate IsDirectPeer(c: Conversation, k: int, userId: Option<int>) {
    !c.isGroup && k in PeerIds(c.participants, userId)
  }

  predicate DistinctIds(cs: seq<Conversation>) {
    forall i, j :: 0 <= i < j < |cs| ==> cs[i].id != cs[j].id
  }

  function Ids(cs: seq<Conversation>): (r: seq<int>)
    ensures |r| == |cs| && forall i :: 0 <= i < |cs| ==> r[i] == cs[i].id
  {
    seq(|cs|, i requires 0 <= i < |cs| => cs[i].id)
  }

  predicate HasId(convs: seq<Conversation>, id: int) {
    exists i :: 0 <= i < |convs| && convs[i].id == id
  }

  // ---------------------------------------------------------------------
  // Direct-conversation index and contacts eligible for a new conversation
  // ---------------------------------------------------------------------

  /** `map.set(participant.id, c)` for every participant other than the user. */
  function AddPeers(m: map<int, Conversation>, ps: seq<Participant>, c: Conversation, userId: Option<int>)
    : (r: map<int, Conversation>)
    ensures r.Keys == m.Keys + PeerIds(ps, userId)
    ensures forall k :: k in r ==> r[k] == (if k in PeerIds(ps, userId) then c else m[k])
    decreases |ps|
  {
    if |ps| == 0 then m
    else
      var m' := if userId != Some(ps[0].id) then m[ps[0].id := c] else m;
      AddPeers(m', ps[1..], c, userId)
  }

  /** Every key names a direct peer, and every direct peer is a key. */
  ghost predicate KeysAreDirectPeers(r: map<int, Conversation>, convs: seq<Conversation>, userId: Option<int>) {
    forall k :: k in r <==> exists i :: 0 <= i < |convs| && IsDirectPeer(convs[i], k, userId)
  }

  /** Each key maps to the last conversation in the list having that direct peer. */
  ghost predicate KeysMapToLast(r: map<int, Conversation>, convs: seq<Conversation>, userId: Option<int>) {
    forall k :: k in r ==> LastWithPeer(convs, k, userId, r[k])
  }

  ghost predicate LastWithPeer(convs: seq<Conversation>, k: int, userId: Option<int>, c: Conversation) {
    exists i :: 0 <= i < |convs| && convs[i] == c && IsDirectPeer(c, k, userId)
      && forall j :: i < j < |convs| ==> !IsDirectPeer(convs[j], k, userId)
  }

  /** The page's `directConversationMap`: conversations are visited in list
      order, so a later conversation overwrites an earlier one. */
  function DirectIndex(convs: seq<Conversation>, userId: Option<int>): (r: map<int, Conversation>)
    ensures KeysAreDirectPeers(r, convs, userId)
    ensures KeysMapToLast(r, convs, userId)
  {
    if |convs| == 0 then map[]
    else
      var init := convs[..|convs| - 1];
      var c := convs[|convs| - 1];
      var m := DirectIndex(init, userId);
      var r := if c.isGroup then m else AddPeers(m, c.participants, c, userId);
      DirectIndexStep(init, c, m, r, userId);
      assert init + [c] == convs;
      r
  }

  lemma DirectIndexStep(init: seq<Conversation>, c: Conversation, m: map<int, Conversation>,
                        r: map<int, Conversation>, userId: Option<int>)
    requires KeysAreDirectPeers(m, init, userId) && KeysMapToLast(m, init, userId)
    requires r == if c.isGroup then m else AddPeers(m, c.participants, c, userId)
    ensures KeysAreDirectPeers(r, init + [c], userId) && KeysMapToLast(r, init + [c], userId)
  {
    assert forall k :: k in r <==> k in m || IsDirectPeer(c, k, userId);
    assert forall k :: k in r ==> r[k] == if IsDirectPeer(c, k, userId) then c else m[k];
    DirectIndexKeys(init, c, m, r, userId);
    DirectIndexLast(init, c, m, r, userId);
  }

  lemma DirectIndexKeys(init: seq<Conversation>, c: Conversation, m: map<int, Conversation>,
                        r: map<int, Conversation>, userId: Option<int>)
    requires KeysAreDirectPeers(m, init, userId)
    requires forall k :: k in r <==> k in m || IsDirectPeer(c, k, userId)
    ensures KeysAreDirectPeers(r, init + [c], userId)
  {
    var convs := init + [c];
    forall k
      ensures k in r <==> exists i :: 0 <= i < |convs| && IsDirectPeer(convs[i], k, userId)
    {
      if exists i :: 0 <= i < |convs| && IsDirectPeer(convs[i], k, userId) {
        var i :| 0 <= i < |convs| && IsDirectPeer(convs[i], k, userId);
        if i < |init| {
          assert convs[i] == init[i];
        }
      }
      if k in m {
        var i :| 0 <= i < |init| && IsDirectPeer(init[i], k, userId);
        assert convs[i] == init[i];
      }
      if IsDirectPeer(c, k, userId) {
        assert convs[|init|] == c;
      }
    }
  }

  lemma DirectIndexLast(init: seq<Conversation>, c: Conversation, m: map<int, Conversation>,
                        r: map<int, Conversation>, userId: Option<int>)
    requires KeysMapToLast(m, init, userId)
    requires forall k :: k in r <==> k in m || IsDirectPeer(c, k, userId)
    requires forall k :: k in r ==> r[k] == if IsDirectPeer(c, k, userId) then c else m[k]
    ensures KeysMapToLast(r, init + [c], userId)
  {
    forall k | k in r
      ensures LastWithPeer(init + [c], k, userId, r[k])
    {
      if IsDirectPeer(c, k, userId) {
        LastWithPeerAtEnd(init, c, k, userId);
      } else {
        LastWithPeerExtend(init, c, k, userId, m[k]);
      }
    }
  }

  lemma LastWithPeerAtEnd(init: seq<Conversation>, c: Conversation, k: int, userId: Option<int>)
    requires IsDirectPeer(c, k, userId)
    ensures LastWithPeer(init + [c], k, userId, c)
  {
    assert (init + [c])[|init|] == c;
  }

  lemma LastWithPeerExtend(init: seq<Conversation>, c: Conversation, k: int, userId: Option<int>, x: Conversation)
    requires LastWithPeer(init, k, userId, x) && !IsDirectPeer(c, k, userId)
    ensures LastWithPeer(init + [c], k, userId, x)
  {
    var convs := init + [c];
    var i :| 0 <= i < |init| && init[i] == x && IsDirectPeer(x, k, userId)
      && forall j :: i < j < |init| ==> !IsDirectPeer(init[j], k, userId);
    assert convs[i] == x;
    forall j | i < j < |convs|
      ensures !IsDirectPeer(convs[j], k, userId)
    {
      if j < |init| { assert convs[j] == init[j]; } else { assert convs[j] == c; }
    }
  }

  /** The current user is never a key of the index. */
  lemma SelfNeverIndexed(convs: seq<Conversation>, u: int)
    ensures u !in DirectIndex(convs, Some(u))
  {
  }

  /** A group conversation appended to the list adds no index entry. */
  lemma GroupAddsNothing(convs: seq<Conversation>, g: Conversation, userId: Option<int>)
    requires g.isGroup
    ensures DirectIndex(convs + [g], userId) == DirectIndex(convs, userId)
  {
    assert (convs + [g])[..|convs|] == convs;
  }

  /** `filteredContacts`: contacts with no direct conversation yet, in order. */
  function EligibleContacts(contacts: seq<Contact>, index: map<int, Conversation>): (r: seq<Contact>)
    ensures Seqs.IsSubseq(r, contacts)
    ensures forall i :: 0 <= i < |r| ==> r[i].id !in index
    ensures forall i :: 0 <= i < |contacts| && contacts[i].id !in index ==> contacts[i] in r
    ensures forall c :: multiset(r)[c] == if c.id in index then 0 else multiset(contacts)[c]
  {
    Seqs.FilterIsSubseq(contacts, (c: Contact) => c.id !in index);
    Seqs.FilterMultiset(contacts, (c: Contact) => c.id !in index);
    Seqs.Filter(contacts, (c: Contact) => c.id !in index)
  }

  // ---------------------------------------------------------------------
  // Selection
  // ---------------------------------------------------------------------

  /** The selection effect: no conversations clears the selection; a falsy
      selection or one missing from the list moves to the first conversation. */
  function SelectionFallback(convs: seq<Conversation>, selected: Option<int>): (r: Option<int>)
    ensures |convs| == 0 ==> r == None
    ensures |convs| > 0 && Truthy(selected) && HasId(convs, selected.value) ==> r == selected
    ensures |convs| > 0 && !(Truthy(selected) && HasId(convs, selected.value)) ==> r == Some(convs[0].id)
    ensures r.Some? ==> HasId(convs, r.value)
  {
    if |convs| == 0 then None
    else if !Truthy(selected) || !HasId(convs, selected.value) then Some(convs[0].id)
    else selected
  }

  /** Re-running the effect on its own output changes nothing. */
  lemma SelectionFallbackStable(convs: seq<Conversation>, selected: Option<int>)
    ensures SelectionFallback(convs, SelectionFallback(convs, selected)) == SelectionFallback(convs, selected)
  {
  }

  /** `activeConversation`: the first conversation with the selected id. */
  function ActiveConversation(convs: seq<Conversation>, selected: Option<int>): (r: Option<Conversation>)
    ensures r.Some? <==> selected.Some? && HasId(convs, selected.value)
    ensures r.Some? ==> r.value in convs && r.value.id == selected.value
  {
    if selected.None? then None
    else
      var i := Seqs.FindIndex(convs, (c: Conversation) => c.id == selected.value);
      if i < 0 then None else Some(convs[i])
  }

  // ---------------------------------------------------------------------
  // Mark-read after a message page loads
  // ---------------------------------------------------------------------

  /** The conversation after its messages were read: the page's last
      message (if any) becomes the preview and the unread count is 0. */
  function ReadThrough(c: Conversation, page: seq<Message>): (r: Conversation)
    ensures r.unreadCount == 0
    ensures r.lastMessage == (if |page| > 0 then Some(page[|page| - 1]) else c.lastMessage)
    ensures r.(lastMessage := c.lastMessage, unreadCount := c.unreadCount) == c
  {
    c.(lastMessage := if |page| > 0 then Some(page[|page| - 1]) else c.lastMessage, unreadCount := 0)
  }

  /** Reading the same page again changes nothing more. */
  lemma ReadThroughIdempotent(c: Conversation, page: seq<Message>)
    ensures ReadThrough(ReadThrough(c, page), page) == ReadThrough(c, page)
  {
  }

  function MarkSelectedRead(prev: Option<seq<Conversation>>, selected: Option<int>, page: Option<seq<Message>>)
    : (r: Option<seq<Conversation>>)
    ensures !Truthy(selected) || page.None? || prev.None? ==> r == prev
    ensures r.Some? <==> prev.Some?
    ensures r.Some? ==> |r.value| == |prev.value|
    ensures Truthy(selected) && page.Some? && prev.Some? ==> forall i :: 0 <= i < |prev.value| ==>
      r.value[i].id == prev.value[i].id
      && (prev.value[i].id != selected.value ==> r.value[i] == prev.value[i])
      && (prev.value[i].id == selected.value ==> r.value[i].unreadCount == 0)
      && (prev.value[i].id == selected.value && |page.value| > 0 ==> r.value[i].lastMessage == Some(page.value[|page.value| - 1]))
      && (prev.value[i].id == selected.value && |page.value| == 0 ==> r.value[i].lastMessage == prev.value[i].lastMessage)
      && (prev.value[i].id == selected.value ==> r.value[i] == ReadThrough(prev.value[i], page.value))
  {
    if !Truthy(selected) || page.None? || prev.None? then prev
    else
      var cs := prev.value;
      Some(seq(|cs|, i requires 0 <= i < |cs| =>
        if cs[i].id == selected.value then ReadThrough(cs[i], page.value) else cs[i]))
  }

  /** Marking the same page read twice is marking it once. */
  lemma MarkSelectedReadIdempotent(prev: Option<seq<Conversation>>, selected: Option<int>, page: Option<seq<Message>>)
    ensures MarkSelectedRead(MarkSelectedRead(prev, selected, page), selected, page) == MarkSelectedRead(prev, selected, page)
  {
    if Truthy(selected) && page.Some? && prev.Some? {
      var once := MarkSelectedRead(prev, selected, page).value;
      var twice := MarkSelectedRead(Some(once), selected, page).value;
      forall i | 0 <= i < |once|
        ensures twice[i] == once[i]
      {
        if prev.value[i].id == selected.value {
          ReadThroughIdempotent(prev.value[i], page.value);
        }
      }
      assert twice == once;
    }
  }

  // ---------------------------------------------------------------------
  // Sending
  // ---------------------------------------------------------------------

  /** `handleSendMessage`: the content sent, or `None` when no request is made. */
  function SendRequest(selected: Option<int>, draft: string, sendPending: bool): (r: Option<string>)
    ensures r.Some? <==> Truthy(selected) && Strings.JsTrim(draft) != "" && !sendPending
    ensures r.Some? ==> r.value == Strings.JsTrim(draft)
  {
    var trimmed := Strings.JsTrim(draft);
    if !Truthy(selected) then None
    else if trimmed == "" then None
    else if sendPending then None
    else Some(trimmed)
  }

  /** What the client sends is never blank and is its own trim. */
  lemma SentContentIsTrimmed(selected: Option<int>, draft: string, pending: bool)
    requires SendRequest(selected, draft, pending).Some?
    ensures var c := SendRequest(selected, draft, pending).value;
      |c| > 0 && Strings.JsTrim(c) == c && !Strings.IsBlank(c, Strings.JsSpace)
  {
    var c := SendRequest(selected, draft, pending).value;
    Strings.TrimIdempotent(draft, Strings.JsSpace);
    Strings.TrimEmptyIffBlank(c, Strings.JsSpace);
  }

  /** The message list of one conversation with `msg` appended (no de-duplication). */
  function AppendMessage(cache: map<int, seq<Message>>, msg: Message): (r: map<int, seq<Message>>)
    ensures r.Keys == cache.Keys + {msg.conversationId}
    ensures r[msg.conversationId] == (if msg.conversationId in cache then cache[msg.conversationId] else []) + [msg]
    ensures forall k :: k in cache && k != msg.conversationId ==> r[k] == cache[k]
  {
    var prev := if msg.conversationId in cache then cache[msg.conversationId] else [];
    cache[msg.conversationId := prev + [msg]]
  }

  lemma IdsRemoveAt(cs: seq<Conversation>, i: nat)
    requires i < |cs|
    ensures Ids(Seqs.RemoveAt(cs, i)) == Seqs.RemoveAt(Ids(cs), i)
  {
  }

  /** The conversation a message was sent to moves to the head of the list
      with the message as its preview and no unread messages; the others keep
      their relative order. */
  function MoveToHead(prev: seq<Conversation>, msg: Message): (r: seq<Conversation>)
    ensures |r| == |prev|
    ensures multiset(Ids(r)) == multiset(Ids(prev))
    ensures !HasId(prev, msg.conversationId) ==> r == prev
    ensures HasId(prev, msg.conversationId) ==>
      r[0].id == msg.conversationId && r[0].lastMessage == Some(msg) && r[0].unreadCount == 0
      && Seqs.IsSubseq(r[1..], prev)
    ensures HasId(prev, msg.conversationId) ==>
      exists k :: FirstWithId(prev, k, msg.conversationId)
        && r == [prev[k].(lastMessage := Some(msg), unreadCount := 0)] + Seqs.RemoveAt(prev, k)
  {
    var index := Seqs.FindIndex(prev, (c: Conversation) => c.id == msg.conversationId);
    if index < 0 then
      assert !HasId(prev, msg.conversationId);
      prev
    else
      assert FirstWithId(prev, index, msg.conversationId);
      HeadMoveFacts(prev, index, msg);
      [prev[index].(lastMessage := Some(msg), unreadCount := 0)] + Seqs.RemoveAt(prev, index)
  }

  /** `k` is the first position of a conversation with that id. */
  predicate FirstWithId(cs: seq<Conversation>, k: int, id: int) {
    0 <= k < |cs| && cs[k].id == id && forall j :: 0 <= j < k ==> cs[j].id != id
  }

  /** Moving the same message's conversation to the head again changes nothing. */
  lemma MoveToHeadIdempotent(prev: seq<Conversation>, msg: Message)
    ensures MoveToHead(MoveToHead(prev, msg), msg) == MoveToHead(prev, msg)
  {
    var r := MoveToHead(prev, msg);
    if HasId(prev, msg.conversationId) {
      assert HasId(r, msg.conversationId) by {
        assert r[0].id == msg.conversationId;
      }
      var r2 := MoveToHead(r, msg);
      var k :| FirstWithId(r, k, msg.conversationId)
        && r2 == [r[k].(lastMessage := Some(msg), unreadCount := 0)] + Seqs.RemoveAt(r, k);
      assert k == 0;
      assert r[0].(lastMessage := Some(msg), unreadCount := 0) == r[0];
      assert Seqs.RemoveAt(r, 0) == r[1..];
      assert r2 == [r[0]] + r[1..];
    }
  }

  /** Putting a replacement of `prev[index]` in front of the remaining
      conversations keeps the multiset of ids and the others' order. */
  lemma HeadMoveFacts(prev: seq<Conversation>, index: int, msg: Message)
    requires FirstWithId(prev, index, msg.conversationId)
    ensures var r := [prev[index].(lastMessage := Some(msg), unreadCount := 0)] + Seqs.RemoveAt(prev, index);
      && |r| == |prev|
      && multiset(Ids(r)) == multiset(Ids(prev))
      && r[0].id == msg.conversationId && r[0].lastMessage == Some(msg) && r[0].unreadCount == 0
      && Seqs.IsSubseq(r[1..], prev)
      && HasId(prev, msg.conversationId)
  {
    var updated := prev[index].(lastMessage := Some(msg), unreadCount := 0);
    var rest := Seqs.RemoveAt(prev, index);
    var r := [updated] + rest;
    assert Ids(r) == [updated.id] + Ids(rest);
    IdsRemoveAt(prev, index);
    Seqs.RemoveAtIsSubseq(prev, index);
    assert r[1..] == rest;
  }

  /** With distinct ids the moved list still has distinct ids. */
  lemma MoveToHeadKeepsDistinct(prev: seq<Conversation>, msg: Message)
    requires DistinctIds(prev)
    ensures DistinctIds(MoveToHead(prev, msg))
  {
    var r := MoveToHead(prev, msg);
    forall i, j | 0 <= i < j < |r|
      ensures r[i].id != r[j].id
    {
      if r[i].id == r[j].id {
        MultisetTwoEqual(Ids(r), i, j);
        assert multiset(Ids(prev))[r[i].id] >= 2;
        DistinctCountAtMostOne(prev, r[i].id);
        assert false;
      }
    }
  }

  lemma MultisetTwoEqual(s: seq<int>, i: int, j: int)
    requires 0 <= i < j < |s| && s[i] == s[j]
    ensures multiset(s)[s[i]] >= 2
  {
    assert s == s[..i] + [s[i]] + s[i + 1..j] + [s[j]] + s[j + 1..];
  }

  lemma {:induction false} DistinctCountAtMostOne(cs: seq<Conversation>, id: int)
    requires DistinctIds(cs)
    ensures multiset(Ids(cs))[id] <= 1
  {
    if |cs| > 0 {
      var tail := cs[1..];
      assert DistinctIds(tail);
      DistinctCountAtMostOne(tail, id);
      assert Ids(cs) == [cs[0].id] + Ids(tail);
      if cs[0].id == id {
        assert id !in Ids(tail);
      }
    }
  }

  /** Send success: the message is appended to its conversation's list, the
      conversation list (when cached) moves it to the head, and the draft is
      cleared. */
  function OnSendSuccess(v: ChatView, msg: Message): (r: ChatView)
    ensures r.messages == AppendMessage(v.messages, msg)
    ensures r.conversations.Some? <==> v.conversations.Some?
    ensures r.conversations.Some? ==> |r.conversations.value| == |v.conversations.value|
    ensures r.conversations.Some? ==> r.conversations.value == MoveToHead(v.conversations.value, msg)
    ensures r.draft == ""
    ensures r.selected == v.selected && r.contacts == v.contacts
  {
    v.(messages := AppendMessage(v.messages, msg),
       conversations := if v.conversations.None? then None else Some(MoveToHead(v.conversations.value, msg)),
       draft := "")
  }

  /** After a send succeeds the message is the last of its conversation's
      list and, when the conversation is listed, the head's preview. */
  lemma SentMessageShown(v: ChatView, msg: Message)
    ensures var r := OnSendSuccess(v, msg);
      && msg.conversationId in r.messages
      && |r.messages[msg.conversationId]| > 0
      && r.messages[msg.conversationId][|r.messages[msg.conversationId]| - 1] == msg
      && (v.conversations.Some? && HasId(v.conversations.value, msg.conversationId) ==>
            r.conversations.value[0].id == msg.conversationId && r.conversations.value[0].lastMessage == Some(msg))
  {
  }

  // ---------------------------------------------------------------------
  // Starting a conversation
  // ---------------------------------------------------------------------

  datatype StartAction = NoStart | SelectExisting(conversationId: int) | RequestStart(username: string)

  /** `handleStartConversation`. */
  function StartRequest(username: string, participantId: Option<int>, index: map<int, Conversation>, startPending: bool)
    : (r: StartAction)
    ensures username == "" ==> r == NoStart
    ensures r.SelectExisting? <==> username != "" && participantId.Some? && participantId.value in index
    ensures r.SelectExisting? ==> r.conversationId == index[participantId.value].id
    ensures r.RequestStart? <==> username != "" && !(participantId.Some? && participantId.value in index) && !startPending
    ensures r.RequestStart? ==> r.username == username
  {
    if username == "" then NoStart
    else if participantId.Some? && participantId.value in index then SelectExisting(index[participantId.value].id)
    else if startPending then NoStart
    else RequestStart(username)
  }

  lemma HasIdPrepend(c: Conversation, cs: seq<Conversation>, id: int)
    ensures HasId([c] + cs, id) <==> c.id == id || HasId(cs, id)
  {
    var r := [c] + cs;
    if HasId(r, id) && c.id != id {
      var j :| 0 <= j < |r| && r[j].id == id;
      assert cs[j - 1].id == id;
    }
    if HasId(cs, id) {
      var j :| 0 <= j < |cs| && cs[j].id == id;
      assert r[j + 1].id == id;
    }
    assert r[0] == c;
  }

  /** Every id present after removing index `i` was present before, and
      every id other than the removed element's is still present. */
  lemma HasIdRemoveAt(cs: seq<Conversation>, i: nat, id: int)
    requires i < |cs|
    ensures HasId(Seqs.RemoveAt(cs, i), id) ==> HasId(cs, id)
    ensures HasId(cs, id) && id != cs[i].id ==> HasId(Seqs.RemoveAt(cs, i), id)
  {
    var r := Seqs.RemoveAt(cs, i);
    if HasId(r, id) {
      var j :| 0 <= j < |r| && r[j].id == id;
      if j < i { assert cs[j].id == id; } else { assert cs[j + 1].id == id; }
    }
    if HasId(cs, id) && id != cs[i].id {
      var j :| 0 <= j < |cs| && cs[j].id == id;
      if j < i { assert r[j].id == id; } else { assert r[j - 1].id == id; }
    }
  }

  /** The started conversation goes to the head; an earlier entry with the
      same id is removed, and the others keep their relative order. */
  function UpsertAtHead(prev: seq<Conversation>, conv: Conversation): (r: seq<Conversation>)
    ensures |r| > 0 && r[0] == conv
    ensures |r| == if HasId(prev, conv.id) then |prev| else |prev| + 1
    ensures Seqs.IsSubseq(r[1..], prev)
    ensures forall id :: HasId(r, id) <==> HasId(prev, id) || id == conv.id
  {
    var index := Seqs.FindIndex(prev, (c: Conversation) => c.id == conv.id);
    var rest := if index >= 0 then Seqs.RemoveAt(prev, index) else prev;
    UpsertIds(prev, conv, index, rest);
    [conv] + rest
  }

  lemma UpsertIds(prev: seq<Conversation>, conv: Conversation, index: int, rest: seq<Conversation>)
    requires -1 <= index < |prev|
    requires index == -1 <==> !HasId(prev, conv.id)
    requires index >= 0 ==> prev[index].id == conv.id && rest == Seqs.RemoveAt(prev, index)
    requires index < 0 ==> rest == prev
    ensures Seqs.IsSubseq(rest, prev)
    ensures |[conv] + rest| == if HasId(prev, conv.id) then |prev| else |prev| + 1
    ensures ([conv] + rest)[1..] == rest
    ensures forall id :: HasId([conv] + rest, id) <==> HasId(prev, id) || id == conv.id
  {
    if index >= 0 {
      Seqs.RemoveAtIsSubseq(prev, index);
    } else {
      Seqs.SubseqRefl(prev);
    }
    forall id
      ensures HasId([conv] + rest, id) <==> HasId(prev, id) || id == conv.id
    {
      HasIdPrepend(conv, rest, id);
      if index >= 0 {
        HasIdRemoveAt(prev, index, id);
      }
    }
  }

  lemma DistinctPrepend(c: Conversation, cs: seq<Conversation>)
    requires DistinctIds(cs) && !HasId(cs, c.id)
    ensures DistinctIds([c] + cs)
  {
    var r := [c] + cs;
    forall i, j | 0 <= i < j < |r|
      ensures r[i].id != r[j].id
    {
      assert r[j] == cs[j - 1];
      if i > 0 {
        assert r[i] == cs[i - 1];
      }
    }
  }

  lemma DistinctRemoveAt(cs: seq<Conversation>, k: nat)
    requires k < |cs| && DistinctIds(cs)
    ensures DistinctIds(Seqs.RemoveAt(cs, k)) && !HasId(Seqs.RemoveAt(cs, k), cs[k].id)
  {
    var r := Seqs.RemoveAt(cs, k);
    forall i, j | 0 <= i < j < |r|
      ensures r[i].id != r[j].id
    {
      var ii := if i < k then i else i + 1;
      var jj := if j < k then j else j + 1;
      assert r[i] == cs[ii] && r[j] == cs[jj];
    }
  }

  /** Starting never introduces a duplicate id into a list that had none. */
  lemma UpsertAtHeadKeepsDistinct(prev: seq<Conversation>, conv: Conversation)
    requires DistinctIds(prev)
    ensures DistinctIds(UpsertAtHead(prev, conv))
  {
    var index := Seqs.FindIndex(prev, (c: Conversation) => c.id == conv.id);
    if index >= 0 {
      DistinctRemoveAt(prev, index);
      DistinctPrepend(conv, Seqs.RemoveAt(prev, index));
    } else {
      DistinctPrepend(conv, prev);
    }
  }

  /** The first participant other than the current user. */
  function OtherParticipant(conv: Conversation, userId: Option<int>): (r: Option<Participant>)
    ensures r.Some? ==> r.value in conv.participants && userId != Some(r.value.id)
    ensures r.Some? ==>
      exists k :: 0 <= k < |conv.participants| && conv.participants[k] == r.value &&
        forall j :: 0 <= j < k ==> userId == Some(conv.participants[j].id)
    ensures r.None? ==> forall i :: 0 <= i < |conv.participants| ==> userId == Some(conv.participants[i].id)
  {
    var i := Seqs.FindIndex(conv.participants, (p: Participant) => userId != Some(p.id));
    if i < 0 then None else Some(conv.participants[i])
  }

  /** The contacts other than `id`, in order. */
  function DropContact(contacts: seq<Contact>, id: int): (r: seq<Contact>)
    ensures Seqs.IsSubseq(r, contacts)
    ensures forall i :: 0 <= i < |r| ==> r[i].id != id
    ensures forall i :: 0 <= i < |contacts| ==> (contacts[i].id != id ==> contacts[i] in r)
    ensures forall c :: multiset(r)[c] == if c.id == id then 0 else multiset(contacts)[c]
  {
    Seqs.FilterIsSubseq(contacts, (c: Contact) => c.id != id);
    Seqs.FilterMultiset(contacts, (c: Contact) => c.id != id);
    Seqs.Filter(contacts, (c: Contact) => c.id != id)
  }

  /** Start success: upsert at head, select it, and drop the other
      participant from the contact list (an uncached list counts as empty). */
  function OnStartSuccess(v: ChatView, conv: Conversation, userId: Option<int>): (r: ChatView)
    ensures r.conversations == Some(UpsertAtHead(v.conversations.GetOr([]), conv))
    ensures r.selected == Some(conv.id)
    ensures OtherParticipant(conv, userId).None? ==> r.contacts == v.contacts
    ensures OtherParticipant(conv, userId).Some? ==>
      r.contacts == Some(DropContact(v.contacts.GetOr([]), OtherParticipant(conv, userId).value.id))
    ensures r.messages == v.messages && r.draft == v.draft
  {
    var other := OtherParticipant(conv, userId);
    var contacts := if other.None? then v.contacts else Some(DropContact(v.contacts.GetOr([]), other.value.id));
    v.(conversations := Some(UpsertAtHead(v.conversations.GetOr([]), conv)),
       selected := Some(conv.id),
       contacts := contacts)
  }

  // ---------------------------------------------------------------------
  // Deleting a conversation
  // ---------------------------------------------------------------------

  /** `handleDeleteConversation`: the id to delete, or `None` while a delete is pending. */
  function DeleteRequest(conversationId: int, deletePending: bool): (r: Option<int>)
    ensures r.Some? <==> !deletePending
    ensures r.Some? ==> r.value == conversationId
  {
    if deletePending then None else Some(conversationId)
  }

  /** Delete success: the conversation leaves the list, its message cache is
      evicted, and the selection is cleared only if it was the deleted one. */
  function OnDeleteSuccess(v: ChatView, conversationId: int): (r: ChatView)
    ensures r.conversations.Some?
    ensures Seqs.IsSubseq(r.conversations.value, v.conversations.GetOr([]))
    ensures !HasId(r.conversations.value, conversationId)
    ensures forall i :: 0 <= i < |v.conversations.GetOr([])| ==>
      (v.conversations.GetOr([])[i].id != conversationId ==> v.conversations.GetOr([])[i] in r.conversations.value)
    ensures forall c ::
      multiset(r.conversations.value)[c] == if c.id == conversationId then 0 else multiset(v.conversations.GetOr([]))[c]
    ensures r.messages.Keys == v.messages.Keys - {conversationId}
    ensures forall k :: k in r.messages ==> r.messages[k] == v.messages[k]
    ensures r.selected == (if v.selected == Some(conversationId) then None else v.selected)
    ensures r.contacts == v.contacts && r.draft == v.draft
  {
    var keep := (c: Conversation) => c.id != conversationId;
    var prev := v.conversations.GetOr([]);
    Seqs.FilterIsSubseq(prev, keep);
    Seqs.FilterMultiset(prev, keep);
    v.(conversations := Some(Seqs.Filter(prev, keep)),
       messages := v.messages - {conversationId},
       selected := if v.selected == Some(conversationId) then None else v.selected)
  }

  // ---------------------------------------------------------------------
  // Deep link `?user=<username>`
  // ---------------------------------------------------------------------

  datatype DeepLinkStep =
    | Idle                          // no pending target: nothing happens
    | Discard                       // blank target: forgotten, nothing else
    | SelectMatch(conversationId: int)
    | StartWith(username: string)
    | Wait                          // target kept until contacts and starts settle

  /** Some participant other than the user has `name`, compared case-insensitively. */
  predicate MatchesPeer(c: Conversation, name: string, userId: Option<int>) {
    exists i :: 0 <= i < |c.participants|
      && Strings.EqualsIgnoreCase(c.participants[i].username, name)
      && userId != Some(c.participants[i].id)
  }

  function DeepLink(target: Option<string>, convs: seq<Conversation>, userId: Option<int>,
                    contactsFetching: bool, startPending: bool): (r: DeepLinkStep)
    ensures r.Idle? <==> target.None? || target.value == ""
    ensures r.Discard? <==> target.Some? && target.value != "" && Strings.JsTrim(target.value) == ""
    ensures r.SelectMatch? ==>
      exists i :: 0 <= i < |convs| && convs[i].id == r.conversationId && MatchesPeer(convs[i], Strings.JsTrim(target.value), userId)
    ensures r.SelectMatch? ==>
      exists i :: 0 <= i < |convs| && convs[i].id == r.conversationId &&
        forall j :: 0 <= j < i ==> !MatchesPeer(convs[j], Strings.JsTrim(target.value), userId)
    ensures (r.StartWith? || r.Wait?) ==> forall i :: 0 <= i < |convs| ==> !MatchesPeer(convs[i], Strings.JsTrim(target.value), userId)
    ensures r.StartWith? ==> !contactsFetching && !startPending && r.username == Strings.JsTrim(target.value)
    ensures r.Wait? ==> contactsFetching || startPending
  {
    if target.None? || target.value == "" then Idle
    else
      var trimmed := Strings.JsTrim(target.value);
      if trimmed == "" then Discard
      else
        var i := Seqs.FindIndex(convs, (c: Conversation) => MatchesPeer(c, trimmed, userId));
        if i >= 0 then SelectMatch(convs[i].id)
        else if !contactsFetching && !startPending then
          var action := StartRequest(trimmed, None, map[], startPending);
          assert action == RequestStart(trimmed);
          StartWith(action.username)
        else Wait
  }

  /** A matching conversation is selected without a start request, whatever
      the fetch and pending flags say. */
  lemma DeepLinkPrefersExisting(target: string, convs: seq<Conversation>, userId: Option<int>,
                                contactsFetching: bool, startPending: bool, k: int)
    requires Strings.JsTrim(target) != ""
    requires 0 <= k < |convs| && MatchesPeer(convs[k], Strings.JsTrim(target), userId)
    ensures DeepLink(Some(target), convs, userId, contactsFetching, startPending).SelectMatch?
  {
  }
}

=== FILE: chat_server.dfy ===
/** The chat endpoints of the backend over an in-memory database: users,
    conversations, memberships (one row per user and conversation, with the
    read-receipt pointer `lastRead`), messages and follow relations. Row
    order in each table stands for the database's default order; the clock
    is a parameter and new primary keys are one above every key in use. */
module ChatServer {
  import opened Wrappers
  import Seqs
  import Strings
  import Digits
  import Sorting
  import opened AuthModels
  import AuthSerializers
  import ChatCache

  const DefaultPageSize := 50
  const MaxPageSize := 200
  const MaxContentLength := 4000

  const StatusOk := 200
  const StatusCreated := 201

  datatype Conversation = Conversation(id: int, title: string, createdAt: int, isGroup: bool)

  datatype Membership = Membership(userId: int, conversationId: int, joinedAt: int, lastRead: Option<int>)

  datatype Message = Message(id: int, conversationId: int, senderId: int, content: string, createdAt: int)

  datatype ChatDb = ChatDb(
    users: seq<User>,
    conversations: seq<Conversation>,
    memberships: seq<Membership>,
    messages: seq<Message>,
    follows: seq<Follow>)

  // ---------------------------------------------------------------------
  // Keys and memberships
  // ---------------------------------------------------------------------

  /** A key above every key in `ids`. */
  function NextId(ids: seq<int>): (n: int)
    ensures forall i :: 0 <= i < |ids| ==> ids[i] < n
  {
    if |ids| == 0 then 1
    else
      var m := NextId(ids[1..]);
      if ids[0] < m then m else ids[0] + 1
  }

  /** A conversation key used by no conversation, membership or message. */
  function FreshConversationId(db: ChatDb): (id: int)
    ensures forall i :: 0 <= i < |db.conversations| ==> db.conversations[i].id != id
    ensures forall i :: 0 <= i < |db.memberships| ==> db.memberships[i].conversationId != id
  {
    var a := ConversationIds(db.conversations);
    var b := MembershipConversationIds(db.memberships);
    var n := NextId(a + b);
    assert forall i :: 0 <= i < |db.conversations| ==> (a + b)[i] == db.conversations[i].id;
    assert forall i :: 0 <= i < |db.memberships| ==> (a + b)[|a| + i] == db.memberships[i].conversationId;
    n
  }

  function FreshMessageId(msgs: seq<Message>): (id: int)
    ensures forall i :: 0 <= i < |msgs| ==> msgs[i].id < id
  {
    var ids := seq(|msgs|, i requires 0 <= i < |msgs| => msgs[i].id);
    var n := NextId(ids);
    assert forall i :: 0 <= i < |msgs| ==> ids[i] == msgs[i].id;
    n
  }

  function ConversationIds(cs: seq<Conversation>): (r: seq<int>)
    ensures |r| == |cs| && forall i :: 0 <= i < |cs| ==> r[i] == cs[i].id
  {
    seq(|cs|, i requires 0 <= i < |cs| => cs[i].id)
  }

  function MembershipConversationIds(ms: seq<Membership>): (r: seq<int>)
    ensures |r| == |ms| && forall i :: 0 <= i < |ms| ==> r[i] == ms[i].conversationId
  {
    seq(|ms|, i requires 0 <= i < |ms| => ms[i].conversationId)
  }

  /** The users with a membership row in conversation `convId`. */
  function MemberIds(ms: seq<Membership>, convId: int): set<int> {
    set i | 0 <= i < |ms| && ms[i].conversationId == convId :: ms[i].userId
  }

  /** The database's `unique_together = (user, conversation)`. */
  predicate UniqueMemberships(ms: seq<Membership>) {
    forall i, j :: 0 <= i < j < |ms| ==>
      !(ms[i].userId == ms[j].userId && ms[i].conversationId == ms[j].conversationId)
  }

  function UserIds(users: seq<User>): (r: seq<int>)
    ensures |r| == |users| && forall i :: 0 <= i < |users| ==> r[i] == users[i].id
  {
    seq(|users|, i requires 0 <= i < |users| => users[i].id)
  }

  function Elements(s: seq<int>): set<int> {
    set i | 0 <= i < |s| :: s[i]
  }

  /** One added row keeps membership sets and uniqueness as expected. */
  lemma AddRow(ms: seq<Membership>, u: int, convId: int, now: int)
    requires u !in MemberIds(ms, convId)
    ensures MemberIds(ms + [Membership(u, convId, now, None)], convId) == MemberIds(ms, convId) + {u}
    ensures forall c :: c != convId ==>
      MemberIds(ms + [Membership(u, convId, now, None)], c) == MemberIds(ms, c)
    ensures UniqueMemberships(ms) ==> UniqueMemberships(ms + [Membership(u, convId, now, None)])
  {
    var r := ms + [Membership(u, convId, now, None)];
    forall c | c != convId
      ensures MemberIds(r, c) == MemberIds(ms, c)
    {
      forall x | x in MemberIds(r, c)
        ensures x in MemberIds(ms, c)
      {
        var i :| 0 <= i < |r| && r[i].conversationId == c && r[i].userId == x;
        assert i < |ms|;
      }
      forall x | x in MemberIds(ms, c)
        ensures x in MemberIds(r, c)
      {
        var i :| 0 <= i < |ms| && ms[i].conversationId == c && ms[i].userId == x;
        assert r[i] == ms[i];
      }
    }
    forall x | x in MemberIds(r, convId)
      ensures x in MemberIds(ms, convId) + {u}
    {
      var i :| 0 <= i < |r| && r[i].conversationId == convId && r[i].userId == x;
      if i < |ms| {
        assert ms[i] == r[i];
      }
    }
    forall x | x in MemberIds(ms, convId) + {u}
      ensures x in MemberIds(r, convId)
    {
      if x == u {
        assert r[|ms|].userId == u && r[|ms|].conversationId == convId;
      } else {
        var i :| 0 <= i < |ms| && ms[i].conversationId == convId && ms[i].userId == x;
        assert r[i] == ms[i];
      }
    }
  }

  /** `_add_participants`: one row per user not yet a member (a duplicate
      insert is ignored, as `bulk_create(..., ignore_conflicts=True)` does),
      joined now and never read. */
  function AddParticipants(ms: seq<Membership>, convId: int, userIds: seq<int>, now: int): (r: seq<Membership>)
    ensures |r| >= |ms| && r[..|ms|] == ms
    ensures MemberIds(r, convId) == MemberIds(ms, convId) + Elements(userIds)
    ensures forall c :: c != convId ==> MemberIds(r, c) == MemberIds(ms, c)
    ensures UniqueMemberships(ms) ==> UniqueMemberships(r)
    ensures forall i :: |ms| <= i < |r| ==> r[i].conversationId == convId && r[i].joinedAt == now && r[i].lastRead == None
    ensures Elements(userIds) <= MemberIds(ms, convId) ==> r == ms
    decreases |userIds|
  {
    if |userIds| == 0 then
      assert Elements(userIds) == {};
      ms
    else
      var u := userIds[0];
      assert Elements(userIds) == {u} + Elements(userIds[1..]);
      if u in MemberIds(ms, convId) then
        var r := AddParticipants(ms, convId, userIds[1..], now);
        assert MemberIds(r, convId) == MemberIds(ms, convId) + Elements(userIds);
        r
      else
        var next := ms + [Membership(u, convId, now, None)];
        AddRow(ms, u, convId, now);
        var r := AddParticipants(next, convId, userIds[1..], now);
        assert r[..|ms|] == r[..|next|][..|ms|];
        assert MemberIds(r, convId) == MemberIds(ms, convId) + Elements(userIds);
        assert forall i :: |ms| <= i < |r| ==> r[i].conversationId == convId && r[i].joinedAt == now && r[i].lastRead == None by {
          assert forall i :: |ms| <= i < |next| ==> r[i] == next[i];
        }
        assert !(Elements(userIds) <= MemberIds(ms, convId));
        r
  }

  // ---------------------------------------------------------------------
  // Participant resolution and conversation creation
  // ---------------------------------------------------------------------

  /** One JSON value of `participant_ids`: a number or a string. */
  datatype RawValue = RawInt(n: int) | RawText(text: string)

  /** The `participant_ids` field: absent, one scalar, or a list. */
  datatype RawIds = Absent | One(value: RawValue) | Many(values: seq<RawValue>)

  datatype ParticipantError = IdsNotIntegers | NoOtherUser | UnknownUsers(missing: set<int>)

  function ParseId(v: RawValue): Option<int> {
    match v
    case RawInt(n) => Some(n)
    case RawText(t) => Digits.PyInt(t)
  }

  /** The list the ids are read from: a falsy field (absent, `0`, `""`, `[]`)
      is the empty list and a scalar is wrapped in a list. */
  function RawList(raw: RawIds): (r: seq<RawValue>)
    ensures raw.Absent? || raw == One(RawInt(0)) || raw == One(RawText("")) ==> r == []
    ensures raw.One? && raw.value != RawInt(0) && raw.value != RawText("") ==> r == [raw.value]
    ensures raw.Many? ==> r == raw.values
  {
    match raw
    case Absent => []
    case One(v) => if v == RawInt(0) || v == RawText("") then [] else [v]
    case Many(vs) => vs
  }

  /** The requested ids as a set, or `None` when one is not an integer. */
  function ParseIds(raw: RawIds): Option<set<int>> {
    var parsed := Seqs.MapAll(RawList(raw), ParseId);
    if parsed.None? then None else Some(Elements(parsed.value))
  }

  function ActiveUsersIn(users: seq<User>, ids: set<int>): (r: seq<User>)
    ensures forall i :: 0 <= i < |r| ==> r[i].isActive && r[i].id in ids && r[i] in users
    ensures forall i :: 0 <= i < |users| && users[i].isActive && users[i].id in ids ==> users[i] in r
    ensures ids == {} ==> r == []
  {
    var p := (u: User) => u.isActive && u.id in ids;
    assert ids == {} ==> Seqs.Count(users, p) == 0;
    Seqs.Filter(users, p)
  }

  /** `_resolve_participants`: the requester followed by the active users
      named in the request, the requester's own id discarded. */
  function ResolveParticipants(users: seq<User>, requester: User, raw: RawIds): (r: Result<seq<User>, ParticipantError>)
    ensures ParseIds(raw).None? <==> r == Failure(IdsNotIntegers)
    ensures r == Failure(NoOtherUser) <==> ParseIds(raw).Some? && ParseIds(raw).value - {requester.id} == {}
    ensures r.Failure? && r.error.UnknownUsers? ==>
      var wanted := ParseIds(raw).value - {requester.id};
      r.error.missing != {} && r.error.missing <= wanted
      && forall id :: id in r.error.missing ==>
           forall i :: 0 <= i < |users| ==> !(users[i].id == id && users[i].isActive)
    ensures r.Success? ==>
      var wanted := ParseIds(raw).value - {requester.id};
      |r.value| >= 2 && r.value[0] == requester
      && Elements(UserIds(r.value[1..])) == wanted
      && forall i :: 1 <= i < |r.value| ==> r.value[i].isActive && r.value[i] in users && r.value[i].id != requester.id
  {
    var ids := ParseIds(raw);
    if ids.None? then Failure(IdsNotIntegers)
    else
      var wanted := ids.value - {requester.id};
      if wanted == {} then Failure(NoOtherUser)
      else
        var found := ActiveUsersIn(users, wanted);
        var missing := wanted - Elements(UserIds(found));
        FoundUsers(users, wanted);
        if missing != {} then
          Failure(UnknownUsers(missing))
        else
          var r := [requester] + found;
          assert r[1..] == found;
          Success(r)
  }

  /** The active users found for a non-empty request: their ids lie within
      it, the ids left over name no active user, and when nothing is left
      over at least one user was found. */
  lemma FoundUsers(users: seq<User>, wanted: set<int>)
    requires wanted != {}
    ensures var found := ActiveUsersIn(users, wanted);
      && Elements(UserIds(found)) <= wanted
      && (forall id :: id in wanted - Elements(UserIds(found)) ==>
            forall i :: 0 <= i < |users| ==> !(users[i].id == id && users[i].isActive))
      && (wanted - Elements(UserIds(found)) == {} ==> found != [])
  {
    var found := ActiveUsersIn(users, wanted);
    forall i | 0 <= i < |users| && users[i].isActive && users[i].id in wanted
      ensures users[i].id in Elements(UserIds(found))
    {
      var j :| 0 <= j < |found| && found[j] == users[i];
      assert UserIds(found)[j] == users[i].id;
    }
    if wanted - Elements(UserIds(found)) == {} {
      var x :| x in wanted;
      assert x !in wanted - Elements(UserIds(found));
      assert x in Elements(UserIds(found));
    }
  }

  /** `_get_or_create_direct_conversation`: the first one-to-one conversation
      whose member set is exactly the participants' ids, or a new one. The
      participants are (re)added either way. */
  function GetOrCreateDirect(db: ChatDb, participants: seq<User>, now: int): (r: (Conversation, bool, ChatDb))
    ensures var (conv, created, db2) := r;
      !conv.isGroup && conv in db2.conversations
      && MemberIds(db2.memberships, conv.id) == Elements(UserIds(participants))
      && db2.users == db.users && db2.messages == db.messages && db2.follows == db.follows
      && (UniqueMemberships(db.memberships) ==> UniqueMemberships(db2.memberships))
    ensures !r.1 ==> r.2 == db && r.0 in db.conversations
    ensures r.1 <==> forall i :: 0 <= i < |db.conversations| ==>
      !(!db.conversations[i].isGroup && MemberIds(db.memberships, db.conversations[i].id) == Elements(UserIds(participants)))
    ensures r.1 ==>
      r.2.conversations == db.conversations + [r.0] && r.0.createdAt == now
      && forall i :: 0 <= i < |db.conversations| ==> db.conversations[i].id != r.0.id
  {
    var ids := Elements(UserIds(participants));
    var k := Seqs.FindIndex(db.conversations, (c: Conversation) => !c.isGroup && MemberIds(db.memberships, c.id) == ids);
    if k >= 0 then
      var conv := db.conversations[k];
      var ms := AddParticipants(db.memberships, conv.id, UserIds(participants), now);
      (conv, false, db.(memberships := ms))
    else
      var conv := Conversation(FreshConversationId(db), "", now, false);
      assert MemberIds(db.memberships, conv.id) == {};
      var ms := AddParticipants(db.memberships, conv.id, UserIds(participants), now);
      (conv, true, db.(conversations := db.conversations + [conv], memberships := ms))
  }

  /** Asking again for the same participants finds the conversation the first
      call returned and changes nothing. */
  lemma {:induction false} GetOrCreateDirectIdempotent(db: ChatDb, participants: seq<User>, now: int, later: int)
    ensures var (conv, _, db2) := GetOrCreateDirect(db, participants, now);
      GetOrCreateDirect(db2, participants, later) == (conv, false, db2)
  {
    var (conv, created, db2) := GetOrCreateDirect(db, participants, now);
    var ids := Elements(UserIds(participants));
    var p := (c: Conversation) => !c.isGroup && MemberIds(db.memberships, c.id) == ids;
    var p2 := (c: Conversation) => !c.isGroup && MemberIds(db2.memberships, c.id) == ids;
    var k := Seqs.FindIndex(db.conversations, p);
    var k2 := Seqs.FindIndex(db2.conversations, p2);
    if created {
      assert k == -1;
      var n := |db.conversations|;
      assert db2.conversations[n] == conv && p2(conv);
      forall j | 0 <= j < n
        ensures !p2(db2.conversations[j])
      {
        var c := db.conversations[j];
        assert db2.conversations[j] == c && c.id != conv.id;
        assert MemberIds(db2.memberships, c.id) == MemberIds(db.memberships, c.id);
        assert !p(c);
      }
      assert k2 == n;
    } else {
      assert db2 == db && k >= 0 && conv == db.conversations[k];
      assert k2 == k;
    }
    assert Elements(UserIds(participants)) <= MemberIds(db2.memberships, conv.id);
  }

  // ---------------------------------------------------------------------
  // The direct lookup as the query is written
  // ---------------------------------------------------------------------

  /** The largest of the ids (the last of `sorted(user_ids)`). */
  function MaxOf(s: seq<int>): (m: int)
    requires |s| > 0
    ensures m in s && forall i :: 0 <= i < |s| ==> s[i] <= m
  {
    if |s| == 1 then s[0]
    else
      var rest := MaxOf(s[1..]);
      assert forall i :: 1 <= i < |s| ==> s[i] == s[1..][i - 1];
      if s[0] < rest then rest else s[0]
  }

  /** A membership row of conversation `convId` for user `userId`. */
  function RowOf(convId: int, userId: int): Membership -> bool {
    (m: Membership) => m.conversationId == convId && m.userId == userId
  }

  /** The match the query tests: a one-to-one conversation joined once per
      id (`filter(participants__user_id=…)` for each), whose
      `Count("participants", distinct=True)` equals the number of ids. The
      count reuses the join of the last filter, so it counts only the
      conversation's rows for the largest id. */
  function AsWrittenMatch(ms: seq<Membership>, ids: set<int>, top: int): Conversation -> bool {
    (c: Conversation) => !c.isGroup && ids <= MemberIds(ms, c.id) && Seqs.Count(ms, RowOf(c.id, top)) == |ids|
  }

  /** The direct lookup of `_get_or_create_direct_conversation` as written:
      the index of the first conversation the query returns, or -1. */
  function DirectLookupAsWritten(db: ChatDb, participants: seq<User>): (k: int)
    requires |participants| > 0
    ensures -1 <= k < |db.conversations|
    ensures k >= 0 ==> (!db.conversations[k].isGroup
      && Seqs.Count(db.memberships, RowOf(db.conversations[k].id, MaxOf(UserIds(participants))))
         == |Elements(UserIds(participants))|)
  {
    var ids := Elements(UserIds(participants));
    Seqs.FindIndex(db.conversations, AsWrittenMatch(db.memberships, ids, MaxOf(UserIds(participants))))
  }

  /** Under the table's uniqueness a conversation has at most one row per user. */
  lemma {:induction false} AtMostOneRow(ms: seq<Membership>, convId: int, userId: int)
    requires UniqueMemberships(ms)
    ensures Seqs.Count(ms, RowOf(convId, userId)) <= 1
  {
    if |ms| > 0 {
      var rest := ms[1..];
      assert UniqueMemberships(rest) by {
        forall i, j | 0 <= i < j < |rest|
          ensures !(rest[i].userId == rest[j].userId && rest[i].conversationId == rest[j].conversationId)
        {
          assert rest[i] == ms[i + 1] && rest[j] == ms[j + 1];
        }
      }
      if RowOf(convId, userId)(ms[0]) {
        forall i | 0 <= i < |rest|
          ensures !RowOf(convId, userId)(rest[i])
        {
          assert rest[i] == ms[i + 1];
        }
      } else {
        AtMostOneRow(rest, convId, userId);
      }
    }
  }

  /** With two or more distinct participants the query as written matches
      nothing: the count it compares is at most 1. */
  lemma AsWrittenNeverFinds(db: ChatDb, participants: seq<User>)
    requires |participants| > 0
    requires UniqueMemberships(db.memberships)
    requires |Elements(UserIds(participants))| >= 2
    ensures DirectLookupAsWritten(db, participants) == -1
  {
    var k := DirectLookupAsWritten(db, participants);
    if k >= 0 {
      AtMostOneRow(db.memberships, db.conversations[k].id, MaxOf(UserIds(participants)));
      assert false;
    }
  }

  /** `_get_or_create_direct_conversation` as written: the same shape as
      `GetOrCreateDirect`, with the query's match in place of the member-set
      equality. */
  function GetOrCreateDirectAsWritten(db: ChatDb, participants: seq<User>, now: int): (r: (Conversation, bool, ChatDb))
    requires |participants| > 0
    ensures var (conv, created, db2) := r;
      !conv.isGroup && conv in db2.conversations
      && Elements(UserIds(participants)) <= MemberIds(db2.memberships, conv.id)
      && db2.users == db.users && db2.messages == db.messages && db2.follows == db.follows
      && (UniqueMemberships(db.memberships) ==> UniqueMemberships(db2.memberships))
    ensures r.1 <==> DirectLookupAsWritten(db, participants) == -1
    ensures r.1 ==>
      MemberIds(r.2.memberships, r.0.id) == Elements(UserIds(participants))
      && r.2.conversations == db.conversations + [r.0] && r.0.createdAt == now
      && (forall i :: 0 <= i < |db.conversations| ==> db.conversations[i].id != r.0.id)
      && (forall c :: c != r.0.id ==> MemberIds(r.2.memberships, c) == MemberIds(db.memberships, c))
  {
    var k := DirectLookupAsWritten(db, participants);
    if k >= 0 then
      var conv := db.conversations[k];
      var ms := AddParticipants(db.memberships, conv.id, UserIds(participants), now);
      assert conv in db.conversations;
      (conv, false, db.(memberships := ms))
    else
      var conv := Conversation(FreshConversationId(db), "", now, false);
      assert MemberIds(db.memberships, conv.id) == {};
      var ms := AddParticipants(db.memberships, conv.id, UserIds(participants), now);
      (conv, true, db.(conversations := db.conversations + [conv], memberships := ms))
  }

  /** As written, asking twice for the same two users creates two distinct
      one-to-one conversations with the same members: the second request
      answers 201 again instead of finding the first conversation. */
  lemma AsWrittenTwiceMakesTwo(db: ChatDb, participants: seq<User>, now: int, later: int)
    requires |participants| > 0
    requires UniqueMemberships(db.memberships)
    requires |Elements(UserIds(participants))| >= 2
    ensures var (c1, created1, db1) := GetOrCreateDirectAsWritten(db, participants, now);
      var (c2, created2, db2) := GetOrCreateDirectAsWritten(db1, participants, later);
      && created1 && created2 && c1.id != c2.id
      && c1 in db2.conversations && c2 in db2.conversations
      && MemberIds(db2.memberships, c1.id) == MemberIds(db2.memberships, c2.id) == Elements(UserIds(participants))
  {
    AsWrittenNeverFinds(db, participants);
    var (c1, _, db1) := GetOrCreateDirectAsWritten(db, participants, now);
    AsWrittenNeverFinds(db1, participants);
    var (c2, _, db2) := GetOrCreateDirectAsWritten(db1, participants, later);
    assert c1 in db1.conversations;
    assert c1.id != c2.id;
    assert MemberIds(db2.memberships, c1.id) == MemberIds(db1.memberships, c1.id);
  }

  /** A group conversation with the given title and the participants as members. */
  function CreateGroup(db: ChatDb, participants: seq<User>, title: string, now: int): (r: (Conversation, ChatDb))
    ensures r.0.isGroup && r.0.title == title && r.1.conversations == db.conversations + [r.0]
    ensures forall i :: 0 <= i < |db.conversations| ==> db.conversations[i].id != r.0.id
    ensures MemberIds(r.1.memberships, r.0.id) == Elements(UserIds(participants))
    ensures UniqueMemberships(db.memberships) ==> UniqueMemberships(r.1.memberships)
  {
    var conv := Conversation(FreshConversationId(db), title, now, true);
    assert MemberIds(db.memberships, conv.id) == {};
    (conv, db.(conversations := db.conversations + [conv],
               memberships := AddParticipants(db.memberships, conv.id, UserIds(participants), now)))
  }

  /** `ConversationViewSet.create`: resolve the participants; two of them
      without `force_new` get (or create) their one-to-one conversation,
      anything else creates a group titled with the stripped title. */
  function CreateConversation(db: ChatDb, requester: User, raw: RawIds, forceNew: bool, title: Option<string>, now: int)
    : (r: Result<(Conversation, int, ChatDb), ParticipantError>)
    ensures r.Failure? <==> ResolveParticipants(db.users, requester, raw).Failure?
    ensures r.Failure? ==> r.error == ResolveParticipants(db.users, requester, raw).error
    ensures r.Success? ==>
      var ps := ResolveParticipants(db.users, requester, raw).value;
      var (conv, status, db2) := r.value;
      MemberIds(db2.memberships, conv.id) == Elements(UserIds(ps))
      && (conv.isGroup <==> |ps| != 2 || forceNew)
      && (conv.isGroup ==> status == StatusCreated && conv.title == Strings.PyStrip(title.GetOr("")))
      && (status == StatusCreated <==> conv !in db.conversations)
  {
    var resolved := ResolveParticipants(db.users, requester, raw);
    if resolved.Failure? then Failure(resolved.error)
    else
      var ps := resolved.value;
      if |ps| == 2 && !forceNew then
        var (conv, created, db2) := GetOrCreateDirect(db, ps, now);
        Success((conv, if created then StatusCreated else StatusOk, db2))
      else
        var (conv, db2) := CreateGroup(db, ps, Strings.PyStrip(title.GetOr("")), now);
        Success((conv, StatusCreated, db2))
  }

  // ---------------------------------------------------------------------
  // Starting a one-to-one conversation by username
  // ---------------------------------------------------------------------

  datatype StartError = UsernameRequired | NoActiveMatch | WithSelf

  function ActiveUsers(users: seq<User>): seq<User> {
    Seqs.Filter(users, (u: User) => u.isActive)
  }

  /** `start_conversation`: the stripped username must name an active user
      (ignoring case) other than the requester. */
  function StartConversation(db: ChatDb, requester: User, username: Option<string>, now: int)
    : (r: Result<(Conversation, int, ChatDb), StartError>)
    ensures var name := Strings.PyStrip(username.GetOr(""));
      var target := AuthSerializers.UserByUsername(ActiveUsers(db.users), name);
      && (r == Failure(UsernameRequired) <==> name == "")
      && (r == Failure(NoActiveMatch) <==> name != "" && target.None?)
      && (r == Failure(WithSelf) <==> name != "" && target.Some? && target.value.id == requester.id)
      && (r.Success? ==>
            target.Some? && target.value.isActive && target.value.id != requester.id
            && !r.value.0.isGroup
            && MemberIds(r.value.2.memberships, r.value.0.id) == {requester.id, target.value.id}
            && (r.value.1 == StatusCreated <==> r.value.0 !in db.conversations))
  {
    var name := Strings.PyStrip(username.GetOr(""));
    if name == "" then Failure(UsernameRequired)
    else
      var target := AuthSerializers.UserByUsername(ActiveUsers(db.users), name);
      if target.None? then Failure(NoActiveMatch)
      else if target.value.id == requester.id then Failure(WithSelf)
      else
        Success(StartDirect(db, requester, target.value, now))
  }

  /** The one-to-one conversation of two users, answered 201 when new. */
  function StartDirect(db: ChatDb, requester: User, target: User, now: int): (r: (Conversation, int, ChatDb))
    ensures !r.0.isGroup && MemberIds(r.2.memberships, r.0.id) == {requester.id, target.id}
    ensures r.1 == StatusCreated <==> r.0 !in db.conversations
  {
    var ps := [requester, target];
    assert Elements(UserIds(ps)) == {requester.id, target.id} by {
      assert UserIds(ps)[0] == requester.id && UserIds(ps)[1] == target.id;
    }
    var (conv, created, db2) := GetOrCreateDirect(db, ps, now);
    (conv, if created then StatusCreated else StatusOk, db2)
  }

  /** Starting the same conversation twice: the second start answers 200
      with the conversation the first returned. */
  lemma StartTwiceFindsSame(db: ChatDb, requester: User, username: Option<string>, now: int, later: int)
    requires StartConversation(db, requester, username, now).Success?
    ensures var (conv, _, db2) := StartConversation(db, requester, username, now).value;
      StartConversation(db2, requester, username, later) == Success((conv, StatusOk, db2))
  {
    var name := Strings.PyStrip(username.GetOr(""));
    var target := AuthSerializers.UserByUsername(ActiveUsers(db.users), name);
    GetOrCreateDirectIdempotent(db, [requester, target.value], now, later);
  }

  // ---------------------------------------------------------------------
  // Message pages
  // ---------------------------------------------------------------------

  /** The page size: `limit` parsed as an integer (50 when absent or not an
      integer), clamped to [1, 200]. */
  function EffectiveLimit(limitParam: Option<string>): (n: int)
    ensures 1 <= n <= MaxPageSize
    ensures limitParam.None? || Digits.PyInt(limitParam.value).None? ==> n == DefaultPageSize
    ensures limitParam.Some? && Digits.PyInt(limitParam.value).Some? ==>
      var k := Digits.PyInt(limitParam.value).value;
      (1 <= k <= MaxPageSize ==> n == k) && (k < 1 ==> n == 1) && (k > MaxPageSize ==> n == MaxPageSize)
  {
    var limit := if limitParam.None? then DefaultPageSize
                 else Digits.PyInt(limitParam.value).GetOr(DefaultPageSize);
    var upper := if limit < MaxPageSize then limit else MaxPageSize;
    if 1 < upper then upper else 1
  }

  /** A limit written as a decimal integer within range is used as is. */
  lemma EffectiveLimitOfInRange(k: int)
    requires 1 <= k <= MaxPageSize
    ensures EffectiveLimit(Some(Digits.IntToString(k))) == k
  {
    Digits.PyIntOfIntToString(k);
  }

  function ConversationMessages(msgs: seq<Message>, convId: int): seq<Message> {
    Seqs.Filter(msgs, InConversation(convId))
  }

  function InConversation(convId: int): Message -> bool {
    (m: Message) => m.conversationId == convId
  }

  /** Messages sent after the instant `t`. */
  function NewerThan(t: int): Message -> bool {
    (m: Message) => m.createdAt > t
  }

  /** The messages of a conversation strictly older than the cursor, if any. */
  function Candidates(msgs: seq<Message>, convId: int, before: Option<int>): (r: seq<Message>)
    ensures forall i :: 0 <= i < |r| ==>
      r[i] in msgs && r[i].conversationId == convId && (before.Some? ==> r[i].createdAt < before.value)
    ensures forall i ::
      (0 <= i < |msgs| && msgs[i].conversationId == convId && (before.None? || msgs[i].createdAt < before.value))
      ==> msgs[i] in r
  {
    Seqs.Filter(msgs, (m: Message) => m.conversationId == convId && (before.None? || m.createdAt < before.value))
  }

  /** `order_by("-created_at")` as a sort key. */
  function NewestFirst(m: Message): seq<int> {
    [-m.createdAt]
  }

  /** The `limit` newest candidates, returned oldest first. */
  function NewestPage(cands: seq<Message>, limit: nat): (r: seq<Message>)
    ensures |r| == if limit < |cands| then limit else |cands|
    ensures multiset(r) <= multiset(cands)
    ensures forall i, j :: 0 <= i < j < |r| ==> r[i].createdAt <= r[j].createdAt
    ensures forall m :: m in cands && m !in r ==> forall i :: 0 <= i < |r| ==> m.createdAt <= r[i].createdAt
  {
    var sorted := Sorting.SortBy(cands, NewestFirst);
    var n := if limit < |sorted| then limit else |sorted|;
    NewestPageFacts(cands, sorted, n);
    Seqs.Reverse(sorted[..n])
  }

  lemma NewestPageFacts(cands: seq<Message>, sorted: seq<Message>, n: nat)
    requires sorted == Sorting.SortBy(cands, NewestFirst) && n <= |sorted|
    ensures var r := Seqs.Reverse(sorted[..n]);
      && multiset(r) <= multiset(cands)
      && (forall i, j :: 0 <= i < j < |r| ==> r[i].createdAt <= r[j].createdAt)
      && (forall m :: m in cands && m !in r ==> forall i :: 0 <= i < |r| ==> m.createdAt <= r[i].createdAt)
  {
    assert sorted == sorted[..n] + sorted[n..];
    assert multiset(sorted) == multiset(sorted[..n]) + multiset(sorted[n..]);
    PageAscending(sorted, n);
    PageIsNewest(cands, sorted, n);
  }

  lemma PageAscending(sorted: seq<Message>, n: nat)
    requires Sorting.Sorted(sorted, NewestFirst) && n <= |sorted|
    ensures var r := Seqs.Reverse(sorted[..n]);
      forall i, j :: 0 <= i < j < |r| ==> r[i].createdAt <= r[j].createdAt
  {
    var r := Seqs.Reverse(sorted[..n]);
    forall i, j | 0 <= i < j < |r|
      ensures r[i].createdAt <= r[j].createdAt
    {
      Sorting.SortedPairs(sorted, NewestFirst, n - 1 - j, n - 1 - i);
      Sorting.LexLeSingleton(-sorted[n - 1 - j].createdAt, -sorted[n - 1 - i].createdAt);
    }
  }

  lemma InPage(sorted: seq<Message>, n: nat, j: nat)
    requires j < n <= |sorted|
    ensures sorted[j] in Seqs.Reverse(sorted[..n])
  {
    assert Seqs.Reverse(sorted[..n])[n - 1 - j] == sorted[j];
  }

  lemma PageIsNewest(cands: seq<Message>, sorted: seq<Message>, n: nat)
    requires Sorting.Sorted(sorted, NewestFirst) && multiset(sorted) == multiset(cands) && n <= |sorted|
    ensures var r := Seqs.Reverse(sorted[..n]);
      forall m :: m in cands && m !in r ==> forall i :: 0 <= i < |r| ==> m.createdAt <= r[i].createdAt
  {
    var r := Seqs.Reverse(sorted[..n]);
    forall m, i | m in cands && m !in r && 0 <= i < |r|
      ensures m.createdAt <= r[i].createdAt
    {
      assert m in multiset(sorted);
      var j :| 0 <= j < |sorted| && sorted[j] == m;
      if j < n {
        InPage(sorted, n, j);
        assert false;
      }
      Sorting.SortedPairs(sorted, NewestFirst, n - 1 - i, j);
      Sorting.LexLeSingleton(-sorted[n - 1 - i].createdAt, -m.createdAt);
    }
  }

  /** Sets the requester's read pointer in one conversation to `now`. */
  function TouchLastRead(ms: seq<Membership>, convId: int, userId: int, now: int): (r: seq<Membership>)
    ensures |r| == |ms|
    ensures forall i :: 0 <= i < |ms| ==> r[i].(lastRead := ms[i].lastRead) == ms[i]
    ensures forall i :: 0 <= i < |ms| ==>
      r[i].lastRead == if ms[i].conversationId == convId && ms[i].userId == userId then Some(now) else ms[i].lastRead
    ensures forall c :: MemberIds(r, c) == MemberIds(ms, c)
    ensures UniqueMemberships(ms) ==> UniqueMemberships(r)
  {
    var r := seq(|ms|, i requires 0 <= i < |ms| =>
      if ms[i].conversationId == convId && ms[i].userId == userId then ms[i].(lastRead := Some(now)) else ms[i]);
    assert forall c :: MemberIds(r, c) == MemberIds(ms, c) by {
      forall c ensures MemberIds(r, c) == MemberIds(ms, c) {
        forall x | x in MemberIds(r, c) ensures x in MemberIds(ms, c) {
          var i :| 0 <= i < |r| && r[i].conversationId == c && r[i].userId == x;
          assert ms[i].conversationId == c && ms[i].userId == x;
        }
        forall x | x in MemberIds(ms, c) ensures x in MemberIds(r, c) {
          var i :| 0 <= i < |ms| && ms[i].conversationId == c && ms[i].userId == x;
          assert r[i].conversationId == c && r[i].userId == x;
        }
      }
    }
    r
  }

  /** The conversation exists and the user is one of its members (otherwise
      the endpoints answer 404). */
  predicate Visible(db: ChatDb, userId: int, convId: int) {
    (exists i :: 0 <= i < |db.conversations| && db.conversations[i].id == convId)
    && userId in MemberIds(db.memberships, convId)
  }

  datatype ChatError = NotFound | InvalidContent(reason: ContentError)

  /** `list_messages`: a page of the newest messages older than the cursor,
      oldest first; the requester's read pointer moves to now. The cursor is
      given already parsed. */
  function ListMessages(db: ChatDb, userId: int, convId: int, limitParam: Option<string>, before: Option<int>, now: int)
    : (r: Result<(seq<Message>, ChatDb), ChatError>)
    ensures r.Failure? <==> !Visible(db, userId, convId)
    ensures r.Failure? ==> r.error == NotFound
    ensures r.Success? ==>
      var (page, db2) := r.value;
      var cands := Candidates(db.messages, convId, before);
      var limit := EffectiveLimit(limitParam);
      && |page| == (if limit < |cands| then limit else |cands|)
      && multiset(page) <= multiset(cands)
      && (forall i, j :: 0 <= i < j < |page| ==> page[i].createdAt <= page[j].createdAt)
      && (forall m :: m in cands && m !in page ==> forall i :: 0 <= i < |page| ==> m.createdAt <= page[i].createdAt)
      && db2 == db.(memberships := TouchLastRead(db.memberships, convId, userId, now))
  {
    if !Visible(db, userId, convId) then Failure(NotFound)
    else
      var page := NewestPage(Candidates(db.messages, convId, before), EffectiveLimit(limitParam));
      Success((page, db.(memberships := TouchLastRead(db.memberships, convId, userId, now))))
  }

  /** `mark_read`: only the read pointer moves. */
  function MarkRead(db: ChatDb, userId: int, convId: int, now: int): (r: Result<ChatDb, ChatError>)
    ensures r.Failure? <==> !Visible(db, userId, convId)
    ensures r.Success? ==> r.value == db.(memberships := TouchLastRead(db.memberships, convId, userId, now))
  {
    if !Visible(db, userId, convId) then Failure(NotFound)
    else Success(db.(memberships := TouchLastRead(db.memberships, convId, userId, now)))
  }

  // ---------------------------------------------------------------------
  // Sending
  // ---------------------------------------------------------------------

  /** The `content` field of a send request. */
  datatype RawContent = NoContent | NullContent | Text(text: string)

  datatype ContentError = Required | NotNull | Blank | TooLong | NullCharacter

  /** `MessageCreateSerializer`: the framework strips the text, rejects a
      blank one, then runs the field's validators on the stripped text: the
      4000-character limit, then the refusal of the null character U+0000
      that every `CharField` carries. The first failing check is reported. */
  function ValidateContent(raw: RawContent): (r: Result<string, ContentError>)
    ensures raw.NoContent? <==> r == Failure(Required)
    ensures raw.NullContent? <==> r == Failure(NotNull)
    ensures r == Failure(Blank) <==> raw.Text? && Strings.IsBlank(raw.text, Strings.PySpace)
    ensures r == Failure(TooLong) <==> raw.Text? && !Strings.IsBlank(raw.text, Strings.PySpace) && |Strings.PyStrip(raw.text)| > MaxContentLength
    ensures r == Failure(NullCharacter) <==>
      (raw.Text? && !Strings.IsBlank(raw.text, Strings.PySpace)
       && |Strings.PyStrip(raw.text)| <= MaxContentLength && 0 as char in Strings.PyStrip(raw.text))
    ensures r.Success? ==> raw.Text? && r.value == Strings.PyStrip(raw.text) && r.value != "" && |r.value| <= MaxContentLength
    ensures r.Success? ==> 0 as char !in r.value
  {
    match raw
    case NoContent => Failure(Required)
    case NullContent => Failure(NotNull)
    case Text(t) =>
      var content := Strings.PyStrip(t);
      Strings.TrimEmptyIffBlank(t, Strings.PySpace);
      if content == "" then Failure(Blank)
      else if |content| > MaxContentLength then Failure(TooLong)
      else if 0 as char in content then Failure(NullCharacter)
      else Success(content)
  }

  /** What the chat page sends for a draft is accepted unchanged by the
      server whenever it fits in 4000 characters and the draft holds neither
      the null character nor any of the characters only Python counts as
      white space. */
  lemma ClientSendAccepted(selected: Option<int>, draft: string, pending: bool)
    requires ChatCache.SendRequest(selected, draft, pending).Some?
    requires Strings.NoPyOnlySpace(draft) && 0 as char !in draft
    requires |ChatCache.SendRequest(selected, draft, pending).value| <= MaxContentLength
    ensures ValidateContent(Text(ChatCache.SendRequest(selected, draft, pending).value))
      == Success(ChatCache.SendRequest(selected, draft, pending).value)
  {
    var c := ChatCache.SendRequest(selected, draft, pending).value;
    Strings.PyStripAfterJsTrim(draft);
    Strings.TrimEmptyIffBlank(c, Strings.PySpace);
  }

  /** A draft of one information separator (U+001C) is sent by the chat
      page, whose `trim` keeps it, and refused as blank by the server, whose
      `strip` removes it. */
  lemma SeparatorDraftRefused()
    ensures var draft := [0x1C as char];
      && ChatCache.SendRequest(Some(1), draft, false) == Some(draft)
      && ValidateContent(Text(draft)) == Failure(Blank)
  {
    var draft := [0x1C as char];
    assert !Strings.JsSpace(draft[0]);
    Strings.TrimNoop(draft, Strings.JsSpace);
    assert Strings.IsBlank(draft, Strings.PySpace);
  }
  /** A draft holding a null character is sent by the chat page, for which
      it is ordinary text, and refused by the server. */
  lemma NullDraftRefused()
    ensures var draft := ['a', 0 as char, 'b'];
      && ChatCache.SendRequest(Some(1), draft, false) == Some(draft)
      && ValidateContent(Text(draft)) == Failure(NullCharacter)
  {
    var draft := ['a', 0 as char, 'b'];
    assert !Strings.JsSpace(draft[0]) && !Strings.JsSpace(draft[2]);
    Strings.TrimNoop(draft, Strings.JsSpace);
    Strings.TrimNoop(draft, Strings.PySpace);
    assert draft[1] == 0 as char;
  }


  /** `send_message`: a member's validated, stripped message is stored with
      the current time and their read pointer moves to now. */
  function SendMessage(db: ChatDb, sender: User, convId: int, raw: RawContent, now: int)
    : (r: Result<(Message, ChatDb), ChatError>)
    ensures !Visible(db, sender.id, convId) ==> r == Failure(NotFound)
    ensures Visible(db, sender.id, convId) && ValidateContent(raw).Failure? ==>
      r == Failure(InvalidContent(ValidateContent(raw).error))
    ensures r.Success? ==>
      var (msg, db2) := r.value;
      && ValidateContent(raw) == Success(msg.content)
      && msg.conversationId == convId && msg.senderId == sender.id && msg.createdAt == now
      && (forall i :: 0 <= i < |db.messages| ==> db.messages[i].id != msg.id)
      && db2.messages == db.messages + [msg]
      && db2.memberships == TouchLastRead(db.memberships, convId, sender.id, now)
      && db2.conversations == db.conversations && db2.users == db.users && db2.follows == db.follows
  {
    if !Visible(db, sender.id, convId) then Failure(NotFound)
    else
      var content := ValidateContent(raw);
      if content.Failure? then Failure(InvalidContent(content.error))
      else
        var msg := Message(FreshMessageId(db.messages), convId, sender.id, Strings.PyStrip(content.value), now);
        Strings.TrimIdempotent(match raw case Text(t) => t case _ => "", Strings.PySpace);
        Success((msg, db.(messages := db.messages + [msg],
                          memberships := TouchLastRead(db.memberships, convId, sender.id, now))))
  }

  // ---------------------------------------------------------------------
  // Conversation summary fields
  // ---------------------------------------------------------------------

  /** The newest message of a conversation, if it has any. */
  function LastMessage(msgs: seq<Message>, convId: int): (r: Option<Message>)
    ensures r.None? <==> forall i :: 0 <= i < |msgs| ==> msgs[i].conversationId != convId
    ensures r.Some? ==>
      r.value in msgs && r.value.conversationId == convId
      && forall i :: 0 <= i < |msgs| && msgs[i].conversationId == convId ==> msgs[i].createdAt <= r.value.createdAt
  {
    var own := ConversationMessages(msgs, convId);
    var sorted := Sorting.SortBy(own, NewestFirst);
    if |sorted| == 0 then None
    else
      assert sorted[0] in multiset(own);
      forall i | 0 <= i < |msgs| && msgs[i].conversationId == convId
        ensures msgs[i].createdAt <= sorted[0].createdAt
      {
        assert msgs[i] in multiset(sorted);
        var j :| 0 <= j < |sorted| && sorted[j] == msgs[i];
        Sorting.SortedPairs(sorted, NewestFirst, 0, j);
        Sorting.LexLeSingleton(-sorted[0].createdAt, -msgs[i].createdAt);
      }
      Some(sorted[0])
  }

  /** The first membership row of a user in a conversation. */
  function MembershipOf(ms: seq<Membership>, convId: int, userId: int): (r: Option<Membership>)
    ensures r.None? <==> userId !in MemberIds(ms, convId)
    ensures r.Some? ==> r.value in ms && r.value.conversationId == convId && r.value.userId == userId
  {
    var isRow := (m: Membership) => m.conversationId == convId && m.userId == userId;
    var k := Seqs.FindIndex(ms, isRow);
    if k < 0 then
      None
    else Some(ms[k])
  }

  /** `get_unread_count`: 0 for an anonymous viewer or a non-member; else the
      messages after the read pointer, or all of them if never read. */
  function UnreadCount(db: ChatDb, viewer: Option<int>, convId: int): (n: nat)
    ensures n <= |ConversationMessages(db.messages, convId)|
    ensures viewer.None? || viewer.value !in MemberIds(db.memberships, convId) ==> n == 0
    ensures viewer.Some? && MembershipOf(db.memberships, convId, viewer.value).Some? ==>
      var mb := MembershipOf(db.memberships, convId, viewer.value).value;
      (mb.lastRead.None? ==> n == |ConversationMessages(db.messages, convId)|)
      && (mb.lastRead.Some? ==> n == Seqs.Count(ConversationMessages(db.messages, convId), NewerThan(mb.lastRead.value)))
      && (mb.lastRead.Some? ==>
            (n == 0 <==> forall i :: (0 <= i < |db.messages| && db.messages[i].conversationId == convId)
                                        ==> db.messages[i].createdAt <= mb.lastRead.value))
  {
    if viewer.None? then 0
    else
      var mb := MembershipOf(db.memberships, convId, viewer.value);
      if mb.None? then 0
      else
        var own := ConversationMessages(db.messages, convId);
        if mb.value.lastRead.Some? then
          var t := mb.value.lastRead.value;
          var n := Seqs.Count(own, NewerThan(t));
          assert n == 0 <==> forall i :: (0 <= i < |db.messages| && db.messages[i].conversationId == convId)
                                            ==> db.messages[i].createdAt <= t by {
            if n == 0 {
              forall i | 0 <= i < |db.messages| && db.messages[i].conversationId == convId
                ensures db.messages[i].createdAt <= t
              {
                assert db.messages[i] in own;
              }
            }
          }
          n
        else |own|
  }

  /** A stored message of the conversation that is newer than a member's
      read pointer (or any message, before their first read) adds exactly
      one to what that member has unread. */
  lemma NewMessageAddsOneUnread(db: ChatDb, viewer: int, m: Message)
    requires MembershipOf(db.memberships, m.conversationId, viewer).Some?
    requires var mb := MembershipOf(db.memberships, m.conversationId, viewer).value;
      mb.lastRead.None? || m.createdAt > mb.lastRead.value
    ensures UnreadCount(db.(messages := db.messages + [m]), Some(viewer), m.conversationId)
      == UnreadCount(db, Some(viewer), m.conversationId) + 1
  {
    var c := m.conversationId;
    Seqs.FilterAppend(db.messages, m, InConversation(c));
    var mb := MembershipOf(db.memberships, c, viewer).value;
    if mb.lastRead.Some? {
      Seqs.CountAppend(ConversationMessages(db.messages, c), m, NewerThan(mb.lastRead.value));
    }
  }

  /** Once a member has read a conversation at a time no message is newer
      than, nothing is unread for them. */
  lemma ReadingClearsUnread(db: ChatDb, userId: int, convId: int, now: int)
    requires userId in MemberIds(db.memberships, convId)
    requires forall i :: 0 <= i < |db.messages| && db.messages[i].conversationId == convId ==> db.messages[i].createdAt <= now
    ensures UnreadCount(db.(memberships := TouchLastRead(db.memberships, convId, userId, now)), Some(userId), convId) == 0
  {
    var ms := TouchLastRead(db.memberships, convId, userId, now);
    var mb := MembershipOf(ms, convId, userId).value;
    var i :| 0 <= i < |ms| && ms[i] == mb;
    assert mb.lastRead == Some(now);
  }

  /** After sending, the sender has nothing unread in that conversation,
      provided no stored message is newer than the send time. */
  lemma SenderHasNothingUnread(db: ChatDb, sender: User, convId: int, raw: RawContent, now: int)
    requires SendMessage(db, sender, convId, raw, now).Success?
    requires forall i :: 0 <= i < |db.messages| && db.messages[i].conversationId == convId ==> db.messages[i].createdAt <= now
    ensures UnreadCount(SendMessage(db, sender, convId, raw, now).value.1, Some(sender.id), convId) == 0
  {
    var (msg, db2) := SendMessage(db, sender, convId, raw, now).value;
    assert forall i :: 0 <= i < |db2.messages| && db2.messages[i].conversationId == convId ==> db2.messages[i].createdAt <= now by {
      forall i | 0 <= i < |db2.messages| && db2.messages[i].conversationId == convId
        ensures db2.messages[i].createdAt <= now
      {
        if i < |db.messages| {
          assert db2.messages[i] == db.messages[i];
        }
      }
    }
    ReadingClearsUnread(db2.(memberships := db.memberships), sender.id, convId, now);
  }

  // ---------------------------------------------------------------------
  // Users as shown in chat, and contacts
  // ---------------------------------------------------------------------

  /** `get_full_name`, falling back to the username when blank. */
  function ChatFullName(u: User): (r: string)
    ensures r == "" <==> AuthSerializers.FullName(u.firstName, u.lastName) == "" && u.username == ""
    ensures AuthSerializers.FullName(u.firstName, u.lastName) != "" ==> r == AuthSerializers.FullName(u.firstName, u.lastName)
    ensures AuthSerializers.FullName(u.firstName, u.lastName) == "" && u.username != "" ==>
      r == u.username || r == Strings.PyStrip(u.username)
  {
    var full := AuthSerializers.FullName(u.firstName, u.lastName);
    Strings.TrimIdempotent(u.firstName + " " + u.lastName, Strings.PySpace);
    var stripped := Strings.PyStrip(if full != "" then full else u.username);
    if stripped != "" then stripped else u.username
  }

  datatype ChatContact = ChatContact(user: User, fullName: string, youFollow: bool, followsYou: bool)

  function ByUsername(u: User): seq<int> {
    Sorting.Codes(u.username)
  }

  function ContactUsers(cs: seq<ChatContact>): (r: seq<User>)
    ensures |r| == |cs| && forall i :: 0 <= i < |cs| ==> r[i] == cs[i].user
  {
    seq(|cs|, i requires 0 <= i < |cs| => cs[i].user)
  }

  /** One contact row per user, flagged with both follow directions. */
  function ContactRows(users: seq<User>, following: set<int>, followers: set<int>): (r: seq<ChatContact>)
    ensures ContactUsers(r) == users
    ensures forall i :: 0 <= i < |r| ==>
      && (r[i].youFollow <==> users[i].id in following)
      && (r[i].followsYou <==> users[i].id in followers)
      && r[i].fullName == ChatFullName(users[i])
  {
    seq(|users|, i requires 0 <= i < |users| =>
      ChatContact(users[i], ChatFullName(users[i]), users[i].id in following, users[i].id in followers))
  }

  /** Every element of a sort of `found` is an element of `found`. */
  lemma SortedFromFound(found: seq<User>, users: seq<User>, ids: set<int>)
    requires multiset(users) == multiset(found)
    requires forall i :: 0 <= i < |found| ==> found[i].isActive && found[i].id in ids
    ensures forall i :: 0 <= i < |users| ==> users[i].isActive && users[i].id in ids
  {
    forall i | 0 <= i < |users|
      ensures users[i].isActive && users[i].id in ids
    {
      assert users[i] in multiset(found);
    }
  }

  /** `ChatContactViewSet.list`: the active users the requester follows or is
      followed by, ordered by username, each flagged with both directions. */
  function Contacts(db: ChatDb, me: int): (r: seq<ChatContact>)
    ensures Following(db.follows, me) + Followers(db.follows, me) == {} ==> r == []
    ensures multiset(ContactUsers(r))
      == multiset(ActiveUsersIn(db.users, Following(db.follows, me) + Followers(db.follows, me)))
    ensures Sorting.Sorted(ContactUsers(r), ByUsername)
    ensures forall i :: 0 <= i < |r| ==>
      && r[i].user.isActive
      && (r[i].user.id in Following(db.follows, me) || r[i].user.id in Followers(db.follows, me))
      && (r[i].youFollow <==> r[i].user.id in Following(db.follows, me))
      && (r[i].followsYou <==> r[i].user.id in Followers(db.follows, me))
      && r[i].fullName == ChatFullName(r[i].user)
  {
    var following := Following(db.follows, me);
    var followers := Followers(db.follows, me);
    if following + followers == {} then []
    else
      var found := ActiveUsersIn(db.users, following + followers);
      var users := Sorting.SortBy(found, ByUsername);
      SortedFromFound(found, users, following + followers);
      ContactRows(users, following, followers)
  }
}

=== FILE: client_types.dfy ===
/** The records the web client receives from the feed API, as the client's
    type declarations describe them. Times are integers; counters are
    integers even though the client holds them as JavaScript numbers. */
module ClientTypes {
  import opened Wrappers

  /** The author or a tagged user of a post. */
  datatype PostUser = PostUser(id: int, username: string, avatar: Option<string>)

  datatype PostComment = PostComment(id: int, userId: int, text: string, createdAt: int)

  datatype Post = Post(
    id: int,
    user: PostUser,
    image: Option<string>,
    video: Option<string>,
    caption: string,
    createdAt: int,
    updatedAt: int,
    isPrivate: bool,
    hashtags: seq<string>,
    taggedUsers: seq<PostUser>,
    likesCount: int,
    commentsCount: int,
    sharesCount: int,
    isLiked: bool,
    bookmarksCount: int,
    isBookmarked: bool,
    comments: seq<PostComment>)

  datatype Story = Story(id: int, userId: int, username: string, image: string, createdAt: int, expiresAt: int)

  /** JavaScript truthiness of an optional string. */
  predicate Present(s: Option<string>) {
    s.Some? && s.value != ""
  }

  /** Engagement as the pages compute it: likes, comments, shares and bookmarks. */
  function Engagement(p: Post): int {
    p.likesCount + p.commentsCount + p.sharesCount + p.bookmarksCount
  }

  predicate DistinctStoryIds(stories: seq<Story>) {
    forall i, j :: 0 <= i < j < |stories| ==> stories[i].id != stories[j].id
  }

  predicate DistinctPostIds(posts: seq<Post>) {
    forall i, j :: 0 <= i < j < |posts| ==> posts[i].id != posts[j].id
  }
}

=== FILE: composer.dfy ===
/** The post composer: attaching one image or video, and turning the
    composer's fields into the create-post request. */
module Composer {
  import opened Wrappers
  import Strings
  import Tags
  import ClientApi
  import FeedServer

  datatype MediaType = Image | Video

  datatype ComposerState = ComposerState(
    text: string,
    preview: Option<string>,
    file: Option<ClientApi.File>,
    mediaType: Option<MediaType>,
    taggedInput: string,
    hashtagsInput: string,
    isPrivate: bool)

  const Empty := ComposerState("", None, None, None, "", "", false)

  /** The kind of an attachment from its MIME type, if it is one the composer takes. */
  function FileKind(mimeType: string): (r: Option<MediaType>)
    ensures r == Some(Image) <==> Strings.StartsWith(mimeType, "image/")
    ensures r == Some(Video) <==> !Strings.StartsWith(mimeType, "image/") && Strings.StartsWith(mimeType, "video/")
  {
    if Strings.StartsWith(mimeType, "image/") then Some(Image)
    else if Strings.StartsWith(mimeType, "video/") then Some(Video)
    else None
  }

  /** Preview, file and media type are set together, and the media type is the file's kind. */
  predicate Consistent(st: ComposerState) {
    && (st.file.Some? <==> st.mediaType.Some?)
    && (st.file.Some? <==> st.preview.Some?)
    && (st.file.Some? ==> FileKind(st.file.value.mimeType) == st.mediaType)
  }

  /** `resetPreview`. */
  function ResetPreview(st: ComposerState): (r: ComposerState)
    ensures Consistent(r) && r.file.None?
    ensures r.text == st.text && r.taggedInput == st.taggedInput && r.hashtagsInput == st.hashtagsInput && r.isPrivate == st.isPrivate
  {
    st.(preview := None, file := None, mediaType := None)
  }

  /** `handleFile`: nothing chosen changes nothing; any choice drops the old
      attachment; an image or video is attached with its object URL, anything
      else is refused (`rejected`). */
  function HandleFile(st: ComposerState, chosen: Option<ClientApi.File>, objectUrl: string): (r: (ComposerState, bool))
    ensures chosen.None? ==> r == (st, false)
    ensures chosen.Some? ==> (r.1 <==> FileKind(chosen.value.mimeType).None?)
    ensures chosen.Some? && r.1 ==> r.0 == ResetPreview(st)
    ensures chosen.Some? && !r.1 ==> r.0.file == chosen && r.0.preview == Some(objectUrl)
    ensures Consistent(st) ==> Consistent(r.0)
    ensures r.0.text == st.text && r.0.isPrivate == st.isPrivate
    ensures r.0.taggedInput == st.taggedInput && r.0.hashtagsInput == st.hashtagsInput
  {
    if chosen.None? then (st, false)
    else
      var cleared := ResetPreview(st);
      var kind := FileKind(chosen.value.mimeType);
      if kind.None? then (cleared, true)
      else (cleared.(preview := Some(objectUrl), file := chosen, mediaType := kind), false)
  }

  datatype ComposerError = NothingToPost

  /** `submit`: refuses an empty text with no attachment; otherwise the
      request carries the caption, the attachment under its kind, the
      privacy flag and the parsed tag lists. */
  function Submit(st: ComposerState): (r: Result<ClientApi.PostParams, ComposerError>)
    ensures r.Failure? <==> st.text == "" && st.file.None?
    ensures r.Success? ==>
      && r.value.caption == Some(st.text)
      && r.value.isPrivate == Some(st.isPrivate)
      && r.value.hashtags == Some(Tags.ParseTags(st.hashtagsInput, '#', false))
      && r.value.taggedUsernames == Some(Tags.ParseTags(st.taggedInput, '@', false))
      && (r.value.image.Some? <==> st.mediaType == Some(Image) && st.file.Some?)
      && (r.value.video.Some? <==> st.mediaType == Some(Video) && st.file.Some?)
      && (r.value.image.Some? ==> r.value.image == st.file)
      && (r.value.video.Some? ==> r.value.video == st.file)
  {
    if st.text == "" && st.file.None? then Failure(NothingToPost)
    else
      Success(ClientApi.PostParams(
        Some(st.text),
        if st.mediaType == Some(Image) then st.file else None,
        if st.mediaType == Some(Video) then st.file else None,
        Some(st.isPrivate),
        Some(Tags.ParseTags(st.hashtagsInput, '#', false)),
        Some(Tags.ParseTags(st.taggedInput, '@', false))))
  }

  /** After the request: success clears the composer, failure keeps it. */
  function AfterSubmit(st: ComposerState, created: bool): (r: ComposerState)
    ensures created ==> r == Empty && Consistent(r)
    ensures !created ==> r == st
  {
    if created then ResetPreview(Empty) else st
  }

  /** The stored name of an uploaded file, as the server sees it. */
  function StoredName(f: Option<ClientApi.File>): Option<string> {
    if f.Some? then Some(f.value.name) else None
  }

  /** The composer never sends an image and a video together, and an
      attachment it sends is of the kind it is sent as. */
  lemma AtMostOneMedium(st: ComposerState)
    requires Consistent(st) && Submit(st).Success?
    ensures var p := Submit(st).value;
      && !(p.image.Some? && p.video.Some?)
      && (p.image.Some? ==> Strings.StartsWith(p.image.value.mimeType, "image/"))
      && (p.video.Some? ==> Strings.StartsWith(p.video.value.mimeType, "video/"))
  {
  }

  /** An attachment with a name passes the server's media check on creation. */
  lemma AttachmentPassesServer(st: ComposerState)
    requires Consistent(st) && st.file.Some? && st.file.value.name != ""
    ensures Submit(st).Success?
    ensures var p := Submit(st).value;
      FeedServer.ValidateMedia(StoredName(p.image), StoredName(p.video), true).Success?
  {
  }

  /** A text-only post passes the composer's own check but the server
      requires a medium on creation, so it is refused there. */
  lemma TextOnlyPostRefusedByServer(st: ComposerState)
    requires Consistent(st) && st.file.None? && st.text != ""
    ensures Submit(st).Success?
    ensures var p := Submit(st).value;
      FeedServer.ValidateMedia(StoredName(p.image), StoredName(p.video), true) == Failure(FeedServer.NoMedia)
  {
  }

  /** The emptiness check looks at the untrimmed text, so whitespace alone
      counts as something to post. */
  lemma BlankTextCountsAsContent(st: ComposerState)
    requires st.text == " " && st.file.None?
    ensures Submit(st).Success?
  {
  }
}

=== FILE: digits.dfy ===
/** Decimal text: rendering naturals, zero-padded rendering (Python's
    `f"{n:06d}"`) and Python's `int(text)` on query-string values. */
module Digits {
  import opened Wrappers
  import Strings

  predicate IsDigit(c: char) {
    '0' <= c <= '9'
  }

  predicate AllDigits(s: string) {
    forall k :: 0 <= k < |s| ==> IsDigit(s[k])
  }

  function DigitChar(d: nat): (c: char)
    requires d < 10
    ensures IsDigit(c)
  {
    ('0' as int + d) as char
  }

  function DigitValue(c: char): nat
    requires IsDigit(c)
  {
    c as int - '0' as int
  }

  function Pow10(k: nat): (p: nat)
    ensures p >= 1
  {
    if k == 0 then 1 else 10 * Pow10(k - 1)
  }

  /** The number a string of decimal digits denotes (most significant first). */
  function DigitsValue(s: string): nat
    requires AllDigits(s)
  {
    if |s| == 0 then 0 else 10 * DigitsValue(s[..|s| - 1]) + DigitValue(s[|s| - 1])
  }

  /** Shortest decimal rendering of `n`. */
  function NatToString(n: nat): (r: string)
    ensures |r| > 0 && AllDigits(r)
    ensures |r| > 1 ==> r[0] != '0'
  {
    if n < 10 then [DigitChar(n)] else NatToString(n / 10) + [DigitChar(n % 10)]
  }

  lemma {:induction false} NatToStringValue(n: nat)
    ensures DigitsValue(NatToString(n)) == n
  {
    if n >= 10 {
      var r := NatToString(n);
      assert r[..|r| - 1] == NatToString(n / 10);
      NatToStringValue(n / 10);
    }
  }

  /** A number below 10^k needs at most k digits. */
  lemma {:induction false} NatToStringLength(n: nat, k: nat)
    requires 1 <= k && n < Pow10(k)
    ensures |NatToString(n)| <= k
  {
    if n >= 10 {
      NatToStringLength(n / 10, k - 1);
    }
  }

  function Zeros(k: nat): (r: string)
    ensures |r| == k && forall i :: 0 <= i < k ==> r[i] == '0'
  {
    if k == 0 then "" else "0" + Zeros(k - 1)
  }

  lemma {:induction false} LeadingZeroValue(s: string)
    requires AllDigits(s)
    ensures DigitsValue("0" + s) == DigitsValue(s)
    decreases |s|
  {
    if |s| > 0 {
      assert ("0" + s)[..|s|] == "0" + s[..|s| - 1];
      LeadingZeroValue(s[..|s| - 1]);
    }
  }

  lemma {:induction false} ZerosValue(k: nat, s: string)
    requires AllDigits(s)
    ensures AllDigits(Zeros(k) + s) && DigitsValue(Zeros(k) + s) == DigitsValue(s)
  {
    if k > 0 {
      var rest := Zeros(k - 1) + s;
      ZerosValue(k - 1, s);
      assert Zeros(k) + s == "0" + rest;
      assert AllDigits("0" + rest);
      LeadingZeroValue(rest);
    } else {
      assert Zeros(k) + s == s;
    }
  }

  /** `n` in decimal, left-padded with zeros to at least `width` characters. */
  function ZeroPad(n: nat, width: nat): (r: string)
    ensures AllDigits(r) && DigitsValue(r) == n
    ensures |r| == if width > |NatToString(n)| then width else |NatToString(n)|
  {
    var d := NatToString(n);
    var pad := if width > |d| then width - |d| else 0;
    ZerosValue(pad, d);
    NatToStringValue(n);
    Zeros(pad) + d
  }

  /** A value drawn from [0, 10^k) renders to exactly k digits denoting it. */
  lemma ZeroPadExact(n: nat, k: nat)
    requires 1 <= k && n < Pow10(k)
    ensures |ZeroPad(n, k)| == k && AllDigits(ZeroPad(n, k)) && DigitsValue(ZeroPad(n, k)) == n
  {
    NatToStringLength(n, k);
  }

  function IntToString(n: int): string {
    if n < 0 then "-" + NatToString(-n) else NatToString(n)
  }

  /** Python's `int(text)` on a base-10 string: surrounding whitespace is
      ignored, one optional sign, then one or more digits; anything else is a
      `ValueError`, here `None`. */
  function PyInt(text: string): (r: Option<int>)
    ensures r.Some? ==> |Strings.PyStrip(text)| > 0
  {
    ParseSigned(Strings.PyStrip(text))
  }

  /** One optional sign, then one or more digits, with nothing around them. */
  function ParseSigned(t: string): (r: Option<int>)
    ensures r.Some? ==> |t| > 0
  {
    var neg := |t| > 0 && t[0] == '-';
    var body := if |t| > 0 && (t[0] == '-' || t[0] == '+') then t[1..] else t;
    if |body| == 0 || !AllDigits(body) then None
    else
      var v: int := DigitsValue(body);
      if neg then Some(-v) else Some(v)
  }

  /** Rendering an integer and parsing it back gives the integer. */
  lemma PyIntOfIntToString(n: int)
    ensures PyInt(IntToString(n)) == Some(n)
  {
    var m: nat := if n < 0 then -n else n;
    var d := NatToString(m);
    NatToStringValue(m);
    if n < 0 {
      PyIntOfSignedDigits("-", d);
    } else {
      PyIntOfSignedDigits("", d);
      assert "" + d == d;
    }
  }

  /** An optional minus sign followed by digits, with no surrounding space,
      parses to the digits' value with that sign. */
  lemma PyIntOfSignedDigits(sign: string, d: string)
    requires sign == "" || sign == "-"
    requires |d| > 0 && AllDigits(d)
    ensures PyInt(sign + d) == Some(if sign == "-" then -(DigitsValue(d) as int) else DigitsValue(d) as int)
  {
    var s := sign + d;
    StripSignedDigits(sign, d);
    ParseSignedDigits(sign, d);
  }

  lemma StripSignedDigits(sign: string, d: string)
    requires sign == "" || sign == "-"
    requires |d| > 0 && AllDigits(d)
    ensures Strings.PyStrip(sign + d) == sign + d
  {
    var s := sign + d;
    assert s[|s| - 1] == d[|d| - 1];
    DigitNotSpace(d[|d| - 1]);
    if sign == "" {
      assert s[0] == d[0];
      DigitNotSpace(d[0]);
    } else {
      assert s[0] == '-';
    }
    Strings.TrimNoop(s, Strings.PySpace);
  }

  lemma DigitNotSpace(c: char)
    requires IsDigit(c)
    ensures !Strings.PySpace(c) && !Strings.JsSpace(c)
  {
  }

  lemma ParseSignedDigits(sign: string, d: string)
    requires sign == "" || sign == "-"
    requires |d| > 0 && AllDigits(d)
    ensures ParseSigned(sign + d) == Some(if sign == "-" then -(DigitsValue(d) as int) else DigitsValue(d) as int)
  {
    if sign == "-" {
      ParseNegative(d);
    } else {
      assert sign + d == d;
      ParsePositive(d);
    }
  }

  lemma ParsePositive(d: string)
    requires |d| > 0 && AllDigits(d)
    ensures ParseSigned(d) == Some(DigitsValue(d) as int)
  {
    assert IsDigit(d[0]);
  }

  lemma ParseNegative(d: string)
    requires |d| > 0 && AllDigits(d)
    ensures ParseSigned("-" + d) == Some(-(DigitsValue(d) as int))
  {
    var s := "-" + d;
    assert s[0] == '-' && s[1..] == d;
  }

  /** Text that has no digits after the sign is never a number. */
  lemma PyIntRejectsEmpty(text: string)
    requires Strings.IsBlank(text, Strings.PySpace)
    ensures PyInt(text) == None
  {
    Strings.TrimEmptyIffBlank(text, Strings.PySpace);
  }
}

=== FILE: directory.dfy ===
/** The user directory: account settings, the searchable list of users,
    follow and unfollow with their notification, and the notification
    inbox. The database is a record of tables held as sequences, with the
    profiles keyed by user id. */
module Directory {
  import opened Wrappers
  import Seqs
  import Strings
  import Digits
  import Sorting
  import opened AuthModels
  import AuthSerializers

  const NameMaxLength := 150
  const PhoneMaxLength := 32
  const MaxListSize := 200

  // ---------------------------------------------------------------------
  // Account settings
  // ---------------------------------------------------------------------

  /** The `avatar` field: not sent, sent as null, or an uploaded file. */
  datatype AvatarInput = NoAvatarField | NullAvatar | AvatarFile(name: string)

  /** A partial settings update; `None` is a field that was not sent. */
  datatype SettingsInput = SettingsInput(
    firstName: Option<string>,
    lastName: Option<string>,
    displayName: Option<string>,
    phoneNumber: Option<string>,
    avatar: AvatarInput,
    removeAvatar: Option<bool>)

  datatype SettingsField = FirstNameField | LastNameField | DisplayNameField | PhoneNumberField

  datatype SettingsError = TooLong(field: SettingsField) | NoChanges | AvatarConflict

  predicate FieldTooLong(f: Option<string>, maxLength: nat) {
    f.Some? && |Strings.PyStrip(f.value)| > maxLength
  }

  function FieldValue(input: SettingsInput, f: SettingsField): Option<string> {
    match f
    case FirstNameField => input.firstName
    case LastNameField => input.lastName
    case DisplayNameField => input.displayName
    case PhoneNumberField => input.phoneNumber
  }

  /** The phone number is capped at 32 characters, the names at 150. */
  function FieldLimit(f: SettingsField): nat {
    if f == PhoneNumberField then PhoneMaxLength else NameMaxLength
  }

  const AllFields: set<SettingsField> := {FirstNameField, LastNameField, DisplayNameField, PhoneNumberField}

  /** The per-field length errors, reported together. */
  function LengthErrors(input: SettingsInput): (r: set<SettingsError>)
    ensures forall e :: e in r <==> e.TooLong? && FieldTooLong(FieldValue(input, e.field), FieldLimit(e.field))
  {
    set f | f in AllFields && FieldTooLong(FieldValue(input, f), FieldLimit(f)) :: TooLong(f)
  }

  /** Nothing at all was sent. */
  predicate NothingSent(input: SettingsInput) {
    input.firstName.None? && input.lastName.None? && input.displayName.None? && input.phoneNumber.None?
    && input.avatar.NoAvatarField? && input.removeAvatar.None?
  }

  /** The sent text fields trimmed, the rest as sent. */
  function Trimmed(input: SettingsInput): (r: SettingsInput)
    ensures forall f :: FieldValue(r, f) == AuthSerializers.TrimmedField(FieldValue(input, f))
    ensures r.avatar == input.avatar && r.removeAvatar == input.removeAvatar
  {
    input.(firstName := AuthSerializers.TrimmedField(input.firstName), lastName := AuthSerializers.TrimmedField(input.lastName),
           displayName := AuthSerializers.TrimmedField(input.displayName), phoneNumber := AuthSerializers.TrimmedField(input.phoneNumber))
  }

  /** `AccountSettingsSerializer`: field checks, then "nothing sent", then
      "a new avatar and removal together". */
  function ValidateSettings(input: SettingsInput): (r: Result<SettingsInput, set<SettingsError>>)
    ensures r.Failure? ==> r.error != {}
    ensures r.Success? <==>
      LengthErrors(input) == {} && !NothingSent(input)
      && !(input.avatar.AvatarFile? && input.removeAvatar == Some(true))
    ensures r.Success? ==> r.value == Trimmed(input)
    ensures NothingSent(input) ==> r == Failure({NoChanges})
    ensures LengthErrors(input) == {} && input.avatar.AvatarFile? && input.removeAvatar == Some(true) ==>
      r == Failure({AvatarConflict})
  {
    var errors := LengthErrors(input);
    if errors != {} then Failure(errors)
    else if NothingSent(input) then Failure({NoChanges})
    else if input.avatar.AvatarFile? && input.removeAvatar == Some(true) then Failure({AvatarConflict})
    else Success(Trimmed(input))
  }

  /** The columns an update writes. */
  datatype Column = FirstNameColumn | LastNameColumn | DisplayNameColumn | PhoneNumberColumn | AvatarColumn

  /** Python truthiness of a stored avatar. */
  predicate HasAvatar(p: UserProfile) {
    p.avatar.Some? && p.avatar.value != ""
  }

  /** Sent and different from the stored value. */
  predicate Changes(f: Option<string>, current: string) {
    f.Some? && f.value != current
  }

  /** The stored value after a write of `f` when it changes it. */
  function Written(f: Option<string>, current: string): (r: string)
    ensures f.Some? ==> r == f.value
    ensures f.None? ==> r == current
  {
    if Changes(f, current) then f.value else current
  }

  /** The user's names after `update_profile`. */
  function UpdatedUser(u: User, v: SettingsInput): (r: User)
    ensures r.firstName == Written(v.firstName, u.firstName) && r.lastName == Written(v.lastName, u.lastName)
    ensures r.(firstName := u.firstName, lastName := u.lastName) == u
  {
    u.(firstName := Written(v.firstName, u.firstName), lastName := Written(v.lastName, u.lastName))
  }

  /** The profile after `update_profile`: a new avatar always wins; removal
      acts only when an avatar is stored. */
  function UpdatedProfile(p: UserProfile, v: SettingsInput): (r: UserProfile)
    ensures r.displayName == Written(v.displayName, p.displayName)
    ensures r.phoneNumber == Written(v.phoneNumber, p.phoneNumber)
    ensures v.avatar.AvatarFile? ==> r.avatar == Some(v.avatar.name)
    ensures !v.avatar.AvatarFile? && v.removeAvatar == Some(true) && HasAvatar(p) ==> r.avatar == None
    ensures !v.avatar.AvatarFile? && !(v.removeAvatar == Some(true) && HasAvatar(p)) ==> r.avatar == p.avatar
    ensures r.(displayName := p.displayName, phoneNumber := p.phoneNumber, avatar := p.avatar) == p
  {
    var avatar :=
      if v.avatar.AvatarFile? then Some(v.avatar.name)
      else if v.removeAvatar == Some(true) && HasAvatar(p) then None
      else p.avatar;
    p.(displayName := Written(v.displayName, p.displayName), phoneNumber := Written(v.phoneNumber, p.phoneNumber),
       avatar := avatar)
  }

  /** The columns `update_profile` saves. */
  function SavedColumns(u: User, p: UserProfile, v: SettingsInput): (r: set<Column>)
    ensures FirstNameColumn in r <==> Changes(v.firstName, u.firstName)
    ensures LastNameColumn in r <==> Changes(v.lastName, u.lastName)
    ensures DisplayNameColumn in r <==> Changes(v.displayName, p.displayName)
    ensures PhoneNumberColumn in r <==> Changes(v.phoneNumber, p.phoneNumber)
    ensures AvatarColumn in r <==> v.avatar.AvatarFile? || (v.removeAvatar == Some(true) && HasAvatar(p))
  {
    (if Changes(v.firstName, u.firstName) then {FirstNameColumn} else {})
    + (if Changes(v.lastName, u.lastName) then {LastNameColumn} else {})
    + (if Changes(v.displayName, p.displayName) then {DisplayNameColumn} else {})
    + (if Changes(v.phoneNumber, p.phoneNumber) then {PhoneNumberColumn} else {})
    + (if v.avatar.AvatarFile? || (v.removeAvatar == Some(true) && HasAvatar(p)) then {AvatarColumn} else {})
  }

  /** When no column is saved, neither the user nor the profile changes. */
  lemma NothingSavedNothingChanged(u: User, p: UserProfile, v: SettingsInput)
    requires SavedColumns(u, p, v) == {}
    ensures UpdatedUser(u, v) == u && UpdatedProfile(p, v) == p
  {
    assert FirstNameColumn !in SavedColumns(u, p, v) && LastNameColumn !in SavedColumns(u, p, v);
    assert DisplayNameColumn !in SavedColumns(u, p, v) && PhoneNumberColumn !in SavedColumns(u, p, v);
    assert AvatarColumn !in SavedColumns(u, p, v);
  }

  /** Sending the same text fields again saves nothing the second time. */
  lemma UpdateSettles(u: User, p: UserProfile, v: SettingsInput)
    requires !v.avatar.AvatarFile?
    ensures SavedColumns(UpdatedUser(u, v), UpdatedProfile(p, v), v) == {}
  {
    var r := SavedColumns(UpdatedUser(u, v), UpdatedProfile(p, v), v);
    assert FirstNameColumn !in r && LastNameColumn !in r && DisplayNameColumn !in r;
    assert PhoneNumberColumn !in r && AvatarColumn !in r;
  }

  // ---------------------------------------------------------------------
  // Derived fields of a listed user and of a notification
  // ---------------------------------------------------------------------

  /** `full_name`: the stripped full name, or the username when it is blank. */
  function PublicFullName(u: User): (r: string)
    ensures AuthSerializers.FullName(u.firstName, u.lastName) != "" ==> r == AuthSerializers.FullName(u.firstName, u.lastName)
    ensures AuthSerializers.FullName(u.firstName, u.lastName) == "" ==> r == u.username
    ensures u.username != "" ==> r != ""
  {
    var full := AuthSerializers.FullName(u.firstName, u.lastName);
    if full != "" then full else u.username
  }

  /** `display_name`: the profile's display name, or "" without one. */
  function PublicDisplayName(profiles: map<int, UserProfile>, userId: int): (r: string)
    ensures userId in profiles ==> r == profiles[userId].displayName
    ensures userId !in profiles ==> r == ""
  {
    if userId in profiles then profiles[userId].displayName else ""
  }

  /** `is_following`: whether the viewer's following set holds the user. */
  function IsFollowing(follows: seq<Follow>, viewer: int, userId: int): (b: bool)
    ensures b <==> Follow(viewer, userId) in follows
  {
    assert Follow(viewer, userId) in follows ==> userId in Following(follows, viewer) by {
      if Follow(viewer, userId) in follows {
        var i :| 0 <= i < |follows| && follows[i] == Follow(viewer, userId);
      }
    }
    userId in Following(follows, viewer)
  }

  /** `is_self`: false for an anonymous viewer, else whether the ids agree. */
  function IsSelf(viewer: Option<int>, userId: int): (b: bool)
    ensures b <==> viewer == Some(userId)
  {
    viewer.Some? && viewer.value == userId
  }

  datatype NotificationKind = FollowNotice | OtherNotice(name: string)

  datatype Notification = Notification(
    id: int,
    recipientId: int,
    actorId: int,
    kind: NotificationKind,
    payloadMessage: Option<string>,
    isRead: bool,
    createdAt: int)

  const FollowMessage := "started following you"

  /** `message`: fixed text for a follow, else the payload's message or "". */
  function NotificationMessage(n: Notification): (r: string)
    ensures n.kind.FollowNotice? ==> r == FollowMessage
    ensures !n.kind.FollowNotice? ==> r == n.payloadMessage.GetOr("")
  {
    if n.kind.FollowNotice? then FollowMessage else n.payloadMessage.GetOr("")
  }

  /** `follow_back_url` reduced to the user it points at: the actor, for follows only. */
  function FollowBackTarget(n: Notification): (r: Option<int>)
    ensures r.Some? <==> n.kind.FollowNotice?
    ensures r.Some? ==> r.value == n.actorId
  {
    if n.kind.FollowNotice? then Some(n.actorId) else None
  }

  /** `can_follow_back`: a signed-in recipient who is not the actor and does
      not follow the actor yet. */
  function CanFollowBack(viewer: Option<int>, n: Notification, following: set<int>): (b: bool)
    ensures viewer.None? ==> !b
    ensures viewer == Some(n.actorId) ==> !b
    ensures viewer.Some? && viewer.value != n.actorId ==> (b <==> n.actorId !in following)
  {
    if viewer.None? then false
    else if n.actorId == viewer.value then false
    else n.actorId !in following
  }

  // ---------------------------------------------------------------------
  // The directory listing
  // ---------------------------------------------------------------------

  datatype DirectoryDb = DirectoryDb(
    users: seq<User>,
    profiles: map<int, UserProfile>,
    follows: seq<Follow>,
    notifications: seq<Notification>)

  /** The search filter: a case-insensitive substring of username, first
      name, last name or display name. */
  predicate MatchesQuery(db: DirectoryDb, u: User, q: string) {
    Strings.ContainsIgnoreCase(u.username, q)
    || Strings.ContainsIgnoreCase(u.firstName, q)
    || Strings.ContainsIgnoreCase(u.lastName, q)
    || (u.id in db.profiles && Strings.ContainsIgnoreCase(db.profiles[u.id].displayName, q))
  }

  /** Active, and matching the stripped query when one is given. */
  predicate Listed(db: DirectoryDb, q: Option<string>, u: User) {
    u.isActive && (Strings.PyStrip(q.GetOr("")) == "" || MatchesQuery(db, u, Strings.PyStrip(q.GetOr(""))))
  }

  function FollowerCount(follows: seq<Follow>, userId: int): nat {
    |Followers(follows, userId)|
  }

  /** The order key: followers descending, then username. */
  function RankKey(follows: seq<Follow>): User -> seq<int> {
    (u: User) => [0 - FollowerCount(follows, u.id) as int] + Sorting.Codes(u.username)
  }

  /** `get_queryset`: the listed users, most-followed first. */
  function Ranked(db: DirectoryDb, q: Option<string>): (r: seq<User>)
    ensures multiset(r) == multiset(Seqs.Filter(db.users, (u: User) => Listed(db, q, u)))
    ensures Sorting.Sorted(r, RankKey(db.follows))
    ensures forall u :: u in r <==> u in db.users && Listed(db, q, u)
  {
    var found := Seqs.Filter(db.users, (u: User) => Listed(db, q, u));
    var r := Sorting.SortBy(found, RankKey(db.follows));
    Seqs.FilterMembers(db.users, (u: User) => Listed(db, q, u));
    Seqs.SameMembers(r, found);
    r
  }

  lemma RankKeyOf(follows: seq<Follow>, u: User)
    ensures RankKey(follows)(u) == [0 - FollowerCount(follows, u.id) as int] + Sorting.Codes(u.username)
  {
  }

  /** In the listing, a user never has fewer followers than one after them,
      and equal follower counts are in username order. */
  lemma RankedOrder(db: DirectoryDb, q: Option<string>, i: int, j: int)
    requires 0 <= i < j < |Ranked(db, q)|
    ensures var r := Ranked(db, q);
      && FollowerCount(db.follows, r[i].id) >= FollowerCount(db.follows, r[j].id)
      && (FollowerCount(db.follows, r[i].id) == FollowerCount(db.follows, r[j].id) ==>
            Sorting.LexLe(Sorting.Codes(r[i].username), Sorting.Codes(r[j].username)))
  {
    var r := Ranked(db, q);
    var a, b := r[i], r[j];
    var ca: int, cb: int := FollowerCount(db.follows, a.id), FollowerCount(db.follows, b.id);
    Sorting.SortedPairs(r, RankKey(db.follows), i, j);
    RankKeyOf(db.follows, a);
    RankKeyOf(db.follows, b);
    Sorting.LexLeCons(0 - ca, Sorting.Codes(a.username), 0 - cb, Sorting.Codes(b.username));
  }

  /** `include_self` is on for "1", "true" or "yes" in any case; it defaults to "false". */
  function IncludeSelf(param: Option<string>): (b: bool)
    ensures param.None? ==> !b
    ensures b <==> Strings.Lower(param.GetOr("false")) in {"1", "true", "yes"}
  {
    Strings.Lower(param.GetOr("false")) in {"1", "true", "yes"}
  }

  /** The list's size cap: none without a parseable limit, else clamped to [1, 200]. */
  function ListLimit(limitParam: Option<string>): (r: Option<nat>)
    ensures limitParam.None? || Digits.PyInt(limitParam.value).None? ==> r.None?
    ensures r.Some? ==> 1 <= r.value <= MaxListSize
    ensures limitParam.Some? && Digits.PyInt(limitParam.value).Some? ==>
      var k := Digits.PyInt(limitParam.value).value;
      r.Some? && r.value == (if k < 1 then 1 else if k > MaxListSize then MaxListSize else k)
  {
    if limitParam.None? then None
    else
      var parsed := Digits.PyInt(limitParam.value);
      if parsed.None? then None
      else
        var k := parsed.value;
        Some(if k < 1 then 1 else if k > MaxListSize then MaxListSize else k)
  }

  /** The listing with the caller removed unless `include_self` is on. */
  function Visible(db: DirectoryDb, me: int, q: Option<string>, includeSelf: Option<string>): (r: seq<User>)
    ensures IncludeSelf(includeSelf) ==> r == Ranked(db, q)
    ensures !IncludeSelf(includeSelf) ==> forall u :: u in r <==> u in Ranked(db, q) && u.id != me
    ensures Seqs.IsSubseq(r, Ranked(db, q))
  {
    var ranked := Ranked(db, q);
    if IncludeSelf(includeSelf) then
      Seqs.SubseqRefl(ranked);
      ranked
    else
      Seqs.FilterMembers(ranked, (u: User) => u.id != me);
      Seqs.FilterIsSubseq(ranked, (u: User) => u.id != me);
      Seqs.Filter(ranked, (u: User) => u.id != me)
  }

  /** The first `cap` elements, or all without a cap. */
  function Capped<T>(s: seq<T>, cap: Option<nat>): (r: seq<T>)
    ensures cap.None? ==> r == s
    ensures cap.Some? ==> |r| == (if |s| < cap.value then |s| else cap.value)
    ensures |r| <= |s| && r == s[..|r|]
  {
    if cap.None? || |s| <= cap.value then s else s[..cap.value]
  }

  /** `UserDirectoryViewSet.list` for the signed-in user `me`: a prefix of the
      visible listing, at most `limit` (clamped) long. */
  function ListUsers(db: DirectoryDb, me: int, q: Option<string>, includeSelf: Option<string>, limit: Option<string>)
    : (r: seq<User>)
    ensures |r| <= |Visible(db, me, q, includeSelf)| && r == Visible(db, me, q, includeSelf)[..|r|]
    ensures ListLimit(limit).None? ==> r == Visible(db, me, q, includeSelf)
    ensures ListLimit(limit).Some? ==> |r| <= ListLimit(limit).value <= MaxListSize
    ensures ListLimit(limit).Some? && |Visible(db, me, q, includeSelf)| >= ListLimit(limit).value ==>
      |r| == ListLimit(limit).value
  {
    Capped(Visible(db, me, q, includeSelf), ListLimit(limit))
  }

  /** Everyone listed is an active user matching the query, and the caller
      appears only with `include_self`. */
  lemma ListUsersMembers(db: DirectoryDb, me: int, q: Option<string>, includeSelf: Option<string>, limit: Option<string>, u: User)
    requires u in ListUsers(db, me, q, includeSelf, limit)
    ensures u in db.users && Listed(db, q, u)
    ensures !IncludeSelf(includeSelf) ==> u.id != me
  {
    var visible := Visible(db, me, q, includeSelf);
    var r := ListUsers(db, me, q, includeSelf, limit);
    assert u in visible by {
      var i :| 0 <= i < |r| && r[i] == u;
      assert visible[i] == u;
    }
  }

  // ---------------------------------------------------------------------
  // Looking a user up, following and unfollowing
  // ---------------------------------------------------------------------

  /** `get_object`: within the listing for the request's `q`, the first user
      (in listing order) whose username matches ignoring case. */
  function LookupUser(db: DirectoryDb, q: Option<string>, username: string): (r: Option<User>)
    ensures r.Some? ==> Listed(db, q, r.value) && r.value in db.users && Strings.EqualsIgnoreCase(r.value.username, username)
    ensures r.None? <==> forall i :: 0 <= i < |db.users| ==>
      !(Listed(db, q, db.users[i]) && Strings.EqualsIgnoreCase(db.users[i].username, username))
    ensures r.Some? ==>
      exists k :: 0 <= k < |Ranked(db, q)| && Ranked(db, q)[k] == r.value &&
        forall j :: 0 <= j < k ==> !Strings.EqualsIgnoreCase(Ranked(db, q)[j].username, username)
  {
    AuthSerializers.UserByUsername(Ranked(db, q), username)
  }

  predicate FollowExists(follows: seq<Follow>, a: int, b: int) {
    Follow(a, b) in follows
  }

  /** Appending a row adds its target to its follower's following set and nothing else. */
  lemma FollowingAppend(follows: seq<Follow>, f: Follow, a: int)
    ensures Following(follows + [f], a) == Following(follows, a) + (if f.followerId == a then {f.followingId} else {})
  {
    var s := follows + [f];
    forall x | x in Following(s, a)
      ensures x in Following(follows, a) + (if f.followerId == a then {f.followingId} else {})
    {
      var i :| 0 <= i < |s| && s[i].followerId == a && s[i].followingId == x;
      if i < |follows| {
        assert follows[i] == s[i];
      }
    }
    forall x | x in Following(follows, a)
      ensures x in Following(s, a)
    {
      var i :| 0 <= i < |follows| && follows[i].followerId == a && follows[i].followingId == x;
      assert s[i] == follows[i];
    }
    if f.followerId == a {
      assert s[|follows|] == f;
    }
  }

  /** Deleting the pair's rows removes one id from one following set. */
  lemma FollowingRemove(follows: seq<Follow>, me: int, target: int, a: int)
    ensures Following(Seqs.Filter(follows, (f: Follow) => f != Follow(me, target)), a)
      == Following(follows, a) - (if a == me then {target} else {})
  {
    var s := Seqs.Filter(follows, (f: Follow) => f != Follow(me, target));
    forall x | x in Following(s, a)
      ensures x in Following(follows, a) - (if a == me then {target} else {})
    {
      var i :| 0 <= i < |s| && s[i].followerId == a && s[i].followingId == x;
      var j :| 0 <= j < |follows| && follows[j] == s[i];
    }
    forall x | x in Following(follows, a) - (if a == me then {target} else {})
      ensures x in Following(s, a)
    {
      var i :| 0 <= i < |follows| && follows[i].followerId == a && follows[i].followingId == x;
      var j :| 0 <= j < |s| && s[j] == follows[i];
    }
  }

  /** `get_or_create` of the pair, with a follow notification to the target
      only when the row is new. */
  function AddFollow(db: DirectoryDb, me: int, target: int, notificationId: int, now: int): (r: DirectoryDb)
    ensures Following(r.follows, me) == Following(db.follows, me) + {target}
    ensures forall a :: a != me ==> Following(r.follows, a) == Following(db.follows, a)
    ensures FollowExists(r.follows, me, target)
    ensures r.users == db.users && r.profiles == db.profiles
    ensures FollowExists(db.follows, me, target) ==> r == db
    ensures !FollowExists(db.follows, me, target) ==>
      r.follows == db.follows + [Follow(me, target)]
      && r.notifications == db.notifications + [Notification(notificationId, target, me, FollowNotice, None, false, now)]
  {
    if FollowExists(db.follows, me, target) then
      var i :| 0 <= i < |db.follows| && db.follows[i] == Follow(me, target);
      assert target in Following(db.follows, me);
      db
    else
      var f := Follow(me, target);
      forall a
        ensures Following(db.follows + [f], a) == Following(db.follows, a) + (if a == me then {target} else {})
      {
        FollowingAppend(db.follows, f, a);
      }
      var n := Notification(notificationId, target, me, FollowNotice, None, false, now);
      db.(follows := db.follows + [f], notifications := db.notifications + [n])
  }

  /** The unfollow delete: every row of the pair goes. */
  function RemoveFollow(db: DirectoryDb, me: int, target: int): (r: DirectoryDb)
    ensures Following(r.follows, me) == Following(db.follows, me) - {target}
    ensures forall a :: a != me ==> Following(r.follows, a) == Following(db.follows, a)
    ensures !FollowExists(r.follows, me, target)
    ensures r.users == db.users && r.profiles == db.profiles && r.notifications == db.notifications
  {
    var follows := Seqs.Filter(db.follows, (f: Follow) => f != Follow(me, target));
    forall a
      ensures Following(follows, a) == Following(db.follows, a) - (if a == me then {target} else {})
    {
      FollowingRemove(db.follows, me, target, a);
    }
    db.(follows := follows)
  }

  /** A second follow of the same user adds no row and no notification. */
  lemma AddFollowIdempotent(db: DirectoryDb, me: int, target: int, n1: int, n2: int, now: int, later: int)
    ensures AddFollow(AddFollow(db, me, target, n1, now), me, target, n2, later) == AddFollow(db, me, target, n1, now)
  {
  }

  /** The target is notified exactly when the pair is new: one more notification, or none. */
  lemma AddFollowNotifiesOnce(db: DirectoryDb, me: int, target: int, n: int, now: int)
    ensures var r := AddFollow(db, me, target, n, now);
      |r.notifications| == |db.notifications| + (if FollowExists(db.follows, me, target) then 0 else 1)
  {
  }

  /** Unfollowing after following leaves `me` not following the target, and
      the rest of `me`'s following set as it was before the follow. */
  lemma FollowThenUnfollow(db: DirectoryDb, me: int, target: int, n: int, now: int)
    ensures var r := RemoveFollow(AddFollow(db, me, target, n, now), me, target);
      && target !in Following(r.follows, me)
      && Following(r.follows, me) == Following(db.follows, me) - {target}
  {
  }

  /** After a follow the target shows as followed; after an unfollow, not. */
  lemma FollowShowsInListing(db: DirectoryDb, me: int, target: int, n: int, now: int)
    ensures IsFollowing(AddFollow(db, me, target, n, now).follows, me, target)
    ensures !IsFollowing(RemoveFollow(db, me, target).follows, me, target)
  {
  }

  datatype DirectoryError = UserNotFound | SelfFollow

  /** `follow`: look the user up, refuse oneself, then record the pair. */
  function FollowUser(db: DirectoryDb, me: int, q: Option<string>, username: string, notificationId: int, now: int)
    : (r: Result<(User, DirectoryDb), DirectoryError>)
    ensures LookupUser(db, q, username).None? <==> r == Failure(UserNotFound)
    ensures r == Failure(SelfFollow) <==> LookupUser(db, q, username).Some? && LookupUser(db, q, username).value.id == me
    ensures r.Success? ==>
      && r.value.0 == LookupUser(db, q, username).value && r.value.0.id != me
      && Following(r.value.1.follows, me) == Following(db.follows, me) + {r.value.0.id}
      && r.value.1 == AddFollow(db, me, r.value.0.id, notificationId, now)
  {
    var found := LookupUser(db, q, username);
    if found.None? then Failure(UserNotFound)
    else if found.value.id == me then Failure(SelfFollow)
    else Success((found.value, AddFollow(db, me, found.value.id, notificationId, now)))
  }

  /** `unfollow`: look the user up, refuse oneself, then delete the pair. */
  function UnfollowUser(db: DirectoryDb, me: int, q: Option<string>, username: string)
    : (r: Result<(User, DirectoryDb), DirectoryError>)
    ensures LookupUser(db, q, username).None? <==> r == Failure(UserNotFound)
    ensures r == Failure(SelfFollow) <==> LookupUser(db, q, username).Some? && LookupUser(db, q, username).value.id == me
    ensures r.Success? ==>
      && r.value.0 == LookupUser(db, q, username).value && r.value.0.id != me
      && Following(r.value.1.follows, me) == Following(db.follows, me) - {r.value.0.id}
      && r.value.1.notifications == db.notifications
  {
    var found := LookupUser(db, q, username);
    if found.None? then Failure(UserNotFound)
    else if found.value.id == me then Failure(SelfFollow)
    else Success((found.value, RemoveFollow(db, me, found.value.id)))
  }

  // ---------------------------------------------------------------------
  // The notification inbox
  // ---------------------------------------------------------------------

  function NewestFirst(): Notification -> seq<int> {
    (n: Notification) => [-n.createdAt]
  }

  /** Addressed to `me`. */
  function Mine(me: int): Notification -> bool {
    (n: Notification) => n.recipientId == me
  }

  /** `NotificationViewSet.get_queryset`: my notifications, newest first. */
  function Inbox(db: DirectoryDb, me: int): (r: seq<Notification>)
    ensures multiset(r) == multiset(Seqs.Filter(db.notifications, Mine(me)))
    ensures forall i, j :: 0 <= i < j < |r| ==> r[i].createdAt >= r[j].createdAt
  {
    var r := Sorting.SortBy(Seqs.Filter(db.notifications, Mine(me)), NewestFirst());
    forall i, j | 0 <= i < j < |r|
      ensures r[i].createdAt >= r[j].createdAt
    {
      Sorting.SortedPairs(r, NewestFirst(), i, j);
      Sorting.LexLeSingleton(-r[i].createdAt, -r[j].createdAt);
    }
    r
  }

  /** The position `mark_read` acts on: my notification with that id. */
  function InboxIndex(db: DirectoryDb, me: int, id: int): (i: int)
    ensures -1 <= i < |db.notifications|
    ensures i == -1 <==> forall j :: 0 <= j < |db.notifications| ==>
      !(db.notifications[j].id == id && db.notifications[j].recipientId == me)
    ensures i >= 0 ==> db.notifications[i].id == id && db.notifications[i].recipientId == me
  {
    Seqs.FindIndex(db.notifications, (n: Notification) => n.id == id && n.recipientId == me)
  }

  datatype InboxError = NotificationNotFound

  /** `mark_read`: someone else's notification is not found; mine becomes read. */
  function MarkRead(db: DirectoryDb, me: int, id: int): (r: Result<(Notification, DirectoryDb), InboxError>)
    ensures r.Failure? <==> forall j :: 0 <= j < |db.notifications| ==>
      !(db.notifications[j].id == id && db.notifications[j].recipientId == me)
    ensures r.Success? ==>
      var (n, db2) := r.value;
      && n.id == id && n.recipientId == me && n.isRead
      && db2.users == db.users && db2.follows == db.follows && db2.profiles == db.profiles
      && |db2.notifications| == |db.notifications|
      && (forall j :: 0 <= j < |db.notifications| ==>
            db2.notifications[j] == db.notifications[j]
            || (db.notifications[j].id == id && db2.notifications[j] == db.notifications[j].(isRead := true)))
      && n in db2.notifications
  {
    var i := InboxIndex(db, me, id);
    if i < 0 then Failure(NotificationNotFound)
    else
      var n := db.notifications[i].(isRead := true);
      Success((n, db.(notifications := db.notifications[i := n])))
  }

  /** Marking the same notification read twice: the second time changes nothing. */
  lemma MarkReadIdempotent(db: DirectoryDb, me: int, id: int)
    requires MarkRead(db, me, id).Success?
    ensures var (n, db2) := MarkRead(db, me, id).value;
      MarkRead(db2, me, id) == Success((n, db2))
  {
    var i := InboxIndex(db, me, id);
    var (n, db2) := MarkRead(db, me, id).value;
    assert db2.notifications[..i] == db.notifications[..i];
    assert InboxIndex(db2, me, id) == i by {
      forall j | 0 <= j < i
        ensures !(db2.notifications[j].id == id && db2.notifications[j].recipientId == me)
      {
        assert db2.notifications[j] == db.notifications[j];
      }
    }
    assert db2.notifications[i := n] == db2.notifications;
  }

  predicate UnreadFor(me: int, n: Notification) {
    n.recipientId == me && !n.isRead
  }

  function Unread(me: int): Notification -> bool {
    (n: Notification) => UnreadFor(me, n)
  }

  /** A notification after `mark_all_read` by `me`. */
  function ReadIfMine(me: int, n: Notification): (r: Notification)
    ensures r.recipientId == n.recipientId && !UnreadFor(me, r)
    ensures n.recipientId != me ==> r == n
    ensures n.recipientId == me ==> r == n.(isRead := true)
  {
    if n.recipientId == me then n.(isRead := true) else n
  }

  /** `mark_all_read`: how many of my notifications were unread, and the store
      with all of them read and everyone else's untouched. */
  method MarkAllRead(db: DirectoryDb, me: int) returns (updated: nat, db2: DirectoryDb)
    ensures updated == Seqs.Count(db.notifications, Unread(me))
    ensures db2.users == db.users && db2.follows == db.follows && db2.profiles == db.profiles
    ensures |db2.notifications| == |db.notifications|
    ensures forall i :: 0 <= i < |db.notifications| ==> db2.notifications[i] == ReadIfMine(me, db.notifications[i])
    ensures Seqs.Count(db2.notifications, Unread(me)) == 0
  {
    var ns := db.notifications;
    updated := Seqs.Count(ns, Unread(me));
    var result: seq<Notification> := [];
    var k := 0;
    while k < |ns|
      invariant 0 <= k <= |ns|
      invariant |result| == k
      invariant forall i :: 0 <= i < k ==> result[i] == ReadIfMine(me, ns[i])
    {
      result := result + [ReadIfMine(me, ns[k])];
      k := k + 1;
    }
    assert ns[k..] == [];
    NoneUnread(ns, result, me);
    db2 := db.(notifications := result);
  }

  lemma NoneUnread(ns: seq<Notification>, result: seq<Notification>, me: int)
    requires |result| == |ns|
    requires forall i :: 0 <= i < |ns| ==> result[i] == ReadIfMine(me, ns[i])
    ensures Seqs.Count(result, Unread(me)) == 0
  {
    forall i | 0 <= i < |result|
      ensures !Unread(me)(result[i])
    {
      assert result[i] == ReadIfMine(me, ns[i]);
    }
  }

  /** After `mark_all_read` a second call finds nothing to mark. */
  method MarkAllReadTwice(db: DirectoryDb, me: int) returns (first: nat, second: nat)
    ensures first == Seqs.Count(db.notifications, Unread(me))
    ensures second == 0
  {
    var db2;
    first, db2 := MarkAllRead(db, me);
    second, db2 := MarkAllRead(db2, me);
  }

  // ---------------------------------------------------------------------
  // The settings endpoint
  // ---------------------------------------------------------------------

  /** `update_profile` for user `u`: validate, make sure a profile exists, apply. */
  function UpdateSettings(u: User, profiles: map<int, UserProfile>, input: SettingsInput)
    : (r: Result<(User, map<int, UserProfile>), set<SettingsError>>)
    ensures r.Failure? <==> ValidateSettings(input).Failure?
    ensures r.Failure? ==> r.error == ValidateSettings(input).error
    ensures r.Success? ==>
      var v := ValidateSettings(input).value;
      var p := AuthModels.EnsureProfile(profiles, u.id).1;
      && u.id in r.value.1 && r.value.1.Keys == profiles.Keys + {u.id}
      && r.value.0 == UpdatedUser(u, v) && r.value.1[u.id] == UpdatedProfile(p, v)
      && r.value.0.id == u.id && r.value.0.username == u.username
      && (forall k :: k in profiles && k != u.id ==> r.value.1[k] == profiles[k])
  {
    var checked := ValidateSettings(input);
    if checked.Failure? then Failure(checked.error)
    else
      var (ps, p) := AuthModels.EnsureProfile(profiles, u.id);
      Success((UpdatedUser(u, checked.value), ps[u.id := UpdatedProfile(p, checked.value)]))
  }
}

=== FILE: error_messages.dfy ===
/** How the sign-up, sign-in, verification and password-reset pages turn a
    failed request into the message they show. A response body is a JSON
    value; the shown message is a JSON value too, or `None` for JavaScript's
    `undefined` (the first element of an empty list). */
module ErrorMessages {
  import opened Wrappers

  datatype Json =
    | JString(s: string)
    | JArray(items: seq<Json>)
    | JObject(fields: seq<(string, Json)>)
    | JNumber(n: int)
    | JBool(b: bool)
    | JNull

  /** A failed request: an HTTP error with its body (`None` when there is
      none), or a failure that is not an HTTP error at all. */
  datatype RequestError = HttpFailure(data: Option<Json>) | OtherFailure

  const Fallback := "Something went wrong. Please try again."

  /** JavaScript truthiness of a JSON value. */
  predicate Truthy(j: Json) {
    match j
    case JString(s) => s != ""
    case JNumber(n) => n != 0
    case JBool(b) => b
    case JNull => false
    case _ => true
  }

  /** `data.detail` (and `data?.detail`): the value under "detail" of an object. */
  function Detail(j: Json): (r: Option<Json>)
    ensures r.Some? ==> j.JObject? && exists i :: 0 <= i < |j.fields| && j.fields[i] == ("detail", r.value)
    ensures j.JObject? && (forall i :: 0 <= i < |j.fields| ==> j.fields[i].0 != "detail") ==> r.None?
  {
    if j.JObject? then Lookup(j.fields, "detail") else None
  }

  function Lookup(fields: seq<(string, Json)>, key: string): (r: Option<Json>)
    ensures r.Some? ==> exists i :: 0 <= i < |fields| && fields[i] == (key, r.value)
    ensures (forall i :: 0 <= i < |fields| ==> fields[i].0 != key) ==> r.None?
  {
    if |fields| == 0 then None
    else if fields[0].0 == key then Some(fields[0].1)
    else Lookup(fields[1..], key)
  }

  /** `value[0]`. */
  function First(items: seq<Json>): (r: Option<Json>)
    ensures r.None? <==> |items| == 0
    ensures r.Some? ==> r.value == items[0]
  {
    if |items| == 0 then None else Some(items[0])
  }

  /** The first key of `Object.keys(data)` with its value: the first field
      of an object, index "0" of a non-empty list, nothing otherwise. */
  function FirstEntry(j: Json): (r: Option<(string, Json)>)
    ensures j.JObject? && |j.fields| > 0 ==> r == Some(j.fields[0])
    ensures j.JArray? && |j.items| > 0 ==> r == Some(("0", j.items[0]))
    ensures r.Some? ==> (j.JObject? && |j.fields| > 0) || (j.JArray? && |j.items| > 0)
  {
    match j
    case JObject(fields) => if |fields| > 0 then Some(fields[0]) else None
    case JArray(items) => if |items| > 0 then Some(("0", items[0])) else None
    case _ => None
  }

  /** A truthy detail: itself, or its first element when it is a list. */
  function FromDetail(d: Json): Option<Json> {
    if d.JArray? then First(d.items) else Some(d)
  }

  /** The first entry's message, when its key is truthy and its value is a
      list (its first element) or a string. */
  function FromFirstEntry(j: Json): (r: Option<Option<Json>>)
    ensures r.Some? ==> FirstEntry(j).Some? && FirstEntry(j).value.0 != ""
  {
    var e := FirstEntry(j);
    if e.None? || e.value.0 == "" then None
    else if e.value.1.JArray? then Some(First(e.value.1.items))
    else if e.value.1.JString? then Some(Some(e.value.1))
    else None
  }

  /** `getErrorMessage` of the password-reset and verification pages: a
      string body; else a truthy `detail`; else the first entry; else the
      fallback text. */
  function PageMessage(err: RequestError): (r: Option<Json>)
    ensures err.OtherFailure? ==> r == Some(JString(Fallback))
    ensures err == HttpFailure(None) ==> r == Some(JString(Fallback))
    ensures err.HttpFailure? && err.data.Some? && err.data.value.JString? ==> r == err.data
  {
    if err.OtherFailure? || err.data.None? then Some(JString(Fallback))
    else
      var data := err.data.value;
      if data.JString? then Some(data)
      else
        var detail := Detail(data);
        if detail.Some? && Truthy(detail.value) then FromDetail(detail.value)
        else
          var entry := FromFirstEntry(data);
          if entry.Some? then entry.value else Some(JString(Fallback))
  }

  /** The inline handler of the sign-up and sign-in pages: the same order,
      but a falsy body (the empty string included) gives the page's default. */
  function FormMessage(err: RequestError, httpDefault: string, otherDefault: string): (r: Option<Json>)
    ensures err.OtherFailure? ==> r == Some(JString(otherDefault))
    ensures err.HttpFailure? && (err.data.None? || !Truthy(err.data.value)) ==> r == Some(JString(httpDefault))
  {
    if err.OtherFailure? then Some(JString(otherDefault))
    else if err.data.None? || !Truthy(err.data.value) then Some(JString(httpDefault))
    else
      var data := err.data.value;
      if data.JString? then Some(data)
      else
        var detail := Detail(data);
        if detail.Some? && Truthy(detail.value) then FromDetail(detail.value)
        else
          var entry := FromFirstEntry(data);
          if entry.Some? then entry.value else Some(JString(httpDefault))
  }

  /** With the same default text the two handlers agree on every body
      except the empty string, which the page handler shows as it is. */
  lemma HandlersAgree(err: RequestError)
    ensures err != HttpFailure(Some(JString(""))) ==> FormMessage(err, Fallback, Fallback) == PageMessage(err)
    ensures PageMessage(HttpFailure(Some(JString("")))) == Some(JString(""))
    ensures FormMessage(HttpFailure(Some(JString(""))), Fallback, Fallback) == Some(JString(Fallback))
  {
  }

  /** A body with a non-empty string `detail` shows that text. */
  lemma DetailShown(fields: seq<(string, Json)>, detail: string)
    requires detail != ""
    requires |fields| > 0 && fields[0] == ("detail", JString(detail))
    ensures PageMessage(HttpFailure(Some(JObject(fields)))) == Some(JString(detail))
    ensures forall d, o :: FormMessage(HttpFailure(Some(JObject(fields))), d, o) == Some(JString(detail))
  {
  }

  /** A field-error body without "detail", `{"field": ["message", ...], ...}`,
      shows the first field's first message. */
  lemma FieldErrorShown(field: string, message: string, more: seq<Json>, rest: seq<(string, Json)>)
    requires field != "" && field != "detail"
    requires forall i :: 0 <= i < |rest| ==> rest[i].0 != "detail"
    ensures var body := JObject([(field, JArray([JString(message)] + more))] + rest);
      && PageMessage(HttpFailure(Some(body))) == Some(JString(message))
      && forall d, o :: FormMessage(HttpFailure(Some(body)), d, o) == Some(JString(message))
  {
    var fields := [(field, JArray([JString(message)] + more))] + rest;
    assert forall i :: 0 <= i < |fields| ==> fields[i].0 != "detail" by {
      forall i | 0 <= i < |fields| ensures fields[i].0 != "detail" {
        if i > 0 {
          assert fields[i] == rest[i - 1];
        }
      }
    }
  }
}

=== FILE: feed_server.dfy ===
/** The feed backend: posts with their likes, shares and bookmarks, and
    stories that expire. Files are their stored names; a file is present
    when the name is non-empty. Times are integer seconds. */
module FeedServer {
  import opened Wrappers
  import Seqs
  import Strings
  import Digits
  import Sorting
  import opened AuthModels

  /** Stories live for a day unless the client says otherwise. */
  const StoryLifetime := 24 * 60 * 60

  datatype Post = Post(id: int, userId: int, image: Option<string>, video: Option<string>, caption: string, createdAt: int)

  datatype Story = Story(id: int, userId: int, image: string, createdAt: int, expiresAt: int)

  datatype Comment = Comment(id: int, postId: int, userId: int, text: string, createdAt: int)

  /** A like, share or bookmark row: who reacted to which post. */
  datatype Reaction = Reaction(userId: int, postId: int)

  datatype FeedDb = FeedDb(
    users: seq<User>,
    posts: seq<Post>,
    comments: seq<Comment>,
    stories: seq<Story>,
    likes: seq<Reaction>,
    shares: seq<Reaction>,
    bookmarks: seq<Reaction>)

  /** Python truthiness of a file field. */
  predicate HasFile(f: Option<string>) {
    f.Some? && f.value != ""
  }

  // ---------------------------------------------------------------------
  // Post serializer
  // ---------------------------------------------------------------------

  datatype PostError = NoMedia | BothMedia

  /** `PostSerializer.validate`: a new post needs an image or a video; no
      post may carry both. */
  function ValidateMedia(image: Option<string>, video: Option<string>, creating: bool): (r: Result<(), PostError>)
    ensures r == Failure(NoMedia) <==> creating && !HasFile(image) && !HasFile(video)
    ensures r == Failure(BothMedia) <==> HasFile(image) && HasFile(video)
    ensures r.Success? <==> (HasFile(image) || HasFile(video) || !creating) && !(HasFile(image) && HasFile(video))
  {
    if !HasFile(image) && !HasFile(video) && creating then Failure(NoMedia)
    else if HasFile(image) && HasFile(video) then Failure(BothMedia)
    else Success(())
  }

  /** A post that passes creation carries exactly one medium. */
  lemma CreatedPostHasOneMedium(image: Option<string>, video: Option<string>)
    requires ValidateMedia(image, video, true).Success?
    ensures HasFile(image) != HasFile(video)
  {
  }

  /** The serialized `image` or `video`: its URL when a file is stored, else null. */
  function MediaUrl(f: Option<string>): (r: Option<string>)
    ensures r.None? <==> !HasFile(f)
    ensures r.Some? ==> r == f
  {
    if HasFile(f) then f else None
  }

  predicate ReactionOn(postId: int, r: Reaction) {
    r.postId == postId
  }

  function OnPost(postId: int): Reaction -> bool {
    (r: Reaction) => ReactionOn(postId, r)
  }

  /** The counters and viewer flags of a serialized post. */
  datatype PostCounts = PostCounts(
    likes: nat, comments: nat, shares: nat, bookmarks: nat,
    isLiked: bool, isBookmarked: bool, image: Option<string>, video: Option<string>)

  /** `PostSerializer` counters: rows on this post; flags only for a signed-in viewer. */
  function Counts(db: FeedDb, viewer: Option<int>, p: Post): (r: PostCounts)
    ensures r.likes == Seqs.Count(db.likes, OnPost(p.id))
    ensures r.shares == Seqs.Count(db.shares, OnPost(p.id))
    ensures r.bookmarks == Seqs.Count(db.bookmarks, OnPost(p.id))
    ensures r.comments == Seqs.Count(db.comments, (c: Comment) => c.postId == p.id)
    ensures r.isLiked <==> viewer.Some? && Reaction(viewer.value, p.id) in db.likes
    ensures r.isBookmarked <==> viewer.Some? && Reaction(viewer.value, p.id) in db.bookmarks
    ensures r.image.None? <==> !HasFile(p.image)
    ensures r.video.None? <==> !HasFile(p.video)
  {
    PostCounts(
      Seqs.Count(db.likes, OnPost(p.id)),
      Seqs.Count(db.comments, (c: Comment) => c.postId == p.id),
      Seqs.Count(db.shares, OnPost(p.id)),
      Seqs.Count(db.bookmarks, OnPost(p.id)),
      viewer.Some? && Reaction(viewer.value, p.id) in db.likes,
      viewer.Some? && Reaction(viewer.value, p.id) in db.bookmarks,
      MediaUrl(p.image),
      MediaUrl(p.video))
  }

  // ---------------------------------------------------------------------
  // Post listing
  // ---------------------------------------------------------------------

  /** The post's author has this username, ignoring case. */
  predicate ByUsername(users: seq<User>, p: Post, username: string) {
    exists i :: 0 <= i < |users| && users[i].id == p.userId && Strings.EqualsIgnoreCase(users[i].username, username)
  }

  /** The optional `user_id` filter: absent or empty keeps everything, a
      number keeps that author, anything else keeps nothing. */
  predicate ByUserId(userIdParam: Option<string>, authorId: int) {
    userIdParam.None? || userIdParam.value == ""
    || (Digits.PyInt(userIdParam.value).Some? && Digits.PyInt(userIdParam.value).value == authorId)
  }

  predicate PostSelected(users: seq<User>, username: Option<string>, userIdParam: Option<string>, p: Post) {
    (username.None? || username.value == "" || ByUsername(users, p, username.value))
    && ByUserId(userIdParam, p.userId)
  }

  function PostNewestFirst(): Post -> seq<int> {
    (p: Post) => [-p.createdAt]
  }

  /** `PostViewSet.get_queryset`: the filtered posts, newest first. */
  function PostsFor(users: seq<User>, posts: seq<Post>, username: Option<string>, userIdParam: Option<string>): (r: seq<Post>)
    ensures multiset(r) == multiset(Seqs.Filter(posts, (p: Post) => PostSelected(users, username, userIdParam, p)))
    ensures forall p :: p in r <==> p in posts && PostSelected(users, username, userIdParam, p)
    ensures forall i, j :: 0 <= i < j < |r| ==> r[i].createdAt >= r[j].createdAt
  {
    var found := Seqs.Filter(posts, (p: Post) => PostSelected(users, username, userIdParam, p));
    var r := Sorting.SortBy(found, PostNewestFirst());
    Seqs.FilterMembers(posts, (p: Post) => PostSelected(users, username, userIdParam, p));
    Seqs.SameMembers(r, found);
    NewestFirstPairs(r);
    r
  }

  lemma NewestFirstPairs(r: seq<Post>)
    requires Sorting.Sorted(r, PostNewestFirst())
    ensures forall i, j :: 0 <= i < j < |r| ==> r[i].createdAt >= r[j].createdAt
  {
    forall i, j | 0 <= i < j < |r|
      ensures r[i].createdAt >= r[j].createdAt
    {
      Sorting.SortedPairs(r, PostNewestFirst(), i, j);
      Sorting.LexLeSingleton(-r[i].createdAt, -r[j].createdAt);
    }
  }

  /** A `user_id` that is not an integer selects no post at all. */
  lemma BadUserIdSelectsNothing(users: seq<User>, posts: seq<Post>, username: Option<string>, userIdParam: string)
    requires userIdParam != "" && Digits.PyInt(userIdParam).None?
    ensures PostsFor(users, posts, username, Some(userIdParam)) == []
  {
  }

  // ---------------------------------------------------------------------
  // Likes, bookmarks and shares
  // ---------------------------------------------------------------------

  /** `get_or_create` of a reaction row. */
  function AddReaction(rows: seq<Reaction>, r: Reaction): (out: seq<Reaction>)
    ensures forall x :: x in out <==> x in rows || x == r
    ensures r in rows ==> out == rows
    ensures r !in rows ==> out == rows + [r]
  {
    if r in rows then rows else rows + [r]
  }

  /** The filtered delete of a reaction: every row of the pair goes. */
  function RemoveReaction(rows: seq<Reaction>, r: Reaction): (out: seq<Reaction>)
    ensures forall x :: x in out <==> x in rows && x != r
    ensures Seqs.IsSubseq(out, rows)
  {
    Seqs.FilterMembers(rows, (x: Reaction) => x != r);
    Seqs.FilterIsSubseq(rows, (x: Reaction) => x != r);
    Seqs.Filter(rows, (x: Reaction) => x != r)
  }

  lemma AddReactionIdempotent(rows: seq<Reaction>, r: Reaction)
    ensures AddReaction(AddReaction(rows, r), r) == AddReaction(rows, r)
  {
  }

  /** Adding then removing leaves no row of the pair and every other row. */
  lemma AddThenRemove(rows: seq<Reaction>, r: Reaction)
    ensures forall x :: x in RemoveReaction(AddReaction(rows, r), r) <==> x in rows && x != r
  {
  }

  datatype FeedError = NotAuthenticated | NotFound | NotOwner

  /** `get_object` for a post action: the post with that id in the filtered listing. */
  function FindPost(db: FeedDb, username: Option<string>, userIdParam: Option<string>, postId: int): (r: Option<Post>)
    ensures r.Some? ==> r.value.id == postId && r.value in db.posts && PostSelected(db.users, username, userIdParam, r.value)
    ensures r.None? ==> forall p :: p in db.posts && PostSelected(db.users, username, userIdParam, p) ==> p.id != postId
  {
    var listed := PostsFor(db.users, db.posts, username, userIdParam);
    var i := Seqs.FindIndex(listed, (p: Post) => p.id == postId);
    if i < 0 then None else Some(listed[i])
  }

  /** Which reaction table an action writes. */
  datatype ReactionKind = Like | Bookmark

  function Table(db: FeedDb, kind: ReactionKind): seq<Reaction> {
    match kind
    case Like => db.likes
    case Bookmark => db.bookmarks
  }

  function WithTable(db: FeedDb, kind: ReactionKind, rows: seq<Reaction>): (r: FeedDb)
    ensures Table(r, kind) == rows
  {
    match kind
    case Like => db.(likes := rows)
    case Bookmark => db.(bookmarks := rows)
  }

  /** `like` and `bookmark` (`add`), `unlike` and `unbookmark` (not `add`):
      anonymous callers are refused before the post is looked up. */
  function React(db: FeedDb, viewer: Option<int>, kind: ReactionKind, add: bool,
                 username: Option<string>, userIdParam: Option<string>, postId: int): (r: Result<FeedDb, FeedError>)
    ensures viewer.None? <==> r == Failure(NotAuthenticated)
    ensures viewer.Some? ==> (r == Failure(NotFound) <==> FindPost(db, username, userIdParam, postId).None?)
    ensures r.Success? ==>
      var pair := Reaction(viewer.value, postId);
      && (add ==> Table(r.value, kind) == AddReaction(Table(db, kind), pair))
      && (!add ==> Table(r.value, kind) == RemoveReaction(Table(db, kind), pair))
      && r.value.posts == db.posts && r.value.stories == db.stories && r.value.shares == db.shares
  {
    if viewer.None? then Failure(NotAuthenticated)
    else if FindPost(db, username, userIdParam, postId).None? then Failure(NotFound)
    else
      var pair := Reaction(viewer.value, postId);
      var rows := if add then AddReaction(Table(db, kind), pair) else RemoveReaction(Table(db, kind), pair);
      Success(WithTable(db, kind, rows))
  }

  /** Liking twice is liking once, and so is bookmarking twice. */
  lemma ReactTwice(db: FeedDb, viewer: int, kind: ReactionKind, username: Option<string>, userIdParam: Option<string>, postId: int)
    ensures var once := React(db, Some(viewer), kind, true, username, userIdParam, postId);
      once.Success? ==> React(once.value, Some(viewer), kind, true, username, userIdParam, postId) == once
  {
    var r := React(db, Some(viewer), kind, true, username, userIdParam, postId);
    if r.Success? {
      var once := r.value;
      assert once.posts == db.posts && once.users == db.users;
      assert FindPost(once, username, userIdParam, postId) == FindPost(db, username, userIdParam, postId);
      AddReactionIdempotent(Table(db, kind), Reaction(viewer, postId));
      match kind {
        case Like =>
        case Bookmark =>
      }
    }
  }

  /** Like then unlike (or bookmark then unbookmark) leaves the viewer with
      no row on the post, and every other row as it was. */
  lemma ReactThenUndo(db: FeedDb, viewer: int, kind: ReactionKind, username: Option<string>, userIdParam: Option<string>, postId: int)
    ensures var once := React(db, Some(viewer), kind, true, username, userIdParam, postId);
      once.Success? ==>
      var undone := React(once.value, Some(viewer), kind, false, username, userIdParam, postId);
      && undone.Success?
      && Reaction(viewer, postId) !in Table(undone.value, kind)
      && (forall x :: x != Reaction(viewer, postId) ==> (x in Table(undone.value, kind) <==> x in Table(db, kind)))
  {
    var r := React(db, Some(viewer), kind, true, username, userIdParam, postId);
    if r.Success? {
      var once := r.value;
      assert once.posts == db.posts && once.users == db.users;
      assert FindPost(once, username, userIdParam, postId) == FindPost(db, username, userIdParam, postId);
      AddThenRemove(Table(db, kind), Reaction(viewer, postId));
    }
  }

  /** `share`: every call records a new share. */
  function SharePost(db: FeedDb, viewer: Option<int>, username: Option<string>, userIdParam: Option<string>, postId: int)
    : (r: Result<FeedDb, FeedError>)
    ensures viewer.None? <==> r == Failure(NotAuthenticated)
    ensures viewer.Some? ==> (r == Failure(NotFound) <==> FindPost(db, username, userIdParam, postId).None?)
    ensures r.Success? ==> r.value == db.(shares := db.shares + [Reaction(viewer.value, postId)])
  {
    if viewer.None? then Failure(NotAuthenticated)
    else if FindPost(db, username, userIdParam, postId).None? then Failure(NotFound)
    else Success(db.(shares := db.shares + [Reaction(viewer.value, postId)]))
  }

  /** Sharing is not idempotent: each share adds one to the post's share count. */
  lemma ShareCounts(db: FeedDb, viewer: int, username: Option<string>, userIdParam: Option<string>, postId: int)
    requires SharePost(db, Some(viewer), username, userIdParam, postId).Success?
    ensures var after := SharePost(db, Some(viewer), username, userIdParam, postId).value;
      Seqs.Count(after.shares, OnPost(postId)) == Seqs.Count(db.shares, OnPost(postId)) + 1
  {
    Seqs.CountAppend(db.shares, Reaction(viewer, postId), OnPost(postId));
  }

  // ---------------------------------------------------------------------
  // Stories
  // ---------------------------------------------------------------------

  datatype StoryError = ExpiryNotInFuture

  /** `validate_expires_at`: a given expiry must lie strictly after now. */
  function ValidateExpiry(expiresAt: Option<int>, now: int): (r: Result<Option<int>, StoryError>)
    ensures r.Failure? <==> expiresAt.Some? && expiresAt.value <= now
    ensures r.Success? ==> r.value == expiresAt
  {
    if expiresAt.Some? && expiresAt.value <= now then Failure(ExpiryNotInFuture) else Success(expiresAt)
  }

  /** `StorySerializer.create`: the given expiry, or a day from now. */
  function NewStory(id: int, owner: int, image: string, expiresAt: Option<int>, now: int): (s: Story)
    ensures expiresAt.None? ==> s.expiresAt == now + StoryLifetime
    ensures expiresAt.Some? ==> s.expiresAt == expiresAt.value
    ensures s.userId == owner && s.createdAt == now && s.id == id && s.image == image
  {
    Story(id, owner, image, now, if expiresAt.Some? then expiresAt.value else now + StoryLifetime)
  }

  /** Creating a story: validate then store; a stored story always expires in the future. */
  function CreateStory(db: FeedDb, viewer: Option<int>, id: int, image: string, expiresAt: Option<int>, now: int)
    : (r: Result<FeedDb, Option<StoryError>>)
    ensures viewer.None? <==> r == Failure(None)
    ensures viewer.Some? ==> (r.Failure? <==> ValidateExpiry(expiresAt, now).Failure?)
    ensures r.Success? ==>
      && r.value.stories == db.stories + [NewStory(id, viewer.value, image, expiresAt, now)]
      && r.value.stories[|db.stories|].expiresAt > now
  {
    if viewer.None? then Failure(None)
    else if ValidateExpiry(expiresAt, now).Failure? then Failure(Some(ExpiryNotInFuture))
    else Success(db.(stories := db.stories + [NewStory(id, viewer.value, image, expiresAt, now)]))
  }

  predicate Live(now: int, s: Story) {
    s.expiresAt > now
  }

  function StoryNewestFirst(): Story -> seq<int> {
    (s: Story) => [-s.createdAt]
  }

  /** `StoryViewSet.get_queryset`: expired stories are deleted from the
      store; the live ones matching `user_id` are listed newest first. */
  function StoriesFor(db: FeedDb, userIdParam: Option<string>, now: int): (r: (FeedDb, seq<Story>))
    ensures forall s :: s in r.0.stories <==> s in db.stories && Live(now, s)
    ensures Seqs.IsSubseq(r.0.stories, db.stories)
    ensures r.0 == db.(stories := r.0.stories)
    ensures multiset(r.1) == multiset(Seqs.Filter(r.0.stories, (s: Story) => ByUserId(userIdParam, s.userId)))
    ensures forall s :: s in r.1 <==> s in db.stories && Live(now, s) && ByUserId(userIdParam, s.userId)
    ensures forall i, j :: 0 <= i < j < |r.1| ==> r.1[i].createdAt >= r.1[j].createdAt
  {
    var live := Seqs.Filter(db.stories, (s: Story) => Live(now, s));
    Seqs.FilterMembers(db.stories, (s: Story) => Live(now, s));
    Seqs.FilterIsSubseq(db.stories, (s: Story) => Live(now, s));
    var found := Seqs.Filter(live, (s: Story) => ByUserId(userIdParam, s.userId));
    Seqs.FilterMembers(live, (s: Story) => ByUserId(userIdParam, s.userId));
    var listed := Sorting.SortBy(found, StoryNewestFirst());
    Seqs.SameMembers(listed, found);
    StoryPairs(listed);
    (db.(stories := live), listed)
  }

  lemma StoryPairs(r: seq<Story>)
    requires Sorting.Sorted(r, StoryNewestFirst())
    ensures forall i, j :: 0 <= i < j < |r| ==> r[i].createdAt >= r[j].createdAt
  {
    forall i, j | 0 <= i < j < |r|
      ensures r[i].createdAt >= r[j].createdAt
    {
      Sorting.SortedPairs(r, StoryNewestFirst(), i, j);
      Sorting.LexLeSingleton(-r[i].createdAt, -r[j].createdAt);
    }
  }

  /** Listing again at the same instant deletes nothing more and lists the same stories. */
  lemma StoriesForSettles(db: FeedDb, userIdParam: Option<string>, now: int)
    ensures var (db2, listed) := StoriesFor(db, userIdParam, now);
      StoriesFor(db2, userIdParam, now) == (db2, listed)
  {
    var live := Seqs.Filter(db.stories, (s: Story) => Live(now, s));
    Seqs.FilterAllKept(live, (s: Story) => Live(now, s));
  }

  /** `destroy`: the lookup runs on the purged live listing; only the owner may delete. */
  function DestroyStory(db: FeedDb, viewer: Option<int>, userIdParam: Option<string>, storyId: int, now: int)
    : (r: (Result<(), FeedError>, FeedDb))
    ensures viewer.None? ==> r == (Failure(NotAuthenticated), db)
    ensures viewer.Some? ==>
      var (purged, listed) := StoriesFor(db, userIdParam, now);
      var i := Seqs.FindIndex(listed, (s: Story) => s.id == storyId);
      && (i < 0 <==> r.0 == Failure(NotFound))
      && (i >= 0 && listed[i].userId != viewer.value <==> r.0 == Failure(NotOwner))
      && (r.0.Failure? ==> r.1 == purged)
      && (r.0.Success? ==> r.1 == purged.(stories := Seqs.Filter(purged.stories, (s: Story) => s != listed[i])))
    ensures r.0.Success? ==> forall s :: s in r.1.stories ==> Live(now, s)
  {
    if viewer.None? then (Failure(NotAuthenticated), db)
    else
      var (purged, listed) := StoriesFor(db, userIdParam, now);
      var i := Seqs.FindIndex(listed, (s: Story) => s.id == storyId);
      if i < 0 then (Failure(NotFound), purged)
      else if listed[i].userId != viewer.value then (Failure(NotOwner), purged)
      else (Success(()), purged.(stories := Seqs.Filter(purged.stories, (s: Story) => s != listed[i])))
  }

  /** Nobody deletes another user's story. */
  lemma OnlyOwnerDeletes(db: FeedDb, viewer: int, userIdParam: Option<string>, storyId: int, now: int)
    ensures DestroyStory(db, Some(viewer), userIdParam, storyId, now).0.Success? ==>
      exists s :: s in db.stories && s.id == storyId && s.userId == viewer && Live(now, s)
  {
    if DestroyStory(db, Some(viewer), userIdParam, storyId, now).0.Success? {
      var (purged, listed) := StoriesFor(db, userIdParam, now);
      var i := Seqs.FindIndex(listed, (s: Story) => s.id == storyId);
      assert listed[i] in listed;
    }
  }
}

=== FILE: home_feed.dfy ===
/** The home page's local state: the post list with its modal, and the
    story strip with the index of the story open in the viewer, plus the
    viewer's own decisions. */
module HomeFeed {
  import opened Wrappers
  import Seqs
  import opened ClientTypes

  // ---------------------------------------------------------------------
  // Posts and the post modal
  // ---------------------------------------------------------------------

  /** `handlePostUpdated` on the list: the entry with the updated post's id is replaced. */
  function ReplacePost(posts: seq<Post>, updated: Post): (r: seq<Post>)
    ensures |r| == |posts|
    ensures forall i :: 0 <= i < |posts| ==> r[i].id == posts[i].id
    ensures forall i :: 0 <= i < |posts| && posts[i].id != updated.id ==> r[i] == posts[i]
    ensures forall i :: 0 <= i < |posts| && posts[i].id == updated.id ==> r[i] == updated
  {
    if |posts| == 0 then []
    else [if posts[0].id == updated.id then updated else posts[0]] + ReplacePost(posts[1..], updated)
  }

  /** Applying the same update twice is applying it once. */
  lemma ReplacePostIdempotent(posts: seq<Post>, updated: Post)
    ensures ReplacePost(ReplacePost(posts, updated), updated) == ReplacePost(posts, updated)
  {
  }

  /** `handlePostUpdated` on the modal: it follows the update only if it shows that post. */
  function ModalAfterUpdate(modal: Option<Post>, updated: Post): (r: Option<Post>)
    ensures modal.Some? && modal.value.id == updated.id ==> r == Some(updated)
    ensures !(modal.Some? && modal.value.id == updated.id) ==> r == modal
  {
    if modal.Some? && modal.value.id == updated.id then Some(updated) else modal
  }

  /** `handlePostDeleted` on the list: every entry with that id goes. */
  function RemovePost(posts: seq<Post>, postId: int): (r: seq<Post>)
    ensures forall p :: p in r <==> p in posts && p.id != postId
    ensures Seqs.IsSubseq(r, posts)
    ensures forall p :: multiset(r)[p] == if p.id == postId then 0 else multiset(posts)[p]
  {
    Seqs.FilterMembers(posts, (p: Post) => p.id != postId);
    Seqs.FilterMultiset(posts, (p: Post) => p.id != postId);
    Seqs.FilterIsSubseq(posts, (p: Post) => p.id != postId);
    Seqs.Filter(posts, (p: Post) => p.id != postId)
  }

  /** `handlePostDeleted` on the modal: closed iff it showed the deleted post. */
  function ModalAfterDelete(modal: Option<Post>, postId: int): (r: Option<Post>)
    ensures r.None? <==> modal.None? || modal.value.id == postId
    ensures r.Some? ==> r == modal
  {
    if modal.Some? && modal.value.id == postId then None else modal
  }

  // ---------------------------------------------------------------------
  // Story navigation
  // ---------------------------------------------------------------------

  /** `showPreviousStory`: steps back from a positive index only (0 is falsy). */
  function PreviousStory(prev: Option<int>): (r: Option<int>)
    ensures prev.None? ==> r.None?
    ensures prev.Some? && prev.value > 0 ==> r == Some(prev.value - 1)
    ensures prev.Some? && prev.value <= 0 ==> r == prev
  {
    if prev.Some? && prev.value != 0 && prev.value > 0 then Some(prev.value - 1) else prev
  }

  /** `showNextStory`: steps forward only below the last index. */
  function NextStory(prev: Option<int>, count: int): (r: Option<int>)
    ensures prev.None? ==> r.None?
    ensures prev.Some? && prev.value < count - 1 ==> r == Some(prev.value + 1)
    ensures prev.Some? && prev.value >= count - 1 ==> r == prev
  {
    if prev.None? then prev
    else if prev.value < count - 1 then Some(prev.value + 1)
    else prev
  }

  /** Navigation keeps an index that was in range in range. */
  lemma NavigationStaysInRange(i: int, count: int)
    requires 0 <= i < count
    ensures var p := PreviousStory(Some(i)); p.Some? && 0 <= p.value < count
    ensures var n := NextStory(Some(i), count); n.Some? && 0 <= n.value < count
  {
  }

  // ---------------------------------------------------------------------
  // Deleting a story
  // ---------------------------------------------------------------------

  /** The active index after the story at `removedIndex` (or none, -1) is
      deleted, leaving `nextLength` stories. */
  function IndexAfterDelete(prev: Option<int>, removedIndex: int, nextLength: int): (r: Option<int>)
    ensures prev.None? ==> r.None?
    ensures prev.Some? && removedIndex != -1 && nextLength == 0 ==> r.None?
    ensures prev.Some? && removedIndex != -1 && nextLength != 0 && prev.value > removedIndex ==> r == Some(prev.value - 1)
    ensures prev.Some? && removedIndex != -1 && nextLength != 0 && prev.value <= removedIndex ==>
      r == Some(if prev.value >= nextLength then nextLength - 1 else prev.value)
    ensures prev.Some? && removedIndex == -1 ==>
      r == Some(if prev.value < nextLength then prev.value else if nextLength - 1 > 0 then nextLength - 1 else 0)
  {
    if prev.None? then prev
    else if removedIndex == -1 then
      Some(if prev.value >= nextLength then (if nextLength - 1 > 0 then nextLength - 1 else 0) else prev.value)
    else if nextLength == 0 then None
    else if prev.value > removedIndex then Some(prev.value - 1)
    else if prev.value >= nextLength then Some(nextLength - 1)
    else prev
  }

  /** The state the story-delete success handler produces. */
  datatype StoryState = StoryState(stories: seq<Story>, active: Option<int>, viewerOpen: bool)

  /** `openStoryViewer`: a tap on a story opens the viewer on it. */
  function OpenViewer(st: StoryState, index: int): (r: StoryState)
    ensures r.stories == st.stories && r.active == Some(index) && r.viewerOpen
  {
    st.(active := Some(index), viewerOpen := true)
  }

  /** `closeStoryViewer`: closing forgets the index as well. */
  function CloseViewer(st: StoryState): (r: StoryState)
    ensures r.stories == st.stories && r.active.None? && !r.viewerOpen
    ensures ViewerIndex(r.active, |r.stories|).None?
  {
    st.(active := None, viewerOpen := false)
  }

  /** The delete success handler: drop the story, move the index, and close
      the viewer when nothing is left. */
  function OnStoryDeleted(st: StoryState, storyId: int): (r: StoryState)
    ensures forall s :: s in r.stories <==> s in st.stories && s.id != storyId
    ensures |r.stories| == 0 ==> !r.viewerOpen
    ensures |r.stories| != 0 ==> r.viewerOpen == st.viewerOpen
    ensures r.active == IndexAfterDelete(st.active, Seqs.FindIndex(st.stories, (s: Story) => s.id == storyId), |r.stories|)
  {
    var removedIndex := Seqs.FindIndex(st.stories, (s: Story) => s.id == storyId);
    Seqs.FilterMembers(st.stories, (s: Story) => s.id != storyId);
    var next := Seqs.Filter(st.stories, (s: Story) => s.id != storyId);
    StoryState(next, IndexAfterDelete(st.active, removedIndex, |next|), if |next| == 0 then false else st.viewerOpen)
  }

  /** With distinct ids, deleting the story at index `k` removes exactly that entry. */
  lemma DeletedStoryRemovesOne(stories: seq<Story>, k: nat)
    requires DistinctStoryIds(stories) && k < |stories|
    ensures Seqs.Filter(stories, (s: Story) => s.id != stories[k].id) == Seqs.RemoveAt(stories, k)
    ensures Seqs.FindIndex(stories, (s: Story) => s.id == stories[k].id) == k
  {
    Seqs.FilterOne(stories, (s: Story) => s.id != stories[k].id, k);
  }

  /** With distinct ids, deleting the story at index `k` is removing that
      position and moving the index as for a found story. */
  lemma DeleteAt(st: StoryState, k: nat)
    requires DistinctStoryIds(st.stories) && k < |st.stories|
    ensures OnStoryDeleted(st, st.stories[k].id).stories == Seqs.RemoveAt(st.stories, k)
    ensures OnStoryDeleted(st, st.stories[k].id).active == IndexAfterDelete(st.active, k, |st.stories| - 1)
  {
    DeletedStoryRemovesOne(st.stories, k);
  }

  /** Deleting another story keeps the same story open. */
  lemma SameStoryStaysActive(st: StoryState, k: nat)
    requires DistinctStoryIds(st.stories) && k < |st.stories|
    requires st.active.Some? && 0 <= st.active.value < |st.stories| && st.active.value != k
    ensures var r := OnStoryDeleted(st, st.stories[k].id);
      r.active.Some? && 0 <= r.active.value < |r.stories| && r.stories[r.active.value] == st.stories[st.active.value]
  {
    DeleteAt(st, k);
    KeptStory(st.stories, st.active.value, k);
  }

  /** Removing another entry and updating the index keeps the index on the
      same entry. */
  lemma KeptStory(stories: seq<Story>, i: nat, k: nat)
    requires i < |stories| && k < |stories| && i != k
    ensures var j := IndexAfterDelete(Some(i), k, |stories| - 1);
      j.Some? && 0 <= j.value < |stories| - 1 && Seqs.RemoveAt(stories, k)[j.value] == stories[i]
  {
    var next := Seqs.RemoveAt(stories, k);
    if i > k {
      assert next[i - 1] == stories[i];
    } else {
      assert next[i] == stories[i];
    }
  }

  /** Deleting the open story opens its successor, or the new last story
      when it was the last one. */
  lemma DeletingOpenStoryShowsNeighbour(st: StoryState)
    requires DistinctStoryIds(st.stories) && |st.stories| > 1
    requires st.active.Some? && 0 <= st.active.value < |st.stories|
    ensures var i := st.active.value;
      var r := OnStoryDeleted(st, st.stories[i].id);
      && r.active.Some? && 0 <= r.active.value < |r.stories|
      && (i < |st.stories| - 1 ==> r.stories[r.active.value] == st.stories[i + 1])
      && (i == |st.stories| - 1 ==> r.stories[r.active.value] == st.stories[i - 1])
  {
    var i := st.active.value;
    DeleteAt(st, i);
    var next := Seqs.RemoveAt(st.stories, i);
    if i < |st.stories| - 1 {
      assert next[i] == st.stories[i + 1];
    } else {
      assert next[i - 1] == st.stories[i - 1];
    }
  }

  /** With an index in range and at least one story left, the new index is in range. */
  lemma DeleteKeepsIndexInRange(st: StoryState, storyId: int)
    requires DistinctStoryIds(st.stories)
    requires st.active.Some? && 0 <= st.active.value < |st.stories|
    requires |OnStoryDeleted(st, storyId).stories| > 0
    ensures var r := OnStoryDeleted(st, storyId);
      r.active.Some? && 0 <= r.active.value < |r.stories|
  {
    var k := Seqs.FindIndex(st.stories, (s: Story) => s.id == storyId);
    if k >= 0 {
      DeletedStoryRemovesOne(st.stories, k);
    } else {
      Seqs.FilterAllKept(st.stories, (s: Story) => s.id != storyId);
    }
  }

  // ---------------------------------------------------------------------
  // The story viewer
  // ---------------------------------------------------------------------

  /** The index the page hands the viewer, which it renders only when a
      story is active and the list is not empty. */
  function ViewerIndex(active: Option<int>, count: int): (r: Option<int>)
    ensures r.Some? <==> active.Some? && count > 0
    ensures r.Some? ==> r.value <= count - 1 && r.value <= active.value
    ensures r.Some? ==> r.value == count - 1 || r.value == active.value
  {
    if active.None? || count <= 0 then None
    else Some(if active.value < count - 1 then active.value else count - 1)
  }

  /** `stories[activeIndex]`: the viewer renders nothing outside the list. */
  function ViewerStory(stories: seq<Story>, activeIndex: int): (r: Option<Story>)
    ensures r.Some? <==> 0 <= activeIndex < |stories|
    ensures r.Some? ==> r.value == stories[activeIndex]
  {
    if 0 <= activeIndex < |stories| then Some(stories[activeIndex]) else None
  }

  /** `canDelete`: a signed-in viewer who owns the story. */
  function CanDelete(currentUserId: Option<int>, s: Story): (b: bool)
    ensures b <==> currentUserId == Some(s.userId)
  {
    currentUserId.Some? && s.userId == currentUserId.value
  }

  function HasPrev(activeIndex: int): bool {
    activeIndex > 0
  }

  function HasNext(activeIndex: int, count: int): bool {
    activeIndex < count - 1
  }

  /** The viewer's arrows agree with the page's handlers: an arrow is
      offered exactly when its handler moves the index. */
  lemma ArrowsMatchHandlers(i: int, count: int)
    requires 0 <= i < count
    ensures HasPrev(i) <==> PreviousStory(Some(i)) != Some(i)
    ensures HasNext(i, count) <==> NextStory(Some(i), count) != Some(i)
  {
  }

  /** A non-negative active index always shows a story. */
  lemma ViewerShowsAStory(stories: seq<Story>, active: int)
    requires active >= 0 && |stories| > 0
    ensures var i := ViewerIndex(Some(active), |stories|);
      i.Some? && ViewerStory(stories, i.value).Some?
  {
  }
}

=== FILE: notifications_hook.dfy ===
/** The client's notifications hook: the fetched list (empty until it
    arrives) and the badge's unread count. */
module NotificationsHook {
  import opened Wrappers
  import Seqs
  import Directory

  function NotRead(n: Directory.Notification): bool {
    !n.isRead
  }

  /** `notifications`: the fetched list, or none before it arrives. */
  function Listed(data: Option<seq<Directory.Notification>>): (r: seq<Directory.Notification>)
    ensures data.None? ==> r == []
    ensures data.Some? ==> r == data.value
  {
    data.GetOr([])
  }

  /** `unreadCount`: how many listed notifications are not read. */
  function UnreadCount(data: Option<seq<Directory.Notification>>): (n: nat)
    ensures n <= |Listed(data)|
    ensures n == |Seqs.Filter(Listed(data), NotRead)|
    ensures n == 0 <==> forall i :: 0 <= i < |Listed(data)| ==> Listed(data)[i].isRead
  {
    Seqs.Count(Listed(data), NotRead)
  }

  /** With the inbox fetched, the badge counts exactly the store's unread
      notifications addressed to the user, which is what `mark_all_read`
      reports updating. */
  lemma BadgeCountsUnread(db: Directory.DirectoryDb, me: int)
    ensures UnreadCount(Some(Directory.Inbox(db, me))) == Seqs.Count(db.notifications, Directory.Unread(me))
  {
    Seqs.CountPermutation(Directory.Inbox(db, me), Seqs.Filter(db.notifications, Directory.Mine(me)), NotRead);
    Seqs.CountOfFilter(db.notifications, Directory.Mine(me), NotRead, Directory.Unread(me));
  }
}

=== FILE: post_card.dfy ===
/** A post card's local state and its handlers. The card keeps a copy of
    the post; every handler changes that copy, and an effect re-derives the
    displayed counters and flags from it, so the copy is the whole state.
    A handler that awaits a request takes the request's outcome as `ok`. */
module PostCard {
  import opened Wrappers
  import opened ClientTypes

  datatype MediaKind = VideoMedia | ImageMedia

  /** The medium shown: a video wins over an image; empty strings are absent. */
  function Media(p: Post): (r: Option<(MediaKind, string)>)
    ensures r.None? <==> !Present(p.video) && !Present(p.image)
    ensures Present(p.video) ==> r == Some((VideoMedia, p.video.value))
    ensures !Present(p.video) && Present(p.image) ==> r == Some((ImageMedia, p.image.value))
  {
    if Present(p.video) then Some((VideoMedia, p.video.value))
    else if Present(p.image) then Some((ImageMedia, p.image.value))
    else None
  }

  /** `authUser?.id === postData.user.id`: nobody signed in owns nothing. */
  predicate IsOwner(authUserId: Option<int>, p: Post) {
    authUserId.Some? && authUserId.value == p.user.id
  }

  /** A post whose last update is more than a minute from its creation, either way. */
  function UpdatedSincePublish(p: Post): (b: bool)
    ensures b <==> p.updatedAt > p.createdAt + 60000 || p.createdAt > p.updatedAt + 60000
  {
    var d := p.updatedAt - p.createdAt;
    (if d < 0 then -d else d) > 60000
  }

  // ---------------------------------------------------------------------
  // Like
  // ---------------------------------------------------------------------

  /** `handleLike`: flip at once; if the request fails, flip back. */
  function HandleLike(p: Post, ok: bool): (r: Post)
    ensures ok ==> r.isLiked == !p.isLiked
    ensures ok && r.isLiked ==> r.likesCount == p.likesCount + 1
    ensures ok && !r.isLiked ==> r.likesCount == p.likesCount - 1
    ensures r.(isLiked := p.isLiked, likesCount := p.likesCount) == p
  {
    var next := !p.isLiked;
    var optimistic := p.(isLiked := next, likesCount := p.likesCount + (if next then 1 else -1));
    if ok then optimistic
    else optimistic.(isLiked := !next, likesCount := optimistic.likesCount + (if next then -1 else 1))
  }

  /** A failed like leaves the card as it was. */
  lemma LikeFailureRestores(p: Post)
    ensures HandleLike(p, false) == p
  {
  }

  /** Liking twice with both requests succeeding is no change. */
  lemma LikeTwiceIsNoChange(p: Post)
    ensures HandleLike(HandleLike(p, true), true) == p
  {
  }

  // ---------------------------------------------------------------------
  // Bookmark
  // ---------------------------------------------------------------------

  /** `adjustCount`: the count moved by `change`, never below zero. */
  function AdjustCount(count: int, change: int): (r: int)
    ensures r >= 0
    ensures count + change >= 0 ==> r == count + change
    ensures count + change < 0 ==> r == 0
  {
    if count + change > 0 then count + change else 0
  }

  /** `handleBookmark`: flip at once with a clamped count; on failure flip
      back and move the clamped count the other way. */
  function HandleBookmark(p: Post, ok: bool): (r: Post)
    ensures r.bookmarksCount >= 0
    ensures ok <==> r.isBookmarked == !p.isBookmarked
    ensures r.(isBookmarked := p.isBookmarked, bookmarksCount := p.bookmarksCount) == p
  {
    var next := !p.isBookmarked;
    var delta := if next then 1 else -1;
    var optimistic := p.(isBookmarked := next, bookmarksCount := AdjustCount(p.bookmarksCount, delta));
    if ok then optimistic
    else optimistic.(isBookmarked := !next, bookmarksCount := AdjustCount(optimistic.bookmarksCount, -delta))
  }

  /** A count that agrees with the flag: not negative, and at least one when bookmarked. */
  predicate BookmarkConsistent(p: Post) {
    p.bookmarksCount >= 0 && (p.isBookmarked ==> p.bookmarksCount >= 1)
  }

  /** A failed bookmark restores the card exactly when its count agreed with
      its flag; from a bookmarked post with count 0 the rollback shows 1. */
  lemma BookmarkFailureRestores(p: Post)
    ensures HandleBookmark(p, false) == p <==> BookmarkConsistent(p)
  {
    if !BookmarkConsistent(p) {
      assert HandleBookmark(p, false).bookmarksCount != p.bookmarksCount;
    }
  }

  /** A successful bookmark keeps a consistent card consistent, and moves the count by one. */
  lemma BookmarkKeepsConsistent(p: Post)
    requires BookmarkConsistent(p)
    ensures BookmarkConsistent(HandleBookmark(p, true))
    ensures var r := HandleBookmark(p, true);
      r.bookmarksCount == p.bookmarksCount + (if r.isBookmarked then 1 else -1)
  {
  }

  // ---------------------------------------------------------------------
  // Comments and shares
  // ---------------------------------------------------------------------

  /** `handleCommentAdded`: the comment goes last and the count rises by one. */
  function CommentAdded(p: Post, c: PostComment): (r: Post)
    ensures |r.comments| == |p.comments| + 1 && r.comments[..|p.comments|] == p.comments
    ensures r.comments[|p.comments|] == c
    ensures r.commentsCount == p.commentsCount + 1
    ensures r.(comments := p.comments, commentsCount := p.commentsCount) == p
  {
    p.(comments := p.comments + [c], commentsCount := p.commentsCount + 1)
  }

  /** Comments added while the count matched the list keep it matching. */
  lemma CommentCountTracksList(p: Post, c: PostComment)
    requires p.commentsCount == |p.comments|
    ensures CommentAdded(p, c).commentsCount == |CommentAdded(p, c).comments|
  {
  }

  /** `handleShare`: the count rises only after the request succeeds. */
  function HandleShare(p: Post, ok: bool): (r: Post)
    ensures ok ==> r.sharesCount == p.sharesCount + 1
    ensures !ok ==> r == p
    ensures r.(sharesCount := p.sharesCount) == p
  {
    if ok then p.(sharesCount := p.sharesCount + 1) else p
  }

  // ---------------------------------------------------------------------
  // Owner actions
  // ---------------------------------------------------------------------

  /** The privacy the toggle asks the server for, or none when the menu
      item is busy or the viewer is not the owner. */
  function PrivacyRequest(authUserId: Option<int>, privacyLoading: bool, p: Post): (r: Option<bool>)
    ensures r.Some? <==> !privacyLoading && IsOwner(authUserId, p)
    ensures r.Some? ==> r.value == !p.isPrivate
  {
    if privacyLoading || !IsOwner(authUserId, p) then None else Some(!p.isPrivate)
  }

  /** `handleDelete`: the id sent for deletion, only for the owner. */
  function DeleteRequest(authUserId: Option<int>, p: Post): (r: Option<int>)
    ensures r.Some? <==> IsOwner(authUserId, p)
    ensures r.Some? ==> r.value == p.id
  {
    if IsOwner(authUserId, p) then Some(p.id) else None
  }

  /** Someone else's card never sends an owner request, whatever its state. */
  lemma OthersSendNothing(authUserId: Option<int>, privacyLoading: bool, p: Post)
    requires authUserId != Some(p.user.id)
    ensures PrivacyRequest(authUserId, privacyLoading, p).None?
    ensures DeleteRequest(authUserId, p).None?
  {
  }
}

=== FILE: profile_form.dfy ===
/** The profile page's edit form: the text fields, the avatar file with its
    preview, the "remove avatar" flag, and the request it submits; plus the
    header's post count and avatar override. */
module ProfileForm {
  import opened Wrappers
  import Strings
  import ClientApi
  import Directory

  /** The signed-in user's fields the form starts from; `None` is null. */
  datatype Account = Account(firstName: Option<string>, lastName: Option<string>, displayName: Option<string>, phoneNumber: Option<string>)

  datatype EditState = EditState(
    firstName: string,
    lastName: string,
    displayName: string,
    phoneNumber: string,
    avatarFile: Option<ClientApi.File>,
    avatarPreview: Option<string>,
    removeAvatar: bool,
    isEditing: bool)

  /** A chosen file and the remove flag are never set together. */
  predicate NoConflict(st: EditState) {
    st.avatarFile.Some? ==> !st.removeAvatar
  }

  /** The text fields filled from the account, with null as "". */
  function FromAccount(st: EditState, user: Account): (r: EditState)
    ensures r.firstName == user.firstName.GetOr("") && r.lastName == user.lastName.GetOr("")
    ensures r.displayName == user.displayName.GetOr("") && r.phoneNumber == user.phoneNumber.GetOr("")
    ensures r.avatarFile == st.avatarFile && r.avatarPreview == st.avatarPreview
    ensures r.removeAvatar == st.removeAvatar && r.isEditing == st.isEditing
  {
    st.(firstName := user.firstName.GetOr(""), lastName := user.lastName.GetOr(""),
        displayName := user.displayName.GetOr(""), phoneNumber := user.phoneNumber.GetOr(""))
  }

  /** Entering edit mode with a signed-in user: the fields are refilled
      from the account and any avatar change is dropped. */
  function BeginEdit(st: EditState, user: Account): (r: EditState)
    ensures r.isEditing && NoConflict(r)
    ensures r.avatarFile.None? && r.avatarPreview.None? && !r.removeAvatar
    ensures r == FromAccount(r, user)
  {
    FromAccount(st.(isEditing := true, avatarFile := None, avatarPreview := None, removeAvatar := false), user)
  }

  /** Whatever was typed or chosen while editing, cancelling returns the form
      to what editing began with, apart from the editing flag. */
  lemma CancelDiscardsEdits(st: EditState, edited: EditState, user: Account)
    ensures CancelEdit(edited, Some(user)) == BeginEdit(st, user).(isEditing := false)
  {
  }

  /** `handleAvatarChange`: a chosen file replaces the pending one with its
      preview and cancels removal; choosing nothing clears file and preview. */
  function AvatarChange(st: EditState, chosen: Option<ClientApi.File>, objectUrl: string): (r: EditState)
    ensures NoConflict(r)
    ensures chosen.Some? ==> r.avatarFile == chosen && r.avatarPreview == Some(objectUrl) && !r.removeAvatar
    ensures chosen.None? ==> r.avatarFile.None? && r.avatarPreview.None? && r.removeAvatar == st.removeAvatar
    ensures r.firstName == st.firstName && r.lastName == st.lastName && r.displayName == st.displayName
    ensures r.phoneNumber == st.phoneNumber && r.isEditing == st.isEditing
  {
    if chosen.Some? then st.(avatarFile := chosen, avatarPreview := Some(objectUrl), removeAvatar := false)
    else st.(avatarFile := None, avatarPreview := None)
  }

  /** `handleRemoveAvatar`: drops a pending file; otherwise, with a stored
      avatar, toggles removal; with neither, does nothing. */
  function RemoveAvatar(st: EditState, hasStoredAvatar: bool): (r: EditState)
    ensures NoConflict(st) ==> NoConflict(r)
    ensures st.avatarFile.Some? ==> r.avatarFile.None? && r.avatarPreview.None? && !r.removeAvatar
    ensures st.avatarFile.None? && hasStoredAvatar ==>
      r.removeAvatar == !st.removeAvatar && r.avatarPreview.None? && r.avatarFile.None?
    ensures st.avatarFile.None? && !hasStoredAvatar ==> r == st
    ensures r.firstName == st.firstName && r.lastName == st.lastName && r.displayName == st.displayName
    ensures r.phoneNumber == st.phoneNumber && r.isEditing == st.isEditing
  {
    if st.avatarFile.Some? then st.(avatarFile := None, avatarPreview := None, removeAvatar := false)
    else if hasStoredAvatar then st.(removeAvatar := !st.removeAvatar, avatarPreview := None)
    else st
  }

  /** Pressing remove twice with a stored avatar and no pending file
      restores the flag. */
  lemma RemoveTwiceRestoresFlag(st: EditState)
    requires st.avatarFile.None?
    ensures RemoveAvatar(RemoveAvatar(st, true), true).removeAvatar == st.removeAvatar
  {
  }

  /** `handleSubmit`: every text field is sent, with the pending file and the flag. */
  function Submit(st: EditState): (r: ClientApi.ProfilePayload)
    ensures r.firstName == Some(st.firstName) && r.lastName == Some(st.lastName)
    ensures r.displayName == Some(st.displayName) && r.phoneNumber == Some(st.phoneNumber)
    ensures r.avatar == st.avatarFile && r.removeAvatar == st.removeAvatar
    ensures NoConflict(st) ==> !(r.avatar.Some? && r.removeAvatar)
  {
    ClientApi.ProfilePayload(Some(st.firstName), Some(st.lastName), Some(st.displayName), Some(st.phoneNumber),
      st.avatarFile, st.removeAvatar)
  }

  /** Fields within the server's length limits. */
  predicate WithinLimits(st: EditState) {
    && |st.firstName| <= Directory.NameMaxLength
    && |st.lastName| <= Directory.NameMaxLength
    && |st.displayName| <= Directory.NameMaxLength
    && |st.phoneNumber| <= Directory.PhoneMaxLength
  }

  /** A form without a conflict, within the length limits, is accepted by
      the settings endpoint as it decodes the submitted form. */
  lemma SubmitAccepted(st: EditState)
    requires NoConflict(st) && WithinLimits(st)
    ensures Directory.ValidateSettings(ClientApi.ReadSettingsForm(ClientApi.BuildProfileForm(Submit(st)))).Success?
  {
    var input := ClientApi.Intended(Submit(st));
    ClientApi.ProfileFormRoundTrip(Submit(st));
    assert forall f :: !Directory.FieldTooLong(Directory.FieldValue(input, f), Directory.FieldLimit(f));
    assert Directory.LengthErrors(input) == {};
  }

  /** The state the form never reaches, a file and the flag together, is
      the one the endpoint refuses as a conflict. */
  lemma ConflictRefused(st: EditState)
    requires !NoConflict(st) && WithinLimits(st)
    ensures Directory.ValidateSettings(ClientApi.ReadSettingsForm(ClientApi.BuildProfileForm(Submit(st))))
      == Failure({Directory.AvatarConflict})
  {
    var input := ClientApi.Intended(Submit(st));
    ClientApi.ProfileFormRoundTrip(Submit(st));
    assert forall f :: !Directory.FieldTooLong(Directory.FieldValue(input, f), Directory.FieldLimit(f));
    assert Directory.LengthErrors(input) == {};
  }

  /** `handleCancelEdit`: leaves editing, drops the pending avatar change,
      and refills the fields from the account when there is one. */
  function CancelEdit(st: EditState, user: Option<Account>): (r: EditState)
    ensures !r.isEditing && r.avatarFile.None? && r.avatarPreview.None? && !r.removeAvatar
    ensures NoConflict(r)
    ensures user.Some? ==> r == FromAccount(r, user.value)
    ensures user.None? ==>
      r.firstName == st.firstName && r.lastName == st.lastName && r.displayName == st.displayName && r.phoneNumber == st.phoneNumber
  {
    var cleared := st.(isEditing := false, avatarFile := None, avatarPreview := None, removeAvatar := false);
    if user.Some? then FromAccount(cleared, user.value) else cleared
  }

  /** After a successful save: the avatar change is dropped and editing ends. */
  function AfterSave(st: EditState): (r: EditState)
    ensures !r.isEditing && r.avatarFile.None? && r.avatarPreview.None? && !r.removeAvatar
    ensures r.firstName == st.firstName && r.lastName == st.lastName
    ensures r.displayName == st.displayName && r.phoneNumber == st.phoneNumber
  {
    st.(avatarFile := None, avatarPreview := None, removeAvatar := false, isEditing := false)
  }

  // ---------------------------------------------------------------------
  // The profile header
  // ---------------------------------------------------------------------

  /** `postsTotal`: the fetched posts' count, else the profile's count, else 0
      (a zero count falls through as falsy). */
  function PostsTotal(fetched: nat, profileCount: Option<int>): (r: int)
    ensures fetched > 0 ==> r == fetched
    ensures fetched == 0 && profileCount.Some? ==> r == profileCount.value
    ensures fetched == 0 && profileCount.None? ==> r == 0
  {
    if fetched != 0 then fetched
    else if profileCount.Some? && profileCount.value != 0 then profileCount.value
    else 0
  }

  /** The image the header shows instead of the stored avatar: the
      generated fallback while removal is pending, else the new file's
      preview, else none. */
  function HeaderOverride(st: EditState, fallbackAvatar: string): (r: Option<string>)
    ensures st.removeAvatar ==> r == Some(fallbackAvatar)
    ensures !st.removeAvatar ==> r == st.avatarPreview
  {
    if st.removeAvatar then Some(fallbackAvatar) else st.avatarPreview
  }

  /** While a new file is pending in a consistent form, the header shows its preview. */
  lemma PendingFileShown(st: EditState, chosen: ClientApi.File, objectUrl: string, fallbackAvatar: string)
    ensures HeaderOverride(AvatarChange(st, Some(chosen), objectUrl), fallbackAvatar) == Some(objectUrl)
  {
  }
}

=== FILE: seqs.dfy ===
/** Sequence helpers shared by the model: the JavaScript `filter`, `findIndex`
    and `reduce`-to-a-sum idioms, and the subsequence relation used to state
    that a filter keeps the original order. */
module Seqs {
  import opened Wrappers

  /** `a` can be obtained from `b` by deleting elements (order kept). */
  ghost predicate IsSubseq<T>(a: seq<T>, b: seq<T>)
    decreases |b|
  {
    if |a| == 0 then true
    else if |b| == 0 then false
    else if a[0] == b[0] then IsSubseq(a[1..], b[1..])
    else IsSubseq(a, b[1..])
  }

  /** The elements of `s` satisfying `p`, in their original order. */
  function Filter<T>(s: seq<T>, p: T -> bool): (r: seq<T>)
    ensures |r| <= |s|
    ensures forall i :: 0 <= i < |r| ==> p(r[i]) && r[i] in s
    ensures forall i :: 0 <= i < |s| && p(s[i]) ==> s[i] in r
  {
    if |s| == 0 then []
    else if p(s[0]) then [s[0]] + Filter(s[1..], p)
    else Filter(s[1..], p)
  }

  /** The kept elements are exactly the elements satisfying `p`. */
  lemma FilterMembers<T>(s: seq<T>, p: T -> bool)
    ensures forall x :: x in Filter(s, p) <==> x in s && p(x)
  {
    forall x | x in s && p(x)
      ensures x in Filter(s, p)
    {
      var i :| 0 <= i < |s| && s[i] == x;
    }
  }

  /** Two sequences with the same multiset have the same members. */
  /** Filtering keeps every occurrence of a kept value and none of the others. */
  lemma {:induction false} FilterMultiset<T>(s: seq<T>, p: T -> bool)
    ensures forall x :: multiset(Filter(s, p))[x] == if p(x) then multiset(s)[x] else 0
  {
    if |s| > 0 {
      FilterMultiset(s[1..], p);
      assert s == [s[0]] + s[1..];
      assert multiset(s) == multiset{s[0]} + multiset(s[1..]);
      if p(s[0]) {
        assert multiset(Filter(s, p)) == multiset{s[0]} + multiset(Filter(s[1..], p));
      }
    }
  }

  lemma SameMembers<T>(a: seq<T>, b: seq<T>)
    requires multiset(a) == multiset(b)
    ensures forall x :: x in a <==> x in b
  {
    forall x
      ensures x in a <==> x in b
    {
      assert x in a <==> x in multiset(a);
      assert x in b <==> x in multiset(b);
    }
  }

  lemma {:induction false} FilterIsSubseq<T>(s: seq<T>, p: T -> bool)
    ensures IsSubseq(Filter(s, p), s)
  {
    if |s| > 0 {
      FilterIsSubseq(s[1..], p);
      assert [s[0]] + s[1..] == s;
      if !p(s[0]) {
        SubseqDropHead(Filter(s[1..], p), s[1..], s[0]);
      }
    }
  }

  /** Prepending an element to the larger sequence keeps a subsequence. */
  lemma {:induction false} SubseqDropHead<T>(a: seq<T>, b: seq<T>, x: T)
    requires IsSubseq(a, b)
    ensures IsSubseq(a, [x] + b)
    decreases |b|, 1
  {
    assert ([x] + b)[1..] == b;
    if |a| > 0 && a[0] == x {
      SubseqTail(a, b);
    }
  }

  /** Dropping the head of the smaller sequence keeps a subsequence. */
  lemma {:induction false} SubseqTail<T>(a: seq<T>, b: seq<T>)
    requires |a| > 0 && IsSubseq(a, b)
    ensures IsSubseq(a[1..], b)
    decreases |b|, 0
  {
    assert [b[0]] + b[1..] == b;
    if a[0] == b[0] {
      SubseqDropHead(a[1..], b[1..], b[0]);
    } else {
      SubseqTail(a, b[1..]);
      SubseqDropHead(a[1..], b[1..], b[0]);
    }
  }

  /** Number of elements satisfying `p` (JavaScript `filter(p).length`). */
  function Count<T>(s: seq<T>, p: T -> bool): (n: nat)
    ensures n <= |s|
    ensures n == |Filter(s, p)|
    ensures n == 0 <==> forall i :: 0 <= i < |s| ==> !p(s[i])
  {
    if |s| == 0 then 0
    else (if p(s[0]) then 1 else 0) + Count(s[1..], p)
  }

  /** Appending one element raises the count by one exactly when it satisfies `p`. */
  lemma {:induction false} CountAppend<T>(s: seq<T>, x: T, p: T -> bool)
    ensures Count(s + [x], p) == Count(s, p) + (if p(x) then 1 else 0)
  {
    if |s| > 0 {
      assert (s + [x])[1..] == s[1..] + [x];
      CountAppend(s[1..], x, p);
    } else {
      assert s + [x] == [x];
    }
  }

  /** Filtering a sequence extended by one element extends the filtered
      sequence by that element exactly when it is kept. */
  lemma {:induction false} FilterAppend<T>(s: seq<T>, x: T, p: T -> bool)
    ensures Filter(s + [x], p) == Filter(s, p) + (if p(x) then [x] else [])
  {
    if |s| > 0 {
      assert (s + [x])[1..] == s[1..] + [x];
      FilterAppend(s[1..], x, p);
    } else {
      assert s + [x] == [x];
    }
  }

  /** Sum of `f` over `s` (a `reduce` accumulating one numeric field). */
  function Sum<T>(s: seq<T>, f: T -> int): int
  {
    if |s| == 0 then 0 else f(s[0]) + Sum(s[1..], f)
  }

  lemma {:induction false} SumAppend<T>(a: seq<T>, b: seq<T>, f: T -> int)
    ensures Sum(a + b, f) == Sum(a, f) + Sum(b, f)
  {
    if |a| > 0 {
      assert (a + b)[1..] == a[1..] + b;
      SumAppend(a[1..], b, f);
    } else {
      assert a + b == b;
    }
  }

  /** JavaScript `findIndex`: the first index satisfying `p`, or -1. */
  function FindIndex<T>(s: seq<T>, p: T -> bool): (i: int)
    ensures -1 <= i < |s|
    ensures i == -1 <==> forall j :: 0 <= j < |s| ==> !p(s[j])
    ensures i >= 0 ==> p(s[i]) && forall j :: 0 <= j < i ==> !p(s[j])
  {
    if |s| == 0 then -1
    else if p(s[0]) then 0
    else
      var k := FindIndex(s[1..], p);
      if k == -1 then -1 else k + 1
  }

  /** A prefix holds no more of any value than the whole. */
  lemma PrefixMultiset<T>(s: seq<T>, n: nat)
    requires n <= |s|
    ensures multiset(s[..n]) <= multiset(s)
  {
    assert s == s[..n] + s[n..];
  }

  /** The index of the first occurrence of `x` in `s`. */
  function IndexOf<T(==)>(s: seq<T>, x: T): (i: nat)
    requires x in s
    ensures i < |s| && s[i] == x && x !in s[..i]
  {
    if s[0] == x then 0
    else
      var i := IndexOf(s[1..], x);
      assert s[..i + 1] == [s[0]] + s[1..][..i];
      1 + i
  }

  /** The first occurrence is the only index with no earlier occurrence. */
  lemma IndexOfUnique<T>(s: seq<T>, x: T, i: nat)
    requires i < |s| && s[i] == x && x !in s[..i]
    ensures IndexOf(s, x) == i
  {
  }

  /** Within a prefix that holds `x`, its first occurrence is the same. */
  lemma IndexOfPrefix<T>(s: seq<T>, m: nat, x: T)
    requires m <= |s| && x in s[..m]
    ensures IndexOf(s[..m], x) == IndexOf(s, x)
  {
    var i := IndexOf(s[..m], x);
    assert s[..m][..i] == s[..i];
    IndexOfUnique(s, x, i);
  }

  /** `s` without the element at index `i` (`splice(i, 1)`). */
  function RemoveAt<T>(s: seq<T>, i: nat): (r: seq<T>)
    requires i < |s|
    ensures |r| == |s| - 1
    ensures forall j :: 0 <= j < i ==> r[j] == s[j]
    ensures forall j :: i <= j < |r| ==> r[j] == s[j + 1]
    ensures multiset(r) + multiset{s[i]} == multiset(s)
  {
    assert s == s[..i] + [s[i]] + s[i + 1..];
    s[..i] + s[i + 1..]
  }

  lemma {:induction false} SubseqRefl<T>(s: seq<T>)
    ensures IsSubseq(s, s)
  {
    if |s| > 0 {
      SubseqRefl(s[1..]);
    }
  }

  /** Removing one element keeps the others in their order. */
  lemma {:induction false} RemoveAtIsSubseq<T>(s: seq<T>, i: nat)
    requires i < |s|
    ensures IsSubseq(RemoveAt(s, i), s)
  {
    if i == 0 {
      SubseqRefl(s[1..]);
      SubseqDropHead(s[1..], s[1..], s[0]);
      assert [s[0]] + s[1..] == s;
      assert RemoveAt(s, i) == s[1..];
    } else {
      RemoveAtIsSubseq(s[1..], i - 1);
      RemoveAtCons(s, i);
      var r := RemoveAt(s, i);
      assert r[0] == s[0] && r[1..] == RemoveAt(s[1..], i - 1);
    }
  }

  /** Removing a later element keeps the head. */
  lemma RemoveAtCons<T>(s: seq<T>, i: nat)
    requires 0 < i < |s|
    ensures RemoveAt(s, i) == [s[0]] + RemoveAt(s[1..], i - 1)
  {
    assert s[..i] == [s[0]] + s[1..][..i - 1];
    assert s[i + 1..] == s[1..][i..];
  }

  /** Filtering out the one element that fails `p` removes exactly that position. */
  lemma {:induction false} FilterOne<T>(s: seq<T>, p: T -> bool, k: nat)
    requires k < |s| && !p(s[k])
    requires forall j :: 0 <= j < |s| && j != k ==> p(s[j])
    ensures Filter(s, p) == RemoveAt(s, k)
  {
    if k == 0 {
      FilterAllKept(s[1..], p);
      assert RemoveAt(s, 0) == s[1..];
    } else {
      FilterOne(s[1..], p, k - 1);
      RemoveAtCons(s, k);
    }
  }

  /** Filtering by a predicate every element satisfies keeps the sequence. */
  lemma {:induction false} FilterAllKept<T>(s: seq<T>, p: T -> bool)
    requires forall i :: 0 <= i < |s| ==> p(s[i])
    ensures Filter(s, p) == s
  {
    if |s| > 0 {
      FilterAllKept(s[1..], p);
    }
  }

  /** Counting over a concatenation adds the counts. */
  lemma {:induction false} CountConcat<T>(a: seq<T>, b: seq<T>, p: T -> bool)
    ensures Count(a + b, p) == Count(a, p) + Count(b, p)
  {
    if |a| > 0 {
      assert (a + b)[1..] == a[1..] + b;
      CountConcat(a[1..], b, p);
    } else {
      assert a + b == b;
    }
  }

  /** Removing one element lowers the count by one exactly when it satisfies `p`. */
  lemma {:induction false} CountRemoveAt<T>(s: seq<T>, k: nat, p: T -> bool)
    requires k < |s|
    ensures Count(s, p) == Count(RemoveAt(s, k), p) + (if p(s[k]) then 1 else 0)
  {
    var head, tail := s[..k], s[k + 1..];
    var middle := [s[k]] + tail;
    assert s == head + middle;
    assert RemoveAt(s, k) == head + tail;
    CountConcat(head, middle, p);
    CountConcat(head, tail, p);
    assert middle[1..] == tail;
    assert Count(middle, p) == (if p(s[k]) then 1 else 0) + Count(tail, p);
  }

  /** Equal multisets stay equal when the same element leaves both. */
  lemma MultisetCancel<T>(a: multiset<T>, b: multiset<T>, x: T)
    requires a + multiset{x} == b + multiset{x}
    ensures a == b
  {
    forall y ensures a[y] == b[y] {
      assert (a + multiset{x})[y] == (b + multiset{x})[y];
    }
  }

  /** The count does not depend on the order of the elements. */
  lemma {:induction false} CountPermutation<T>(a: seq<T>, b: seq<T>, p: T -> bool)
    requires multiset(a) == multiset(b)
    ensures Count(a, p) == Count(b, p)
    decreases |a|
  {
    if |a| > 0 {
      var x := a[0];
      assert x in multiset(b);
      var k :| 0 <= k < |b| && b[k] == x;
      var rest := RemoveAt(b, k);
      assert a == [x] + a[1..];
      assert multiset(a[1..]) + multiset{x} == multiset(a);
      MultisetCancel(multiset(a[1..]), multiset(rest), x);
      CountPermutation(a[1..], rest, p);
      CountRemoveAt(b, k, p);
    } else {
      assert |multiset(b)| == 0;
    }
  }

  /** Counting among the kept elements is counting both conditions together. */
  lemma {:induction false} CountOfFilter<T>(s: seq<T>, q: T -> bool, p: T -> bool, both: T -> bool)
    requires forall x :: both(x) == (q(x) && p(x))
    ensures Count(Filter(s, q), p) == Count(s, both)
  {
    if |s| > 0 {
      CountOfFilter(s[1..], q, p, both);
      if q(s[0]) {
        assert ([s[0]] + Filter(s[1..], q))[1..] == Filter(s[1..], q);
      }
    }
  }

  /** `s` in reverse order (`Array.prototype.reverse` / `list.reverse`). */
  function Reverse<T>(s: seq<T>): (r: seq<T>)
    ensures |r| == |s|
    ensures forall i :: 0 <= i < |s| ==> r[i] == s[|s| - 1 - i]
    ensures multiset(r) == multiset(s)
  {
    if |s| == 0 then []
    else
      assert s == [s[0]] + s[1..];
      Reverse(s[1..]) + [s[0]]
  }

  /** `f` applied to every element, or `None` as soon as one application
      fails (a list comprehension whose conversion may raise). */
  function MapAll<T, U>(s: seq<T>, f: T -> Option<U>): (r: Option<seq<U>>)
    ensures r.Some? <==> forall i :: 0 <= i < |s| ==> f(s[i]).Some?
    ensures r.Some? ==> |r.value| == |s| && forall i :: 0 <= i < |s| ==> r.value[i] == f(s[i]).value
  {
    if |s| == 0 then Some([])
    else
      var head := f(s[0]);
      var rest := MapAll(s[1..], f);
      assert forall i :: 1 <= i < |s| ==> s[i] == s[1..][i - 1];
      if head.None? || rest.None? then None
      else Some([head.value] + rest.value)
  }
}

=== FILE: sidebar.dfy ===
/** The left sidebar's community list: the user directory with the viewer
    first and everyone else by username. */
module Sidebar {
  import Seqs
  import Sorting

  /** A directory entry as the sidebar reads it. */
  datatype CommunityUser = CommunityUser(id: int, username: string, isSelf: bool)

  /** The comparator as a key: the viewer's own entry before the rest, then
      the username character by character. */
  function CommunityKey(): CommunityUser -> seq<int> {
    (u: CommunityUser) => [if u.isSelf then 0 else 1] + Sorting.Codes(u.username)
  }

  /** `communityUsers`: the directory sorted by the comparator. */
  function CommunityUsers(users: seq<CommunityUser>): (r: seq<CommunityUser>)
    ensures |r| == |users| && multiset(r) == multiset(users)
    ensures forall i, j :: 0 <= i < j < |r| && r[j].isSelf ==> r[i].isSelf
    ensures forall i, j :: 0 <= i < j < |r| && r[i].isSelf == r[j].isSelf ==>
      Sorting.LexLe(Sorting.Codes(r[i].username), Sorting.Codes(r[j].username))
  {
    if |users| == 0 then []
    else
      var r := Sorting.SortBy(users, CommunityKey());
      forall i, j | 0 <= i < j < |r|
        ensures r[j].isSelf ==> r[i].isSelf
        ensures r[i].isSelf == r[j].isSelf ==> Sorting.LexLe(Sorting.Codes(r[i].username), Sorting.Codes(r[j].username))
      {
        CommunityOrder(r, i, j);
      }
      r
  }

  lemma CommunityOrder(r: seq<CommunityUser>, i: int, j: int)
    requires Sorting.Sorted(r, CommunityKey()) && 0 <= i < j < |r|
    ensures r[j].isSelf ==> r[i].isSelf
    ensures r[i].isSelf == r[j].isSelf ==> Sorting.LexLe(Sorting.Codes(r[i].username), Sorting.Codes(r[j].username))
  {
    Sorting.SortedPairs(r, CommunityKey(), i, j);
    Sorting.LexLeCons(if r[i].isSelf then 0 else 1, Sorting.Codes(r[i].username),
                      if r[j].isSelf then 0 else 1, Sorting.Codes(r[j].username));
  }

  /** Entries the comparator cannot tell apart keep their directory order. */
  lemma {:induction false} CommunityUsersStable(users: seq<CommunityUser>, k: seq<int>)
    ensures Seqs.Filter(CommunityUsers(users), Sorting.HasKey(CommunityKey(), k))
      == Seqs.Filter(users, Sorting.HasKey(CommunityKey(), k))
  {
    if |users| > 0 {
      Sorting.SortByStable(users, CommunityKey(), k);
    }
  }

  /** When the viewer is listed, the list starts with the viewer. */
  lemma ViewerFirst(users: seq<CommunityUser>, k: int)
    requires 0 <= k < |users| && users[k].isSelf
    ensures CommunityUsers(users)[0].isSelf
  {
    var r := CommunityUsers(users);
    assert users[k] in multiset(r);
    var j :| 0 <= j < |r| && r[j] == users[k];
  }
}

=== FILE: sorting.dfy ===
/** One stable sort for every ordering the system applies. Each ordering is
    given as a key of integers compared lexicographically: a descending
    timestamp is the key `[-created_at]`, an ordinal string comparison is the
    key of its character codes, and "followers descending, then username" is
    `[-followers] + Codes(username)`. JavaScript's `Array.prototype.sort` is
    stable; the same stable sort stands for database `ORDER BY`, whose ties
    the database leaves unspecified. */
module Sorting {
  import Seqs

  /** Lexicographic order on integer sequences; a proper prefix comes first. */
  predicate LexLe(a: seq<int>, b: seq<int>) {
    |a| == 0 || (|b| > 0 && (a[0] < b[0] || (a[0] == b[0] && LexLe(a[1..], b[1..]))))
  }

  lemma {:induction false} LexLeRefl(a: seq<int>)
    ensures LexLe(a, a)
  {
    if |a| > 0 {
      LexLeRefl(a[1..]);
    }
  }

  lemma {:induction false} LexLeTotal(a: seq<int>, b: seq<int>)
    ensures LexLe(a, b) || LexLe(b, a)
  {
    if |a| > 0 && |b| > 0 && a[0] == b[0] {
      LexLeTotal(a[1..], b[1..]);
    }
  }

  lemma {:induction false} LexLeTrans(a: seq<int>, b: seq<int>, c: seq<int>)
    requires LexLe(a, b) && LexLe(b, c)
    ensures LexLe(a, c)
  {
    if |a| > 0 && |b| > 0 && |c| > 0 && a[0] == b[0] == c[0] {
      LexLeTrans(a[1..], b[1..], c[1..]);
    }
  }

  lemma {:induction false} LexLeAntisym(a: seq<int>, b: seq<int>)
    requires LexLe(a, b) && LexLe(b, a)
    ensures a == b
  {
    if |a| > 0 && |b| > 0 {
      LexLeAntisym(a[1..], b[1..]);
      assert a == [a[0]] + a[1..];
      assert b == [b[0]] + b[1..];
    }
  }

  /** On one-element keys the order is the integer order. */
  lemma LexLeSingleton(x: int, y: int)
    ensures LexLe([x], [y]) <==> x <= y
  {
    assert [x][1..] == [];
  }

  /** A key with a leading component: that component decides, and the rest breaks ties. */
  lemma LexLeCons(x: int, a: seq<int>, y: int, b: seq<int>)
    ensures LexLe([x] + a, [y] + b) <==> x < y || (x == y && LexLe(a, b))
  {
    assert ([x] + a)[1..] == a && ([y] + b)[1..] == b;
  }

  /** Character codes of a string: the key for an ordinal string comparison. */
  function Codes(s: string): (r: seq<int>)
    ensures |r| == |s| && forall i :: 0 <= i < |s| ==> r[i] == s[i] as int
  {
    seq(|s|, i requires 0 <= i < |s| => s[i] as int)
  }

  /** Each element's key is not above its successor's. */
  predicate Sorted<T>(s: seq<T>, key: T -> seq<int>) {
    forall i :: 0 <= i < |s| - 1 ==> LexLe(key(s[i]), key(s[i + 1]))
  }

  /** Ordered between any two positions, not only neighbours. */
  lemma {:induction false} SortedPairs<T>(s: seq<T>, key: T -> seq<int>, i: int, j: int)
    requires Sorted(s, key) && 0 <= i <= j < |s|
    ensures LexLe(key(s[i]), key(s[j]))
    decreases j - i
  {
    if i == j {
      LexLeRefl(key(s[i]));
    } else {
      SortedPairs(s, key, i + 1, j);
      LexLeTrans(key(s[i]), key(s[i + 1]), key(s[j]));
    }
  }

  /** `x` placed before the first element whose key is not below its own. */
  function Insert<T>(x: T, s: seq<T>, key: T -> seq<int>): (r: seq<T>)
    requires Sorted(s, key)
    ensures Sorted(r, key)
    ensures multiset(r) == multiset(s) + multiset{x}
    ensures |r| > 0 && (r[0] == x || (|s| > 0 && r[0] == s[0]))
  {
    if |s| == 0 || LexLe(key(x), key(s[0])) then [x] + s
    else
      var rest := Insert(x, s[1..], key);
      LexLeTotal(key(x), key(s[0]));
      assert s == [s[0]] + s[1..];
      [s[0]] + rest
  }

  /** Stable sort of `s` by `key`. */
  function SortBy<T>(s: seq<T>, key: T -> seq<int>): (r: seq<T>)
    ensures Sorted(r, key)
    ensures multiset(r) == multiset(s)
    ensures |r| == |s|
  {
    if |s| == 0 then []
    else
      assert s == [s[0]] + s[1..];
      Insert(s[0], SortBy(s[1..], key), key)
  }

  function HasKey<T>(key: T -> seq<int>, k: seq<int>): T -> bool {
    y => key(y) == k
  }

  lemma {:induction false} InsertKeepsEqualKeyOrder<T>(x: T, s: seq<T>, key: T -> seq<int>, k: seq<int>)
    requires Sorted(s, key)
    ensures Seqs.Filter(Insert(x, s, key), HasKey(key, k))
      == (if key(x) == k then [x] else []) + Seqs.Filter(s, HasKey(key, k))
  {
    var p := HasKey(key, k);
    if |s| == 0 || LexLe(key(x), key(s[0])) {
      assert ([x] + s)[1..] == s;
    } else {
      InsertKeepsEqualKeyOrder(x, s[1..], key, k);
      var rest := Insert(x, s[1..], key);
      assert ([s[0]] + rest)[1..] == rest;
      if key(x) == k {
        LexLeRefl(key(x));
        assert !p(s[0]);
      }
    }
  }

  /** Stability: elements with equal keys keep their original relative order. */
  lemma {:induction false} SortByStable<T>(s: seq<T>, key: T -> seq<int>, k: seq<int>)
    ensures Seqs.Filter(SortBy(s, key), HasKey(key, k)) == Seqs.Filter(s, HasKey(key, k))
  {
    if |s| > 0 {
      SortByStable(s[1..], key, k);
      InsertKeepsEqualKeyOrder(s[0], SortBy(s[1..], key), key, k);
    }
  }

  /** A sequence already in order is left unchanged. */
  lemma {:induction false} SortBySortedNoop<T>(s: seq<T>, key: T -> seq<int>)
    requires Sorted(s, key)
    ensures SortBy(s, key) == s
  {
    if |s| > 0 {
      assert Sorted(s[1..], key);
      SortBySortedNoop(s[1..], key);
      if |s| > 1 {
        assert LexLe(key(s[0]), key(s[1]));
      }
    }
  }
}

=== FILE: strings.dfy ===
/** Text helpers: whitespace trimming (JavaScript `trim`, Python `strip`),
    ASCII case folding (`toLowerCase`, `iexact`, `icontains`), substring
    search (`includes`, Python `in`) and splitting on separator runs
    (`split(/[\s,]+/)`). */
module Strings {

  /** The white space both languages agree on: tab, line feed, vertical
      tab, form feed, carriage return, the Unicode space separators and the
      line and paragraph separators. */
  predicate CommonSpace(c: char) {
    var n := c as int;
    9 <= n <= 13 || n == 0x20 || n == 0xA0 || n == 0x1680 || 0x2000 <= n <= 0x200A
    || n == 0x2028 || n == 0x2029 || n == 0x202F || n == 0x205F || n == 0x3000
  }

  /** JavaScript white space, as `trim` and the regular-expression class `\s`
      see it: the ECMAScript WhiteSpace and LineTerminator characters, which
      include the byte-order mark U+FEFF. */
  predicate JsSpace(c: char) {
    CommonSpace(c) || c as int == 0xFEFF
  }

  /** Python white space, as `str.isspace`, `str.strip` and `int()` see it:
      it adds the information separators U+001C..U+001F and U+0085, and
      leaves out U+FEFF. */
  predicate PySpace(c: char) {
    CommonSpace(c) || 0x1C <= c as int <= 0x1F || c as int == 0x85
  }

  /** The characters Python strips and JavaScript keeps. */
  predicate PyOnlySpace(c: char) {
    PySpace(c) && !JsSpace(c)
  }

  /** Free of the characters Python strips and JavaScript keeps. */
  predicate NoPyOnlySpace(s: string) {
    forall k :: 0 <= k < |s| ==> !PyOnlySpace(s[k])
  }

  function TrimStart(s: string, isSpace: char -> bool): (r: string)
    ensures |r| <= |s| && r == s[|s| - |r|..]
    ensures |r| > 0 ==> !isSpace(r[0])
    ensures forall k :: 0 <= k < |s| - |r| ==> isSpace(s[k])
  {
    if |s| > 0 && isSpace(s[0]) then
      var r := TrimStart(s[1..], isSpace);
      assert forall k :: 1 <= k < |s| - |r| ==> s[k] == s[1..][k - 1];
      r
    else s
  }

  function TrimEnd(s: string, isSpace: char -> bool): (r: string)
    ensures |r| <= |s| && r == s[..|r|]
    ensures |r| > 0 ==> !isSpace(r[|r| - 1])
    ensures forall k :: |r| <= k < |s| ==> isSpace(s[k])
  {
    if |s| > 0 && isSpace(s[|s| - 1]) then TrimEnd(s[..|s| - 1], isSpace) else s
  }

  /** Leading and trailing `isSpace` characters removed. */
  function Trim(s: string, isSpace: char -> bool): (r: string)
    ensures |r| <= |s|
    ensures |r| > 0 ==> !isSpace(r[0]) && !isSpace(r[|r| - 1])
  {
    TrimEnd(TrimStart(s, isSpace), isSpace)
  }

  /** JavaScript's `String.prototype.trim`. */
  function JsTrim(s: string): (r: string)
    ensures |r| <= |s|
    ensures |r| > 0 ==> !JsSpace(r[0]) && !JsSpace(r[|r| - 1])
  {
    Trim(s, JsSpace)
  }

  /** Python's `str.strip()` with no argument. */
  function PyStrip(s: string): (r: string)
    ensures |r| <= |s|
    ensures |r| > 0 ==> !PySpace(r[0]) && !PySpace(r[|r| - 1])
  {
    Trim(s, PySpace)
  }

  predicate IsBlank(s: string, isSpace: char -> bool) {
    forall k :: 0 <= k < |s| ==> isSpace(s[k])
  }

  /** Trimming leaves nothing exactly when the text is all white space. */
  lemma TrimEmptyIffBlank(s: string, isSpace: char -> bool)
    ensures Trim(s, isSpace) == "" <==> IsBlank(s, isSpace)
  {
    var t := TrimStart(s, isSpace);
    if Trim(s, isSpace) == "" {
      assert |t| == 0;
    } else {
      var r := Trim(s, isSpace);
      assert r[0] == t[0] == s[|s| - |t|];
    }
  }

  /** A text without surrounding white space is its own trim. */
  lemma TrimNoop(s: string, isSpace: char -> bool)
    requires |s| > 0 ==> !isSpace(s[0]) && !isSpace(s[|s| - 1])
    ensures Trim(s, isSpace) == s
  {
  }

  lemma TrimIdempotent(s: string, isSpace: char -> bool)
    ensures Trim(Trim(s, isSpace), isSpace) == Trim(s, isSpace)
  {
    TrimNoop(Trim(s, isSpace), isSpace);
  }

  lemma {:induction false} TrimStartAppend(s: string, t: string, isSpace: char -> bool)
    requires !IsBlank(s, isSpace)
    ensures TrimStart(s + t, isSpace) == TrimStart(s, isSpace) + t
    decreases |s|
  {
    if isSpace(s[0]) {
      assert (s + t)[1..] == s[1..] + t;
      assert !IsBlank(s[1..], isSpace) by {
        var k :| 0 <= k < |s| && !isSpace(s[k]);
        assert s[1..][k - 1] == s[k];
      }
      TrimStartAppend(s[1..], t, isSpace);
    }
  }

  lemma TrimEndSkipsSpace(s: string, c: char, isSpace: char -> bool)
    requires isSpace(c)
    ensures TrimEnd(s + [c], isSpace) == TrimEnd(s, isSpace)
  {
    assert (s + [c])[..|s|] == s;
  }

  /** White space added around a text does not change its trim. */
  lemma TrimPadded(s: string, c: char, isSpace: char -> bool)
    requires isSpace(c)
    ensures Trim([c] + s + [c], isSpace) == Trim(s, isSpace)
  {
    var p := [c] + s + [c];
    if IsBlank(s, isSpace) {
      TrimEmptyIffBlank(s, isSpace);
      TrimEmptyIffBlank(p, isSpace);
    } else {
      assert p[1..] == s + [c];
      TrimStartAppend(s, [c], isSpace);
      TrimEndSkipsSpace(TrimStart(s, isSpace), c, isSpace);
    }
  }

  /** Where the trim of `s` starts in `s`. */
  function TrimOffset(s: string, isSpace: char -> bool): nat {
    |s| - |TrimStart(s, isSpace)|
  }

  /** The trim is the slice of `s` from its offset. */
  lemma TrimIsSlice(s: string, isSpace: char -> bool)
    ensures TrimOffset(s, isSpace) + |Trim(s, isSpace)| <= |s|
    ensures Trim(s, isSpace) == s[TrimOffset(s, isSpace)..TrimOffset(s, isSpace) + |Trim(s, isSpace)|]
  {
    var t := TrimStart(s, isSpace);
    var r := Trim(s, isSpace);
    var a := |s| - |t|;
    assert r == t[..|r|] == s[a..a + |r|];
  }

  /** Python strips nothing more from what JavaScript trimmed, unless the
      text holds a character only Python counts as white space. */
  lemma PyStripAfterJsTrim(s: string)
    requires NoPyOnlySpace(s)
    ensures PyStrip(JsTrim(s)) == JsTrim(s)
  {
    var r := JsTrim(s);
    if r != "" {
      TrimIsSlice(s, JsSpace);
      var a := TrimOffset(s, JsSpace);
      assert r[0] == s[a] && r[|r| - 1] == s[a + |r| - 1];
    }
    TrimNoop(r, PySpace);
  }

  /** JavaScript trims nothing more from what Python stripped, unless the
      text holds a byte-order mark. */
  lemma JsTrimAfterPyStrip(s: string)
    requires forall k :: 0 <= k < |s| ==> s[k] as int != 0xFEFF
    ensures JsTrim(PyStrip(s)) == PyStrip(s)
  {
    var r := PyStrip(s);
    if r != "" {
      TrimIsSlice(s, PySpace);
      var a := TrimOffset(s, PySpace);
      assert r[0] == s[a] && r[|r| - 1] == s[a + |r| - 1];
    }
    TrimNoop(r, JsSpace);
  }

  /** Two notions of white space that agree on every character of `s` trim
      it alike. */
  lemma {:induction false} TrimStartAgrees(s: string, p: char -> bool, q: char -> bool)
    requires forall k :: 0 <= k < |s| ==> p(s[k]) == q(s[k])
    ensures TrimStart(s, p) == TrimStart(s, q)
  {
    if |s| > 0 {
      assert forall k :: 0 <= k < |s| - 1 ==> s[1..][k] == s[k + 1];
      TrimStartAgrees(s[1..], p, q);
    }
  }

  lemma {:induction false} TrimEndAgrees(s: string, p: char -> bool, q: char -> bool)
    requires forall k :: 0 <= k < |s| ==> p(s[k]) == q(s[k])
    ensures TrimEnd(s, p) == TrimEnd(s, q)
  {
    if |s| > 0 {
      assert forall k :: 0 <= k < |s| - 1 ==> s[..|s| - 1][k] == s[k];
      TrimEndAgrees(s[..|s| - 1], p, q);
    }
  }

  /** Without U+FEFF and without the separators only Python counts as
      white space, JavaScript's `trim` and Python's `strip` agree. */
  lemma JsTrimIsPyStrip(s: string)
    requires NoPyOnlySpace(s)
    requires forall k :: 0 <= k < |s| ==> s[k] as int != 0xFEFF
    ensures JsTrim(s) == PyStrip(s)
  {
    TrimStartAgrees(s, JsSpace, PySpace);
    var t := TrimStart(s, JsSpace);
    assert forall k :: 0 <= k < |t| ==> t[k] == s[|s| - |t| + k];
    TrimEndAgrees(t, JsSpace, PySpace);
  }

  /** The number of UTF-16 code units of `s`, which JavaScript's `length`
      counts: a character outside the Basic Multilingual Plane takes two. */
  function Utf16Length(s: string): (n: nat)
    ensures |s| <= n <= 2 * |s|
    ensures (forall k :: 0 <= k < |s| ==> (s[k] as int) < 0x10000) ==> n == |s|
  {
    if |s| == 0 then 0 else Utf16Units(s[0]) + Utf16Length(s[1..])
  }

  function Utf16Units(c: char): nat {
    if c as int < 0x10000 then 1 else 2
  }

  /** The longest prefix of `s` that fits in `n` UTF-16 code units: what
      `slice(0, n)` keeps, except that a character whose two halves the cut
      separates is dropped whole. */
  function Utf16Prefix(s: string, n: nat): (r: string)
    ensures |r| <= |s| && r == s[..|r|]
    ensures Utf16Length(r) <= n
    ensures |r| < |s| ==> Utf16Length(s[..|r| + 1]) > n
  {
    if |s| == 0 then ""
    else if Utf16Units(s[0]) > n then
      assert s[..1][1..] == [];
      ""
    else
      var rest := Utf16Prefix(s[1..], n - Utf16Units(s[0]));
      Utf16PrefixStep(s, n, rest);
      [s[0]] + rest
  }

  /** One step of `Utf16Prefix`: the first character in front of the cut
      of the rest, in the units that remain, is the cut of the whole. */
  lemma Utf16PrefixStep(s: string, n: nat, rest: string)
    requires |s| > 0 && Utf16Units(s[0]) <= n
    requires |rest| <= |s| - 1 && rest == s[1..][..|rest|]
    requires Utf16Length(rest) <= n - Utf16Units(s[0])
    requires |rest| < |s| - 1 ==> Utf16Length(s[1..][..|rest| + 1]) > n - Utf16Units(s[0])
    ensures var r := [s[0]] + rest;
      |r| <= |s| && r == s[..|r|] && Utf16Length(r) <= n
      && (|r| < |s| ==> Utf16Length(s[..|r| + 1]) > n)
  {
    var r := [s[0]] + rest;
    assert r[1..] == rest;
    if |r| < |s| {
      assert s[..|r| + 1][1..] == s[1..][..|rest| + 1];
    }
  }

  /** Code units add up over concatenation. */
  lemma {:induction false} Utf16LengthAppend(a: string, b: string)
    ensures Utf16Length(a + b) == Utf16Length(a) + Utf16Length(b)
  {
    if |a| > 0 {
      assert (a + b)[1..] == a[1..] + b;
      Utf16LengthAppend(a[1..], b);
    } else {
      assert a + b == b;
    }
  }

  /** On text inside the Basic Multilingual Plane the cut keeps exactly the
      first `n` characters. */
  lemma Utf16PrefixBmp(s: string, n: nat)
    requires n <= |s|
    requires forall k :: 0 <= k < |s| ==> (s[k] as int) < 0x10000
    ensures Utf16Prefix(s, n) == s[..n]
  {
    var r := Utf16Prefix(s, n);
    assert forall k :: 0 <= k < |r| ==> r[k] == s[k];
    if |r| < |s| {
      var t := s[..|r| + 1];
      assert forall k :: 0 <= k < |t| ==> t[k] == s[k];
    }
  }

  function LowerChar(c: char): char {
    if 'A' <= c <= 'Z' then (c as int + 32) as char else c
  }

  /** ASCII lower-casing. */
  function Lower(s: string): (r: string)
    ensures |r| == |s|
    ensures forall i :: 0 <= i < |s| ==> r[i] == LowerChar(s[i])
  {
    if |s| == 0 then "" else [LowerChar(s[0])] + Lower(s[1..])
  }

  lemma LowerIdempotent(s: string)
    ensures Lower(Lower(s)) == Lower(s)
  {
  }

  /** Case-insensitive equality (Django `__iexact`, `toLowerCase() ===`). */
  predicate EqualsIgnoreCase(a: string, b: string) {
    Lower(a) == Lower(b)
  }

  predicate StartsWith(s: string, prefix: string) {
    |prefix| <= |s| && s[..|prefix|] == prefix
  }

  /** `t` occurs in `s` at index `i`. */
  ghost predicate OccursAt(s: string, t: string, i: int) {
    0 <= i && i + |t| <= |s| && s[i..i + |t|] == t
  }

  /** Substring test (`s.includes(t)`, `t in s`), computed by scanning. */
  function Contains(s: string, t: string): bool
    decreases |s|
  {
    StartsWith(s, t) || (|s| > 0 && Contains(s[1..], t))
  }

  /** The scan finds `t` exactly when `t` occurs somewhere in `s`. */
  lemma {:induction false} ContainsIffOccurs(s: string, t: string)
    ensures Contains(s, t) <==> exists i :: OccursAt(s, t, i)
    decreases |s|
  {
    if StartsWith(s, t) {
      assert OccursAt(s, t, 0);
    } else if |s| > 0 {
      ContainsIffOccurs(s[1..], t);
      if Contains(s[1..], t) {
        var i :| OccursAt(s[1..], t, i);
        assert s[1..][i..i + |t|] == s[i + 1..i + 1 + |t|];
        assert OccursAt(s, t, i + 1);
      }
      forall i | OccursAt(s, t, i)
        ensures OccursAt(s[1..], t, i - 1)
      {
        assert s[..|t|] == s[0..0 + |t|];
        assert s[1..][i - 1..i - 1 + |t|] == s[i..i + |t|];
      }
    }
  }

  /** Case-insensitive containment (Django `__icontains`). */
  predicate ContainsIgnoreCase(s: string, t: string) {
    Contains(Lower(s), Lower(t))
  }

  /** `s` with one leading `c` removed (`replace(/^@/, "")`). */
  function StripPrefixChar(s: string, c: char): (r: string)
    ensures |s| > 0 && s[0] == c ==> r == s[1..]
    ensures !(|s| > 0 && s[0] == c) ==> r == s
  {
    if |s| > 0 && s[0] == c then s[1..] else s
  }

  /** Joins `parts` with `sep` between consecutive parts (`Array.join`). */
  function Join(parts: seq<string>, sep: string): string
  {
    if |parts| == 0 then ""
    else if |parts| == 1 then parts[0]
    else parts[0] + sep + Join(parts[1..], sep)
  }

  predicate NoSeparator(w: string, isSep: char -> bool) {
    forall k :: 0 <= k < |w| ==> !isSep(w[k])
  }

  /** Length of the longest separator-free prefix. */
  function WordLength(s: string, isSep: char -> bool): (n: nat)
    ensures n <= |s|
    ensures NoSeparator(s[..n], isSep)
    ensures n < |s| ==> isSep(s[n])
  {
    if |s| == 0 || isSep(s[0]) then 0 else 1 + WordLength(s[1..], isSep)
  }

  /** Length of the longest all-separator prefix. */
  function SeparatorLength(s: string, isSep: char -> bool): (n: nat)
    ensures n <= |s|
    ensures forall k :: 0 <= k < n ==> isSep(s[k])
    ensures n < |s| ==> !isSep(s[n])
  {
    if |s| == 0 || !isSep(s[0]) then 0 else 1 + SeparatorLength(s[1..], isSep)
  }

  /** The maximal separator-free runs of `s`: `s.split(sepRegex).filter(Boolean)`
      where the regular expression matches one or more separator characters. */
  function Tokens(s: string, isSep: char -> bool): (r: seq<string>)
    ensures forall i :: 0 <= i < |r| ==> |r[i]| > 0 && NoSeparator(r[i], isSep)
    decreases |s|
  {
    var rest := s[SeparatorLength(s, isSep)..];
    if |rest| == 0 then []
    else
      var n := WordLength(rest, isSep);
      [rest[..n]] + Tokens(rest[n..], isSep)
  }

  /** Non-empty, separator-free words. */
  predicate Words(ws: seq<string>, isSep: char -> bool) {
    forall i :: 0 <= i < |ws| ==> |ws[i]| > 0 && NoSeparator(ws[i], isSep)
  }

  /** Splitting a space-joined list of separator-free words gives the words back. */
  lemma {:induction false} TokensOfJoin(ws: seq<string>, isSep: char -> bool)
    requires isSep(' ')
    requires Words(ws, isSep)
    ensures Tokens(Join(ws, " "), isSep) == ws
  {
    if |ws| == 0 {
      TokensOfEmpty(isSep);
    } else if |ws| == 1 {
      TokensOfEmpty(isSep);
      TokensOfWordThen(ws[0], "", isSep);
      assert ws[0] + "" == ws[0];
    } else {
      var rest := ws[1..];
      assert Words(rest, isSep) by {
        forall i | 0 <= i < |rest|
          ensures |rest[i]| > 0 && NoSeparator(rest[i], isSep)
        {
          assert rest[i] == ws[i + 1];
        }
      }
      assert ws[1] == rest[0];
      TokensOfJoinStep(ws, isSep);
      TokensOfJoin(rest, isSep);
      assert ws == [ws[0]] + rest;
    }
  }

  lemma TokensOfEmpty(isSep: char -> bool)
    ensures Tokens("", isSep) == []
  {
  }

  /** The first word of a joined list is its first token; the rest tokenizes as the rest. */
  lemma TokensOfJoinStep(ws: seq<string>, isSep: char -> bool)
    requires isSep(' ') && |ws| > 1
    requires |ws[0]| > 0 && NoSeparator(ws[0], isSep)
    requires |ws[1]| > 0 && NoSeparator(ws[1], isSep)
    ensures Tokens(Join(ws, " "), isSep) == [ws[0]] + Tokens(Join(ws[1..], " "), isSep)
  {
    var tail := Join(ws[1..], " ");
    var more := " " + tail;
    JoinStartsWithFirst(ws[1..]);
    JoinCons(ws, " ");
    TokensOfWordThen(ws[0], more, isSep);
    SkipLeadingSeparator(tail, isSep);
  }

  lemma JoinCons(ws: seq<string>, sep: string)
    requires |ws| > 1
    ensures Join(ws, sep) == ws[0] + (sep + Join(ws[1..], sep))
  {
  }

  lemma JoinStartsWithFirst(ws: seq<string>)
    requires |ws| > 0 && |ws[0]| > 0
    ensures |Join(ws, " ")| > 0 && Join(ws, " ")[0] == ws[0][0]
  {
  }

  /** A word followed by a separator (or by nothing) is the first token. */
  lemma TokensOfWordThen(w: string, more: string, isSep: char -> bool)
    requires |w| > 0 && NoSeparator(w, isSep)
    requires |more| > 0 ==> isSep(more[0])
    ensures Tokens(w + more, isSep) == [w] + Tokens(more, isSep)
  {
    var s := w + more;
    assert s[0] == w[0];
    assert SeparatorLength(s, isSep) == 0;
    assert s[0..] == s;
    WordLengthOfWord(w, more, isSep);
    assert s[..|w|] == w && s[|w|..] == more;
  }

  lemma {:induction false} WordLengthOfWord(w: string, more: string, isSep: char -> bool)
    requires NoSeparator(w, isSep)
    requires |more| > 0 ==> isSep(more[0])
    ensures WordLength(w + more, isSep) == |w|
    decreases |w|
  {
    if |w| > 0 {
      assert (w + more)[1..] == w[1..] + more;
      WordLengthOfWord(w[1..], more, isSep);
    }
  }

  lemma SkipLeadingSeparator(tail: string, isSep: char -> bool)
    requires isSep(' ')
    requires |tail| > 0 ==> !isSep(tail[0])
    ensures Tokens(" " + tail, isSep) == Tokens(tail, isSep)
  {
    assert SeparatorLength(" " + tail, isSep) == 1 by {
      assert (" " + tail)[1..] == tail;
    }
    assert (" " + tail)[1..] == tail;
    assert SeparatorLength(tail, isSep) == 0;
    assert tail[0..] == tail;
  }
}

=== FILE: tags.dfy ===
/** The client's parsing of the free-text "tag people" and "hashtags"
    inputs: split on runs of whitespace and commas, trim each piece, drop one
    leading marker (`@` or `#`), and drop empty pieces. The post card's
    hashtag variant also lower-cases and keeps each tag once. */
module Tags {
  import Seqs
  import Strings

  /** `[\s,]`: the separators of a tag list. */
  predicate IsTagSeparator(c: char) {
    Strings.JsSpace(c) || c == ','
  }

  /** One piece after splitting: trimmed, one leading `marker` removed,
      optionally lower-cased. */
  function CleanPiece(piece: string, marker: char, lower: bool): string {
    var t := Strings.StripPrefixChar(Strings.JsTrim(piece), marker);
    if lower then Strings.Lower(t) else t
  }

  function CleanAll(pieces: seq<string>, marker: char, lower: bool): (r: seq<string>)
    ensures |r| == |pieces|
    ensures forall i :: 0 <= i < |pieces| ==> r[i] == CleanPiece(pieces[i], marker, lower)
  {
    seq(|pieces|, i requires 0 <= i < |pieces| => CleanPiece(pieces[i], marker, lower))
  }

  predicate NonEmpty(s: string) {
    |s| > 0
  }

  /** `input.split(/[\s,]+/).map(clean).filter(Boolean)`: the cleaned
      pieces, in order, without the empty ones. */
  function ParseTags(input: string, marker: char, lower: bool): (r: seq<string>)
    ensures forall i :: 0 <= i < |r| ==> |r[i]| > 0
    ensures forall t :: t in r <==> t != "" && t in CleanAll(Strings.Tokens(input, IsTagSeparator), marker, lower)
    ensures Seqs.IsSubseq(r, CleanAll(Strings.Tokens(input, IsTagSeparator), marker, lower))
    ensures forall t :: multiset(r)[t] == if t == "" then 0 else multiset(CleanAll(Strings.Tokens(input, IsTagSeparator), marker, lower))[t]
  {
    var cleaned := CleanAll(Strings.Tokens(input, IsTagSeparator), marker, lower);
    KeptPieces(cleaned);
    Seqs.FilterMultiset(cleaned, NonEmpty);
    Seqs.FilterIsSubseq(cleaned, NonEmpty);
    Seqs.Filter(cleaned, NonEmpty)
  }

  lemma KeptPieces(cleaned: seq<string>)
    ensures forall i :: 0 <= i < |Seqs.Filter(cleaned, NonEmpty)| ==> |Seqs.Filter(cleaned, NonEmpty)[i]| > 0
    ensures forall t :: t in Seqs.Filter(cleaned, NonEmpty) <==> t != "" && t in cleaned
  {
    Seqs.FilterMembers(cleaned, NonEmpty);
  }

  /** A tag word as a user would type it: non-empty, no separator, and not
      starting with the marker. */
  predicate PlainWord(w: string, marker: char) {
    |w| > 0 && Strings.NoSeparator(w, IsTagSeparator) && w[0] != marker
  }

  /** Cleaning leaves a plain word alone. */
  lemma CleanPlainWord(w: string, marker: char)
    requires PlainWord(w, marker)
    ensures CleanPiece(w, marker, false) == w
  {
    Strings.TrimNoop(w, Strings.JsSpace);
  }

  /** Typing the words separated by spaces gives exactly those words back. */
  lemma ParseJoined(ws: seq<string>, marker: char)
    requires forall i :: 0 <= i < |ws| ==> PlainWord(ws[i], marker)
    ensures ParseTags(Strings.Join(ws, " "), marker, false) == ws
  {
    Strings.TokensOfJoin(ws, IsTagSeparator);
    var cleaned := CleanAll(ws, marker, false);
    forall i | 0 <= i < |ws| ensures cleaned[i] == ws[i] {
      CleanPlainWord(ws[i], marker);
    }
    assert cleaned == ws;
    Seqs.FilterAllKept(ws, NonEmpty);
  }

  predicate Distinct(ws: seq<string>) {
    forall i, j :: 0 <= i < j < |ws| ==> ws[i] != ws[j]
  }

  /** Each value once, at its first occurrence. */
  function Dedupe(ws: seq<string>): (r: seq<string>)
    ensures Distinct(r)
    ensures forall t :: t in r <==> t in ws
    ensures |r| <= |ws|
    decreases |ws|
  {
    if |ws| == 0 then []
    else
      var d := Dedupe(ws[..|ws| - 1]);
      var last := ws[|ws| - 1];
      assert ws == ws[..|ws| - 1] + [last];
      if last in d then d else d + [last]
  }

  /** The kept values stand in the order of their first occurrences. */
  lemma {:induction false} DedupeFirstOccurrenceOrder(ws: seq<string>)
    ensures forall i, j :: 0 <= i < j < |Dedupe(ws)| ==>
      Seqs.IndexOf(ws, Dedupe(ws)[i]) < Seqs.IndexOf(ws, Dedupe(ws)[j])
    decreases |ws|
  {
    if |ws| > 0 {
      var n := |ws|;
      var w := ws[..n - 1];
      var d := Dedupe(w);
      var last := ws[n - 1];
      DedupeFirstOccurrenceOrder(w);
      FirstOccurrenceInPrefix(ws, d);
      if last !in d {
        assert last !in ws[..n - 1];
        Seqs.IndexOfUnique(ws, last, n - 1);
        OrderAppend(ws, d, last);
      }
    }
  }

  /** Values of the prefix without the last element have the same first
      occurrence in the whole, before the last position. */
  lemma FirstOccurrenceInPrefix(ws: seq<string>, d: seq<string>)
    requires |ws| > 0 && forall t :: t in d ==> t in ws[..|ws| - 1]
    ensures forall t :: t in d ==> t in ws && Seqs.IndexOf(ws, t) == Seqs.IndexOf(ws[..|ws| - 1], t) < |ws| - 1
  {
    forall t | t in d
      ensures t in ws && Seqs.IndexOf(ws, t) == Seqs.IndexOf(ws[..|ws| - 1], t) < |ws| - 1
    {
      Seqs.IndexOfPrefix(ws, |ws| - 1, t);
    }
  }

  /** Appending a value whose first occurrence comes after those of an
      ordered sequence keeps it ordered. */
  lemma OrderAppend(ws: seq<string>, d: seq<string>, last: string)
    requires last in ws && forall t :: t in d ==> t in ws && Seqs.IndexOf(ws, t) < Seqs.IndexOf(ws, last)
    requires forall i, j :: 0 <= i < j < |d| ==> Seqs.IndexOf(ws, d[i]) < Seqs.IndexOf(ws, d[j])
    ensures forall i, j :: 0 <= i < j < |d + [last]| ==>
      Seqs.IndexOf(ws, (d + [last])[i]) < Seqs.IndexOf(ws, (d + [last])[j])
  {
    var r := d + [last];
    forall k | 0 <= k < |r|
      ensures r[k] in ws
    {
      if k < |d| {
        assert r[k] == d[k] && d[k] in d;
      }
    }
    forall i, j | 0 <= i < j < |r|
      ensures Seqs.IndexOf(ws, r[i]) < Seqs.IndexOf(ws, r[j])
    {
      assert r[i] == d[i] && d[i] in d;
    }
  }

  /** Values already distinct are kept as they are. */
  lemma {:induction false} DedupeDistinct(ws: seq<string>)
    requires Distinct(ws)
    ensures Dedupe(ws) == ws
    decreases |ws|
  {
    if |ws| > 0 {
      var w := ws[..|ws| - 1];
      assert Distinct(w);
      DedupeDistinct(w);
      assert ws[|ws| - 1] !in w;
      assert ws == w + [ws[|ws| - 1]];
    }
  }

  /** The `forEach` over a `Set` of seen tags computes `Dedupe`. */
  method DedupeWithSet(ws: seq<string>) returns (unique: seq<string>)
    ensures unique == Dedupe(ws)
    ensures Distinct(unique)
  {
    var seen: set<string> := {};
    unique := [];
    var i := 0;
    while i < |ws|
      invariant 0 <= i <= |ws|
      invariant unique == Dedupe(ws[..i])
      invariant seen == set t | t in unique
    {
      assert ws[..i + 1][..i] == ws[..i];
      if ws[i] !in seen {
        seen := seen + {ws[i]};
        unique := unique + [ws[i]];
      }
      i := i + 1;
    }
    assert ws[..|ws|] == ws;
  }

  /** `normaliseHashtags`: lower-cased tags, each once. */
  function NormaliseHashtags(input: string): (r: seq<string>)
    ensures Distinct(r)
    ensures forall t :: t in r <==> t in ParseTags(input, '#', true)
  {
    Dedupe(ParseTags(input, '#', true))
  }

  predicate IsLowerWord(w: string) {
    forall k :: 0 <= k < |w| ==> !('A' <= w[k] <= 'Z')
  }

  /** Distinct lower-case hashtag words typed with spaces come back unchanged. */
  lemma NormaliseJoined(ws: seq<string>)
    requires forall i :: 0 <= i < |ws| ==> PlainWord(ws[i], '#') && IsLowerWord(ws[i])
    requires Distinct(ws)
    ensures NormaliseHashtags(Strings.Join(ws, " ")) == ws
  {
    Strings.TokensOfJoin(ws, IsTagSeparator);
    var cleaned := CleanAll(ws, '#', true);
    forall i | 0 <= i < |ws| ensures cleaned[i] == ws[i] {
      CleanPlainWord(ws[i], '#');
      LowerOfLowerWord(ws[i]);
    }
    assert cleaned == ws;
    Seqs.FilterAllKept(ws, NonEmpty);
    DedupeDistinct(ws);
  }

  lemma LowerOfLowerWord(w: string)
    requires IsLowerWord(w)
    ensures Strings.Lower(w) == w
  {
  }
}

=== FILE: verification_middleware.dfy ===
/** The middleware that keeps signed-in users with an unverified email away
    from everything but the account endpoints. A request is reduced to what
    the middleware reads: the signed-in user, the path, two headers and the
    URL resolution. */
module VerificationMiddleware {
  import opened Wrappers
  import Strings
  import opened AuthModels
  import opened AuthViews

  /** View names of the REST account endpoints that stay reachable. */
  const ApiAllowedViews: set<string> := {
    "home-list", "register-list", "activate-list", "verify_otp-list", "resend_otp-list",
    "forgot_password-list", "password_reset_verify-list", "login-list", "logout-list", "dashboard-list"
  }

  /** View names of the older form-based account endpoints that stay reachable. */
  const LegacyAllowedViews: set<string> := {
    "login", "logout", "register", "activate", "verify_otp", "resend_otp",
    "forgot_password", "password_reset_verify"
  }

  /** Where unverified browsers are sent when the URL cannot be reversed. */
  const DefaultVerifyUrl := "/auth/verify-otp/"

  const JsonMime := "application/json"

  /** The outcome of URL resolution: a view name and its namespace. */
  datatype Match = Match(viewName: string, namespace: string)

  datatype Request = Request(
    userId: Option<int>,
    path: string,
    accept: string,
    contentType: string,
    resolverMatch: Option<Match>,
    resolved: Option<Match>)

  /** The deployment settings the middleware consults; `verifyUrl` is the
      reversed verification URL, `None` when reversing fails. */
  datatype Settings = Settings(staticUrl: string, mediaUrl: string, verifyUrl: Option<string>)

  datatype Response =
    | PassThrough
    | VerificationRequired
    | RedirectTo(url: string, warned: bool)

  /** `_expects_json`. */
  predicate ExpectsJson(r: Request) {
    Strings.Contains(r.accept, JsonMime) || Strings.Contains(r.contentType, JsonMime)
    || Strings.StartsWith(r.path, "/auth/")
  }

  /** The match `_path_is_exempt` looks at: the resolver's, else the path's resolution. */
  function EffectiveMatch(r: Request): (m: Option<Match>)
    ensures r.resolverMatch.Some? ==> m == r.resolverMatch
    ensures r.resolverMatch.None? ==> m == r.resolved
  {
    if r.resolverMatch.Some? then r.resolverMatch else r.resolved
  }

  /** `_path_is_exempt`. */
  function PathIsExempt(r: Request, st: Settings): (b: bool)
    ensures b <==>
      (EffectiveMatch(r).Some? &&
        (EffectiveMatch(r).value.viewName in LegacyAllowedViews
         || EffectiveMatch(r).value.viewName in ApiAllowedViews
         || EffectiveMatch(r).value.namespace == "admin"))
      || (st.staticUrl != "" && Strings.StartsWith(r.path, st.staticUrl))
      || (st.mediaUrl != "" && Strings.StartsWith(r.path, st.mediaUrl))
  {
    var m := EffectiveMatch(r);
    if m.Some? && m.value.viewName in LegacyAllowedViews then true
    else if m.Some? && m.value.viewName in ApiAllowedViews then true
    else if m.Some? && m.value.namespace == "admin" then true
    else if st.staticUrl != "" && Strings.StartsWith(r.path, st.staticUrl) then true
    else if st.mediaUrl != "" && Strings.StartsWith(r.path, st.mediaUrl) then true
    else false
  }

  function VerifyUrl(st: Settings): string {
    st.verifyUrl.GetOr(DefaultVerifyUrl)
  }

  /** `__call__`: the response and the store afterwards (a missing profile is
      created and the session may remember the user as pending). */
  function Handle(s: AuthStore, r: Request, st: Settings): (out: (Response, AuthStore))
    ensures r.userId.None? ==> out == (PassThrough, s)
    ensures r.userId.Some? && r.userId.value in s.profiles && s.profiles[r.userId.value].emailVerified ==>
      out == (PassThrough, s)
    ensures r.userId.Some? ==>
      var uid := r.userId.value;
      var p := ProfileOf(s, uid);
      && out.1.users == s.users && out.1.passwords == s.passwords
      && out.1.profiles == WithProfile(s, uid).profiles
      && (p.emailVerified ==> out.0 == PassThrough && out.1.session == s.session)
      && (!p.emailVerified && !PathIsExempt(r, st) ==>
            out.1.session == s.session.(pendingUserId := Some(uid))
            && out.0 == (if ExpectsJson(r) then VerificationRequired
                         else RedirectTo(VerifyUrl(st), r.path != VerifyUrl(st))))
      && (!p.emailVerified && PathIsExempt(r, st) ==>
            out.0 == PassThrough
            && out.1.session == (if r.resolverMatch.Some? && r.resolverMatch.value.viewName in {"verify_otp", "verify_otp-list"}
                                then s.session.(pendingUserId := Some(uid)) else s.session))
    ensures out.0 != PassThrough ==>
      r.userId.Some? && !PathIsExempt(r, st) && out.1.session.pendingUserId == r.userId
  {
    if r.userId.None? then (PassThrough, s)
    else
      var uid := r.userId.value;
      var s1 := WithProfile(s, uid);
      var profile := ProfileOf(s, uid);
      if profile.emailVerified then (PassThrough, s1)
      else if !PathIsExempt(r, st) then
        var s2 := s1.(session := s1.session.(pendingUserId := Some(uid)));
        if ExpectsJson(r) then (VerificationRequired, s2)
        else
          var url := VerifyUrl(st);
          (RedirectTo(url, r.path != url), s2)
      else if r.resolverMatch.Some? && r.resolverMatch.value.viewName in {"verify_otp", "verify_otp-list"} then
        (PassThrough, s1.(session := s1.session.(pendingUserId := Some(uid))))
      else (PassThrough, s1)
  }

  /** A signed-in user without a profile gets a fresh, unverified one, so on
      a path that is not exempt they are held back like any unverified user. */
  lemma MissingProfileIsUnverified(s: AuthStore, r: Request, st: Settings)
    requires r.userId.Some? && r.userId.value !in s.profiles
    requires !PathIsExempt(r, st)
    ensures Handle(s, r, st).0 != PassThrough
    ensures r.userId.value in Handle(s, r, st).1.profiles
    ensures !Handle(s, r, st).1.profiles[r.userId.value].emailVerified
  {
  }

  /** Every account endpoint of the REST API is reachable while unverified. */
  lemma AccountEndpointsExempt(r: Request, st: Settings)
    requires EffectiveMatch(r).Some? && EffectiveMatch(r).value.viewName in ApiAllowedViews
    ensures PathIsExempt(r, st)
  {
  }

  /** A request under `/auth/` is answered with JSON, whatever its headers. */
  lemma AuthPathsExpectJson(r: Request, rest: string)
    requires r.path == "/auth/" + rest
    ensures ExpectsJson(r)
  {
    assert r.path[..|"/auth/"|] == "/auth/";
  }
}

=== FILE: videos.dfy ===
/** The videos page: the video posts of the feed, their summary metrics,
    the two orderings, the search box, and which video plays (with the
    previous/next controls and the recommended list beside it). */
module Videos {
  import opened Wrappers
  import Seqs
  import Strings
  import Sorting
  import opened ClientTypes

  // ---------------------------------------------------------------------
  // The video posts
  // ---------------------------------------------------------------------

  /** `Boolean(post.video)`: a non-empty video URL. */
  predicate IsVideo(p: Post) {
    Present(p.video)
  }

  /** The posts with a video, in feed order; no data yet means none. */
  function VideoPosts(data: Option<seq<Post>>): (r: seq<Post>)
    ensures data.None? ==> r == []
    ensures forall p :: p in r <==> data.Some? && p in data.value && IsVideo(p)
    ensures data.Some? ==> Seqs.IsSubseq(r, data.value)
    ensures data.Some? ==> forall p :: multiset(r)[p] == if IsVideo(p) then multiset(data.value)[p] else 0
  {
    if data.None? then []
    else
      Seqs.FilterMembers(data.value, IsVideo);
      Seqs.FilterMultiset(data.value, IsVideo);
      Seqs.FilterIsSubseq(data.value, IsVideo);
      Seqs.Filter(data.value, IsVideo)
  }

  // ---------------------------------------------------------------------
  // Metrics: one left-to-right reduce over the video posts
  // ---------------------------------------------------------------------

  datatype Totals = Totals(
    totalLikes: int,
    totalComments: int,
    totalSaves: int,
    totalShares: int,
    topEngagement: int,
    topPost: Option<Post>,
    latestUpload: int,
    privateCount: nat)

  const Initial := Totals(0, 0, 0, 0, 0, None, 0, 0)

  /** One step of the reducer. A post takes the lead only with strictly
      more engagement; the latest upload is replaced while it is still the
      falsy 0 or by a later time. */
  function Step(acc: Totals, p: Post): Totals {
    var e := Engagement(p);
    var leads := e > acc.topEngagement;
    Totals(
      acc.totalLikes + p.likesCount,
      acc.totalComments + p.commentsCount,
      acc.totalSaves + p.bookmarksCount,
      acc.totalShares + p.sharesCount,
      if leads then e else acc.topEngagement,
      if leads then Some(p) else acc.topPost,
      if acc.latestUpload == 0 || p.createdAt > acc.latestUpload then p.createdAt else acc.latestUpload,
      acc.privateCount + if p.isPrivate then 1 else 0)
  }

  /** The reduce, folding from the first post to the last. */
  function Reduce(videos: seq<Post>): Totals
    decreases |videos|
  {
    if |videos| == 0 then Initial
    else Step(Reduce(videos[..|videos| - 1]), videos[|videos| - 1])
  }

  function LikesOf(p: Post): int { p.likesCount }
  function CommentsOf(p: Post): int { p.commentsCount }
  function SavesOf(p: Post): int { p.bookmarksCount }
  function SharesOf(p: Post): int { p.sharesCount }
  predicate IsPrivate(p: Post) { p.isPrivate }

  /** The four totals are the sums of their counters and the private count
      counts the private videos. */
  lemma {:induction false} TotalsAreSums(videos: seq<Post>)
    ensures var t := Reduce(videos);
      && t.totalLikes == Seqs.Sum(videos, LikesOf)
      && t.totalComments == Seqs.Sum(videos, CommentsOf)
      && t.totalSaves == Seqs.Sum(videos, SavesOf)
      && t.totalShares == Seqs.Sum(videos, SharesOf)
      && t.privateCount == Seqs.Count(videos, IsPrivate)
    decreases |videos|
  {
    if |videos| > 0 {
      var w := videos[..|videos| - 1];
      var p := videos[|videos| - 1];
      assert videos == w + [p];
      TotalsAreSums(w);
      Seqs.SumAppend(w, [p], LikesOf);
      Seqs.SumAppend(w, [p], CommentsOf);
      Seqs.SumAppend(w, [p], SavesOf);
      Seqs.SumAppend(w, [p], SharesOf);
      Seqs.CountAppend(w, p, IsPrivate);
    }
  }

  /** Position `k` has the highest engagement and nothing before it ties. */
  predicate FirstMaximum(videos: seq<Post>, k: int) {
    && 0 <= k < |videos|
    && (forall j :: 0 <= j < |videos| ==> Engagement(videos[j]) <= Engagement(videos[k]))
    && (forall j :: 0 <= j < k ==> Engagement(videos[j]) < Engagement(videos[k]))
  }

  /** What the reducer knows about the leading video of `videos`. */
  ghost predicate TopInvariant(videos: seq<Post>, t: Totals) {
    && (t.topPost.None? <==> forall i :: 0 <= i < |videos| ==> Engagement(videos[i]) <= 0)
    && (t.topPost.None? ==> t.topEngagement == 0)
    && (t.topPost.Some? ==>
          && t.topEngagement == Engagement(t.topPost.value) > 0
          && exists k :: FirstMaximum(videos, k) && videos[k] == t.topPost.value)
  }

  /** The leading video is the first one with the highest engagement, and
      there is one exactly when some video has positive engagement. */
  lemma {:induction false} TopIsFirstMaximum(videos: seq<Post>)
    ensures var t := Reduce(videos);
      && (t.topPost.None? <==> forall i :: 0 <= i < |videos| ==> Engagement(videos[i]) <= 0)
      && (t.topPost.None? ==> t.topEngagement == 0)
      && (t.topPost.Some? ==>
            && t.topEngagement == Engagement(t.topPost.value) > 0
            && exists k :: FirstMaximum(videos, k) && videos[k] == t.topPost.value)
    decreases |videos|
  {
    ReduceTop(videos);
  }

  lemma {:induction false} ReduceTop(videos: seq<Post>)
    ensures TopInvariant(videos, Reduce(videos))
    decreases |videos|
  {
    if |videos| > 0 {
      var w := videos[..|videos| - 1];
      var p := videos[|videos| - 1];
      assert videos == w + [p];
      ReduceTop(w);
      StepKeepsTop(w, p, Reduce(w));
    }
  }

  lemma StepKeepsTop(w: seq<Post>, p: Post, t: Totals)
    requires TopInvariant(w, t)
    ensures TopInvariant(w + [p], Step(t, p))
  {
    var videos := w + [p];
    assert forall j :: 0 <= j < |w| ==> videos[j] == w[j];
    if Engagement(p) > t.topEngagement {
      assert FirstMaximum(videos, |w|);
    } else if t.topPost.Some? {
      var k :| FirstMaximum(w, k) && w[k] == t.topPost.value;
      assert FirstMaximum(videos, k);
    }
  }

  /** With upload times after the epoch, the latest upload is the greatest
      upload time, and 0 when there are no videos. */
  lemma {:induction false} LatestIsNewest(videos: seq<Post>)
    requires forall i :: 0 <= i < |videos| ==> videos[i].createdAt > 0
    ensures var t := Reduce(videos);
      && (|videos| == 0 ==> t.latestUpload == 0)
      && (|videos| > 0 ==> exists i :: 0 <= i < |videos| && t.latestUpload == videos[i].createdAt)
      && forall i :: 0 <= i < |videos| ==> videos[i].createdAt <= t.latestUpload
    decreases |videos|
  {
    if |videos| > 0 {
      var w := videos[..|videos| - 1];
      assert forall j :: 0 <= j < |w| ==> videos[j] == w[j];
      LatestIsNewest(w);
    }
  }

  /** The "Trending" badge: the video is the leader and the lead is positive. */
  predicate IsTrending(t: Totals, p: Post) {
    t.topPost.Some? && t.topPost.value.id == p.id && t.topEngagement > 0
  }

  /** Over the page's own metrics the positivity test is redundant: a video
      is trending exactly when it shares the leader's id. */
  lemma TrendingIsLeader(videos: seq<Post>, p: Post)
    ensures IsTrending(Reduce(videos), p) <==>
      Reduce(videos).topPost.Some? && Reduce(videos).topPost.value.id == p.id
  {
    TopIsFirstMaximum(videos);
  }

  // ---------------------------------------------------------------------
  // Ordering
  // ---------------------------------------------------------------------

  datatype SortOption = Recent | ByEngagement

  function NewestKey(): Post -> seq<int> {
    (p: Post) => [0 - p.createdAt]
  }

  function EngagementKey(): Post -> seq<int> {
    (p: Post) => [0 - Engagement(p)]
  }

  function KeyFor(option: SortOption): Post -> seq<int> {
    if option == Recent then NewestKey() else EngagementKey()
  }

  /** The stable sort by upload time or by engagement, both descending. */
  function SortedVideos(videos: seq<Post>, option: SortOption): (r: seq<Post>)
    ensures multiset(r) == multiset(videos)
    ensures option == Recent ==> forall i, j :: 0 <= i < j < |r| ==> r[i].createdAt >= r[j].createdAt
    ensures option == ByEngagement ==> forall i, j :: 0 <= i < j < |r| ==> Engagement(r[i]) >= Engagement(r[j])
  {
    var r := Sorting.SortBy(videos, KeyFor(option));
    assert forall i, j :: 0 <= i < j < |r| ==> Sorting.LexLe(KeyFor(option)(r[i]), KeyFor(option)(r[j])) by {
      forall i, j | 0 <= i < j < |r| ensures Sorting.LexLe(KeyFor(option)(r[i]), KeyFor(option)(r[j])) {
        Sorting.SortedPairs(r, KeyFor(option), i, j);
      }
    }
    assert option == Recent ==> forall i, j :: 0 <= i < j < |r| ==> r[i].createdAt >= r[j].createdAt by {
      forall i, j | 0 <= i < j < |r| && option == Recent ensures r[i].createdAt >= r[j].createdAt {
        Sorting.LexLeSingleton(0 - r[i].createdAt, 0 - r[j].createdAt);
      }
    }
    assert option == ByEngagement ==> forall i, j :: 0 <= i < j < |r| ==> Engagement(r[i]) >= Engagement(r[j]) by {
      forall i, j | 0 <= i < j < |r| && option == ByEngagement ensures Engagement(r[i]) >= Engagement(r[j]) {
        Sorting.LexLeSingleton(0 - Engagement(r[i]), 0 - Engagement(r[j]));
      }
    }
    r
  }

  /** Videos the ordering cannot tell apart keep their feed order. */
  lemma SortKeepsTies(videos: seq<Post>, option: SortOption, k: seq<int>)
    ensures Seqs.Filter(SortedVideos(videos, option), Sorting.HasKey(KeyFor(option), k))
         == Seqs.Filter(videos, Sorting.HasKey(KeyFor(option), k))
  {
    Sorting.SortByStable(videos, KeyFor(option), k);
  }

  // ---------------------------------------------------------------------
  // Search
  // ---------------------------------------------------------------------

  /** The search term: trimmed and lower-cased. */
  function SearchTerm(raw: string): string {
    Strings.Lower(Strings.JsTrim(raw))
  }

  function LowerAll(tags: seq<string>): (r: seq<string>)
    ensures |r| == |tags| && forall i :: 0 <= i < |tags| ==> r[i] == Strings.Lower(tags[i])
  {
    seq(|tags|, i requires 0 <= i < |tags| => Strings.Lower(tags[i]))
  }

  /** A video matches when the term occurs in its lower-cased author, caption,
      or its lower-cased hashtags joined by single spaces. */
  predicate MatchesSearch(term: string, p: Post) {
    || Strings.Contains(Strings.Lower(p.user.username), term)
    || Strings.Contains(Strings.Lower(p.caption), term)
    || Strings.Contains(Strings.Join(LowerAll(p.hashtags), " "), term)
  }

  function Matches(term: string): Post -> bool {
    (p: Post) => MatchesSearch(term, p)
  }

  /** The visible list: everything for a blank search, otherwise the
      matching videos in sorted order. */
  function FilteredVideos(sorted: seq<Post>, raw: string): (r: seq<Post>)
    ensures SearchTerm(raw) == "" ==> r == sorted
    ensures SearchTerm(raw) != "" ==> forall p :: p in r <==> p in sorted && MatchesSearch(SearchTerm(raw), p)
    ensures Seqs.IsSubseq(r, sorted)
    ensures SearchTerm(raw) != "" ==>
      forall p :: multiset(r)[p] == if MatchesSearch(SearchTerm(raw), p) then multiset(sorted)[p] else 0
  {
    var term := SearchTerm(raw);
    if term == "" then
      Seqs.SubseqRefl(sorted);
      sorted
    else
      Seqs.FilterMembers(sorted, Matches(term));
      Seqs.FilterMultiset(sorted, Matches(term));
      Seqs.FilterIsSubseq(sorted, Matches(term));
      Seqs.Filter(sorted, Matches(term))
  }

  /** Searching the search results again changes nothing. */
  lemma SearchIdempotent(sorted: seq<Post>, raw: string)
    ensures FilteredVideos(FilteredVideos(sorted, raw), raw) == FilteredVideos(sorted, raw)
  {
    var term := SearchTerm(raw);
    if term != "" {
      Seqs.FilterAllKept(Seqs.Filter(sorted, Matches(term)), Matches(term));
    }
  }

  /** Surrounding spaces in the search box do not matter. */
  lemma SearchIgnoresSurroundingSpace(sorted: seq<Post>, raw: string)
    ensures FilteredVideos(sorted, Strings.JsTrim(raw)) == FilteredVideos(sorted, raw)
  {
    Strings.TrimIdempotent(raw, Strings.JsSpace);
  }

  lemma LowerKeepsLowercase(s: string)
    requires forall i :: 0 <= i < |s| ==> !('A' <= s[i] <= 'Z')
    ensures Strings.Lower(s) == s
  {
  }

  /** Because hashtags are joined with spaces, a term with a space can match
      across two neighbouring hashtags. */
  lemma SearchSpansHashtags(p: Post)
    requires p.hashtags == ["cats", "dogs"]
    ensures MatchesSearch("cats dogs", p)
  {
    LowerKeepsLowercase("cats");
    LowerKeepsLowercase("dogs");
    assert LowerAll(p.hashtags) == ["cats", "dogs"];
    assert Strings.Join(["cats", "dogs"], " ") == "cats dogs";
  }

  // ---------------------------------------------------------------------
  // The playing video
  // ---------------------------------------------------------------------

  function HasId(id: int): Post -> bool {
    (p: Post) => p.id == id
  }

  predicate Listed(id: int, videos: seq<Post>) {
    exists i :: 0 <= i < |videos| && videos[i].id == id
  }

  /** The effect run whenever the visible list changes: keep the current id
      while it is still listed, else fall back to the first video. */
  function SyncActive(current: Option<int>, videos: seq<Post>): (r: Option<int>)
    ensures r.None? <==> |videos| == 0
    ensures r.Some? ==> Listed(r.value, videos)
    ensures |videos| > 0 && current.Some? && Listed(current.value, videos) ==> r == current
    ensures |videos| > 0 && !(current.Some? && Listed(current.value, videos)) ==> r == Some(videos[0].id)
  {
    if |videos| == 0 then None
    else if current.Some? && Seqs.FindIndex(videos, HasId(current.value)) != -1 then current
    else Some(videos[0].id)
  }

  /** `findIndex` against an id that may be absent. */
  function IndexOf(current: Option<int>, videos: seq<Post>): (k: int)
    ensures -1 <= k < |videos|
    ensures k >= 0 ==> current.Some? && videos[k].id == current.value
    ensures k >= 0 ==> forall j :: 0 <= j < k ==> videos[j].id != current.value
    ensures k == -1 ==> current.None? || !Listed(current.value, videos)
  {
    if current.None? then -1 else Seqs.FindIndex(videos, HasId(current.value))
  }

  /** The next control: one step forward, wrapping from the last video and
      starting over from an unknown one. */
  function NextVideo(current: Option<int>, videos: seq<Post>): (r: Option<int>)
    ensures r.None? <==> |videos| == 0
    ensures r.Some? ==> Listed(r.value, videos)
    ensures |videos| > 0 && IndexOf(current, videos) == -1 ==> r == Some(videos[0].id)
    ensures |videos| > 0 && IndexOf(current, videos) >= 0 ==>
      var k := IndexOf(current, videos);
      r == Some(videos[if k == |videos| - 1 then 0 else k + 1].id)
  {
    if |videos| == 0 then None
    else
      var k := IndexOf(current, videos);
      var next := if k == -1 || k == |videos| - 1 then 0 else k + 1;
      Some(videos[next].id)
  }

  /** The previous control: one step back, wrapping from the first video,
      and the first video for an unknown one. */
  function PreviousVideo(current: Option<int>, videos: seq<Post>): (r: Option<int>)
    ensures r.None? <==> |videos| == 0
    ensures r.Some? ==> Listed(r.value, videos)
    ensures |videos| > 0 && IndexOf(current, videos) == -1 ==> r == Some(videos[0].id)
    ensures |videos| > 0 && IndexOf(current, videos) >= 0 ==>
      var k := IndexOf(current, videos);
      r == Some(videos[if k == 0 then |videos| - 1 else k - 1].id)
  {
    if |videos| == 0 then None
    else
      var k := IndexOf(current, videos);
      if k == -1 then Some(videos[0].id)
      else Some(videos[if k == 0 then |videos| - 1 else k - 1].id)
  }

  /** With distinct ids the first index of the id at `k` is `k`. */
  lemma IndexOfDistinct(videos: seq<Post>, k: int)
    requires DistinctPostIds(videos) && 0 <= k < |videos|
    ensures IndexOf(Some(videos[k].id), videos) == k
  {
  }

  /** With distinct ids, previous undoes next and next undoes previous;
      with two or more videos both controls move to another video, and they
      wrap between the last video and the first. */
  lemma NextPreviousInverse(videos: seq<Post>, k: int)
    requires DistinctPostIds(videos) && 0 <= k < |videos|
    ensures PreviousVideo(NextVideo(Some(videos[k].id), videos), videos) == Some(videos[k].id)
    ensures NextVideo(PreviousVideo(Some(videos[k].id), videos), videos) == Some(videos[k].id)
    ensures |videos| > 1 ==> NextVideo(Some(videos[k].id), videos) != Some(videos[k].id)
    ensures |videos| > 1 ==> PreviousVideo(Some(videos[k].id), videos) != Some(videos[k].id)
    ensures NextVideo(Some(videos[|videos| - 1].id), videos) == Some(videos[0].id)
    ensures PreviousVideo(Some(videos[0].id), videos) == Some(videos[|videos| - 1].id)
  {
    PreviousUndoesNext(videos, k);
    NextUndoesPrevious(videos, k);
    IndexOfDistinct(videos, k);
    IndexOfDistinct(videos, 0);
    IndexOfDistinct(videos, |videos| - 1);
  }

  lemma PreviousUndoesNext(videos: seq<Post>, k: int)
    requires DistinctPostIds(videos) && 0 <= k < |videos|
    ensures PreviousVideo(NextVideo(Some(videos[k].id), videos), videos) == Some(videos[k].id)
  {
    var n := |videos|;
    var next := if k == n - 1 then 0 else k + 1;
    IndexOfDistinct(videos, k);
    assert NextVideo(Some(videos[k].id), videos) == Some(videos[next].id);
    IndexOfDistinct(videos, next);
  }

  lemma NextUndoesPrevious(videos: seq<Post>, k: int)
    requires DistinctPostIds(videos) && 0 <= k < |videos|
    ensures NextVideo(PreviousVideo(Some(videos[k].id), videos), videos) == Some(videos[k].id)
  {
    var n := |videos|;
    var previous := if k == 0 then n - 1 else k - 1;
    IndexOfDistinct(videos, k);
    assert PreviousVideo(Some(videos[k].id), videos) == Some(videos[previous].id);
    IndexOfDistinct(videos, previous);
  }

  /** The video shown in the player: the first with the active id, or the
      first video when the id is not listed. */
  function ActiveVideo(activeId: Option<int>, videos: seq<Post>): (r: Option<Post>)
    ensures r.None? <==> |videos| == 0
    ensures r.Some? ==> r.value in videos
    ensures r.Some? && activeId.Some? && Listed(activeId.value, videos) ==> r.value.id == activeId.value
    ensures r.Some? && activeId.Some? && Listed(activeId.value, videos) ==>
      exists k :: 0 <= k < |videos| && videos[k] == r.value &&
        forall j :: 0 <= j < k ==> videos[j].id != activeId.value
    ensures r.Some? && !(activeId.Some? && Listed(activeId.value, videos)) ==> r.value == videos[0]
  {
    if |videos| == 0 then None
    else
      var k := IndexOf(activeId, videos);
      Some(if k == -1 then videos[0] else videos[k])
  }

  /** After the synchronising effect the player shows the video whose id is active. */
  lemma PlayerShowsActive(current: Option<int>, videos: seq<Post>)
    requires |videos| > 0
    ensures var id := SyncActive(current, videos);
      ActiveVideo(id, videos).Some? && Some(ActiveVideo(id, videos).value.id) == id
  {
  }

  /** The list beside the player: every other video. */
  function Recommended(active: Option<Post>, videos: seq<Post>): (r: seq<Post>)
    ensures active.None? ==> r == videos
    ensures active.Some? ==> forall p :: p in r <==> p in videos && p.id != active.value.id
  {
    if active.None? then videos
    else
      Seqs.FilterMembers(videos, (p: Post) => p.id != active.value.id);
      Seqs.Filter(videos, (p: Post) => p.id != active.value.id)
  }

  /** With distinct ids the recommendations are the list with the playing
      video taken out at its position. */
  lemma RecommendedDropsOnlyActive(activeId: Option<int>, videos: seq<Post>)
    requires DistinctPostIds(videos) && |videos| > 0
    ensures var a := ActiveVideo(activeId, videos);
      exists k :: 0 <= k < |videos| && videos[k] == a.value && Recommended(a, videos) == Seqs.RemoveAt(videos, k)
  {
    var a := ActiveVideo(activeId, videos);
    var k := IndexOf(activeId, videos);
    var at := if k == -1 then 0 else k;
    Seqs.FilterOne(videos, (p: Post) => p.id != videos[at].id, at);
    assert videos[at] == a.value;
  }

  /** Only the first four hashtags get a badge on the player. */
  function ShownHashtags(tags: seq<string>): (r: seq<string>)
    ensures |r| == if |tags| < 4 then |tags| else 4
    ensures r <= tags
  {
    if |tags| < 4 then tags else tags[..4]
  }
}

=== FILE: wrappers.dfy ===
/** Optional values, the Dafny counterpart of `null`/`undefined` in the client
    and `None` in the server code. */
module Wrappers {

  datatype Option<+T> = None | Some(value: T) {

    /** The wrapped value, or `default` when absent (JavaScript `x ?? d`). */
    function GetOr(default: T): T {
      match this
      case Some(v) => v
      case None => default
    }
  }

  datatype Result<+T, +E> = Success(value: T) | Failure(error: E)
}
